=== FILE: README.md ===
# BlueSky core: a Dafny model

This project models the core of the BlueSky smoke-modelling pipeline (repository
`jlbeidler/bluesky`) and proves properties of it. Five pieces are modelled:

- **Met time windows** (`findmetdata`): collect one UTC window per active area, add the
  dispersion and configured windows, then merge overlapping or touching windows. The
  behaviour follows the unit tests. Hours are integers, counted from a fixed midnight.
- **Fire merging** (`FireMerger`, `PlumeMerger`).
  - The fire merger folds each fire into the earliest compatible record, or appends it.
  - The plume merger buckets fires by grid cell. It merges each bucket's hourly plume
    rise by re-binning the weighted bin midpoints into equal-height bins, and sums areas,
    emissions and consumption.
- **Persistence** (`growers/persistence.py`):
  - configuration selection;
  - splitting a wildfire's activity at the date to persist;
  - the day-by-day persisted copies, with hour keys moved and values reduced by the
    daily percentage.
- **Consumption** (`modules/consumption.py`): the crop residue tables and formulas, input
  validation, the per-fuelbed area split around the fuel consumption calculator, and
  scaling to an estimated consumption or fuel load.
- **Emissions** (`modules/emissions.py`):
  - model-name resolution;
  - the per-model fuelbed steps (Crops, FEPS, UBC/BSF FEPS, Prichard/O'Neill with piles,
    Urbanski, Consume);
  - the pile save/zero/restore and `add_pile_emissions`;
  - the Consume phase/species transpose and details summary;
  - the legacy key renaming `_fix_keys`.

Modules, one file each: `Common` (Option/Result, sums, association lists),
`Sorting`, `TimeWindows`, `Fires`, `FireMerge`, `FireMergeFixture`, `PlumeGrid`,
`PlumeProfiles`, `PlumeMerge`, `PlumeMergeFixture`, `HourKeys`, `Persistence`,
`Consumption`, `ConsumptionScaling`, `ConsumptionRun`, `EmissionTrees`, `KeyFixing`, `EmissionModels`, `Emissions`,
`ConsumeEmissions`.

**Dictionaries**:
- Python dictionaries whose insertion order matters (key renaming, pops and stores,
  transposes) are association lists `seq<(K, V)>` in `Common`.
- Dictionaries whose order does not matter are Dafny `map`s.
- Nested numeric data (`x[k1]...[kn][0]`) is a `Tree` of nodes and leaves in
  `EmissionTrees`.

**External calculators** are function parameters:
- the consume fuel-consumption and emissions calculators;
- `emitcalc`'s `EmissionsCalculator`, the emission-factor lookups and the UBC/BSF FEPS
  emitter;
- the fuel loadings manager;
- the pile emission rates.

Errors the source raises are `Failure` values. Where the source's fire failure handler
catches them, the error is per fire.

`firemerge.py` and `findmetdata.py` are not part of this model's source files. Those two
components are modelled from their unit tests (`test_firemerge.py`,
`test_findmetdata.py`). The expected values proved as lemmas about the model are these:
- the time windows of every `get_time_windows` case, including the dispersion and
  configured windows, and the two-window merge cases;
- the bucketing of `test_bucket_fires`;
- the aggregated hours, re-binned profile and whole merged record of `test_merge_two`.

"## Left out" names the test cases that are only covered by general lemmas.

## Model

| member | source | states |
|---|---|---|
| TimeWindows.MergeTimeWindows | test/unit/bluesky/modules/test_findmetdata.py:246-375 | the merged windows are pairwise separated (sorted, with gaps), never more numerous than the input, and empty only for empty input |
| TimeWindows.MergeTimeWindowsCovers | test/unit/bluesky/modules/test_findmetdata.py:246-375 | an hour is covered by the merged windows exactly when some input window covers it |
| TimeWindows.MergeTimeWindowsCoversAll | test/unit/bluesky/modules/test_findmetdata.py:246-375 | the same coverage equivalence for every hour at once, for well-formed input |
| TimeWindows.MergeTimeWindowsSeparated | test/unit/bluesky/modules/test_findmetdata.py:246-375 | already separated windows come back unchanged |
| TimeWindows.MergeTimeWindowsIdempotent | test/unit/bluesky/modules/test_findmetdata.py:246-375 | merging the merged windows again changes nothing |
| TimeWindows.MergeNestedExample | test/unit/bluesky/modules/test_findmetdata.py:248-257 | a window nested in a later-listed one is absorbed: 04:00-05:00 on the 9th inside 08:00 on the 8th to 08:00 on the 9th gives the outer window |
| TimeWindows.MergeSameStartExample | test/unit/bluesky/modules/test_findmetdata.py:259-268 | of two windows with the same start the merged window keeps the later end |
| TimeWindows.ToUtc | test/unit/bluesky/modules/test_findmetdata.py:19-46 | an active area's UTC window keeps its duration and lies the UTC offset before its local times |
| TimeWindows.GetTimeWindows | test/unit/bluesky/modules/test_findmetdata.py:85-243 | fails with the no-activity error exactly when some fire lacks activity and with the no-windows error exactly when nothing was collected; otherwise returns separated windows covering exactly the collected hours |
| TimeWindows.NoActivityMeansNoWindows | test/unit/bluesky/modules/test_findmetdata.py:87-101 | when every fire has activity, fires yield no window exactly when there are no fires |
| TimeWindows.GetTimeWindowsMerged | test/unit/bluesky/modules/test_findmetdata.py:103-243 | with every fire active and some window collected, the result is the merge of the collected windows |
| TimeWindows.OneFireExample | test/unit/bluesky/modules/test_findmetdata.py:103-114 | FIRE_1 (two active areas 17:00 to 17:00 at -09:00) gives the single window 02:00 on the 21st to 02:00 on the 22nd |
| TimeWindows.TwoFiresExample | test/unit/bluesky/modules/test_findmetdata.py:116-127 | FIRE_1 and FIRE_2, whose window starts where FIRE_1's ends, give one window through 02:00 on the 23rd |
| TimeWindows.TouchingMerge | test/unit/bluesky/modules/test_findmetdata.py:116-127 | windows that touch merge into one |
| TimeWindows.ThreeFiresExample | test/unit/bluesky/modules/test_findmetdata.py:129-145 | adding FIRE_3, 17:00 on 1 February at -07:00, gives a second, separate window from 00:00 on 2 February to 00:00 on 3 February |
| TimeWindows.DisjointMerge | test/unit/bluesky/modules/test_findmetdata.py:129-145 | a window starting after the merged window ends stays separate |
| TimeWindows.NoFiresExample | test/unit/bluesky/modules/test_findmetdata.py:87-93 | no fires and no configured windows: the no-time-windows error |
| TimeWindows.FireWithoutActivityExample | test/unit/bluesky/modules/test_findmetdata.py:95-101 | a fire without activity: the no-activity error |
| TimeWindows.DispersionWindowExample | test/unit/bluesky/modules/test_findmetdata.py:147-161 | no fires and a 12-hour dispersion run from 19:00 on 2014-05-29: that one window |
| TimeWindows.ConfiguredWindowExample | test/unit/bluesky/modules/test_findmetdata.py:163-179 | no fires and a configured window from 04:00 on 2016-01-04 to 13:00 on the 5th: that one window |
| TimeWindows.DispersionAndConfiguredExample | test/unit/bluesky/modules/test_findmetdata.py:181-206 | both windows and no fires: both windows, in time order and unmerged |
| TimeWindows.AllWindowsExample | test/unit/bluesky/modules/test_findmetdata.py:208-243 | both windows and the three test fires: four windows in time order, the dispersion window first, then the fires' two merged windows, then the configured window |
| Fires.AddByKey | test/unit/bluesky/dispersers/test_firemerge.py:260-305 | the key-wise sum of two maps covers the union of their keys, each value the sum of both (absent counts as 0) |
| Fires.AddEmissionsByKey | test/unit/bluesky/dispersers/test_firemerge.py:727-774 | hour-keyed emissions summed species-wise over the union of hours |
| Fires.AllOriginalIdsMember | test/unit/bluesky/dispersers/test_firemerge.py:260-305 | an id is among the records' original ids exactly when some record carries it |
| FireMerge.MergeableSymmetric | test/unit/bluesky/dispersers/test_firemerge.py:216-256 | compatibility (same location, windows at most touching, no conflicting meta) does not depend on the order of the two records |
| FireMerge.MergeTwo | test/unit/bluesky/dispersers/test_firemerge.py:260-352 | the folded record has the fresh id, the union of original ids, the earliest start, the latest end, summed area and heat, and the first record's location and UTC offset |
| FireMerge.MergeTwoMaps | test/unit/bluesky/dispersers/test_firemerge.py:260-352 | the folded record's meta and hourly maps cover both records' keys, agreeing meta is kept, and consumption is summed key by key |
| FireMerge.MergeTwoKeepsHours | test/unit/bluesky/dispersers/test_firemerge.py:260-352 | compatible records with hourly data inside their windows share no hour, and the folded record keeps every hour's plume rise, area and emissions from its owner |
| FireMerge.MergeTwoWithinWindow | test/unit/bluesky/dispersers/test_firemerge.py:260-352 | the folded record keeps its hourly data inside its widened window |
| FireMerge.MergeTwoCommutes | test/unit/bluesky/dispersers/test_firemerge.py:260-352 | folding compatible records with the same UTC offset gives the same record in either order |
| FireMerge.FirstMergeable | test/unit/bluesky/dispersers/test_firemerge.py:354-446 | finds the earliest record the fire can be folded into, or reports that none can take it |
| FireMerge.MergeAll | test/unit/bluesky/dispersers/test_firemerge.py:354-446 | after folding every fire, records plus merges equal the number of fires, and some record exists when some fire does |
| FireMerge.MergeAllConserves | test/unit/bluesky/dispersers/test_firemerge.py:354-446 | folding conserves total area, total heat and the set of original fire ids |
| FireMerge.Merge | test/unit/bluesky/dispersers/test_firemerge.py:354-446 | no more records than fires, some record when there is some fire, and area, heat and original ids conserved |
| FireMerge.MergeSingle | test/unit/bluesky/dispersers/test_firemerge.py:206-214 | a single fire comes back unchanged |
| FireMerge.MergePassThrough | test/unit/bluesky/dispersers/test_firemerge.py:216-256 | fires none of which can be folded into another come back as they were, in order |
| FireMerge.MergeAllRecordOrigin | test/unit/bluesky/dispersers/test_firemerge.py:354-446 | every output record is an untouched input or carries a fresh id drawn for one of the merges |
| FireMerge.MergeAllKeepsHoursWithinWindow | test/unit/bluesky/dispersers/test_firemerge.py:354-446 | inputs with hourly data inside their windows give outputs with the same property |
| FireMerge.MergeAllFullyMerged | test/unit/bluesky/dispersers/test_firemerge.py:354-446 | the output is fully merged: no record can be folded into another, so one pass suffices |
| FireMerge.MergeFullyMerged | test/unit/bluesky/dispersers/test_firemerge.py:354-446 | the same for the merger's result |
| FireMergeFixture.ConsumptionDoubles | test/unit/bluesky/dispersers/test_firemerge.py:16-22 | the fixture's consumption added to itself gives the doubled figures the merged records expect |
| FireMergeFixture.PairsThatStayApart | test/unit/bluesky/dispersers/test_firemerge.py:216-256 | a different location, overlapping windows or conflicting meta keep two fires apart, returned in order |
| FireMergeFixture.ContiguousPairMerges | test/unit/bluesky/dispersers/test_firemerge.py:307-352 | windows ending and starting at 19:00 merge into the expected record (ids, window, area, hourly data, doubled consumption, heat) |
| FireMergeFixture.NonContiguousPairMerges | test/unit/bluesky/dispersers/test_firemerge.py:260-305 | windows with a one-hour gap merge into the expected record |
| FireMergeFixture.SixFires | test/unit/bluesky/dispersers/test_firemerge.py:354-446 | the six fixture fires come back as the four expected records in the expected order |
| PlumeGrid.ParseGrid | test/unit/bluesky/dispersers/test_firemerge.py:469-504 | a successful parse has positive spacing and exactly the configured spacing and corners; a missing grid or spacing is an error |
| PlumeGrid.ParseGridJson | test/unit/bluesky/dispersers/test_firemerge.py:494-504 | every grid with positive spacing is parsed back from its own configuration |
| PlumeGrid.ParseGridRejects | test/unit/bluesky/dispersers/test_firemerge.py:471-492 | the configurations the invalid-config test lists are rejected |
| PlumeGrid.ParseGridNeedsSpacing | test/unit/bluesky/dispersers/test_firemerge.py:471-492 | a grid with a boundary but no spacing is rejected |
| PlumeGrid.ParseGridAccepts | test/unit/bluesky/dispersers/test_firemerge.py:494-504 | both valid-config grids are accepted, whichever way round the corners are |
| PlumeGrid.CellOf | test/unit/bluesky/dispersers/test_firemerge.py:508-538 | the fire lies inside the cell it is assigned, measured from the south-west corner in steps of the spacing |
| PlumeGrid.BucketAll | test/unit/bluesky/dispersers/test_firemerge.py:508-538 | buckets are well formed (one key per cell, fires outside the boundary alone) and together hold exactly the input fires |
| PlumeGrid.BucketFires | test/unit/bluesky/dispersers/test_firemerge.py:508-538 | each bucket is non-empty and holds the fires of its cell |
| PlumeGrid.BucketFiresPartition | test/unit/bluesky/dispersers/test_firemerge.py:508-538 | the buckets partition the input, counted with multiplicity |
| PlumeGrid.OutsideFireAlone | test/unit/bluesky/dispersers/test_firemerge.py:508-538 | a fire outside the boundary is alone in its bucket |
| PlumeGrid.SameCellSameBucket | test/unit/bluesky/dispersers/test_firemerge.py:508-538 | two fires inside the boundary share a bucket exactly when they share a cell |
| PlumeGridFixture.BucketFiresExample | test/unit/bluesky/dispersers/test_firemerge.py:508-538 | on the 0.5-degree test grid, the two fires outside the grid get a bucket each, fires 2, 5 and 6 share cell (12, 17), and fires 3 and 4 get their own cells, in order of first appearance |
| PlumeProfiles.HeightMidpoints | test/unit/bluesky/dispersers/test_firemerge.py:540-545 | one midpoint per bin, each equidistant from its two boundaries |
| PlumeProfiles.MidpointsWithinBins | test/unit/bluesky/dispersers/test_firemerge.py:540-545 | with rising boundaries each midpoint lies within its bin |
| PlumeProfiles.HeightMidpointsCases | test/unit/bluesky/dispersers/test_firemerge.py:540-545 | no boundaries give no midpoints; 100, 400, 600, 650 give 250, 500, 625 |
| PlumeProfiles.ProfilePairs | test/unit/bluesky/dispersers/test_firemerge.py:548-611 | one fire's bins become (midpoint, fraction times weight) pairs |
| PlumeProfiles.AggregateHour | test/unit/bluesky/dispersers/test_firemerge.py:548-611 | absent only without boundaries; otherwise the pairs sorted by height and a permutation of all fires' pairs, the minimum and maximum boundary, and total and smoldering mass summed over the fires |
| PlumeProfiles.PairsOfMass | test/unit/bluesky/dispersers/test_firemerge.py:548-611 | the pairs carry exactly each fire's weight spread over its fractions |
| PlumeProfiles.AggregateMass | test/unit/bluesky/dispersers/test_firemerge.py:548-611 | sorting the pairs keeps their total mass |
| PlumeProfiles.BinIndex | test/unit/bluesky/dispersers/test_firemerge.py:727-774 | a height lands in the bin that contains it (the top boundary in the last bin), always one of the n bins |
| PlumeProfiles.BinMasses | test/unit/bluesky/dispersers/test_firemerge.py:727-774 | bin j holds exactly the mass of the pairs whose height falls into bin j (the top edge belongs to the last bin); the bins add up to the pairs' total mass and are non-negative when every mass is |
| PlumeProfiles.EqualBins | test/unit/bluesky/dispersers/test_firemerge.py:727-774 | n + 1 equally spaced boundaries from the lowest to the highest height |
| PlumeProfiles.Fractions | test/unit/bluesky/dispersers/test_firemerge.py:727-774 | each bin's share times the total is its mass |
| PlumeProfiles.RebinHour | test/unit/bluesky/dispersers/test_firemerge.py:727-774 | fails without bins or with zero total mass, and succeeds otherwise; then n equal bins over the height range, each fraction being its bin's mass over the total mass, and a smolder fraction that accounts for the smoldering mass |
| PlumeProfiles.MergedHourNormalized | test/unit/bluesky/dispersers/test_firemerge.py:727-774 | re-binning normalized profiles gives fractions adding up to one. A normalized profile has fractions adding up to one and a smolder fraction in [0, 1]. When no fire has negative PM2.5, the merged smolder fraction, a weighted mean, is in [0, 1] too, so the profile is normalized |
| PlumeMerge.PlumeHours | test/unit/bluesky/dispersers/test_firemerge.py:727-774 | the hours for which some fire has plume rise |
| PlumeMerge.WithHour | test/unit/bluesky/dispersers/test_firemerge.py:727-774 | exactly the fires with plume rise for that hour |
| PlumeMerge.MergeHour | test/unit/bluesky/dispersers/test_firemerge.py:727-774 | an hour of one fire is copied; an hour of several is re-binned into as many bins as the first such profile has |
| PlumeMerge.MergeHourNormalized | test/unit/bluesky/dispersers/test_firemerge.py:727-774 | merging normalized profiles gives fractions adding up to one, copied or re-binned, and a normalized profile when no fire has negative PM2.5 |
| PlumeMerge.MetaUnion | test/unit/bluesky/dispersers/test_firemerge.py:727-793 | the merged meta has every fire's keys, each with the value of the last fire that has it |
| PlumeMerge.MinStart | test/unit/bluesky/dispersers/test_firemerge.py:727-774 | the earliest start among the fires |
| PlumeMerge.MaxEnd | test/unit/bluesky/dispersers/test_firemerge.py:727-774 | the latest end among the fires |
| PlumeMerge.SumMaps | test/unit/bluesky/dispersers/test_firemerge.py:727-774 | the key-wise sum covers every key of any map and holds the sum over all maps |
| PlumeMerge.SumEmissions | test/unit/bluesky/dispersers/test_firemerge.py:727-774 | hourly emissions summed hour- and species-wise over the fires |
| PlumeMerge.Mean | test/unit/bluesky/dispersers/test_firemerge.py:727-774 | the plain mean of a coordinate: times the number of fires it gives their sum |
| PlumeMerge.MergedPlumerise | test/unit/bluesky/dispersers/test_firemerge.py:727-774 | every hour of any fire is present with its merged profile |
| PlumeMerge.CombinedConserves | test/unit/bluesky/dispersers/test_firemerge.py:727-774 | the merged record has the fresh id and conserves area, heat and original ids |
| PlumeMerge.CombinedWindow | test/unit/bluesky/dispersers/test_firemerge.py:727-793 | the merged window runs from the earliest start to the latest end |
| PlumeMerge.CombinedPlumerise | test/unit/bluesky/dispersers/test_firemerge.py:727-774 | the merged plume rise covers every fire's hours with merged profiles. When the inputs are normalized, every merged profile's fractions add up to one, and it is normalized when no fire has negative PM2.5 |
| PlumeMerge.CombinedSums | test/unit/bluesky/dispersers/test_firemerge.py:727-774 | hourly area and consumption are the key-wise sums over the fires |
| PlumeMerge.CombinedMeta | test/unit/bluesky/dispersers/test_firemerge.py:727-793 | merged meta is the last-wins union and the UTC offset is the first fire's |
| PlumeMerge.CombinedEmissions | test/unit/bluesky/dispersers/test_firemerge.py:727-774 | hourly emissions are the hour- and species-wise sums |
| PlumeMerge.MergeFires | test/unit/bluesky/dispersers/test_firemerge.py:722-774 | one fire is returned as it is; several fail exactly when some hour cannot be re-binned, and otherwise give the combined record, which conserves area, heat and ids |
| PlumeMerge.MergeBuckets | test/unit/bluesky/dispersers/test_firemerge.py:796-799 | every bucket merged under its fresh id, or the error of a bucket that fails |
| PlumeMerge.Merge | test/unit/bluesky/dispersers/test_firemerge.py:508-538 | bucket, then merge: one record per bucket, at most as many as fires, with total area, heat and original ids conserved |
| PlumeMerge.AllOriginalIdsPermutation | test/unit/bluesky/dispersers/test_firemerge.py:508-538 | reordering records keeps the union of original ids |
| PlumeMergeFixture.AggregateHour18 | test/unit/bluesky/dispersers/test_firemerge.py:585-596 | hour 18 is only the second fire's: pairs (325, 2.5), (375, 1), (412.5, 1), (437.5, 0.5), heights 300 to 450, smoldering 0.25 of total 5 |
| PlumeMergeFixture.AggregateHour17 | test/unit/bluesky/dispersers/test_firemerge.py:598-611 | hour 17 combines both fires: eight pairs sorted by height, heights 90 to 500, smoldering mass 0.65 of total 12.5 |
| PlumeMergeFixture.BinMasses17 | test/unit/bluesky/dispersers/test_firemerge.py:727-774 | hour 17's pairs fall into four bins of width 102.5 holding 4.25, 2.75, 5 and 0.5 |
| PlumeMergeFixture.Fractions17 | test/unit/bluesky/dispersers/test_firemerge.py:734-744 | those masses over 12.5 give the expected fractions 0.34, 0.22, 0.4, 0.04 |
| PlumeMergeFixture.EqualBins17 | test/unit/bluesky/dispersers/test_firemerge.py:734-744 | four bins from 90 to 500 have boundaries 90, 192.5, 295, 397.5, 500 |
| PlumeMergeFixture.RebinHour17 | test/unit/bluesky/dispersers/test_firemerge.py:727-774 | re-binning hour 17 gives the expected merged profile, smolder fraction 0.65 / 12.5 |
| PlumeMergeFixture.ProfilesNormalized | test/unit/bluesky/dispersers/test_firemerge.py:548-745 | the test fires' hourly profiles and the expected merged hour 17 are normalized: their fractions alone add up to one, and their smolder fractions lie in [0, 1] |
| PlumeMergeFixture.MergedPlumeriseOfTwo | test/unit/bluesky/dispersers/test_firemerge.py:738-755 | no hour fails, and the merged plume rise is the re-binned hour 17 plus the second fire's hour 18 unchanged |
| PlumeMergeFixture.AreasOfTwo | test/unit/bluesky/dispersers/test_firemerge.py:756-760 | hourly areas sum to 32 in hour 17 and 30 in hour 18 |
| PlumeMergeFixture.EmissionsOfTwo | test/unit/bluesky/dispersers/test_firemerge.py:761-764 | hourly emissions sum species by species in hour 17 (CO 23, PM2.5 12.5); hour 18 is the second fire's |
| PlumeMergeFixture.ConsumptionOfTwo | test/unit/bluesky/dispersers/test_firemerge.py:765-770 | consumption sums phase by phase to 1511, 1549, 1317 and 4427 |
| PlumeMergeFixture.IdsOfTwo | test/unit/bluesky/dispersers/test_firemerge.py:731 | the original ids are the union bbb, ddd, eee |
| PlumeMergeFixture.MetaOfTwoFires | test/unit/bluesky/dispersers/test_firemerge.py:732 | the metadata union keeps foo and adds bar |
| PlumeMergeFixture.WindowOfTwoFires | test/unit/bluesky/dispersers/test_firemerge.py:733-734 | the merged record runs from 17:00 to 19:00 |
| PlumeMergeFixture.ScalarsOfTwo | test/unit/bluesky/dispersers/test_firemerge.py:735-771 | area 270, centre (47.5, -121.6) as the plain mean, heat 3000000 |
| PlumeMergeFixture.MergeTwoExample | test/unit/bluesky/dispersers/test_firemerge.py:727-774 | the two test fires merge into the expected record under the generated id 1234abcd |
| HourKeys.ShiftKeys | bluesky/growers/persistence.py:212-225 | the keys of the shifted map are exactly the original keys moved by the time difference |
| HourKeys.ShiftKeysAt | bluesky/growers/persistence.py:212-225 | an hour is a key of the shifted map exactly when it lies the difference after an original key, and it holds that key's value |
| HourKeys.ShiftKeysRoundTrip | bluesky/growers/persistence.py:212-225 | shifting back by the negated difference gives the original map |
| HourKeys.AddTimeDiffWithoutCollision | bluesky/growers/persistence.py:212-225 | with distinct keys, and no key landing on a key still to be moved, the pop-and-store loop moves every key and keeps every value, order kept |
| HourKeys.KeyCollisionLosesValue | bluesky/growers/persistence.py:216-225 | two keys one difference apart: the loop as written leaves one entry, holding the first value two differences on, where the intended shift keeps both |
| Persistence.SetConfig | bluesky/growers/persistence.py:38-51 | no configuration and a value that is neither a set nor a list are errors, as is an empty list; a success is consistent settings |
| Persistence.SingleIsOneElementList | bluesky/growers/persistence.py:44-48 | a single configuration set is read as a one-element list |
| Persistence.SelectConfig | bluesky/growers/persistence.py:53-102 | an empty list is an error; otherwise the settings are consistent and carry no date exactly when no set matches the date to persist |
| Persistence.SelectConfigFirstMatch | bluesky/growers/persistence.py:65-99 | the first matching set alone decides the settings: later sets are neither consulted nor validated |
| Persistence.SettingsOf | bluesky/growers/persistence.py:71-97 | days together with percentages, a non-list percentage value and a non-positive day count are each an error exactly under their condition; otherwise the days, percentages, truncation and date the set gives |
| Persistence.ShiftActivity | bluesky/growers/persistence.py:194-203 | the copy is marked persisted; every active area's start and end move by the difference; the time profile keys of every active area and the plume rise, time profile and hourly FRP keys of every location move by it too, through the corrected key shift HourKeys.ShiftKeys; the measures are unchanged |
| Persistence.ShiftActivityRoundTrip | bluesky/growers/persistence.py:194-203 | shifting back restores every active area, location and hour key |
| Persistence.ReduceActivity | bluesky/growers/persistence.py:229-245 | area, frp, emissions, consumption and heat of every active area, every location and every fuelbed are multiplied by the percentage over 100; times, plume rise and hour keys are unchanged |
| Persistence.ReduceActivityCompose | bluesky/growers/persistence.py:229-245 | reducing twice is reducing once by the product of the fractions |
| Persistence.ReduceActivityHundred | bluesky/growers/persistence.py:205-206 | reducing to 100 percent changes nothing |
| Persistence.PersistCopy | bluesky/growers/persistence.py:192-206 | copy i is marked persisted and starts and ends i + 1 days later. At 100 percent or more it is exactly the shifted copy with measures untouched. Below 100 percent it is the shifted copy reduced by that day's percentage |
| Persistence.Persist | bluesky/growers/persistence.py:186-210 | nothing for no activity; otherwise days-to-persist copies of every activity, all persisted |
| Persistence.PersistAt | bluesky/growers/persistence.py:191-208 | item i times the activity count plus j is copy i of activity j: day by day, activities in order |
| Persistence.Partition | bluesky/growers/persistence.py:169-179 | the loop keeps at most the activities it was given |
| Persistence.PartitionSplits | bluesky/growers/persistence.py:171-179 | kept activities before the date start before it, those on it start on it |
| Persistence.PartitionStops | bluesky/growers/persistence.py:171-179 | the loop examines activities up to the first one after the date |
| Persistence.PartitionKeeps | bluesky/growers/persistence.py:169-179 | the two parts are exactly the examined activities, in order, each in one part |
| Persistence.PartitionFails | bluesky/growers/persistence.py:171-172 | the loop fails exactly when it meets an activity without active areas before any activity after the date |
| Persistence.FillInWf | bluesky/growers/persistence.py:155-182 | an activity list with no first or last active area is an error; activity ending before the date, or after it without truncation, is left alone; otherwise it is rebuilt from the two parts and the persisted copies |
| Persistence.FillInWfGrows | bluesky/growers/persistence.py:169-182 | when rebuilt, the kept activities are a permutation of the examined prefix, none after the date, followed by days-to-persist copies of the date's activity, all persisted |
| Persistence.GrowFire | bluesky/growers/persistence.py:139-153 | fires without active areas and non-wildfires are left alone, and the fire type is kept |
| Persistence.Grow | bluesky/growers/persistence.py:126-133 | without a date nothing changes; otherwise every fire is grown, the run fails exactly when some fire does, and non-wildfires are untouched |
| Consumption.TablesTotal | bluesky/modules/consumption.py:74-105 | every crop fuelbed the two maps or the default can produce has a loading and an efficiency |
| Consumption.TablesInRange | bluesky/modules/consumption.py:74-81 | loadings are positive and efficiencies are fractions |
| Consumption.ResolveCrop | bluesky/modules/consumption.py:117-127 | ids above 9000 go through the Cropland Data Layer map after subtracting 9000, others through the FCCS map, an unknown id to crop 12 |
| Consumption.RunCropFuelbed | bluesky/modules/consumption.py:117-136 | flaming consumption is loading times burned acres times efficiency, nothing smolders or is residual, and heat is consumption times 2000 times 8000 |
| Consumption.CropConsumptionBounds | bluesky/modules/consumption.py:132-133 | consumption is non-negative and at most the fuel on the burned part |
| Consumption.CropConsumptionAdditive | bluesky/modules/consumption.py:132-133 | consumption is additive in the area |
| Consumption.CornExample | bluesky/modules/consumption.py:118-136 | a Cropland Data Layer corn class on ten fully burned acres consumes 31.5 tons |
| Consumption.CheckLocation | bluesky/modules/consumption.py:401-419 | a location passes exactly when it is valid; no fuelbeds, no area and a missing ecoregion are each reported under their own condition, in the source's order |
| Consumption.ValidateFire | bluesky/modules/consumption.py:388-419 | a fire passes exactly when every active area, location and fuelbed is valid; each error names a part that fails its check |
| Consumption.MissingEcoregionNameError | bluesky/modules/consumption.py:409-410 | as written a location without ecoregion hits the unbound name; with the name bound the intended ecoregion error appears, and a crop run needs no ecoregion |
| Consumption.FirstInvalid | bluesky/modules/consumption.py:388-391 | the first fire that fails validation, with every earlier fire valid; none exactly when every fire is valid |
| Consumption.RunAsWritten | bluesky/modules/consumption.py:34-64 | as written, every fire is validated first, and a re-raised failure ends the run with the first failing fire's error. Otherwise line 54 reads the unbound `model` (a NameError). Were it bound to `crops`, line 55 would use the crop class before `run` defines it (an UnboundLocalError). Only another bound model would take the consume route |
| Consumption.RunRouted | bluesky/modules/consumption.py:34-64 | as evidently intended, the setting is bound and the crop class defined first: a re-raised validation failure ends the run, and otherwise `crops` takes the crop route and any other model the consume route |
| Consumption.RunAsWrittenNeverRoutes | bluesky/modules/consumption.py:52-64 | as written no run takes either route: with `model` unbound it ends in the NameError or a validation failure, and the crop route is never taken. The intended run differs from it only for `crops` |
| Consumption.ValidRunNameError | bluesky/modules/consumption.py:52-54 | a run over valid fires ends in the NameError as written, where the intended run takes the consume route |
| ConsumptionScaling.ScaleWithEstimatedConsumption | bluesky/modules/consumption.py:191-211 | disabled or no estimate: nothing scaled; a missing consumption total, a zero area or zero modelled consumption is an error exactly then; otherwise every fuelbed's consumption is scaled by the recorded factor, which brings consumption per acre to the estimate |
| ConsumptionScaling.ConsumptionScaled | bluesky/modules/consumption.py:199-207 | scaling every fuelbed's consumption scales the location's modelled consumption |
| ConsumptionScaling.FactorReachesEstimate | bluesky/modules/consumption.py:198-203 | the chosen factor brings modelled consumption per acre to the estimate |
| ConsumptionScaling.ScaleWithEstimatedFuelload | bluesky/modules/consumption.py:216-255 | nothing is scaled exactly when scaling is disabled, there is no estimate or some fuelbed has no loadings. Otherwise no fuelbeds is an error, and with fuelbeds the run fails exactly when some fuelbed lacks one of the first fuelbed's `_loading` keys, the area is zero or the modelled load per acre is zero. Every other case is scaled: each fuelbed's consumption and heat, and its loadings under the first fuelbed's `_loading` keys, are multiplied by the recorded factor, which brings the modelled fuel load per acre to the estimate |
| ConsumptionScaling.FuelloadScaling | bluesky/modules/consumption.py:227-253 | a missing summed key is reported first as a `KeyError`, then a zero area or zero modelled load as a division by zero; the scaling fails exactly under those conditions or a missing key to scale, and otherwise scales to the estimate |
| ConsumptionScaling.FuelloadScalesFirstFuelbedKeys | bluesky/modules/consumption.py:239-245 | in every fuelbed, a loading is multiplied by the factor exactly when its key is a `_loading` key of the first fuelbed; every other loading is unchanged |
| ConsumptionScaling.FuelloadScaled | bluesky/modules/consumption.py:230-245 | scaling the loadings scales the location's summed load |
| ConsumptionScaling.FuelloadReachesEstimate | bluesky/modules/consumption.py:230-245 | the chosen factor brings the modelled fuel load per acre to the estimate |
| ConsumptionScaling.KeysWhere | bluesky/modules/consumption.py:226-229 | a key is listed exactly when it is a key of the record and has the property |
| ConsumptionScaling.ScaleLocation | bluesky/modules/consumption.py:184-185 | consumption scaling is tried first and fuel-load scaling only when it does not apply; fuelbeds, area and ecoregion are kept |
| ConsumptionScaling.ConsumptionScalingFirst | bluesky/modules/consumption.py:184-185 | when consumption scaling applies, fuel loads and heat are left as they are and consumption per acre reaches the estimate |
| ConsumptionRun.DropDebug | bluesky/modules/consumption.py:359-360 | the consumption data without its debug entry and nothing else removed |
| ConsumptionRun.RunFuelbed | bluesky/modules/consumption.py:323-377 | a zero fuelbed area with custom loadings is a division by zero, a calculator failure is an error, and a success keeps the fuelbed's id and percentage |
| ConsumptionRun.RunFuelbedPerAcre | bluesky/modules/consumption.py:356-373 | every consumption and heat value is the calculator's per-acre value times the fuelbed's area, with debug dropped |
| ConsumptionRun.FuelbedLoadingsRoundTrip | bluesky/modules/consumption.py:174-177 | loadings divided by the area for the calculator and multiplied back come out as they went in |
| ConsumptionRun.FuelbedAreasSplit | bluesky/modules/consumption.py:174 | the fuelbeds' areas add up to the location's area times their total percentage over 100 |
| ConsumptionRun.RunActiveArea | bluesky/modules/consumption.py:158-161 | an active area without a start is an error; otherwise each location is run |
| ConsumptionRun.RunFire | bluesky/modules/consumption.py:142-185 | fuel type piles is refused; any active area without a start fails the fire; a success holds every active area as run |
| EmissionModels.Capitalize | bluesky/modules/emissions.py:63 | the first character upper case, the rest lower case |
| EmissionModels.Split | bluesky/modules/emissions.py:63 | at least one part, none containing a dash |
| EmissionModels.SplitJoin | bluesky/modules/emissions.py:63 | joining the parts with dashes gives back the name |
| EmissionModels.ClassNameIsScan | bluesky/modules/emissions.py:63 | the split/capitalise/join derivation equals a single character scan |
| EmissionModels.ClassNameIgnoresCase | bluesky/modules/emissions.py:63 | the class name does not depend on the case of the model name |
| EmissionModels.ModelNameRoundTrip | bluesky/modules/emissions.py:63 | a canonical model name (lower-case words joined by single dashes) is recovered from its class name |
| EmissionModels.ResolveAsWritten | bluesky/modules/emissions.py:62-72 | as written, the derived name's module attribute is called with the failure handler, and only an `AttributeError` inside the `try` becomes the configuration error. Each reachable attribute has its outcome. An emissions model class is instantiated. An imported class is called. A TypeError escapes for these: the abstract base class, `_calculate`, the imported constants `CONSUME_FIELDS` and `CONSUME_VERSION_STR`, the module's dunder values, and the module object's methods that refuse the handler. The comparisons and `__subclasshook__` return NotImplemented, so `e.run` at line 72 raises an uncaught AttributeError. `_fix_keys` and a missing attribute give the configuration error, with the urbanski hint exactly for `urbanski` |
| EmissionModels.ResolveSpec | bluesky/modules/emissions.py:62-70 | a model name selects a model exactly when its class name is that model's class, and is an error otherwise |
| EmissionModels.UrbanskiHintUnreachable | bluesky/modules/emissions.py:66-69 | the urbanski hint is never given: `urbanski` still names the Urbanski class |
| EmissionModels.PrichardOneillSelected | bluesky/modules/emissions.py:63-64 | `prichard-oneill` selects the Prichard/O'Neill model |
| EmissionModels.AsWrittenBaseClassTypeError | bluesky/modules/emissions.py:63-65 | `emissions-base` passes the lookup as written and instantiating the abstract base class raises an uncaught TypeError; the corrected lookup reports an invalid model |
| EmissionModels.AsWrittenDunderTypeError | bluesky/modules/emissions.py:63-65 | `__version__` names a module string, so calling it raises an uncaught TypeError as written; the corrected lookup reports an invalid model |
| EmissionModels.AsWrittenVersusResolve | bluesky/modules/emissions.py:62-72 | the as-written lookup instantiates exactly when the corrected lookup succeeds, with the same class. Where it reports the configuration error, the corrected lookup reports the same error. The two differ only on the uncallable, NotImplemented-returning and imported attributes |
| EmissionModels.AsWrittenNotImplemented | bluesky/modules/emissions.py:63-72 | `__eq__` reaches the module object's equality method, which returns NotImplemented for the handler. `e.run` then raises an uncaught AttributeError, where the corrected lookup reports an invalid model |
| EmissionModels.AsWrittenConsumeFields | bluesky/modules/emissions.py:28-65 | `c-o-n-s-u-m-e-_-f-i-e-l-d-s` derives `CONSUME_FIELDS`, the imported field list, so calling it raises an uncaught TypeError; the corrected lookup reports an invalid model |
| EmissionModels.SpelledOutClassName | bluesky/modules/emissions.py:63 | a model name spelled one character per dash-separated part derives its characters upper-cased, so every attribute without lower-case letters or dashes is reachable |
| EmissionModels.ClassNameInitial | bluesky/modules/emissions.py:63 | a derived class name never starts with a lower-case letter |
| EmissionModels.LowerCaseUnreachable | bluesky/modules/emissions.py:5-39 | the module attributes with lower-case names (`run` and the imported modules and values) are never reached by a derived class name |
| KeyFixing.NamesInverse | bluesky/modules/emissions.py:91-95 | the renamings PM25 to PM2.5 and NMOC to VOC are inverse, and no name is both old and new |
| KeyFixing.FixKeys | bluesky/modules/emissions.py:88-97 | never deeper than the input, a leaf untouched, a dictionary stays a dictionary |
| KeyFixing.FixKeysLookup | bluesky/modules/emissions.py:88-97 | with distinct keys the result's keys stay distinct and each key holds what the renaming gives |
| KeyFixing.FixKeysRemovesLegacy | bluesky/modules/emissions.py:88-97 | no legacy key survives at the top level |
| KeyFixing.FixKeysIdentity | bluesky/modules/emissions.py:88-97 | a tree without legacy keys is left exactly as it is |
| KeyFixing.FixKeysIdempotent | bluesky/modules/emissions.py:88-97 | fixing twice is fixing once when no legacy key holds a dictionary |
| KeyFixing.SecondPassDiffers | bluesky/modules/emissions.py:91-97 | a legacy key holding a dictionary is moved without fixing inside it, so a second pass changes the result |
| EmissionTrees.SetAmount | bluesky/modules/emissions.py:296-320 | an assignment at a path succeeds exactly when the path already ends at a number |
| EmissionTrees.SetThenAmount | bluesky/modules/emissions.py:296-320 | after an assignment the path holds the new number |
| EmissionTrees.SetElsewhere | bluesky/modules/emissions.py:296-320 | an assignment changes no other path |
| EmissionTrees.SetRestore | bluesky/modules/emissions.py:296-320 | saving, overwriting and writing the saved number back restores the tree exactly |
| EmissionTrees.SetCommute | bluesky/modules/emissions.py:296-320 | assignments to two different paths commute |
| EmissionTrees.AmountScaled | bluesky/modules/emissions.py:159-161 | scaling multiplies the number at every path by the factor and adds or removes no path |
| EmissionTrees.AddAllAmounts | bluesky/modules/emissions.py:361-378 | a run of increments succeeds exactly when every path ends at a number, then adds to each path its total and creates no path |
| Emissions.BurnType | bluesky/modules/emissions.py:420 | a missing or empty fuel type counts as natural, any other is kept |
| Emissions.FuelbedCheckIff | bluesky/modules/emissions.py:436-447 | a fuelbed passes the model's checks exactly when it has what the model needs |
| Emissions.FireCheck | bluesky/modules/emissions.py:415-423 | no activity and, for Consume, a piles burn type are errors; otherwise the fire passes exactly when every location and fuelbed does |
| Emissions.Calculate | bluesky/modules/emissions.py:511-518 | succeeds exactly when the calculator's summary total exists, which becomes the emissions; the details are kept exactly when asked for |
| Emissions.CropsFuelbed | bluesky/modules/emissions.py:143-161 | a failed check is reported; a success has passed the checks and keeps the consumption |
| Emissions.CropsConverted | bluesky/modules/emissions.py:159-161 | every crop emission is 0.0005 of the calculator's figure, pounds to tons |
| Emissions.FepsFuelbed | bluesky/modules/emissions.py:232-250 | a failed check is reported; a success holds the calculator's emissions unconverted |
| Emissions.ReadPiles | bluesky/modules/emissions.py:294-298 | the three pile phases are read, and a missing one is a key error |
| Emissions.WritePilesSpec | bluesky/modules/emissions.py:299-301 | writing the pile phases sets exactly those three numbers and no other path |
| Emissions.PilesRestoreExactly | bluesky/modules/emissions.py:294-320 | zeroing the piles and writing the saved phases back restores the consumption exactly |
| Emissions.CalculatorInputSpec | bluesky/modules/emissions.py:294-306 | the calculator sees zero pile consumption and every other number unchanged |
| Emissions.AddPileEmissions | bluesky/modules/emissions.py:361-378 | the details come back exactly when they went in |
| Emissions.AddPileEmissionsAmounts | bluesky/modules/emissions.py:361-378 | one pollutant's increments add its phase components at its four emissions paths and ten details paths, change nothing else and create no path |
| Emissions.AddPilesAmounts | bluesky/modules/emissions.py:351-358 | the pile emissions of the eight distinct pollutants each land at their own paths and nothing else changes |
| Emissions.PrichardOneillFuelbed | bluesky/modules/emissions.py:277-358 | a failed check is reported; a success keeps consumption, has emissions, has details exactly as asked, and pile emissions only with a percentage and heat |
| Emissions.PrichardOneillEmissions | bluesky/modules/emissions.py:294-358 | the emissions are the calculator's on the pile-free consumption times 0.001, plus each pollutant's pile emissions when piles burn |
| Emissions.UbcBsfFepsFuelbed | bluesky/modules/emissions.py:198-209 | the step fails exactly when the emitter raises, with the emitter's error; otherwise the emitter's result for the location becomes the fuelbed's emissions, and nothing else changes |
| Emissions.UbcBsfFepsFailsOnlyInEmitter | bluesky/modules/emissions.py:188-209 | a fire fails whenever a check fails, and its error is either the first failing check's or the emitter's; the step cannot fail on checked input exactly when the emitter never raises |
| Emissions.RunFireChecked | bluesky/modules/emissions.py:114-120 | a fire run succeeds only when every check passes and then holds each location's fuelbeds as the step computed them; a step that cannot fail on checked input makes the run fail exactly when a check does, with that error |
| Emissions.PrichardOneillChecksFirst | bluesky/modules/emissions.py:282-288 | the Prichard/O'Neill step reports the fuelbed checks first |
| Emissions.CropsChecksFirst | bluesky/modules/emissions.py:148-154 | the Crops step reports the fuelbed checks first |
| Emissions.FepsChecksFirst | bluesky/modules/emissions.py:237-240 | the FEPS step reports the fuelbed checks first |
| Emissions.FixFuelbedKeys | bluesky/modules/emissions.py:75-82 | succeeds exactly when emissions exist and, if details are kept, details exist; consumption is unchanged |
| Emissions.FixFuelbedKeysRenames | bluesky/modules/emissions.py:75-82 | after fixing no emissions dictionary has a legacy key at its top level |
| Emissions.UbcBsfFepsDetailsFail | bluesky/modules/emissions.py:81-82 | with details kept, key fixing fails on every UBC/BSF FEPS fuelbed the emitter succeeded on that had no details, since that model writes none |
| ConsumeEmissions.SpeciesFilter | bluesky/modules/emissions.py:405 | the configured species upper-cased, one for one |
| ConsumeEmissions.SpeciesKeyUpper | bluesky/modules/emissions.py:474 | stored species keys are upper case, and `pm25` becomes `PM2.5` |
| ConsumeEmissions.FilterIgnoresCase | bluesky/modules/emissions.py:405-475 | an empty filter keeps everything; otherwise a stored key is kept exactly when some configured species, in whatever case, upper-cases to it, and configuring the species in upper case gives the same filter |
| ConsumeEmissions.EmptyPhases | bluesky/modules/emissions.py:471 | one empty entry per field, fields distinct |
| ConsumeEmissions.EmptyPhasesKeys | bluesky/modules/emissions.py:471 | with distinct fields, the phases are the fields in field order |
| ConsumeEmissions.WritePhases | bluesky/modules/emissions.py:476-477 | succeeds exactly when every phase is a field; otherwise a key error naming a missing phase |
| ConsumeEmissions.TransposeFromFails | bluesky/modules/emissions.py:473-477 | the transpose fails exactly when a kept species reports a phase that is not a field |
| ConsumeEmissions.TransposeFromValues | bluesky/modules/emissions.py:473-477 | a successful transpose keeps the phase keys and stores under each phase and species key what the last kept writer wrote |
| ConsumeEmissions.LastWrittenSome | bluesky/modules/emissions.py:473-477 | something is written exactly when some entry writes |
| ConsumeEmissions.LastWrittenIsLast | bluesky/modules/emissions.py:473-477 | what is written is the value of the last entry that writes |
| ConsumeEmissions.TransposeSpec | bluesky/modules/emissions.py:471-477 | the phase-by-species table: fails exactly on a stray phase, otherwise has exactly the fields, in field order when they are distinct, each holding the last kept writer's value per species |
| ConsumeEmissions.SummarizeFromKeys | bluesky/modules/emissions.py:487-495 | the summary gains exactly the categories and phases that kept species report |
| ConsumeEmissions.SummarizeFromValues | bluesky/modules/emissions.py:488-495 | each category, phase and species ends up holding what the last kept writer reported, or what it held before |
| ConsumeEmissions.SummarizeSpec | bluesky/modules/emissions.py:487-495 | the details summary holds exactly the reported categories and phases with the last kept writer's values |
| ConsumeEmissions.ConsumeFuelbed | bluesky/modules/emissions.py:435-495 | a failed check is reported; a success has an FCCS id, keeps consumption, has emissions, and details only as asked |
| ConsumeEmissions.ConsumeFuelbedSpec | bluesky/modules/emissions.py:435-495 | once the checks pass and the FCCS id is present, the fuelbed fails with a KeyError exactly on a stray phase and succeeds otherwise; its emissions are the transpose and its details the summary of the calculator's results |
| ConsumeEmissions.ConsumeChecksFirst | bluesky/modules/emissions.py:436-447 | the Consume step reports the fuelbed checks first |

## Left out

- I/O:
  - logging;
  - working directories;
  - the `piles-calc` subprocess (`get_piles_fuel_loadings_manager`);
  - custom fuel-loadings CSV files;
  - capturing standard output.

  Where their results matter they are parameters.
- The external calculators are function parameters:
  - consume's fuel consumption and emissions;
  - `emitcalc`;
  - the emission-factor lookups (`Crops2Ef`, `Fccs2SeraEf`, `Fccs2Ef`, `FepsEFLookup`);
  - `UbcBsfFEPSEmissions`;
  - `FuelLoadingsManager`;
  - the pile emission rates.

  As a result, Urbanski differs from Prichard/O'Neill only in a lookup the model does not
  see, and shares its fuelbed step.
- `CONSUME_FIELDS`, the emissions species list and the fuel-loadings configuration are
  parameters, because they come from the configuration or a foreign package.
- The emissions factors output (`include_emissions_factors`) is left out: it is a
  property of the foreign calculator.
- Season and fire-type derivation (`season_from_date`, `fire.type`) is left out; only
  whether a start exists matters to the modelled logic.
- The `datautils` summaries over all levels are left out: they are a separate module and
  not part of the core.
- Dates and times are integer hours counted from a fixed midnight. Date-string parsing,
  `strftime` formatting of keys and the start/end day formats of persistence
  configurations are left out; a configuration's match against the date is a parameter.
- Floating point is modelled as exact reals, so rounding in the expected test values
  (`0.052`, the fractions) is not reproduced.
- Upper-casing is ASCII only; Python's Unicode case mapping is left out.
- ConsumptionRun.RunFuelbed: consumption and heat a failed calculator leaves zeroed are
  modelled as an error value, not as partial data.
- The whole-fire `try`/`fire_failure_handler` mechanism is a per-fire `Result`; the
  manager's bookkeeping of failed fires is left out.
- `bluesky/exporters/upload.py` and `bluesky/modules/load.py` are not part of this model;
  they are outside the core.
- `firemerge.py` and `findmetdata.py` are not part of this model's source files. Both are
  specified by their tests. `PlumeMerger`'s top-level `merge` has no test, so its
  grouping is modelled as described for the class.
- The 34-window "real case from STI" merge test is covered by the general merge lemmas
  only, not stated as a concrete example.
- `test_merge_three` asserts nothing (its expectation is commented out), so it has no
  concrete example; three-fire merges are covered by the general merge lemmas.
- Persistence.ShiftActivity: hour keys are moved with the corrected key shift
  (HourKeys.ShiftKeys), not the in-place pop-and-store loop of
  `bluesky/growers/persistence.py:216-225`. That loop loses a value when two keys lie one
  difference apart (see "## Findings").
- Persistence.FillInWf: the deep copies are implicit, since values are immutable.
- Consumption.RunCropFuelbed, ConsumptionRun.RunFire and the ConsumptionScaling members
  model the program as evidently intended. As written, `run` never reaches them: it stops
  at the unbound `model` on line 54 (Consumption.RunAsWritten, see "## Findings").
- EmissionModels.ResolveAsWritten: the attribute lists are those of the module as
  imported under Python 3.11 or later. Under older versions, `__annotations__` and
  `__getstate__` are missing attributes and give the configuration error instead of a
  TypeError. Attributes bound on the module at run time by other code are not modelled.
  What the imported classes do when called with the failure handler is outside this model.
- Emissions.UbcBsfFepsFuelbed: every exception the external FEPS emitter raises is one
  error value. Creating the working directories (emissions.py:188-193), which happens
  before the activity check, is assumed to succeed.
- Emissions.PrichardOneillFuelbed and ConsumeEmissions.ConsumeFuelbed do not record
  `emissions_fuel_loadings` (emissions.py:338 and 460). Those loadings come from the fuel
  loadings manager or the configuration, both outside this model.
- Emissions.PrichardOneillFuelbed and ConsumeEmissions.ConsumeFuelbed: the location's
  `area` is always present. The source reads `loc['area']` (emissions.py:330 and 453), so
  a missing area is a KeyError there. The model has no such error path.
- Fires.AllOriginalIdsMember and PlumeMergeFixture.IdsOfTwo: original fire ids are a set,
  so the order of the merged list (`["bbb", "ddd", "eee"]` in test_firemerge.py:731) is
  not modelled.
- PlumeMerge.Mean: the latitude and longitude of a merged record are the plain mean, as
  in the tests, not a weighted one.

## Findings

| source | as written | input that shows it | evidently intended | confidence | as-written member | corrected member |
|---|---|---|---|---|---|---|
| bluesky/growers/persistence.py:216-225 | each key of the snapshot is popped and its value stored under the moved key, in place, so a moved key can overwrite a key still to be moved | hour keys k and k + 24 shifted by one day: the first value overwrites the second, which is then moved again, leaving one entry at k + 48 | every key moved by the difference with its own value | not executed; needs hour keys a whole day apart in one dictionary | HourKeys.KeyCollisionLosesValue | HourKeys.ShiftKeysAt |
| bluesky/modules/consumption.py:409 | the ecoregion check reads the name `model`, which the module never binds (lines 54 and 62 read it too; see the next row for what that does to every run) | a location with fuelbeds and an area but no ecoregion: `NameError` instead of the ecoregion message | the consumption model setting, with crop runs exempt from the ecoregion check | not executed | Consumption.MissingEcoregionNameError | Consumption.ValidateFire |
| bluesky/modules/consumption.py:52-70 | after validation, `run` reads the unbound `model` at line 54, outside the failure handler; the crop branch at line 55 uses `CropConsumption`, which `run` defines only at line 70 | any run whose validation does not re-raise, for example one valid fire: a NameError at line 54, so no fire's consumption is computed; with `model` bound to `crops`, an UnboundLocalError at line 55 | the consumption model setting is read from the configuration, and the crop class is defined before `run` uses it | not executed | Consumption.ValidRunNameError | Consumption.RunRouted |
| bluesky/modules/emissions.py:63-65 | any attribute of the module with the derived class name is called as a model, and only `AttributeError` is caught | model `emissions-base` reaches the abstract `EmissionsBase` class, whose instantiation raises an uncaught TypeError instead of the invalid-model error; `c-o-n-s-u-m-e-_-f-i-e-l-d-s` does the same with an imported list, and `__eq__` ends in an uncaught AttributeError at line 72 (EmissionModels.AsWrittenConsumeFields, EmissionModels.AsWrittenNotImplemented) | only the emissions model classes are accepted; any other name is an invalid model | not executed | EmissionModels.AsWrittenBaseClassTypeError | EmissionModels.ResolveSpec |

Other observations, which are not findings:

- The urbanski hint at `bluesky/modules/emissions.py:68-69` is unreachable, because
  `urbanski` still names a class (EmissionModels.UrbanskiHintUnreachable).
- `_fix_keys` does not fix keys inside a value it renames, so it is not idempotent
  (KeyFixing.SecondPassDiffers).
- With details kept, UBC/BSF FEPS fuelbeds fail at key fixing, because that model writes
  no details (Emissions.UbcBsfFepsDetailsFail).

=== FILE: common.dfy ===
/** Shared building blocks: the error-carrying result types and sums of reals. */
module Common {

  /** A value that may be absent (a missing dictionary key, an unset option). */
  datatype Option<+T> = None | Some(value: T)

  /** The outcome of an operation that can raise: its value, or the error it raises. */
  datatype Result<+T, +E> = Success(value: T) | Failure(error: E) {
    predicate IsFailure() { Failure? }
  }

  /** The sum of a sequence of reals, left to right. */
  function Sum(s: seq<real>): real
  {
    if |s| == 0 then 0.0 else Sum(s[..|s| - 1]) + s[|s| - 1]
  }

  lemma {:induction false} SumAppend(a: seq<real>, b: seq<real>)
    ensures Sum(a + b) == Sum(a) + Sum(b)
    decreases |b|
  {
    if |b| == 0 {
      assert a + b == a;
    } else {
      assert (a + b)[..|a + b| - 1] == a + b[..|b| - 1];
      SumAppend(a, b[..|b| - 1]);
    }
  }

  lemma SumSingle(x: real)
    ensures Sum([x]) == x
  {
    assert [x][..0] == [];
  }

  /** Replacing one element changes the sum by exactly the difference. */
  lemma {:induction false} SumUpdate(s: seq<real>, i: nat, x: real)
    requires i < |s|
    ensures Sum(s[i := x]) == Sum(s) - s[i] + x
  {
    assert s == s[..i] + [s[i]] + s[i + 1..];
    assert s[i := x] == s[..i] + [x] + s[i + 1..];
    SumAppend(s[..i] + [s[i]], s[i + 1..]);
    SumAppend(s[..i], [s[i]]);
    SumAppend(s[..i] + [x], s[i + 1..]);
    SumAppend(s[..i], [x]);
    SumSingle(s[i]);
    SumSingle(x);
  }

  /** Every element multiplied by `c`. */
  function Scale(s: seq<real>, c: real): (r: seq<real>)
    ensures |r| == |s|
    ensures forall i :: 0 <= i < |s| ==> r[i] == s[i] * c
  {
    seq(|s|, i requires 0 <= i < |s| => s[i] * c)
  }

  /** Multiplying every element by a factor multiplies the sum by it. */
  lemma {:induction false} SumScale(s: seq<real>, c: real)
    ensures Sum(Scale(s, c)) == Sum(s) * c
  {
    if |s| > 0 {
      var s' := s[..|s| - 1];
      assert forall k :: 0 <= k < |s'| ==> Scale(s, c)[..|s| - 1][k] == Scale(s', c)[k];
      assert Scale(s, c)[..|s| - 1] == Scale(s', c);
      SumScale(s', c);
    }
  }

  /** When every element of `r` times `t` gives the matching element of `s`, the
      whole sum of `r` times `t` gives the sum of `s`. */
  lemma {:induction false} SumTimesEach(r: seq<real>, s: seq<real>, t: real)
    requires |r| == |s|
    requires forall j :: 0 <= j < |r| ==> r[j] * t == s[j]
    ensures Sum(r) * t == Sum(s)
  {
    if |r| > 0 {
      var n := |r| - 1;
      SumTimesEach(r[..n], s[..n], t);
      Distribute(Sum(r[..n]), r[n], t);
    }
  }

  lemma Distribute(a: real, b: real, t: real)
    ensures (a + b) * t == a * t + b * t
  {
  }

  /** A sum of non-negative reals is non-negative. */
  lemma {:induction false} SumNonNegative(s: seq<real>)
    requires forall i :: 0 <= i < |s| ==> 0.0 <= s[i]
    ensures 0.0 <= Sum(s)
  {
    if |s| > 0 {
      SumNonNegative(s[..|s| - 1]);
    }
  }

  /** The sum of `f` over a sequence, left to right. */
  function SumOf<T>(s: seq<T>, f: T -> real): real
  {
    if |s| == 0 then 0.0 else SumOf(s[..|s| - 1], f) + f(s[|s| - 1])
  }

  lemma {:induction false} SumOfAppend<T>(a: seq<T>, b: seq<T>, f: T -> real)
    ensures SumOf(a + b, f) == SumOf(a, f) + SumOf(b, f)
    decreases |b|
  {
    if |b| == 0 {
      assert a + b == a;
    } else {
      assert (a + b)[..|a + b| - 1] == a + b[..|b| - 1];
      SumOfAppend(a, b[..|b| - 1], f);
    }
  }

  /** Reordering does not change a sum. */
  lemma {:induction false} SumOfPermutation<T>(a: seq<T>, b: seq<T>, f: T -> real)
    requires multiset(a) == multiset(b)
    ensures SumOf(a, f) == SumOf(b, f)
    decreases |a|
  {
    if |a| == 0 {
      assert |b| == |multiset(b)| == 0;
    } else {
      var x := a[|a| - 1];
      var a' := a[..|a| - 1];
      assert a == a' + [x];
      assert multiset(a') == multiset(a) - multiset{x};
      assert x in multiset(b);
      var j :| 0 <= j < |b| && b[j] == x;
      MultisetRemove(b, j);
      SumOfPermutation(a', b[..j] + b[j + 1..], f);
      SumOfRemove(b, j, f);
    }
  }

  lemma MultisetRemove<T>(b: seq<T>, j: nat)
    requires j < |b|
    ensures multiset(b[..j] + b[j + 1..]) == multiset(b) - multiset{b[j]}
  {
    assert b == b[..j] + [b[j]] + b[j + 1..];
  }

  /** Taking out the element at `j` takes its value out of the sum. */
  lemma {:induction false} SumOfRemove<T>(b: seq<T>, j: nat, f: T -> real)
    requires j < |b|
    ensures SumOf(b, f) == SumOf(b[..j] + b[j + 1..], f) + f(b[j])
    decreases |b|
  {
    var n := |b| - 1;
    if j == n {
      assert b[..j] + b[j + 1..] == b[..n];
    } else {
      var b' := b[..n];
      assert b'[j] == b[j];
      SumOfRemove(b', j, f);
      var r := b'[..j] + b'[j + 1..];
      assert b[..j] + b[j + 1..] == r + [b[n]];
      assert (r + [b[n]])[..|r|] == r;
    }
  }

  lemma SumOfSingle<T>(x: T, f: T -> real)
    ensures SumOf([x], f) == f(x)
  {
    assert [x][..0] == [];
  }

  /** Summing a pointwise sum is summing each part. */
  lemma {:induction false} SumOfAdd<T>(s: seq<T>, f: T -> real, g: T -> real, fg: T -> real)
    requires forall i :: 0 <= i < |s| ==> fg(s[i]) == f(s[i]) + g(s[i])
    ensures SumOf(s, fg) == SumOf(s, f) + SumOf(s, g)
  {
    if |s| > 0 {
      SumOfAdd(s[..|s| - 1], f, g, fg);
    }
  }

  /** A sum of pointwise smaller values is smaller. */
  lemma {:induction false} SumOfLe<T>(s: seq<T>, f: T -> real, g: T -> real)
    requires forall i :: 0 <= i < |s| ==> f(s[i]) <= g(s[i])
    ensures SumOf(s, f) <= SumOf(s, g)
  {
    if |s| > 0 {
      SumOfLe(s[..|s| - 1], f, g);
    }
  }

  /** Summing values that are each `c` times their partner's is `c` times
      the partners' sum. */
  lemma {:induction false} SumOfScaled<T, U>(s: seq<T>, t: seq<U>, f: T -> real, g: U -> real, c: real)
    requires |s| == |t|
    requires forall i :: 0 <= i < |s| ==> g(t[i]) == f(s[i]) * c
    ensures SumOf(t, g) == SumOf(s, f) * c
  {
    if |s| > 0 {
      SumOfScaled(s[..|s| - 1], t[..|t| - 1], f, g, c);
    }
  }

  /** `f` applied to every element. */
  function Project<T>(s: seq<T>, f: T -> real): (r: seq<real>)
    ensures |r| == |s|
    ensures forall i :: 0 <= i < |s| ==> r[i] == f(s[i])
  {
    seq(|s|, i requires 0 <= i < |s| => f(s[i]))
  }

  /** `SumOf` is `Sum` of the projected sequence. */
  lemma {:induction false} SumOfIsSum<T>(s: seq<T>, f: T -> real)
    ensures SumOf(s, f) == Sum(Project(s, f))
  {
    if |s| > 0 {
      var s' := s[..|s| - 1];
      assert forall k :: 0 <= k < |s'| ==> Project(s, f)[..|s| - 1][k] == Project(s', f)[k];
      assert Project(s, f)[..|s| - 1] == Project(s', f);
      SumOfIsSum(s', f);
    }
  }

  /** Bounds of a real between two multiples, and of `Floor` as such a bound. */
  lemma ScaleBetween(x: real, s: real, k0: real, k1: real)
    requires s > 0.0 && k0 <= x / s < k1
    ensures k0 * s <= x < k1 * s
  {
    var q := x / s;
    assert q * s == x;
    assert (q - k0) * s >= 0.0;
    assert (k1 - q) * s > 0.0;
    assert (k1 - q) * s == k1 * s - q * s;
    assert (q - k0) * s == q * s - k0 * s;
  }

  lemma FloorBounds(x: real, s: real)
    requires s > 0.0
    ensures ((x / s).Floor as real) * s <= x
    ensures x < (((x / s).Floor + 1) as real) * s
  {
    ScaleBetween(x, s, (x / s).Floor as real, ((x / s).Floor + 1) as real);
  }

  /** A quotient times its divisor gives back the dividend. */
  lemma DivTimes(q: real, x: real, n: real)
    requires n != 0.0 && q == x / n
    ensures q * n == x
  {
  }

  /** No element occurs twice. */
  predicate Distinct<T(==)>(s: seq<T>)
  {
    forall i, j :: 0 <= i < j < |s| ==> s[i] != s[j]
  }

  lemma {:induction false} DistinctCount<T>(s: seq<T>, x: T)
    requires Distinct(s)
    ensures multiset(s)[x] == if x in s then 1 else 0
  {
    if |s| > 0 {
      var s' := s[..|s| - 1];
      assert s == s' + [s[|s| - 1]];
      DistinctCount(s', x);
      assert x in s <==> x in s' || x == s[|s| - 1];
    }
  }

  /** Two duplicate-free sequences with the same members are permutations of each other. */
  lemma SameMembersPermutation<T>(a: seq<T>, b: seq<T>)
    requires Distinct(a) && Distinct(b)
    requires forall x :: x in a <==> x in b
    ensures multiset(a) == multiset(b)
  {
    forall x
      ensures multiset(a)[x] == multiset(b)[x]
    {
      DistinctCount(a, x);
      DistinctCount(b, x);
    }
  }

  /** All values when every result succeeded, otherwise the first error. */
  function Collect<T, E>(rs: seq<Result<T, E>>): (r: Result<seq<T>, E>)
    ensures r.Success? ==> |r.value| == |rs| && forall i :: 0 <= i < |rs| ==> rs[i] == Success(r.value[i])
    ensures r.Failure? <==> exists i :: 0 <= i < |rs| && rs[i].Failure?
    ensures r.Failure? ==> exists i :: 0 <= i < |rs| && rs[i] == Failure(r.error) && forall j :: 0 <= j < i ==> rs[j].Success?
  {
    if |rs| == 0 then Success([])
    else
      var pre := Collect(rs[..|rs| - 1]);
      var last := rs[|rs| - 1];
      assert forall i :: 0 <= i < |rs| - 1 ==> rs[..|rs| - 1][i] == rs[i];
      if pre.Failure? then pre
      else if last.Failure? then Failure(last.error)
      else Success(pre.value + [last.value])
  }

  /** Two maps with the same keys and the same value at each key are equal. */
  lemma SameMaps<K, V>(r: map<K, V>, m: map<K, V>)
    requires forall k :: k in r <==> k in m
    requires forall k :: k in m ==> r[k] == m[k]
    ensures r == m
  {
    forall k
      ensures k in r.Keys <==> k in m.Keys
    {
    }
    assert r.Keys == m.Keys;
    forall k | k in r.Keys
      ensures r[k] == m[k]
    {
    }
  }

  /** A dictionary as Python keeps it: key/value pairs in insertion order. */
  type Dict<K, V> = seq<(K, V)>

  function DictKeys<K, V>(d: Dict<K, V>): (ks: seq<K>)
    ensures |ks| == |d| && forall i :: 0 <= i < |d| ==> ks[i] == d[i].0
  {
    seq(|d|, i requires 0 <= i < |d| => d[i].0)
  }

  /** Position of a key, if present. */
  function Find<K(==), V>(d: Dict<K, V>, k: K): (r: Option<nat>)
    ensures r.Some? ==> r.value < |d| && d[r.value].0 == k && forall j :: 0 <= j < r.value ==> d[j].0 != k
    ensures r.None? ==> forall j :: 0 <= j < |d| ==> d[j].0 != k
  {
    if |d| == 0 then None
    else if d[0].0 == k then Some(0)
    else match Find(d[1..], k)
      case None => None
      case Some(i) => Some(i + 1)
  }

  /** `d.pop(k)`: the value and the dictionary without that entry. */
  function Pop<K(==), V>(d: Dict<K, V>, k: K): Option<(V, Dict<K, V>)>
  {
    match Find(d, k)
    case None => None
    case Some(i) => Some((d[i].1, d[..i] + d[i + 1..]))
  }

  /** `d[k] = v`: overwrite in place when present, otherwise append. */
  function Store<K(==), V>(d: Dict<K, V>, k: K, v: V): Dict<K, V>
  {
    match Find(d, k)
    case None => d + [(k, v)]
    case Some(i) => d[i := (k, v)]
  }

  /** `d.get(k)`: the value under `k`, if present. */
  function Lookup<K(==), V>(d: Dict<K, V>, k: K): Option<V>
  {
    if |d| == 0 then None
    else if d[0].0 == k then Some(d[0].1)
    else Lookup(d[1..], k)
  }

  /** A lookup finds the value at the key's first position. */
  lemma {:induction false} LookupFind<K, V>(d: Dict<K, V>, k: K)
    ensures Lookup(d, k) == match Find(d, k) case None => None case Some(i) => Some(d[i].1)
  {
    if |d| > 0 && d[0].0 != k {
      LookupFind(d[1..], k);
    }
  }

  /** No key occurs twice, as in every Python dictionary. */
  predicate DistinctKeys<K(==), V>(d: Dict<K, V>)
  {
    forall i, j :: 0 <= i < j < |d| ==> d[i].0 != d[j].0
  }

  /** A key is present exactly when some entry has it. */
  lemma {:induction false} LookupNone<K, V>(d: Dict<K, V>, x: K)
    ensures Lookup(d, x).None? <==> forall e :: e in d ==> e.0 != x
  {
    if |d| > 0 {
      LookupNone(d[1..], x);
      assert forall e :: e in d ==> e == d[0] || e in d[1..];
    }
  }

  /** With distinct keys the first key is absent from the rest, whose keys
      stay distinct. */
  lemma HeadKeyNotInTail<K, V>(d: Dict<K, V>)
    requires DistinctKeys(d) && |d| > 0
    ensures Lookup(d[1..], d[0].0).None?
    ensures DistinctKeys(d[1..])
  {
    LookupNone(d[1..], d[0].0);
    forall e | e in d[1..]
      ensures e.0 != d[0].0
    {
      var j :| 0 <= j < |d[1..]| && d[1..][j] == e;
      assert d[j + 1] == e;
    }
  }

  /** A value found is the value of an entry with that key. */
  lemma {:induction false} LookupIn<K, V>(d: Dict<K, V>, x: K)
    requires Lookup(d, x).Some?
    ensures (x, Lookup(d, x).value) in d
  {
    if d[0].0 != x {
      LookupIn(d[1..], x);
    }
  }

  /** With distinct keys every entry is what a lookup of its key finds. */
  lemma {:induction false} LookupEntry<K, V>(d: Dict<K, V>, e: (K, V))
    requires DistinctKeys(d) && e in d
    ensures Lookup(d, e.0) == Some(e.1)
  {
    if d[0] != e {
      assert e in d[1..];
      assert d[0].0 != e.0 by {
        var j :| 0 <= j < |d| && d[j] == e;
        assert j > 0;
      }
      LookupEntry(d[1..], e);
    }
  }

  lemma StoreCons<K, V>(d: Dict<K, V>, k: K, v: V)
    requires |d| > 0 && d[0].0 != k
    ensures Store(d, k, v) == [d[0]] + Store(d[1..], k, v)
  {
    match Find(d[1..], k)
    case None =>
      assert d == [d[0]] + d[1..];
    case Some(i) =>
      assert Find(d, k) == Some(i + 1);
      assert d[i + 1 := (k, v)] == [d[0]] + d[1..][i := (k, v)];
  }

  /** Storing a value makes it the one found under its key and hides nothing else. */
  lemma {:induction false} LookupStore<K, V>(d: Dict<K, V>, k: K, v: V, x: K)
    ensures Lookup(Store(d, k, v), x) == if x == k then Some(v) else Lookup(d, x)
  {
    if |d| == 0 {
    } else if d[0].0 == k {
      assert Store(d, k, v) == d[0 := (k, v)];
      assert d[0 := (k, v)][1..] == d[1..];
    } else {
      StoreCons(d, k, v);
      assert ([d[0]] + Store(d[1..], k, v))[1..] == Store(d[1..], k, v);
      LookupStore(d[1..], k, v, x);
    }
  }

  /** Every entry after a store is an old entry or the stored one. */
  lemma StoreParts<K, V>(d: Dict<K, V>, k: K, v: V)
    ensures forall e :: e in Store(d, k, v) ==> e in d || e == (k, v)
  {
    match Find(d, k)
    case None =>
    case Some(i) =>
      forall e | e in Store(d, k, v)
        ensures e in d || e == (k, v)
      {
        var j :| 0 <= j < |d| && d[i := (k, v)][j] == e;
        if j != i {
          assert d[j] == e;
        }
      }
  }

  /** Storing keeps keys distinct. */
  lemma StoreDistinct<K, V>(d: Dict<K, V>, k: K, v: V)
    requires DistinctKeys(d)
    ensures DistinctKeys(Store(d, k, v))
  {
    match Find(d, k)
    case None =>
      var r := d + [(k, v)];
      forall i, j | 0 <= i < j < |r|
        ensures r[i].0 != r[j].0
      {
        if j == |d| {
          assert r[i] == d[i];
        }
      }
    case Some(i) =>
  }

  /** Storing back the value a key holds gives back the dictionary. */
  lemma StoreSame<K, V>(d: Dict<K, V>, k: K)
    requires Lookup(d, k).Some?
    ensures Store(d, k, Lookup(d, k).value) == d
  {
    LookupFind(d, k);
    var i := Find(d, k).value;
    assert d[i := (k, d[i].1)] == d;
  }

  /** Storing twice under one key keeps only the second value. */
  lemma StoreTwice<K, V>(d: Dict<K, V>, k: K, v: V, w: V)
    ensures Store(Store(d, k, v), k, w) == Store(d, k, w)
  {
    match Find(d, k)
    case None =>
      var e := d + [(k, v)];
      assert Find(e, k) == Some(|d|) by {
        FindAppend(d, k, v);
      }
      assert e[|d| := (k, w)] == d + [(k, w)];
    case Some(i) =>
      FindUpdate(d, i, k, v);
      assert d[i := (k, v)][i := (k, w)] == d[i := (k, w)];
  }

  lemma {:induction false} FindAppend<K, V>(d: Dict<K, V>, k: K, v: V)
    requires Find(d, k).None?
    ensures Find(d + [(k, v)], k) == Some(|d|)
  {
    if |d| > 0 {
      assert (d + [(k, v)])[1..] == d[1..] + [(k, v)];
      FindAppend(d[1..], k, v);
    }
  }

  lemma {:induction false} FindUpdate<K, V>(d: Dict<K, V>, i: nat, k: K, v: V)
    requires Find(d, k) == Some(i)
    ensures Find(d[i := (k, v)], k) == Some(i)
  {
    if i > 0 {
      assert d[i := (k, v)][1..] == d[1..][i - 1 := (k, v)];
      FindUpdate(d[1..], i - 1, k, v);
    }
  }

  /** The dictionary with `f` applied to every value, keys and order kept. */
  function MapValues<K, V, W>(d: Dict<K, V>, f: V -> W): (r: Dict<K, W>)
    ensures |r| == |d| && forall i :: 0 <= i < |d| ==> r[i] == (d[i].0, f(d[i].1))
  {
    seq(|d|, i requires 0 <= i < |d| => (d[i].0, f(d[i].1)))
  }

  lemma {:induction false} LookupMapValues<K, V, W>(d: Dict<K, V>, f: V -> W, k: K)
    ensures Lookup(MapValues(d, f), k) == match Lookup(d, k) case None => None case Some(v) => Some(f(v))
  {
    if |d| > 0 && d[0].0 != k {
      assert MapValues(d, f)[1..] == MapValues(d[1..], f);
      LookupMapValues(d[1..], f, k);
    }
  }

  /** Find looks at keys only: two dictionaries with the same keys in the same
      order find every key at the same place. */
  lemma {:induction false} FindSameKeys<K, V>(d: Dict<K, V>, e: Dict<K, V>, x: K)
    requires |d| == |e| && forall j :: 0 <= j < |d| ==> d[j].0 == e[j].0
    ensures Find(d, x) == Find(e, x)
  {
    if |d| > 0 && d[0].0 != x {
      FindSameKeys(d[1..], e[1..], x);
    }
  }

  /** Stores under two different keys already present commute. */
  lemma StoreCommute<K, V>(d: Dict<K, V>, k1: K, v1: V, k2: K, v2: V)
    requires Lookup(d, k1).Some? && Lookup(d, k2).Some? && k1 != k2
    ensures Store(Store(d, k1, v1), k2, v2) == Store(Store(d, k2, v2), k1, v1)
  {
    LookupFind(d, k1);
    LookupFind(d, k2);
    var i := Find(d, k1).value;
    var j := Find(d, k2).value;
    FindSameKeys(d[i := (k1, v1)], d, k2);
    FindSameKeys(d[j := (k2, v2)], d, k1);
    assert d[i := (k1, v1)][j := (k2, v2)] == d[j := (k2, v2)][i := (k1, v1)];
  }

  lemma PopCons<K, V>(d: Dict<K, V>, k: K)
    requires |d| > 0 && d[0].0 != k
    ensures Pop(d, k) == match Pop(d[1..], k)
      case None => None
      case Some(p) => Some((p.0, [d[0]] + p.1))
  {
    match Find(d[1..], k)
    case None =>
    case Some(i) =>
      assert Find(d, k) == Some(i + 1);
      assert d[..i + 1] + d[i + 2..] == [d[0]] + (d[1..][..i] + d[1..][i + 1..]);
  }

  /** A pop succeeds exactly when the key is present; it yields the value a lookup
      finds and leaves every other key as it was. */
  lemma {:induction false} LookupPop<K, V>(d: Dict<K, V>, k: K, x: K)
    ensures Pop(d, k).Some? <==> Lookup(d, k).Some?
    ensures Pop(d, k).Some? ==> Pop(d, k).value.0 == Lookup(d, k).value
    ensures Pop(d, k).Some? && x != k ==> Lookup(Pop(d, k).value.1, x) == Lookup(d, x)
  {
    if |d| == 0 {
    } else if d[0].0 == k {
      assert d[..0] + d[1..] == d[1..];
    } else {
      PopCons(d, k);
      LookupPop(d[1..], k, x);
    }
  }

  /** Removing one entry keeps the remaining keys distinct. */
  lemma RemoveAtDistinct<K, V>(d: Dict<K, V>, i: nat)
    requires DistinctKeys(d) && i < |d|
    ensures DistinctKeys(d[..i] + d[i + 1..])
  {
    var r := d[..i] + d[i + 1..];
    forall a, b | 0 <= a < b < |r|
      ensures r[a].0 != r[b].0
    {
      var a' := if a < i then a else a + 1;
      var b' := if b < i then b else b + 1;
      assert r[a] == d[a'];
      assert r[b] == d[b'];
    }
  }

  /** Popping keeps keys distinct and removes the key altogether. */
  lemma PopDistinct<K, V>(d: Dict<K, V>, k: K)
    requires DistinctKeys(d) && Pop(d, k).Some?
    ensures DistinctKeys(Pop(d, k).value.1)
    ensures Lookup(Pop(d, k).value.1, k).None?
    ensures forall e :: e in Pop(d, k).value.1 ==> e in d
  {
    var i := Find(d, k).value;
    var r := d[..i] + d[i + 1..];
    RemoveAtDistinct(d, i);
    forall e | e in r
      ensures e in d && e.0 != k
    {
      var j :| 0 <= j < |r| && r[j] == e;
      if j < i {
        assert d[j] == e;
      } else {
        assert d[j + 1] == e;
      }
    }
    LookupNone(r, k);
  }

  /** A pop takes out the value of an entry with that key and keeps only old entries. */
  lemma PopParts<K, V>(d: Dict<K, V>, k: K)
    requires Pop(d, k).Some?
    ensures (k, Pop(d, k).value.0) in d
    ensures forall e :: e in Pop(d, k).value.1 ==> e in d
  {
    var i := Find(d, k).value;
    assert d[i] == (k, d[i].1);
    forall e | e in d[..i] + d[i + 1..]
      ensures e in d
    {
      if e in d[..i] {
        assert e in d[..i] + d[i..];
        assert d[..i] + d[i..] == d;
      } else {
        assert e in d[i..];
        assert d[i..] == d[i..];
        assert d[..i] + d[i..] == d;
      }
    }
  }

  /** With distinct keys the key at position `i` is found at `i`. */
  lemma FindDistinct<K, V>(d: Dict<K, V>, i: nat)
    requires DistinctKeys(d) && i < |d|
    ensures Find(d, d[i].0) == Some(i)
  {
  }

  /** `s` is an interleaving of `a` and `b`: each element of `s` goes, in
      order, to one of the two. */
  predicate Interleaves<T(==)>(a: seq<T>, b: seq<T>, s: seq<T>)
    decreases |s|
  {
    if |s| == 0 then a == [] && b == []
    else
      (|a| > 0 && a[0] == s[0] && Interleaves(a[1..], b, s[1..])) ||
      (|b| > 0 && b[0] == s[0] && Interleaves(a, b[1..], s[1..]))
  }

  /** An interleaving keeps every element: the two parts together are a
      permutation of the whole. */
  lemma {:induction false} InterleavesMultiset<T>(a: seq<T>, b: seq<T>, s: seq<T>)
    requires Interleaves(a, b, s)
    ensures multiset(a) + multiset(b) == multiset(s)
    ensures |a| + |b| == |s|
    decreases |s|
  {
    if |s| > 0 {
      assert s == [s[0]] + s[1..];
      if |a| > 0 && a[0] == s[0] && Interleaves(a[1..], b, s[1..]) {
        InterleavesMultiset(a[1..], b, s[1..]);
        assert a == [a[0]] + a[1..];
      } else {
        InterleavesMultiset(a, b[1..], s[1..]);
        assert b == [b[0]] + b[1..];
      }
    }
  }
}

=== FILE: consumeem.dfy ===
/** The Consume emissions model's restructuring of consume's results
    (bluesky/modules/emissions.py, `Consume`): consume reports emissions per
    species and phase and details per species, fuel category and phase; the
    model stores them per phase and species, and its details per category,
    phase and species, keeping only the configured species. */
module ConsumeEmissions {
  import opened Common
  import opened EmissionTrees
  import opened EmissionModels
  import opened Emissions

  /** ASCII upper-casing, as `str.upper` does on the keys that occur here. */
  function Upper(s: string): (u: string)
    ensures |u| == |s| && forall i :: 0 <= i < |s| ==> u[i] == UpperChar(s[i])
  {
    seq(|s|, i requires 0 <= i < |s| => UpperChar(s[i]))
  }

  /** `self.species and [e.upper() for e in self.species]`. */
  function SpeciesFilter(species: seq<string>): (f: seq<string>)
    ensures |f| == |species| && forall i :: 0 <= i < |species| ==> f[i] == Upper(species[i])
  {
    seq(|species|, i requires 0 <= i < |species| => Upper(species[i]))
  }

  /** The key a consume species is stored under. */
  function SpeciesKey(k: string): string
  {
    if k == "pm25" then "PM2.5" else Upper(k)
  }

  /** `not self.species or upper_k in self.species`: an empty filter keeps everything. */
  predicate Keeps(filter: seq<string>, key: string)
  {
    |filter| == 0 || key in filter
  }

  /** The stored key of every kept species is upper case; `pm25` is stored as `PM2.5`. */
  lemma SpeciesKeyUpper(k: string)
    ensures SpeciesKey(k) == "PM2.5" || forall i :: 0 <= i < |SpeciesKey(k)| ==> !IsLowerChar(SpeciesKey(k)[i])
    ensures k == "pm25" ==> SpeciesKey(k) == "PM2.5"
  {
  }

  /** The filter keeps a stored key exactly when some configured species,
      in whatever case it was written, upper-cases to it; configuring the
      species in upper case gives the same filter. */
  lemma FilterIgnoresCase(species: seq<string>, key: string)
    ensures Keeps(SpeciesFilter(species), key) <==> |species| == 0 || exists s :: s in species && Upper(s) == key
    ensures SpeciesFilter(SpeciesFilter(species)) == SpeciesFilter(species)
  {
    var f := SpeciesFilter(species);
    if s :| s in species && Upper(s) == key {
      var i :| 0 <= i < |species| && species[i] == s;
      assert f[i] == key;
    }
    if key in f {
      var i :| 0 <= i < |f| && f[i] == key;
      assert species[i] in species;
    }
    forall i | 0 <= i < |species|
      ensures Upper(f[i]) == f[i]
    {
      UpperIdempotent(species[i]);
    }
  }

  lemma UpperIdempotent(s: string)
    ensures Upper(Upper(s)) == Upper(s)
  {
    forall i | 0 <= i < |s|
      ensures UpperChar(UpperChar(s[i])) == UpperChar(s[i])
    {
      CaseInverse(s[i]);
    }
  }

  // ---------------------------------------------------------------------
  // Emissions: species > phase  to  phase > species
  // ---------------------------------------------------------------------

  /** Consume's emissions: species (and `stratum`) to phase to value. */
  type SpeciesPhases = Dict<string, Dict<string, Tree>>

  /** The transposed emissions: phase to species to value. */
  type PhaseSpecies = Dict<string, Dict<string, Tree>>

  /** `{f: {} for f in CONSUME_FIELDS}`. */
  function EmptyPhases(fields: seq<string>): (em: PhaseSpecies)
    ensures DistinctKeys(em)
    ensures forall p :: Lookup(em, p).Some? <==> p in fields
    ensures forall e :: e in em ==> e.1 == []
  {
    if |fields| == 0 then []
    else
      var em := EmptyPhases(fields[..|fields| - 1]);
      var f := fields[|fields| - 1];
      assert forall p :: p in fields <==> p in fields[..|fields| - 1] || p == f by {
        assert fields == fields[..|fields| - 1] + [f];
      }
      StoreDistinct(em, f, []);
      StoreParts(em, f, []);
      forall p
        ensures Lookup(Store(em, f, []), p).Some? <==> p in fields
      {
        LookupStore(em, f, [], p);
      }
      Store(em, f, [])
  }

  /** With distinct fields, the phases are the fields in their order. */
  lemma {:induction false} EmptyPhasesKeys(fields: seq<string>)
    requires Distinct(fields)
    ensures DictKeys(EmptyPhases(fields)) == fields
  {
    if |fields| > 0 {
      var init := fields[..|fields| - 1];
      var f := fields[|fields| - 1];
      assert Distinct(init);
      EmptyPhasesKeys(init);
      var em := EmptyPhases(init);
      assert f !in init;
      LookupFind(em, f);
      assert Find(em, f).None?;
      assert EmptyPhases(fields) == em + [(f, [])];
      assert fields == init + [f];
    }
  }

  /** Whether species entry `s` writes phase `p` under `key`; the emissions
      loop skips the `stratum` entry, the details loop has none to skip. */
  predicate Writes(filter: seq<string>, skipStratum: bool, s: (string, Dict<string, Tree>), p: string, key: string)
  {
    (skipStratum ==> s.0 != "stratum") && Keeps(filter, SpeciesKey(s.0)) && SpeciesKey(s.0) == key && Lookup(s.1, p).Some?
  }

  /** The value the last writer of phase `p` under `key` wrote, if any: a later
      writer overwrites an earlier one. */
  function LastWritten(filter: seq<string>, skipStratum: bool, r: SpeciesPhases, p: string, key: string): (v: Option<Tree>)
    decreases |r|
  {
    if |r| == 0 then None
    else
      match LastWritten(filter, skipStratum, r[1..], p, key)
      case Some(w) => Some(w)
      case None => if Writes(filter, skipStratum, r[0], p, key) then Lookup(r[0].1, p) else None
  }

  /** Something is written exactly when some entry writes. */
  lemma {:induction false} LastWrittenSome(filter: seq<string>, skipStratum: bool, r: SpeciesPhases, p: string, key: string)
    ensures LastWritten(filter, skipStratum, r, p, key).Some? <==>
      exists i :: 0 <= i < |r| && Writes(filter, skipStratum, r[i], p, key)
    decreases |r|
  {
    if |r| > 0 {
      LastWrittenSome(filter, skipStratum, r[1..], p, key);
      assert forall i :: 1 <= i < |r| ==> r[1..][i - 1] == r[i];
      if exists i :: 0 <= i < |r| && Writes(filter, skipStratum, r[i], p, key) {
        var i :| 0 <= i < |r| && Writes(filter, skipStratum, r[i], p, key);
        if i > 0 {
          assert Writes(filter, skipStratum, r[1..][i - 1], p, key);
        }
      }
    }
  }

  /** What is written is the value of the last entry that writes: the entry
      `i` that writes, with no writer after it. */
  lemma {:induction false} LastWrittenIsLast(filter: seq<string>, skipStratum: bool, r: SpeciesPhases, p: string, key: string, i: nat)
    requires i < |r| && Writes(filter, skipStratum, r[i], p, key)
    requires forall j :: i < j < |r| ==> !Writes(filter, skipStratum, r[j], p, key)
    ensures LastWritten(filter, skipStratum, r, p, key) == Lookup(r[i].1, p)
    decreases |r|
  {
    assert forall j :: 1 <= j < |r| ==> r[1..][j - 1] == r[j];
    if i > 0 {
      LastWrittenIsLast(filter, skipStratum, r[1..], p, key, i - 1);
    } else {
      LastWrittenSome(filter, skipStratum, r[1..], p, key);
      assert LastWritten(filter, skipStratum, r[1..], p, key).None?;
    }
  }

  /** `for p in r[k]: emissions[p][K] = r[k][p]`; a phase not among the fields is a KeyError. */
  function WritePhases(em: PhaseSpecies, key: string, phases: Dict<string, Tree>): (r: Result<PhaseSpecies, EmissionsError>)
    ensures r.Success? <==> forall e :: e in phases ==> Lookup(em, e.0).Some?
    ensures r.Failure? ==> exists e :: e in phases && Lookup(em, e.0).None? && r.error == KeyError([e.0])
    decreases |phases|
  {
    if |phases| == 0 then Success(em)
    else
      var p := phases[0].0;
      assert forall e :: e in phases <==> e == phases[0] || e in phases[1..] by {
        assert phases == [phases[0]] + phases[1..];
      }
      match Lookup(em, p)
      case None => Failure(KeyError([p]))
      case Some(inner) =>
        var em' := Store(em, p, Store(inner, key, phases[0].1));
        forall x
          ensures Lookup(em', x).Some? <==> Lookup(em, x).Some?
        {
          LookupStore(em, p, Store(inner, key, phases[0].1), x);
        }
        WritePhases(em', key, phases[1..])
  }

  /** Storing under a present key keeps the key sequence. */
  lemma StoreKeepsKeys<V>(d: Dict<string, V>, k: string, v: V)
    requires Lookup(d, k).Some?
    ensures DictKeys(Store(d, k, v)) == DictKeys(d)
  {
    LookupFind(d, k);
  }

  /** Writing one species' phases keeps the phase keys, and sets exactly the
      written phases of that species. */
  lemma {:induction false} WritePhasesSpec(em: PhaseSpecies, key: string, phases: Dict<string, Tree>, p: string, key2: string)
    requires DistinctKeys(phases)
    requires WritePhases(em, key, phases).Success?
    ensures var r := WritePhases(em, key, phases).value;
      DictKeys(r) == DictKeys(em) &&
      (Lookup(r, p).Some? <==> Lookup(em, p).Some?) &&
      (Lookup(em, p).Some? ==>
        Lookup(Lookup(r, p).value, key2) ==
          if key2 == key && Lookup(phases, p).Some? then Lookup(phases, p) else Lookup(Lookup(em, p).value, key2))
    decreases |phases|
  {
    if |phases| > 0 {
      var q := phases[0].0;
      var inner := Lookup(em, q).value;
      var em' := Store(em, q, Store(inner, key, phases[0].1));
      StoreKeepsKeys(em, q, Store(inner, key, phases[0].1));
      LookupStore(em, q, Store(inner, key, phases[0].1), p);
      assert DistinctKeys(phases[1..]);
      WritePhasesSpec(em', key, phases[1..], p, key2);
      LookupStore(inner, key, phases[0].1, key2);
      if p == q {
        LookupNone(phases[1..], q);
        assert forall e :: e in phases[1..] ==> e.0 != q by {
          forall e | e in phases[1..]
            ensures e.0 != q
          {
            var j :| 0 <= j < |phases[1..]| && phases[1..][j] == e;
            assert phases[j + 1] == e;
          }
        }
      }
    }
  }

  /** The transpose loop over the species, in order. */
  function TransposeFrom(filter: seq<string>, em: PhaseSpecies, r: SpeciesPhases): (res: Result<PhaseSpecies, EmissionsError>)
    ensures res.Failure? ==> res.error.KeyError?
    decreases |r|
  {
    if |r| == 0 then Success(em)
    else
      var k := r[0].0;
      if k == "stratum" || !Keeps(filter, SpeciesKey(k)) then TransposeFrom(filter, em, r[1..])
      else
        match WritePhases(em, SpeciesKey(k), r[0].1)
        case Failure(err) => Failure(err)
        case Success(em') => TransposeFrom(filter, em', r[1..])
  }

  /** Consume's emissions per phase and species: every field present, each
      holding the kept species' values for that phase. */
  function Transpose(fields: seq<string>, filter: seq<string>, r: SpeciesPhases): Result<PhaseSpecies, EmissionsError>
  {
    TransposeFrom(filter, EmptyPhases(fields), r)
  }

  /** Python dictionaries: no key twice at any level. */
  predicate WellFormed(r: SpeciesPhases)
  {
    DistinctKeys(r) && forall e :: e in r ==> DistinctKeys(e.1)
  }

  /** A kept species has a phase outside the fields. */
  predicate StrayPhase(fields: seq<string>, filter: seq<string>, r: SpeciesPhases)
  {
    exists s, e :: s in r && s.0 != "stratum" && Keeps(filter, SpeciesKey(s.0)) && e in s.1 && e.0 !in fields
  }

  lemma StrayPhaseCons(fields: seq<string>, filter: seq<string>, r: SpeciesPhases)
    requires |r| > 0
    ensures StrayPhase(fields, filter, r) <==>
      (r[0].0 != "stratum" && Keeps(filter, SpeciesKey(r[0].0)) && exists e :: e in r[0].1 && e.0 !in fields) ||
      StrayPhase(fields, filter, r[1..])
  {
    assert forall x :: x in r <==> x == r[0] || x in r[1..] by {
      assert r == [r[0]] + r[1..];
    }
  }

  /** Phases the transpose writes keep the field set. */
  lemma WritePhasesFields(fields: seq<string>, em: PhaseSpecies, key: string, phases: Dict<string, Tree>)
    requires DistinctKeys(phases)
    requires forall x :: Lookup(em, x).Some? <==> x in fields
    requires WritePhases(em, key, phases).Success?
    ensures forall x :: Lookup(WritePhases(em, key, phases).value, x).Some? <==> x in fields
  {
    forall x
      ensures Lookup(WritePhases(em, key, phases).value, x).Some? <==> x in fields
    {
      WritePhasesSpec(em, key, phases, x, "");
    }
  }

  /** The transpose fails exactly when a kept species has a stray phase. */
  lemma {:induction false} TransposeFromFails(fields: seq<string>, filter: seq<string>, em: PhaseSpecies, r: SpeciesPhases)
    requires forall e :: e in r ==> DistinctKeys(e.1)
    requires forall x :: Lookup(em, x).Some? <==> x in fields
    ensures TransposeFrom(filter, em, r).Failure? <==> StrayPhase(fields, filter, r)
    decreases |r|
  {
    if |r| > 0 {
      var s := r[0];
      assert forall e :: e in r[1..] ==> e in r;
      StrayPhaseCons(fields, filter, r);
      if s.0 == "stratum" || !Keeps(filter, SpeciesKey(s.0)) {
        TransposeFromFails(fields, filter, em, r[1..]);
      } else {
        assert s in r;
        var w := WritePhases(em, SpeciesKey(s.0), s.1);
        if w.Success? {
          WritePhasesFields(fields, em, SpeciesKey(s.0), s.1);
          TransposeFromFails(fields, filter, w.value, r[1..]);
        } else {
          var e :| e in s.1 && Lookup(em, e.0).None? && w.error == KeyError([e.0]);
        }
      }
    }
  }

  /** A successful transpose keeps the phase keys and stores under each
      species key of each phase what the last writer wrote. */
  lemma {:induction false} TransposeFromValues(fields: seq<string>, filter: seq<string>, em: PhaseSpecies, r: SpeciesPhases, p: string, key: string)
    requires forall e :: e in r ==> DistinctKeys(e.1)
    requires forall x :: Lookup(em, x).Some? <==> x in fields
    requires TransposeFrom(filter, em, r).Success?
    ensures var res := TransposeFrom(filter, em, r).value;
      DictKeys(res) == DictKeys(em) &&
      (Lookup(res, p).Some? <==> Lookup(em, p).Some?) &&
      (Lookup(em, p).Some? ==>
        Lookup(Lookup(res, p).value, key) ==
          match LastWritten(filter, true, r, p, key)
          case Some(v) => Some(v)
          case None => Lookup(Lookup(em, p).value, key))
    decreases |r|
  {
    if |r| > 0 {
      var s := r[0];
      assert forall e :: e in r[1..] ==> e in r;
      if s.0 == "stratum" || !Keeps(filter, SpeciesKey(s.0)) {
        TransposeFromValues(fields, filter, em, r[1..], p, key);
      } else {
        assert s in r;
        var em' := WritePhases(em, SpeciesKey(s.0), s.1).value;
        WritePhasesFields(fields, em, SpeciesKey(s.0), s.1);
        WritePhasesSpec(em, SpeciesKey(s.0), s.1, p, key);
        TransposeFromValues(fields, filter, em', r[1..], p, key);
      }
    }
  }

  /** The transpose fails, with a KeyError, exactly when a kept species has a
      phase that is not a field; otherwise every field is a phase of the
      result, in field order, and phase `p` holds under `key` what the last
      kept species stored under `key` reported for `p`. */
  lemma TransposeSpec(fields: seq<string>, filter: seq<string>, r: SpeciesPhases, p: string, key: string)
    requires WellFormed(r)
    ensures var res := Transpose(fields, filter, r);
      (res.Failure? <==> StrayPhase(fields, filter, r)) &&
      (res.Success? ==>
        DictKeys(res.value) == DictKeys(EmptyPhases(fields)) &&
        (Distinct(fields) ==> DictKeys(res.value) == fields) &&
        (Lookup(res.value, p).Some? <==> p in fields) &&
        (p in fields ==> Lookup(Lookup(res.value, p).value, key) == LastWritten(filter, true, r, p, key)))
  {
    var em := EmptyPhases(fields);
    TransposeFromFails(fields, filter, em, r);
    var res := Transpose(fields, filter, r);
    if res.Success? {
      TransposeFromValues(fields, filter, em, r, p, key);
      LookupFind(res.value, p);
      LookupFind(em, p);
      FindSameKeys(res.value, em, p);
      if p in fields {
        LookupIn(em, p);
      }
      if Distinct(fields) {
        EmptyPhasesKeys(fields);
      }
    }
  }

  // ---------------------------------------------------------------------
  // Details: species > category > phase  to  category > phase > species
  // ---------------------------------------------------------------------

  /** Consume's `stratum` details: species to fuel category to phase to value. */
  type Strata = Dict<string, Dict<string, Dict<string, Tree>>>

  /** The restructured details under `summary`: category to phase to species to value. */
  type Summary = Dict<string, Dict<string, Dict<string, Tree>>>

  /** `d.get(k, {})`. */
  function GetOrEmpty<W>(d: Dict<string, Dict<string, W>>, k: string): (v: Dict<string, W>)
    ensures Lookup(d, k).Some? ==> v == Lookup(d, k).value
    ensures Lookup(d, k).None? ==> v == []
  {
    match Lookup(d, k)
    case None => []
    case Some(v) => v
  }

  /** `d[p] = d.get(p, {}); d[p][key] = v`. */
  function Upsert(d: Dict<string, Dict<string, Tree>>, p: string, key: string, v: Tree): Dict<string, Dict<string, Tree>>
  {
    Store(d, p, Store(GetOrEmpty(d, p), key, v))
  }

  lemma UpsertSpec(d: Dict<string, Dict<string, Tree>>, p: string, key: string, v: Tree, x: string, key2: string)
    ensures Lookup(Upsert(d, p, key, v), x).Some? <==> x == p || Lookup(d, x).Some?
    ensures Lookup(GetOrEmpty(Upsert(d, p, key, v), x), key2) ==
      if x == p && key2 == key then Some(v) else Lookup(GetOrEmpty(d, x), key2)
  {
    LookupStore(d, p, Store(GetOrEmpty(d, p), key, v), x);
    LookupStore(GetOrEmpty(d, p), key, v, key2);
  }

  /** One species' phases of one category, written into that category's phases. */
  function WritePhasesInto(cd: Dict<string, Dict<string, Tree>>, key: string, phases: Dict<string, Tree>): Dict<string, Dict<string, Tree>>
    decreases |phases|
  {
    if |phases| == 0 then cd
    else WritePhasesInto(Upsert(cd, phases[0].0, key, phases[0].1), key, phases[1..])
  }

  lemma {:induction false} WritePhasesIntoSpec(cd: Dict<string, Dict<string, Tree>>, key: string, phases: Dict<string, Tree>, p: string, key2: string)
    requires DistinctKeys(phases)
    ensures var r := WritePhasesInto(cd, key, phases);
      (Lookup(r, p).Some? <==> Lookup(cd, p).Some? || Lookup(phases, p).Some?) &&
      Lookup(GetOrEmpty(r, p), key2) ==
        if key2 == key && Lookup(phases, p).Some? then Lookup(phases, p) else Lookup(GetOrEmpty(cd, p), key2)
    decreases |phases|
  {
    if |phases| > 0 {
      var q := phases[0].0;
      var cd' := Upsert(cd, q, key, phases[0].1);
      UpsertSpec(cd, q, key, phases[0].1, p, key2);
      HeadKeyNotInTail(phases);
      WritePhasesIntoSpec(cd', key, phases[1..], p, key2);
    }
  }

  /** One species' categories written into the summary. */
  function WriteCategories(summary: Summary, key: string, cats: Dict<string, Dict<string, Tree>>): Summary
    decreases |cats|
  {
    if |cats| == 0 then summary
    else
      var c := cats[0].0;
      WriteCategories(Store(summary, c, WritePhasesInto(GetOrEmpty(summary, c), key, cats[0].1)), key, cats[1..])
  }

  /** Distinct keys at every level of one species' categories. */
  predicate WellFormedCategories(cats: Dict<string, Dict<string, Tree>>)
  {
    DistinctKeys(cats) && forall e :: e in cats ==> DistinctKeys(e.1)
  }

  lemma {:induction false} WriteCategoriesSpec(summary: Summary, key: string, cats: Dict<string, Dict<string, Tree>>, c: string, p: string, key2: string)
    requires WellFormedCategories(cats)
    ensures var r := WriteCategories(summary, key, cats);
      var phases := GetOrEmpty(cats, c);
      (Lookup(r, c).Some? <==> Lookup(summary, c).Some? || Lookup(cats, c).Some?) &&
      (Lookup(GetOrEmpty(r, c), p).Some? <==> Lookup(GetOrEmpty(summary, c), p).Some? || Lookup(phases, p).Some?) &&
      Lookup(GetOrEmpty(GetOrEmpty(r, c), p), key2) ==
        if key2 == key && Lookup(phases, p).Some? then Lookup(phases, p) else Lookup(GetOrEmpty(GetOrEmpty(summary, c), p), key2)
    decreases |cats|
  {
    if |cats| > 0 {
      var d := cats[0].0;
      var rest := cats[1..];
      var written := WritePhasesInto(GetOrEmpty(summary, d), key, cats[0].1);
      var summary' := Store(summary, d, written);
      LookupStore(summary, d, written, c);
      assert cats[0] in cats;
      WritePhasesIntoSpec(GetOrEmpty(summary, d), key, cats[0].1, p, key2);
      HeadKeyNotInTail(cats);
      assert forall e :: e in rest ==> e in cats;
      WriteCategoriesSpec(summary', key, rest, c, p, key2);
    }
  }

  /** One category's phases of every species, as the emissions transpose sees them. */
  function ForCategory(strata: Strata, c: string): (r: SpeciesPhases)
    ensures |r| == |strata| && forall i :: 0 <= i < |strata| ==> r[i] == (strata[i].0, GetOrEmpty(strata[i].1, c))
  {
    seq(|strata|, i requires 0 <= i < |strata| => (strata[i].0, GetOrEmpty(strata[i].1, c)))
  }

  lemma ForCategoryTail(strata: Strata, c: string)
    requires |strata| > 0
    ensures ForCategory(strata, c)[1..] == ForCategory(strata[1..], c)
    ensures ForCategory(strata, c)[0] == (strata[0].0, GetOrEmpty(strata[0].1, c))
  {
  }

  /** The details loop over the species, in order. */
  function SummarizeFrom(filter: seq<string>, summary: Summary, strata: Strata): Summary
    decreases |strata|
  {
    if |strata| == 0 then summary
    else
      var key := SpeciesKey(strata[0].0);
      var summary' := if Keeps(filter, key) then WriteCategories(summary, key, strata[0].1) else summary;
      SummarizeFrom(filter, summary', strata[1..])
  }

  /** Consume's details per category, phase and species. */
  function Summarize(filter: seq<string>, strata: Strata): Summary
  {
    SummarizeFrom(filter, [], strata)
  }

  predicate WellFormedStrata(strata: Strata)
  {
    DistinctKeys(strata) && forall s :: s in strata ==> WellFormedCategories(s.1)
  }

  /** A kept species has category `c`. */
  predicate HasCategory(filter: seq<string>, strata: Strata, c: string)
  {
    exists i :: 0 <= i < |strata| && Keeps(filter, SpeciesKey(strata[i].0)) && Lookup(strata[i].1, c).Some?
  }

  /** A kept species has phase `p` in category `c`. */
  predicate HasPhase(filter: seq<string>, strata: Strata, c: string, p: string)
  {
    exists i :: 0 <= i < |strata| && Keeps(filter, SpeciesKey(strata[i].0)) && Lookup(GetOrEmpty(strata[i].1, c), p).Some?
  }

  lemma HasCategoryCons(filter: seq<string>, strata: Strata, c: string)
    requires |strata| > 0
    ensures HasCategory(filter, strata, c) <==>
      (Keeps(filter, SpeciesKey(strata[0].0)) && Lookup(strata[0].1, c).Some?) || HasCategory(filter, strata[1..], c)
  {
    var rest := strata[1..];
    if HasCategory(filter, rest, c) {
      var i :| 0 <= i < |rest| && Keeps(filter, SpeciesKey(rest[i].0)) && Lookup(rest[i].1, c).Some?;
      assert strata[i + 1] == rest[i];
    }
    if HasCategory(filter, strata, c) {
      var i :| 0 <= i < |strata| && Keeps(filter, SpeciesKey(strata[i].0)) && Lookup(strata[i].1, c).Some?;
      if i > 0 {
        assert rest[i - 1] == strata[i];
      }
    }
  }

  lemma HasPhaseCons(filter: seq<string>, strata: Strata, c: string, p: string)
    requires |strata| > 0
    ensures HasPhase(filter, strata, c, p) <==>
      (Keeps(filter, SpeciesKey(strata[0].0)) && Lookup(GetOrEmpty(strata[0].1, c), p).Some?) || HasPhase(filter, strata[1..], c, p)
  {
    var rest := strata[1..];
    if HasPhase(filter, rest, c, p) {
      var i :| 0 <= i < |rest| && Keeps(filter, SpeciesKey(rest[i].0)) && Lookup(GetOrEmpty(rest[i].1, c), p).Some?;
      assert strata[i + 1] == rest[i];
    }
    if HasPhase(filter, strata, c, p) {
      var i :| 0 <= i < |strata| && Keeps(filter, SpeciesKey(strata[i].0)) && Lookup(GetOrEmpty(strata[i].1, c), p).Some?;
      if i > 0 {
        assert rest[i - 1] == strata[i];
      }
    }
  }

  /** The summary gains exactly the categories and phases kept species report. */
  lemma {:induction false} SummarizeFromKeys(filter: seq<string>, summary: Summary, strata: Strata, c: string, p: string)
    requires forall s :: s in strata ==> WellFormedCategories(s.1)
    ensures var r := SummarizeFrom(filter, summary, strata);
      (Lookup(r, c).Some? <==> Lookup(summary, c).Some? || HasCategory(filter, strata, c)) &&
      (Lookup(GetOrEmpty(r, c), p).Some? <==> Lookup(GetOrEmpty(summary, c), p).Some? || HasPhase(filter, strata, c, p))
    decreases |strata|
  {
    if |strata| > 0 {
      var s := strata[0];
      assert s in strata;
      assert forall e :: e in strata[1..] ==> e in strata;
      var k := SpeciesKey(s.0);
      var summary' := if Keeps(filter, k) then WriteCategories(summary, k, s.1) else summary;
      if Keeps(filter, k) {
        WriteCategoriesSpec(summary, k, s.1, c, p, "");
      }
      SummarizeFromKeys(filter, summary', strata[1..], c, p);
      HasCategoryCons(filter, strata, c);
      HasPhaseCons(filter, strata, c, p);
    }
  }

  /** Each species key of each category and phase ends up holding what the
      last kept writer reported, or what it held before when none did. */
  lemma {:induction false} SummarizeFromValues(filter: seq<string>, summary: Summary, strata: Strata, c: string, p: string, key: string)
    requires forall s :: s in strata ==> WellFormedCategories(s.1)
    ensures Lookup(GetOrEmpty(GetOrEmpty(SummarizeFrom(filter, summary, strata), c), p), key) ==
        match LastWritten(filter, false, ForCategory(strata, c), p, key)
        case Some(v) => Some(v)
        case None => Lookup(GetOrEmpty(GetOrEmpty(summary, c), p), key)
    decreases |strata|
  {
    if |strata| > 0 {
      var s := strata[0];
      assert s in strata;
      assert forall e :: e in strata[1..] ==> e in strata;
      var k := SpeciesKey(s.0);
      var summary' := if Keeps(filter, k) then WriteCategories(summary, k, s.1) else summary;
      if Keeps(filter, k) {
        WriteCategoriesSpec(summary, k, s.1, c, p, key);
      }
      SummarizeFromValues(filter, summary', strata[1..], c, p, key);
      ForCategoryTail(strata, c);
    }
  }

  /** The summary holds a category exactly when a kept species reports it, a
      phase of it exactly when a kept species reports that phase there, and
      under each species key the value the last kept species stored under
      that key reported for that category and phase. */
  lemma SummarizeSpec(filter: seq<string>, strata: Strata, c: string, p: string, key: string)
    requires WellFormedStrata(strata)
    ensures var r := Summarize(filter, strata);
      (Lookup(r, c).Some? <==> HasCategory(filter, strata, c)) &&
      (Lookup(GetOrEmpty(r, c), p).Some? <==> HasPhase(filter, strata, c, p)) &&
      Lookup(GetOrEmpty(GetOrEmpty(r, c), p), key) == LastWritten(filter, false, ForCategory(strata, c), p, key)
  {
    SummarizeFromKeys(filter, [], strata, c, p);
    SummarizeFromValues(filter, [], strata, c, p, key);
  }

  // ---------------------------------------------------------------------
  // The Consume fuelbed step
  // ---------------------------------------------------------------------

  /** `fb['emissions']` as stored: phase to species to value. */
  function PhaseTree(em: PhaseSpecies): Tree
  {
    Node(MapValues(em, (d: Dict<string, Tree>) => Node(d)))
  }

  /** `fb['emissions_details']` as stored: `summary` to category to phase to species to value. */
  function SummaryTree(summary: Summary): Tree
  {
    Node([("summary", Node(MapValues(summary, (cd: Dict<string, Dict<string, Tree>>) =>
      Node(MapValues(cd, (d: Dict<string, Tree>) => Node(d))))))])
  }

  lemma PhaseTreeGet(em: PhaseSpecies, p: string, key: string)
    ensures Get(PhaseTree(em), [p, key]) == match Lookup(em, p) case None => None case Some(d) => Lookup(d, key)
  {
    LookupMapValues(em, (d: Dict<string, Tree>) => Node(d), p);
    assert [p, key][1..] == [key];
    match Lookup(em, p)
    case None =>
    case Some(d) =>
      assert Get(Node(d), [key]) == match Lookup(d, key) case None => None case Some(v) => Get(v, []);
  }

  lemma SummaryTreeGet(summary: Summary, c: string, p: string, key: string)
    ensures Get(SummaryTree(summary), ["summary", c, p, key]) == Lookup(GetOrEmpty(GetOrEmpty(summary, c), p), key)
  {
    var inner := (d: Dict<string, Tree>) => Node(d);
    var outer := (cd: Dict<string, Dict<string, Tree>>) => Node(MapValues(cd, inner));
    var top := Node(MapValues(summary, outer));
    assert SummaryTree(summary) == Node([("summary", top)]);
    var path := ["summary", c, p, key];
    assert path[1..] == [c, p, key] && [c, p, key][1..] == [p, key] && [p, key][1..] == [key];
    assert Get(SummaryTree(summary), path) == Get(top, [c, p, key]);
    LookupMapValues(summary, outer, c);
    match Lookup(summary, c)
    case None =>
    case Some(cd) =>
      assert Get(top, [c, p, key]) == Get(outer(cd), [p, key]);
      LookupMapValues(cd, inner, p);
      match Lookup(cd, p)
      case None =>
      case Some(d) =>
        assert Get(Node(d), [key]) == match Lookup(d, key) case None => None case Some(v) => Get(v, []);
  }

  /** What consume reports for one fuelbed: its emissions (per species, with
      the `stratum` entry among them) and the `stratum` details on their own. */
  datatype ConsumeResults = ConsumeResults(emissions: SpeciesPhases, strata: Strata)

  /** `_run_on_fuelbed`: the checks, consume's run (given as `results`), the
      transpose of its emissions and, when details are kept, the summary of
      its details. */
  function ConsumeFuelbed(loc: EmLocation, fb: EmFuelbed, fields: seq<string>, filter: seq<string>, results: ConsumeResults, includeDetails: bool): (r: Result<EmFuelbed, EmissionsError>)
    ensures FuelbedCheck(Consume, loc, fb).Some? ==> r == Failure(FuelbedCheck(Consume, loc, fb).value)
    ensures r.Success? ==> FuelbedReady(Consume, loc, fb) && fb.fccsId.Some?
    ensures r.Success? ==> r.value.consumption == fb.consumption && r.value.emissions.Some?
    ensures r.Success? && !includeDetails ==> r.value.details == fb.details
  {
    match FuelbedCheck(Consume, loc, fb)
    case Some(err) => Failure(err)
    case None =>
      if fb.fccsId.None? then Failure(KeyError(["fccs_id"]))
      else
        match Transpose(fields, filter, results.emissions)
        case Failure(err) => Failure(err)
        case Success(em) =>
          Success(fb.(emissions := Some(PhaseTree(em)),
                      details := if includeDetails then Some(SummaryTree(Summarize(filter, results.strata))) else fb.details))
  }

  /** A successful Consume fuelbed holds, for every field `p` and key `K`,
      under `emissions[p][K]` what the last kept species stored as `K`
      reported for `p`, and nothing under any other phase; with details,
      under `summary[c][p][K]` the same for category `c`. It fails with a
      KeyError when a kept species has a phase that is not a field. */
  lemma ConsumeFuelbedSpec(loc: EmLocation, fb: EmFuelbed, fields: seq<string>, filter: seq<string>, results: ConsumeResults, includeDetails: bool,
                           c: string, p: string, key: string)
    requires WellFormed(results.emissions) && WellFormedStrata(results.strata)
    ensures var r := ConsumeFuelbed(loc, fb, fields, filter, results, includeDetails);
      FuelbedCheck(Consume, loc, fb).None? && fb.fccsId.Some? && StrayPhase(fields, filter, results.emissions) ==>
        r.Failure? && r.error.KeyError?
    ensures var r := ConsumeFuelbed(loc, fb, fields, filter, results, includeDetails);
      FuelbedCheck(Consume, loc, fb).None? && fb.fccsId.Some? && !StrayPhase(fields, filter, results.emissions) ==>
        r.Success?
    ensures var r := ConsumeFuelbed(loc, fb, fields, filter, results, includeDetails);
      r.Success? ==>
        !StrayPhase(fields, filter, results.emissions) &&
        (Get(r.value.emissions.value, [p]).Some? <==> p in fields) &&
        Get(r.value.emissions.value, [p, key]) == (if p in fields then LastWritten(filter, true, results.emissions, p, key) else None)
    ensures var r := ConsumeFuelbed(loc, fb, fields, filter, results, includeDetails);
      r.Success? && includeDetails ==>
        Get(r.value.details.value, ["summary", c, p, key]) == LastWritten(filter, false, ForCategory(results.strata, c), p, key)
  {
    TransposeSpec(fields, filter, results.emissions, p, key);
    var t := Transpose(fields, filter, results.emissions);
    if t.Success? {
      PhaseTreeGet(t.value, p, key);
      LookupMapValues(t.value, (d: Dict<string, Tree>) => Node(d), p);
      assert Get(PhaseTree(t.value), [p]) == match Lookup(PhaseTree(t.value).children, p) case None => None case Some(v) => Get(v, []);
      SummarizeSpec(filter, results.strata, c, p, key);
      SummaryTreeGet(Summarize(filter, results.strata), c, p, key);
    }
  }

  /** The Consume fuelbed step reports the fuelbed checks first. */
  lemma ConsumeChecksFirst(fields: seq<string>, filter: seq<string>, results: (EmLocation, EmFuelbed) -> ConsumeResults, includeDetails: bool)
    ensures ChecksFirst(Consume, (loc, fb) => ConsumeFuelbed(loc, fb, fields, filter, results(loc, fb), includeDetails))
  {
    forall loc, fb | FuelbedCheck(Consume, loc, fb).Some?
      ensures ConsumeFuelbed(loc, fb, fields, filter, results(loc, fb), includeDetails) == Failure(FuelbedCheck(Consume, loc, fb).value)
    {
    }
  }
}

=== FILE: consumption.dfy ===
/** The consumption module's own bookkeeping around the fuel consumption
    calculator: the crop residue tables and formulas, the data a fire carries
    into consumption, and input validation. Scaling and the calculator runs
    are in `ConsumptionScaling` and `ConsumptionRun`.

    Python truthiness of optional inputs is folded into the values: a missing
    area, percentage or estimate is `0.0`, a missing ecoregion or FCCS id is
    `""`, and a missing fuel loadings record is the empty list, since the
    source treats each absent value exactly as the falsy one. */
module Consumption {
  import opened Common

  // ---------------------------------------------------------------------
  // Crop residue tables
  // ---------------------------------------------------------------------

  /** Crop fuelbed ids are written as decimal strings in the source; as
      `str(int(...))` gives one canonical string per integer, they are kept
      here as the integers themselves. */
  type CropId = int

  /** Crop loadings, tons per acre. */
  function Loading(c: CropId): Option<real>
  {
    match c
    case 1 => Some(4.2)
    case 2 => Some(1.9)
    case 3 => Some(2.5)
    case 4 => Some(2.18)
    case 6 => Some(2.18)
    case 7 => Some(3.0)
    case 8 => Some(4.75)
    case 9 => Some(2.94)
    case 12 => Some(1.9)
    case 13 => Some(3.05)
    case 14 => Some(2.04)
    case 15 => Some(2.34)
    case 16 => Some(3.35)
    case 17 => Some(2.2)
    case 25 => Some(1.9)
    case 26 => Some(1.9)
    case _ => None
  }

  /** Combustion efficiencies, as fractions. */
  function Ceff(c: CropId): Option<real>
  {
    match c
    case 1 => Some(0.75)
    case 2 => Some(0.85)
    case 3 => Some(0.75)
    case 4 => Some(0.65)
    case 6 => Some(0.75)
    case 7 => Some(0.75)
    case 8 => Some(0.65)
    case 9 => Some(0.75)
    case 12 => Some(0.85)
    case 13 => Some(0.8)
    case 14 => Some(0.75)
    case 15 => Some(0.7)
    case 16 => Some(0.75)
    case 17 => Some(0.8)
    case 25 => Some(0.85)
    case 26 => Some(0.85)
    case _ => None
  }

  /** Cropland Data Layer class to crop fuelbed. */
  function CdlCrop(n: int): Option<CropId>
  {
    match n
    case 1 => Some(1)    // corn
    case 12 => Some(1)
    case 13 => Some(1)
    case 226 => Some(1)
    case 237 => Some(1)
    case 22 => Some(2)   // wheat
    case 23 => Some(2)
    case 24 => Some(2)
    case 230 => Some(2)
    case 234 => Some(2)
    case 236 => Some(2)
    case 5 => Some(3)    // soy
    case 52 => Some(3)
    case 240 => Some(3)
    case 254 => Some(3)
    case 2 => Some(4)    // cotton
    case 232 => Some(4)
    case 3 => Some(7)    // rice
    case 45 => Some(8)   // sugarcane
    case 225 => Some(13) // winter wheat / corn
    case 238 => Some(14) // winter wheat / cotton
    case 239 => Some(15) // soybean / cotton
    case 241 => Some(16) // corn / soy
    case 26 => Some(17)  // winter wheat / soy
    case 37 => Some(25)  // grass / pasture
    case 61 => Some(25)
    case 176 => Some(25)
    case 256 => Some(25)
    case _ => None
  }

  /** FCCS fuelbed to crop fuelbed: grass and pasture beds, rice and wheat. */
  function FccsCrop(n: int): Option<CropId>
  {
    match n
    case 1281 => Some(25)
    case 131 => Some(25)
    case 133 => Some(25)
    case 175 => Some(25)
    case 176 => Some(25)
    case 203 => Some(25)
    case 213 => Some(25)
    case 236 => Some(25)
    case 280 => Some(25)
    case 302 => Some(25)
    case 315 => Some(25)
    case 318 => Some(25)
    case 336 => Some(25)
    case 41 => Some(25)
    case 415 => Some(25)
    case 417 => Some(25)
    case 420 => Some(25)
    case 435 => Some(25)
    case 436 => Some(25)
    case 437 => Some(25)
    case 442 => Some(25)
    case 443 => Some(25)
    case 445 => Some(25)
    case 453 => Some(25)
    case 506 => Some(25)
    case 514 => Some(25)
    case 519 => Some(25)
    case 530 => Some(25)
    case 531 => Some(25)
    case 532 => Some(25)
    case 533 => Some(25)
    case 57 => Some(25)
    case 65 => Some(25)
    case 66 => Some(25)
    case 1261 => Some(25)
    case 1203 => Some(7)
    case 1223 => Some(2)
    case _ => None
  }

  /** The "other crops" fuelbed used when an id is in neither map. */
  const DefaultCrop: CropId := 12

  /** Ids above this are Cropland Data Layer classes offset by it. */
  const CdlOffset: int := 9000

  /** A crop fuelbed both tables know. */
  predicate Known(c: CropId)
  {
    Loading(c).Some? && Ceff(c).Some?
  }

  /** Every crop fuelbed a lookup can produce has a loading and an efficiency. */
  lemma TablesTotal(n: int)
    ensures CdlCrop(n).Some? ==> Known(CdlCrop(n).value)
    ensures FccsCrop(n).Some? ==> Known(FccsCrop(n).value)
    ensures Known(DefaultCrop)
  {
  }

  /** Loadings are positive and efficiencies are fractions. */
  lemma TablesInRange(c: CropId)
    requires Known(c)
    ensures 0.0 < Loading(c).value
    ensures 0.0 < Ceff(c).value <= 1.0
  {
  }

  /** The crop fuelbed of an FCCS id (already converted with `int`). */
  function ResolveCrop(fccsId: int): (r: CropId)
    ensures Known(r)
    ensures fccsId > CdlOffset && CdlCrop(fccsId - CdlOffset).Some? ==> r == CdlCrop(fccsId - CdlOffset).value
    ensures fccsId <= CdlOffset && FccsCrop(fccsId).Some? ==> r == FccsCrop(fccsId).value
    ensures r != DefaultCrop ==>
      (fccsId > CdlOffset && CdlCrop(fccsId - CdlOffset).Some?) || (fccsId <= CdlOffset && FccsCrop(fccsId).Some?)
  {
    TablesTotal(fccsId - CdlOffset);
    TablesTotal(fccsId);
    if fccsId > CdlOffset then
      match CdlCrop(fccsId - CdlOffset)
      case Some(c) => c
      case None => DefaultCrop
    else
      match FccsCrop(fccsId)
      case Some(c) => c
      case None => DefaultCrop
  }

  /** Consumption per phase, as the source's one-element lists. */
  datatype Phases = Phases(flaming: real, smoldering: real, residual: real)

  datatype HeatRelease = HeatRelease(flaming: real, smoldering: real, residual: real, total: real)

  /** What a crop fuelbed is given: its total available fuel loading, its
      consumption (all under `crop_residue`) and its heat. */
  datatype CropFuelbed = CropFuelbed(totalAvailableFuelLoading: real, consumption: Phases, heat: HeatRelease)

  /** Pounds per ton times BTU per pound. */
  const HeatPerTon: real := 2000.0 * 8000.0

  /** A crop fuelbed covering `pct` percent of `area` acres. */
  function RunCropFuelbed(fccsId: int, pct: real, area: real): (r: CropFuelbed)
    ensures r.totalAvailableFuelLoading == Loading(ResolveCrop(fccsId)).value
    ensures r.consumption.flaming == r.totalAvailableFuelLoading * (pct / 100.0 * area) * Ceff(ResolveCrop(fccsId)).value
    ensures r.consumption.smoldering == 0.0 && r.consumption.residual == 0.0
    ensures r.heat.flaming == r.heat.total == r.consumption.flaming * HeatPerTon
    ensures r.heat.smoldering == 0.0 && r.heat.residual == 0.0
  {
    var crop := ResolveCrop(fccsId);
    var loading := Loading(crop).value;
    var fbArea := (pct / 100.0) * area;
    var consumption := loading * fbArea * Ceff(crop).value;
    var heat := consumption * 2000.0 * 8000.0;
    CropFuelbed(loading, Phases(consumption, 0.0, 0.0), HeatRelease(heat, 0.0, 0.0, heat))
  }

  /** No more is consumed than the fuel on the burned part of the fuelbed, and
      consumption grows in proportion to the burned area. */
  lemma CropConsumptionBounds(fccsId: int, pct: real, area: real)
    requires 0.0 <= pct && 0.0 <= area
    ensures 0.0 <= RunCropFuelbed(fccsId, pct, area).consumption.flaming
    ensures RunCropFuelbed(fccsId, pct, area).consumption.flaming
      <= RunCropFuelbed(fccsId, pct, area).totalAvailableFuelLoading * (pct / 100.0 * area)
  {
    var r := RunCropFuelbed(fccsId, pct, area);
    var c := ResolveCrop(fccsId);
    TablesInRange(c);
    var burned := pct / 100.0 * area;
    assert 0.0 <= burned;
    assert 0.0 <= r.totalAvailableFuelLoading * burned;
    assert r.consumption.flaming == (r.totalAvailableFuelLoading * burned) * Ceff(c).value;
  }

  lemma CropConsumptionAdditive(fccsId: int, pct: real, a1: real, a2: real)
    ensures RunCropFuelbed(fccsId, pct, a1 + a2).consumption.flaming
      == RunCropFuelbed(fccsId, pct, a1).consumption.flaming + RunCropFuelbed(fccsId, pct, a2).consumption.flaming
  {
    var c := ResolveCrop(fccsId);
    var l := Loading(c).value;
    var e := Ceff(c).value;
    var p := pct / 100.0;
    assert p * (a1 + a2) == p * a1 + p * a2;
    assert l * (p * (a1 + a2)) == l * (p * a1) + l * (p * a2);
    assert l * (p * (a1 + a2)) * e == l * (p * a1) * e + l * (p * a2) * e;
  }

  /** A Cropland Data Layer corn class on ten acres, fully burned:
      4.2 tons per acre at 75 percent efficiency. */
  lemma CornExample()
    ensures RunCropFuelbed(9001, 100.0, 10.0).consumption.flaming == 31.5
    ensures RunCropFuelbed(9001, 100.0, 10.0).heat.total == 504000000.0
  {
    assert ResolveCrop(9001) == 1;
  }

  // ---------------------------------------------------------------------
  // Input records
  // ---------------------------------------------------------------------

  /** A key path into nested consumption or heat data, down to one leaf. */
  type Path = seq<string>

  /** Nested numeric data, by the path of each leaf. */
  type Nested = map<Path, real>

  /** A fuel loadings record, in its insertion order. */
  type FuelLoadings = Dict<string, real>

  datatype ConsFuelbed = ConsFuelbed(
    fccsId: string,
    pct: real,
    fuelLoadings: FuelLoadings,
    consumption: Nested,
    heat: Nested)

  datatype ConsLocation = ConsLocation(
    area: real,
    ecoregion: string,
    fuelbeds: seq<ConsFuelbed>,
    estConsumptionTpa: real,
    estFuelloadTpa: real,
    consumptionScaleFactor: Option<real>,
    fuelloadScaleFactor: Option<real>)

  datatype ConsActiveArea = ConsActiveArea(start: Option<int>, locations: seq<ConsLocation>)

  // ---------------------------------------------------------------------
  // Validation
  // ---------------------------------------------------------------------

  datatype ValidationError =
    | NoActivity
    | NoLocations
    | NoFuelbeds
    | AreaUndefined
    | EcoregionRequired
    | FccsIdAndPctRequired
    /** Looking up a name the module never binds (a `NameError`). */
    | ModelUndefined

  /** The consumption model setting consulted by validation; the module as
      written never binds it. */
  datatype ModelName = Unbound | Bound(name: string)

  predicate Crops(model: ModelName)
  {
    model.Bound? && model.name == "crops"
  }

  predicate FuelbedValid(fb: ConsFuelbed)
  {
    fb.fccsId != "" && fb.pct != 0.0
  }

  predicate LocationValid(loc: ConsLocation, crops: bool)
  {
    && |loc.fuelbeds| > 0
    && loc.area != 0.0
    && (loc.ecoregion != "" || crops)
    && forall i :: 0 <= i < |loc.fuelbeds| ==> FuelbedValid(loc.fuelbeds[i])
  }

  predicate FireValid(aas: seq<ConsActiveArea>, crops: bool)
  {
    && |aas| > 0
    && (forall i :: 0 <= i < |aas| ==> |aas[i].locations| > 0)
    && forall i, j :: 0 <= i < |aas| && 0 <= j < |aas[i].locations| ==> LocationValid(aas[i].locations[j], crops)
  }

  function CheckFuelbeds(fbs: seq<ConsFuelbed>): (r: Option<ValidationError>)
    ensures r.None? <==> forall i :: 0 <= i < |fbs| ==> FuelbedValid(fbs[i])
    ensures r.Some? ==> r.value == FccsIdAndPctRequired
  {
    if |fbs| == 0 then None
    else if !FuelbedValid(fbs[0]) then Some(FccsIdAndPctRequired)
    else
      var rest := CheckFuelbeds(fbs[1..]);
      assert forall i :: 1 <= i < |fbs| ==> fbs[i] == fbs[1..][i - 1];
      rest
  }

  /** The checks on one location, in the order the source makes them. */
  function CheckLocation(loc: ConsLocation, model: ModelName): (r: Option<ValidationError>)
    ensures r.None? <==> LocationValid(loc, Crops(model))
    ensures r == Some(NoFuelbeds) <==> |loc.fuelbeds| == 0
    ensures r == Some(AreaUndefined) <==> |loc.fuelbeds| > 0 && loc.area == 0.0
    ensures r == Some(ModelUndefined) <==> |loc.fuelbeds| > 0 && loc.area != 0.0 && loc.ecoregion == "" && model.Unbound?
    ensures r == Some(EcoregionRequired) ==> model.Bound? && !Crops(model) && loc.ecoregion == ""
    ensures r.Some? ==> r.value != NoActivity && r.value != NoLocations
  {
    if |loc.fuelbeds| == 0 then Some(NoFuelbeds)
    else if loc.area == 0.0 then Some(AreaUndefined)
    else if loc.ecoregion == "" && model.Unbound? then Some(ModelUndefined)
    else if loc.ecoregion == "" && !Crops(model) then Some(EcoregionRequired)
    else CheckFuelbeds(loc.fuelbeds)
  }

  function CheckLocations(locs: seq<ConsLocation>, model: ModelName): (r: Option<ValidationError>)
    ensures r.None? <==> forall j :: 0 <= j < |locs| ==> LocationValid(locs[j], Crops(model))
    ensures r.Some? ==> exists j :: 0 <= j < |locs| && CheckLocation(locs[j], model) == r
  {
    if |locs| == 0 then None
    else
      var first := CheckLocation(locs[0], model);
      if first.Some? then first
      else
        var rest := CheckLocations(locs[1..], model);
        assert forall j :: 1 <= j < |locs| ==> locs[j] == locs[1..][j - 1];
        rest
  }

  function CheckActiveAreas(aas: seq<ConsActiveArea>, model: ModelName): (r: Option<ValidationError>)
    ensures r.None? <==>
      (forall i :: 0 <= i < |aas| ==> |aas[i].locations| > 0) &&
      (forall i, j :: 0 <= i < |aas| && 0 <= j < |aas[i].locations| ==> LocationValid(aas[i].locations[j], Crops(model)))
    ensures r == Some(NoLocations) ==> exists i :: 0 <= i < |aas| && |aas[i].locations| == 0
    ensures r.Some? && r != Some(NoLocations) ==>
      exists i, j :: 0 <= i < |aas| && 0 <= j < |aas[i].locations| && CheckLocation(aas[i].locations[j], model) == r
  {
    if |aas| == 0 then None
    else if |aas[0].locations| == 0 then Some(NoLocations)
    else
      var first := CheckLocations(aas[0].locations, model);
      if first.Some? then first
      else
        var rest := CheckActiveAreas(aas[1..], model);
        assert forall i :: 1 <= i < |aas| ==> aas[i] == aas[1..][i - 1];
        rest
  }

  /** `_validate_input` on one fire: the first problem met, walking active
      areas, their locations and their fuelbeds in order, or `None`. */
  function ValidateFire(aas: seq<ConsActiveArea>, model: ModelName): (r: Option<ValidationError>)
    ensures r.None? <==> FireValid(aas, Crops(model))
    ensures r == Some(NoActivity) <==> |aas| == 0
    ensures r == Some(NoLocations) ==> exists i :: 0 <= i < |aas| && |aas[i].locations| == 0
    ensures r == Some(NoFuelbeds) ==> exists i, j :: 0 <= i < |aas| && 0 <= j < |aas[i].locations| && |aas[i].locations[j].fuelbeds| == 0
    ensures r == Some(AreaUndefined) ==> exists i, j :: 0 <= i < |aas| && 0 <= j < |aas[i].locations| && aas[i].locations[j].area == 0.0
    ensures r == Some(FccsIdAndPctRequired) ==>
      exists i, j :: 0 <= i < |aas| && 0 <= j < |aas[i].locations| &&
        exists k :: 0 <= k < |aas[i].locations[j].fuelbeds| && !FuelbedValid(aas[i].locations[j].fuelbeds[k])
    ensures r == Some(ModelUndefined) ==> model.Unbound?
    ensures r == Some(EcoregionRequired) ==> model.Bound? && !Crops(model)
  {
    if |aas| == 0 then Some(NoActivity) else CheckActiveAreas(aas, model)
  }

  /** As written, a location without an ecoregion reaches the name `model`,
      which the module never binds, so validation fails with a `NameError`
      instead of its own message; with the setting bound, the intended
      message is reported, and crop runs need no ecoregion. Shown on a fire
      with one location whose fuelbeds are valid and which has an area. */
  lemma MissingEcoregionNameError(aas: seq<ConsActiveArea>)
    requires |aas| == 1 && |aas[0].locations| == 1
    requires |aas[0].locations[0].fuelbeds| > 0 && aas[0].locations[0].area != 0.0
    requires aas[0].locations[0].ecoregion == ""
    requires forall k :: 0 <= k < |aas[0].locations[0].fuelbeds| ==> FuelbedValid(aas[0].locations[0].fuelbeds[k])
    ensures ValidateFire(aas, Unbound) == Some(ModelUndefined)
    ensures ValidateFire(aas, Bound("consume")) == Some(EcoregionRequired)
    ensures ValidateFire(aas, Bound("crops")).None?
  {
    OneLocationFire(aas, Unbound);
    OneLocationFire(aas, Bound("consume"));
    OneLocationFire(aas, Bound("crops"));
  }

  /** A fire with one location is validated as that location is. */
  lemma OneLocationFire(aas: seq<ConsActiveArea>, model: ModelName)
    requires |aas| == 1 && |aas[0].locations| == 1
    ensures ValidateFire(aas, model) == CheckLocation(aas[0].locations[0], model)
  {
    var locs := aas[0].locations;
    assert CheckLocations(locs[1..], model).None?;
    assert CheckLocations(locs, model) == CheckLocation(locs[0], model);
    assert CheckActiveAreas(aas[1..], model).None?;
  }

  // ---------------------------------------------------------------------
  // The module entry point
  // ---------------------------------------------------------------------

  /** A fire that fails validation. */
  predicate Invalid(aas: seq<ConsActiveArea>, model: ModelName)
  {
    ValidateFire(aas, model).Some?
  }

  /** The first fire that fails validation, if any. */
  function FirstInvalid(fires: seq<seq<ConsActiveArea>>, model: ModelName): (r: Option<nat>)
    ensures r.Some? ==> r.value < |fires| && Invalid(fires[r.value], model)
    ensures r.Some? ==> forall i :: 0 <= i < r.value ==> !Invalid(fires[i], model)
    ensures r.None? <==> forall i :: 0 <= i < |fires| ==> !Invalid(fires[i], model)
  {
    if |fires| == 0 then None
    else if Invalid(fires[0], model) then Some(0)
    else
      var rest := FirstInvalid(fires[1..], model);
      assert forall i :: 1 <= i < |fires| ==> fires[i] == fires[1..][i - 1];
      if rest.None? then None else Some(rest.value + 1)
  }

  /** How `run` ends before or as it starts computing consumption: a fire's
      validation error re-raised by the failure handler, a `NameError` for the
      unbound `model`, an `UnboundLocalError` for the crop class, or the crop
      or the consume route taken for every fire. */
  datatype RunRoute =
    | FireFailed(index: nat, error: ValidationError)
    | ModelNameError
    | CropClassUnbound
    | CropRoute
    | ConsumeRoute

  /** `run` as written, up to choosing how each fire is processed. Every fire
      is validated first; `reraise` says whether the failure handler re-raises
      a fire's error or drops the fire. Line 54 then reads `model`, which the
      module never binds; were it bound to `crops`, line 55 would use
      `CropConsumption`, a class `run` itself defines only at line 70. */
  function RunAsWritten(fires: seq<seq<ConsActiveArea>>, model: ModelName, reraise: bool): (r: RunRoute)
    ensures r.FireFailed? <==> reraise && FirstInvalid(fires, model).Some?
    ensures r.FireFailed? ==>
      && r.index < |fires| && ValidateFire(fires[r.index], model) == Some(r.error)
      && forall i :: 0 <= i < r.index ==> ValidateFire(fires[i], model).None?
    ensures !r.FireFailed? ==>
      (model.Unbound? ==> r == ModelNameError) &&
      (Crops(model) ==> r == CropClassUnbound) &&
      (model.Bound? && !Crops(model) ==> r == ConsumeRoute)
  {
    var bad := FirstInvalid(fires, model);
    if reraise && bad.Some? then FireFailed(bad.value, ValidateFire(fires[bad.value], model).value)
    else if model.Unbound? then ModelNameError
    else if Crops(model) then CropClassUnbound
    else ConsumeRoute
  }

  /** `run` as evidently intended: the consumption model setting is read from
      the configuration and the crop class is defined before it is used. */
  function RunRouted(fires: seq<seq<ConsActiveArea>>, model: string, reraise: bool): (r: RunRoute)
    ensures r.FireFailed? <==> reraise && FirstInvalid(fires, Bound(model)).Some?
    ensures r.FireFailed? ==>
      && r.index < |fires| && ValidateFire(fires[r.index], Bound(model)) == Some(r.error)
      && r.error != ModelUndefined
    ensures !r.FireFailed? ==> (r == CropRoute <==> model == "crops") && (r == ConsumeRoute <==> model != "crops")
  {
    var bad := FirstInvalid(fires, Bound(model));
    if reraise && bad.Some? then FireFailed(bad.value, ValidateFire(fires[bad.value], Bound(model)).value)
    else if model == "crops" then CropRoute
    else ConsumeRoute
  }

  /** As written, `run` never processes a fire: with `model` unbound, as in the
      module, every run whose validation does not re-raise ends in the
      `NameError`, and even with `crops` bound the crop route is never taken.
      The two versions agree only for a bound model other than `crops`. */
  lemma RunAsWrittenNeverRoutes(fires: seq<seq<ConsActiveArea>>, reraise: bool, model: string)
    ensures RunAsWritten(fires, Unbound, reraise) == ModelNameError || RunAsWritten(fires, Unbound, reraise).FireFailed?
    ensures !RunAsWritten(fires, Bound(model), reraise).CropRoute?
    ensures model == "crops" && !RunRouted(fires, model, reraise).FireFailed? ==>
      RunRouted(fires, model, reraise) == CropRoute && RunAsWritten(fires, Bound(model), reraise) == CropClassUnbound
    ensures model != "crops" || RunRouted(fires, model, reraise).FireFailed? ==>
      RunRouted(fires, model, reraise) == RunAsWritten(fires, Bound(model), reraise)
  {
  }

  /** A run over valid fires ends in the `NameError` as written, and takes the
      consume route when the setting is bound to another model. */
  lemma ValidRunNameError(fires: seq<seq<ConsActiveArea>>, reraise: bool)
    requires forall i :: 0 <= i < |fires| ==> FireValid(fires[i], false)
    ensures RunAsWritten(fires, Unbound, reraise) == ModelNameError
    ensures RunRouted(fires, "consume", reraise) == ConsumeRoute
  {
    forall i | 0 <= i < |fires|
      ensures ValidateFire(fires[i], Unbound).None? && ValidateFire(fires[i], Bound("consume")).None?
    {
    }
  }
}

=== FILE: consumption_run.dfy ===
/** Running the fuel consumption calculator on every fuelbed of a fire: each
    fuelbed's share of the location's area, loadings made per acre on the way
    in and results multiplied back by the area on the way out, then the
    scaling to an estimate. The calculator itself is a parameter. */
module ConsumptionRun {
  import opened Common
  import opened Consumption
  import opened ConsumptionScaling

  // ---------------------------------------------------------------------
  // Running the calculator on each fuelbed
  // ---------------------------------------------------------------------

  /** What the consumption calculator is given for one fuelbed. Without
      custom loadings it uses the location's own loadings manager. */
  datatype CalcInput = CalcInput(fccsId: string, area: real, ecoregion: string, start: int, customLoadings: Option<FuelLoadings>)

  /** What the calculator returns, per acre. */
  datatype CalcOutput = CalcOutput(consumption: Nested, heat: Nested, fuelLoadings: FuelLoadings)

  /** The calculator; `None` is a run that produced no results. */
  type Calculator = CalcInput -> Option<CalcOutput>

  /** The acres a fuelbed covers: its percentage of the location. `_run_fire`
      and `_run_fuelbed` each compute this product, in either order. */
  function FuelbedArea(locArea: real, pct: real): real
  {
    locArea * (pct / 100.0)
  }

  predicate AnyKey(k: string)
  {
    true
  }

  /** A fuelbed's own loadings as the calculator is given them: per acre of the fuelbed. */
  function CustomLoadings(fb: ConsFuelbed, locArea: real): Option<FuelLoadings>
    requires |fb.fuelLoadings| > 0 ==> FuelbedArea(locArea, fb.pct) != 0.0
  {
    if |fb.fuelLoadings| > 0 then Some(ScaleWhere(fb.fuelLoadings, AnyKey, 1.0 / FuelbedArea(locArea, fb.pct))) else None
  }

  /** Consumption data without its `debug` entry. */
  function DropDebug(m: Nested): (r: Nested)
    ensures forall k :: k in r <==> k in m && !(|k| > 0 && k[0] == "debug")
  {
    map k | k in m && !(|k| > 0 && k[0] == "debug") :: m[k]
  }

  function CalcInputOf(fb: ConsFuelbed, loc: ConsLocation, start: int): CalcInput
    requires |fb.fuelLoadings| > 0 ==> FuelbedArea(loc.area, fb.pct) != 0.0
  {
    CalcInput(fb.fccsId, FuelbedArea(loc.area, fb.pct), loc.ecoregion, start, CustomLoadings(fb, loc.area))
  }

  /** `_run_fuelbed` with the fuelbed's loadings made per acre in `_run_fire`:
      the per-acre results are multiplied back by the fuelbed's area. */
  function RunFuelbed(fb: ConsFuelbed, loc: ConsLocation, start: int, calculator: Calculator): (r: Result<ConsFuelbed, ConsumptionError>)
    ensures |fb.fuelLoadings| > 0 && FuelbedArea(loc.area, fb.pct) == 0.0 ==> r == Failure(DivisionByZero)
    ensures !(|fb.fuelLoadings| > 0 && FuelbedArea(loc.area, fb.pct) == 0.0) ==>
      (r.Failure? <==> calculator(CalcInputOf(fb, loc, start)).None?) &&
      (r.Failure? ==> r.error == CalculationFailed(fb.fccsId))
    ensures r.Success? ==> r.value.fccsId == fb.fccsId && r.value.pct == fb.pct
  {
    if |fb.fuelLoadings| > 0 && FuelbedArea(loc.area, fb.pct) == 0.0 then Failure(DivisionByZero)
    else
      var area := FuelbedArea(loc.area, fb.pct);
      match calculator(CalcInputOf(fb, loc, start))
      case None => Failure(CalculationFailed(fb.fccsId))
      case Some(out) =>
        Success(fb.(fuelLoadings := ScaleWhere(out.fuelLoadings, MatchesLoadingPattern, area),
                    consumption := ScaleNested(DropDebug(out.consumption), area),
                    heat := ScaleNested(out.heat, area)))
  }

  /** Every consumption and heat value of a run is the calculator's per-acre
      value times the fuelbed's area, and `debug` is dropped. */
  lemma RunFuelbedPerAcre(fb: ConsFuelbed, loc: ConsLocation, start: int, calculator: Calculator, k: Path)
    requires RunFuelbed(fb, loc, start, calculator).Success?
    ensures calculator(CalcInputOf(fb, loc, start)).Some?
    ensures var out := calculator(CalcInputOf(fb, loc, start)).value;
      var r := RunFuelbed(fb, loc, start, calculator).value;
      && (k in r.consumption <==> k in out.consumption && !(|k| > 0 && k[0] == "debug"))
      && (k in r.consumption ==> r.consumption[k] == out.consumption[k] * FuelbedArea(loc.area, fb.pct))
      && (k in r.heat <==> k in out.heat)
      && (k in r.heat ==> r.heat[k] == out.heat[k] * FuelbedArea(loc.area, fb.pct))
  {
    var out := calculator(CalcInputOf(fb, loc, start)).value;
    var area := FuelbedArea(loc.area, fb.pct);
    var r := RunFuelbed(fb, loc, start, calculator).value;
    assert r.consumption == ScaleNested(DropDebug(out.consumption), area);
    assert r.heat == ScaleNested(out.heat, area);
    ScaleDropAt(out.consumption, area, k);
    if k in out.heat {
      ScaleNestedAt(out.heat, area, k);
    }
  }

  lemma ScaleDropAt(m: Nested, f: real, k: Path)
    ensures k in ScaleNested(DropDebug(m), f) <==> k in m && !(|k| > 0 && k[0] == "debug")
    ensures k in ScaleNested(DropDebug(m), f) ==> ScaleNested(DropDebug(m), f)[k] == m[k] * f
  {
    if k in DropDebug(m) {
      assert DropDebug(m)[k] == m[k];
      ScaleNestedAt(DropDebug(m), f, k);
    }
  }

  /** A fuelbed's own loadings go to the calculator per acre and come back
      multiplied by the area: when the calculator reports the loadings it was
      given, every key the `.*_loading` pattern matches is restored, and any
      other key stays per acre. */
  lemma FuelbedLoadingsRoundTrip(fb: ConsFuelbed, loc: ConsLocation, start: int, calculator: Calculator, k: string)
    requires |fb.fuelLoadings| > 0
    requires RunFuelbed(fb, loc, start, calculator).Success?
    requires calculator(CalcInputOf(fb, loc, start)).Some?
    requires calculator(CalcInputOf(fb, loc, start)).value.fuelLoadings == CalcInputOf(fb, loc, start).customLoadings.value
    ensures MatchesLoadingPattern(k) ==>
      ValueAt(RunFuelbed(fb, loc, start, calculator).value.fuelLoadings, k) == ValueAt(fb.fuelLoadings, k)
    ensures !MatchesLoadingPattern(k) ==>
      ValueAt(RunFuelbed(fb, loc, start, calculator).value.fuelLoadings, k) == ValueAt(fb.fuelLoadings, k) / FuelbedArea(loc.area, fb.pct)
  {
    var a := FuelbedArea(loc.area, fb.pct);
    var perAcre := ScaleWhere(fb.fuelLoadings, AnyKey, 1.0 / a);
    assert CalcInputOf(fb, loc, start).customLoadings == Some(perAcre);
    var r := RunFuelbed(fb, loc, start, calculator).value;
    assert r.fuelLoadings == ScaleWhere(perAcre, MatchesLoadingPattern, a);
    var v := ValueAt(fb.fuelLoadings, k);
    ValueAtScaleWhere(fb.fuelLoadings, AnyKey, 1.0 / a, k);
    ValueAtScaleWhere(perAcre, MatchesLoadingPattern, a, k);
    PerAcreAndBack(v, a);
  }

  function TotalPct(fbs: seq<ConsFuelbed>): real
  {
    if |fbs| == 0 then 0.0 else TotalPct(fbs[..|fbs| - 1]) + fbs[|fbs| - 1].pct
  }

  function TotalFuelbedArea(locArea: real, fbs: seq<ConsFuelbed>): real
  {
    if |fbs| == 0 then 0.0 else TotalFuelbedArea(locArea, fbs[..|fbs| - 1]) + FuelbedArea(locArea, fbs[|fbs| - 1].pct)
  }

  lemma PerAcreAndBack(v: real, a: real)
    requires a != 0.0
    ensures v * (1.0 / a) == v / a
    ensures v * (1.0 / a) * a == v
  {
  }

  /** The fuelbeds' areas add up to the location's area times their total
      percentage over a hundred: the whole location when they add up to 100. */
  lemma {:induction false} FuelbedAreasSplit(locArea: real, fbs: seq<ConsFuelbed>)
    ensures TotalFuelbedArea(locArea, fbs) == locArea * (TotalPct(fbs) / 100.0)
    ensures TotalPct(fbs) == 100.0 ==> TotalFuelbedArea(locArea, fbs) == locArea
  {
    if |fbs| > 0 {
      var init := fbs[..|fbs| - 1];
      var p := fbs[|fbs| - 1].pct;
      FuelbedAreasSplit(locArea, init);
      assert locArea * (TotalPct(init) / 100.0) + locArea * (p / 100.0) == locArea * ((TotalPct(init) + p) / 100.0);
    }
  }

  function RunFuelbeds(fbs: seq<ConsFuelbed>, loc: ConsLocation, start: int, calculator: Calculator): (r: seq<Result<ConsFuelbed, ConsumptionError>>)
    ensures |r| == |fbs|
    ensures forall i :: 0 <= i < |fbs| ==> r[i] == RunFuelbed(fbs[i], loc, start, calculator)
  {
    seq(|fbs|, i requires 0 <= i < |fbs| => RunFuelbed(fbs[i], loc, start, calculator))
  }

  /** One location of `_run_fire`: every fuelbed run in order, then the
      scaling to an estimate. */
  function RunLocation(loc: ConsLocation, start: int, calculator: Calculator, settings: ScaleSettings): (r: Result<ConsLocation, ConsumptionError>)
    ensures r.Success? ==> |r.value.fuelbeds| == |loc.fuelbeds| && r.value.area == loc.area && r.value.ecoregion == loc.ecoregion
    ensures (exists i :: 0 <= i < |loc.fuelbeds| && RunFuelbed(loc.fuelbeds[i], loc, start, calculator).Failure?) ==> r.Failure?
  {
    match Collect(RunFuelbeds(loc.fuelbeds, loc, start, calculator))
    case Failure(e) => Failure(e)
    case Success(fbs) => ScaleLocation(settings, loc.(fuelbeds := fbs))
  }

  function RunLocations(locs: seq<ConsLocation>, start: int, calculator: Calculator, settings: ScaleSettings): (r: seq<Result<ConsLocation, ConsumptionError>>)
    ensures |r| == |locs|
    ensures forall i :: 0 <= i < |locs| ==> r[i] == RunLocation(locs[i], start, calculator, settings)
  {
    seq(|locs|, i requires 0 <= i < |locs| => RunLocation(locs[i], start, calculator, settings))
  }

  /** One active area: its start is required (it gives the season). */
  function RunActiveArea(aa: ConsActiveArea, calculator: Calculator, settings: ScaleSettings): (r: Result<ConsActiveArea, ConsumptionError>)
    ensures aa.start.None? ==> r == Failure(StartRequired)
    ensures r.Success? ==> r.value.start == aa.start && |r.value.locations| == |aa.locations|
    ensures r.Success? ==> forall j :: 0 <= j < |aa.locations| ==> RunLocation(aa.locations[j], aa.start.value, calculator, settings) == Success(r.value.locations[j])
  {
    match aa.start
    case None => Failure(StartRequired)
    case Some(start) =>
      match Collect(RunLocations(aa.locations, start, calculator, settings))
      case Failure(e) => Failure(e)
      case Success(locs) => Success(aa.(locations := locs))
  }

  function RunActiveAreas(aas: seq<ConsActiveArea>, calculator: Calculator, settings: ScaleSettings): (r: seq<Result<ConsActiveArea, ConsumptionError>>)
    ensures |r| == |aas|
    ensures forall i :: 0 <= i < |aas| ==> r[i] == RunActiveArea(aas[i], calculator, settings)
  {
    seq(|aas|, i requires 0 <= i < |aas| => RunActiveArea(aas[i], calculator, settings))
  }

  /** `_run_fire` for the consumption calculator: piles as the fire's fuel
      type are refused; otherwise every active area is run in order and the
      first error ends the fire. */
  function RunFire(fuelType: string, aas: seq<ConsActiveArea>, calculator: Calculator, settings: ScaleSettings): (r: Result<seq<ConsActiveArea>, ConsumptionError>)
    ensures fuelType == "piles" ==> r == Failure(PilesNotSupported)
    ensures fuelType != "piles" && (exists i :: 0 <= i < |aas| && aas[i].start.None?) ==> r.Failure?
    ensures r.Success? ==> |r.value| == |aas|
    ensures r.Success? ==> forall i :: 0 <= i < |aas| ==> RunActiveArea(aas[i], calculator, settings) == Success(r.value[i])
  {
    if fuelType == "piles" then Failure(PilesNotSupported)
    else Collect(RunActiveAreas(aas, calculator, settings))
  }
}

=== FILE: consumption_scaling.dfy ===
/** Scaling the modelled consumption of a location to an estimate: by the
    estimated consumption per acre, or by the estimated fuel load per acre
    over the fuel loadings record's summed keys. */
module ConsumptionScaling {
  import opened Common
  import opened Consumption

  // ---------------------------------------------------------------------
  // Fuel loadings records and nested data
  // ---------------------------------------------------------------------

  predicate StartsWith(s: string, prefix: string)
  {
    |prefix| <= |s| && s[..|prefix|] == prefix
  }

  predicate EndsWith(s: string, suffix: string)
  {
    |suffix| <= |s| && s[|s| - |suffix|..] == suffix
  }

  predicate Contains(s: string, part: string)
  {
    StartsWith(s, part) || (|s| > 0 && Contains(s[1..], part))
  }

  /** A fuel load, as chosen for summing and scaling by an estimate. */
  predicate IsLoadingKey(k: string)
  {
    EndsWith(k, "_loading")
  }

  /** A fuel load counted in the modelled total; `total_` keys would count it twice. */
  predicate IsSummedKey(k: string)
  {
    IsLoadingKey(k) && !StartsWith(k, "total_")
  }

  /** A key the `.*_loading` pattern matches, as multiplied by area after a run. */
  predicate MatchesLoadingPattern(k: string)
  {
    Contains(k, "_loading")
  }

  /** The value under `k`, or nothing when it is absent. */
  function ValueAt(d: FuelLoadings, k: string): real
  {
    match Lookup(d, k)
    case Some(v) => v
    case None => 0.0
  }

  /** The keys satisfying `p`, in the record's order. */
  function KeysWhere(d: FuelLoadings, p: string -> bool): (r: seq<string>)
    ensures forall k :: k in r <==> p(k) && exists i :: 0 <= i < |d| && d[i].0 == k
  {
    if |d| == 0 then []
    else
      var rest := KeysWhere(d[1..], p);
      assert forall i :: 1 <= i < |d| ==> d[i] == d[1..][i - 1];
      if p(d[0].0) then [d[0].0] + rest else rest
  }

  /** Every value whose key satisfies `p` multiplied by `f`. */
  function ScaleWhere(d: FuelLoadings, p: string -> bool, f: real): FuelLoadings
  {
    if |d| == 0 then []
    else [(d[0].0, if p(d[0].0) then d[0].1 * f else d[0].1)] + ScaleWhere(d[1..], p, f)
  }

  /** Scaling the values of some keys scales what a lookup of those keys finds. */
  lemma {:induction false} ValueAtScaleWhere(d: FuelLoadings, p: string -> bool, f: real, k: string)
    ensures ValueAt(ScaleWhere(d, p, f), k) == if p(k) then ValueAt(d, k) * f else ValueAt(d, k)
  {
    if |d| > 0 {
      var r := ScaleWhere(d, p, f);
      assert r[1..] == ScaleWhere(d[1..], p, f);
      if d[0].0 != k {
        ValueAtScaleWhere(d[1..], p, f, k);
      }
    }
  }

  /** Every leaf multiplied by `f`. */
  function ScaleNested(m: Nested, f: real): (r: Nested)
    ensures r.Keys == m.Keys
  {
    map k | k in m :: m[k] * f
  }

  lemma ScaleNestedAt(m: Nested, f: real, k: Path)
    requires k in m
    ensures k in ScaleNested(m, f) && ScaleNested(m, f)[k] == m[k] * f
  {
  }

  /** Scaling by `f` and then by `1 / f` gives the data back. */
  lemma ScaleNestedRoundTrip(m: Nested, f: real)
    requires f != 0.0
    ensures ScaleNested(ScaleNested(m, f), 1.0 / f) == m
  {
    var r := ScaleNested(ScaleNested(m, f), 1.0 / f);
    forall k | k in m
      ensures r[k] == m[k]
    {
      assert r[k] == m[k] * f * (1.0 / f);
    }
    SameMaps(r, m);
  }

  // ---------------------------------------------------------------------
  // Scaling to an estimate
  // ---------------------------------------------------------------------

  datatype ConsumptionError =
    | PilesNotSupported
    | StartRequired
    | CalculationFailed(fccsId: string)
    | MissingConsumptionTotal
    | DivisionByZero
    | NoFuelbedsToScale
    | MissingLoading(key: string)

  datatype Scaling = NotScaled | Scaled(loc: ConsLocation)

  /** Where a fuelbed's total consumption sits in its consumption data. */
  const TotalPath: Path := ["summary", "total", "total"]

  function ConsumptionTotal(fb: ConsFuelbed): real
  {
    if TotalPath in fb.consumption then fb.consumption[TotalPath] else 0.0
  }

  predicate HasTotals(fbs: seq<ConsFuelbed>)
  {
    forall i :: 0 <= i < |fbs| ==> TotalPath in fbs[i].consumption
  }

  /** The modelled consumption of a location, over all its fuelbeds. */
  function ModeledConsumption(fbs: seq<ConsFuelbed>): real
  {
    SumOf(fbs, ConsumptionTotal)
  }

  function ScaleConsumption(fbs: seq<ConsFuelbed>, f: real): (r: seq<ConsFuelbed>)
    ensures |r| == |fbs|
    ensures forall i :: 0 <= i < |fbs| ==> r[i] == fbs[i].(consumption := ScaleNested(fbs[i].consumption, f))
  {
    seq(|fbs|, i requires 0 <= i < |fbs| => fbs[i].(consumption := ScaleNested(fbs[i].consumption, f)))
  }

  /** Scaling every fuelbed's consumption scales the location's. */
  lemma ConsumptionScaled(fbs: seq<ConsFuelbed>, f: real)
    requires HasTotals(fbs)
    ensures ModeledConsumption(ScaleConsumption(fbs, f)) == ModeledConsumption(fbs) * f
  {
    var scaled := ScaleConsumption(fbs, f);
    forall i | 0 <= i < |fbs|
      ensures ConsumptionTotal(scaled[i]) == ConsumptionTotal(fbs[i]) * f
    {
      ScaleNestedAt(fbs[i].consumption, f, TotalPath);
    }
    SumOfScaled(fbs, scaled, ConsumptionTotal, ConsumptionTotal, f);
  }

  /** Per-acre modelled values divided into an estimate give the factor that
      brings the total to the estimate. */
  lemma FactorReachesEstimate(total: real, area: real, estimate: real, scaled: real)
    requires area != 0.0 && total / area != 0.0
    requires scaled == total * (estimate / (total / area))
    ensures scaled / area == estimate
  {
    var q := total / area;
    var f := estimate / q;
    assert q * area == total;
    assert f * q == estimate;
    assert scaled == (q * area) * f;
    assert scaled / area == q * f;
  }

  /** `_scale_with_estimated_consumption`: when enabled and the location has
      an estimate, every fuelbed's consumption is scaled so that the
      location's consumption per acre equals the estimate. */
  function ScaleWithEstimatedConsumption(enabled: bool, loc: ConsLocation): (r: Result<Scaling, ConsumptionError>)
    ensures !enabled || loc.estConsumptionTpa == 0.0 ==> r == Success(NotScaled)
    ensures r.Failure? <==> (enabled && loc.estConsumptionTpa != 0.0 &&
      (!HasTotals(loc.fuelbeds) || loc.area == 0.0 || ModeledConsumption(loc.fuelbeds) / loc.area == 0.0))
    ensures r.Success? && r.value.Scaled? ==>
      && ModeledConsumption(r.value.loc.fuelbeds) / loc.area == loc.estConsumptionTpa
      && r.value.loc.consumptionScaleFactor == Some(loc.estConsumptionTpa / (ModeledConsumption(loc.fuelbeds) / loc.area))
      && r.value.loc == loc.(fuelbeds := ScaleConsumption(loc.fuelbeds, r.value.loc.consumptionScaleFactor.value),
                             consumptionScaleFactor := r.value.loc.consumptionScaleFactor)
  {
    if !enabled || loc.estConsumptionTpa == 0.0 then Success(NotScaled)
    else if !HasTotals(loc.fuelbeds) then Failure(MissingConsumptionTotal)
    else if loc.area == 0.0 then Failure(DivisionByZero)
    else
      var modeled := ModeledConsumption(loc.fuelbeds) / loc.area;
      if modeled == 0.0 then Failure(DivisionByZero)
      else
        var factor := loc.estConsumptionTpa / modeled;
        var fbs := ScaleConsumption(loc.fuelbeds, factor);
        ConsumptionScaled(loc.fuelbeds, factor);
        FactorReachesEstimate(ModeledConsumption(loc.fuelbeds), loc.area, loc.estConsumptionTpa, ModeledConsumption(fbs));
        Success(Scaled(loc.(fuelbeds := fbs, consumptionScaleFactor := Some(factor))))
  }

  /** The modelled fuel load of one fuelbed over the given keys. */
  function LoadSum(d: FuelLoadings, keys: seq<string>): real
  {
    if |keys| == 0 then 0.0 else LoadSum(d, keys[..|keys| - 1]) + ValueAt(d, keys[|keys| - 1])
  }

  /** The modelled fuel load of a location, over all its fuelbeds. */
  function ModeledFuelload(fbs: seq<ConsFuelbed>, keys: seq<string>): real
  {
    SumOf(fbs, LoadOver(keys))
  }

  function LoadOver(keys: seq<string>): ConsFuelbed -> real
  {
    (fb: ConsFuelbed) => LoadSum(fb.fuelLoadings, keys)
  }

  /** The first key, fuelbed by fuelbed, that a fuelbed's record lacks. */
  function FirstMissing(fbs: seq<ConsFuelbed>, keys: seq<string>): (r: Option<string>)
    ensures r.None? <==> forall i, k :: 0 <= i < |fbs| && k in keys ==> Lookup(fbs[i].fuelLoadings, k).Some?
    ensures r.Some? ==> r.value in keys && exists i :: 0 <= i < |fbs| && Lookup(fbs[i].fuelLoadings, r.value).None?
  {
    if |fbs| == 0 then None
    else
      var here := MissingKey(fbs[0].fuelLoadings, keys);
      if here.Some? then here
      else
        assert forall i :: 1 <= i < |fbs| ==> fbs[i] == fbs[1..][i - 1];
        FirstMissing(fbs[1..], keys)
  }

  function MissingKey(d: FuelLoadings, keys: seq<string>): (r: Option<string>)
    ensures r.None? <==> forall k :: k in keys ==> Lookup(d, k).Some?
    ensures r.Some? ==> r.value in keys && Lookup(d, r.value).None?
  {
    if |keys| == 0 then None
    else if Lookup(d, keys[0]).None? then
      assert keys[0] in keys;
      Some(keys[0])
    else
      assert forall k :: k in keys ==> k == keys[0] || k in keys[1..];
      assert forall k :: k in keys[1..] ==> k in keys;
      MissingKey(d, keys[1..])
  }

  predicate AnyWithoutLoadings(fbs: seq<ConsFuelbed>)
  {
    exists i :: 0 <= i < |fbs| && |fbs[i].fuelLoadings| == 0
  }

  /** Membership in `keys`, as a predicate on keys. */
  function InKeys(keys: seq<string>): string -> bool
  {
    k => k in keys
  }

  /** A fuelbed with the loadings under `keys`, its consumption and its heat
      scaled by `f`. */
  function ScaleFuelbedLoad(fb: ConsFuelbed, f: real, keys: seq<string>): ConsFuelbed
  {
    fb.(fuelLoadings := ScaleWhere(fb.fuelLoadings, InKeys(keys), f),
        consumption := ScaleNested(fb.consumption, f),
        heat := ScaleNested(fb.heat, f))
  }

  function ScaleFuelload(fbs: seq<ConsFuelbed>, f: real, keys: seq<string>): (r: seq<ConsFuelbed>)
    ensures |r| == |fbs|
    ensures forall i :: 0 <= i < |fbs| ==> r[i] == ScaleFuelbedLoad(fbs[i], f, keys)
  {
    seq(|fbs|, i requires 0 <= i < |fbs| => ScaleFuelbedLoad(fbs[i], f, keys))
  }

  /** Scaling the loadings scales every summed fuel load. */
  lemma {:induction false} LoadSumScaled(d: FuelLoadings, keys: seq<string>, scaleKeys: seq<string>, f: real)
    requires forall k :: k in keys ==> k in scaleKeys
    ensures LoadSum(ScaleWhere(d, InKeys(scaleKeys), f), keys) == LoadSum(d, keys) * f
  {
    if |keys| > 0 {
      var k := keys[|keys| - 1];
      LoadSumScaled(d, keys[..|keys| - 1], scaleKeys, f);
      ValueAtScaleWhere(d, InKeys(scaleKeys), f, k);
    }
  }

  /** Scaling every fuelbed's loadings scales the location's summed load. */
  lemma FuelloadScaled(fbs: seq<ConsFuelbed>, keys: seq<string>, scaleKeys: seq<string>, f: real)
    requires forall k :: k in keys ==> k in scaleKeys
    ensures ModeledFuelload(ScaleFuelload(fbs, f, scaleKeys), keys) == ModeledFuelload(fbs, keys) * f
  {
    var scaled := ScaleFuelload(fbs, f, scaleKeys);
    LoadsScaled(fbs, scaled, keys, scaleKeys, f);
    SumOfScaled(fbs, scaled, LoadOver(keys), LoadOver(keys), f);
  }

  lemma LoadsScaled(fbs: seq<ConsFuelbed>, scaled: seq<ConsFuelbed>, keys: seq<string>, scaleKeys: seq<string>, f: real)
    requires forall k :: k in keys ==> k in scaleKeys
    requires scaled == ScaleFuelload(fbs, f, scaleKeys)
    ensures |scaled| == |fbs|
    ensures forall i :: 0 <= i < |fbs| ==> LoadOver(keys)(scaled[i]) == LoadOver(keys)(fbs[i]) * f
  {
    forall i | 0 <= i < |fbs|
      ensures LoadOver(keys)(scaled[i]) == LoadOver(keys)(fbs[i]) * f
    {
      assert scaled[i].fuelLoadings == ScaleWhere(fbs[i].fuelLoadings, InKeys(scaleKeys), f);
      LoadSumScaled(fbs[i].fuelLoadings, keys, scaleKeys, f);
    }
  }

  /** The scaling proper, once the keys are chosen: a missing key is a
      `KeyError` and a zero area or zero modelled load a division by zero. */
  function FuelloadScaling(loc: ConsLocation, sumKeys: seq<string>, scaleKeys: seq<string>): (r: Result<Scaling, ConsumptionError>)
    requires forall k :: k in sumKeys ==> k in scaleKeys
    ensures r.Success? ==> r.value.Scaled?
    ensures r.Failure? <==>
      || FirstMissing(loc.fuelbeds, scaleKeys).Some?
      || loc.area == 0.0
      || ModeledFuelload(loc.fuelbeds, sumKeys) / loc.area == 0.0
    ensures FirstMissing(loc.fuelbeds, sumKeys).Some? ==>
      r == Failure(MissingLoading(FirstMissing(loc.fuelbeds, sumKeys).value))
    ensures FirstMissing(loc.fuelbeds, sumKeys).None? && (loc.area == 0.0 || ModeledFuelload(loc.fuelbeds, sumKeys) / loc.area == 0.0) ==>
      r == Failure(DivisionByZero)
    ensures r.Failure? && r.error.MissingLoading? ==>
      exists i :: 0 <= i < |loc.fuelbeds| && Lookup(loc.fuelbeds[i].fuelLoadings, r.error.key).None?
    ensures r.Failure? ==> r.error.MissingLoading? || r.error == DivisionByZero
    ensures r.Success? ==>
      var f := r.value.loc.fuelloadScaleFactor;
      && loc.area != 0.0
      && ModeledFuelload(loc.fuelbeds, sumKeys) / loc.area != 0.0
      && ModeledFuelload(r.value.loc.fuelbeds, sumKeys) / loc.area == loc.estFuelloadTpa
      && f == Some(loc.estFuelloadTpa / (ModeledFuelload(loc.fuelbeds, sumKeys) / loc.area))
      && r.value.loc == loc.(fuelbeds := ScaleFuelload(loc.fuelbeds, f.value, scaleKeys), fuelloadScaleFactor := f)
  {
    var fbs := loc.fuelbeds;
    var missing := FirstMissing(fbs, sumKeys);
    if missing.Some? then Failure(MissingLoading(missing.value))
    else if loc.area == 0.0 then Failure(DivisionByZero)
    else
      var modeled := ModeledFuelload(fbs, sumKeys) / loc.area;
      if modeled == 0.0 then Failure(DivisionByZero)
      else
        var factor := loc.estFuelloadTpa / modeled;
        var missingScaled := FirstMissing(fbs, scaleKeys);
        if missingScaled.Some? then Failure(MissingLoading(missingScaled.value))
        else
          FuelloadReachesEstimate(fbs, sumKeys, scaleKeys, loc.area, loc.estFuelloadTpa);
          Success(Scaled(loc.(fuelbeds := ScaleFuelload(fbs, factor, scaleKeys), fuelloadScaleFactor := Some(factor))))
  }

  /** The factor chosen from the modelled load per acre brings it to the estimate. */
  lemma FuelloadReachesEstimate(fbs: seq<ConsFuelbed>, keys: seq<string>, scaleKeys: seq<string>, area: real, estimate: real)
    requires forall k :: k in keys ==> k in scaleKeys
    requires area != 0.0 && ModeledFuelload(fbs, keys) / area != 0.0
    ensures ModeledFuelload(ScaleFuelload(fbs, estimate / (ModeledFuelload(fbs, keys) / area), scaleKeys), keys) / area == estimate
  {
    var factor := estimate / (ModeledFuelload(fbs, keys) / area);
    FuelloadScaled(fbs, keys, scaleKeys, factor);
    FactorReachesEstimate(ModeledFuelload(fbs, keys), area, estimate, ModeledFuelload(ScaleFuelload(fbs, factor, scaleKeys), keys));
  }

  /** `_scale_with_estimated_fuelload`: when enabled, the location has an
      estimate and every fuelbed has loadings, the `*_loading` values, the
      consumption and the heat of every fuelbed are scaled by one factor,
      chosen so that the fuel load per acre over the keys that are not
      `total_` equals the estimate. Both key lists come from the first
      fuelbed: another fuelbed's own extra `*_loading` keys are left alone,
      and one lacking a listed key is a `KeyError`. */
  function ScaleWithEstimatedFuelload(enabled: bool, loc: ConsLocation): (r: Result<Scaling, ConsumptionError>)
    ensures r == Success(NotScaled) <==> !enabled || loc.estFuelloadTpa == 0.0 || AnyWithoutLoadings(loc.fuelbeds)
    ensures enabled && loc.estFuelloadTpa != 0.0 && !AnyWithoutLoadings(loc.fuelbeds) && |loc.fuelbeds| > 0 ==>
      var first := loc.fuelbeds[0].fuelLoadings;
      && r == FuelloadScaling(loc, KeysWhere(first, IsSummedKey), KeysWhere(first, IsLoadingKey))
      && (r.Success? ==> r.value.Scaled?)
      && (r.Failure? <==>
          || FirstMissing(loc.fuelbeds, KeysWhere(first, IsLoadingKey)).Some?
          || loc.area == 0.0
          || ModeledFuelload(loc.fuelbeds, KeysWhere(first, IsSummedKey)) / loc.area == 0.0)
    ensures r == Failure(NoFuelbedsToScale) <==>
      enabled && loc.estFuelloadTpa != 0.0 && |loc.fuelbeds| == 0
    ensures r.Failure? && r.error.MissingLoading? ==>
      exists i :: 0 <= i < |loc.fuelbeds| && Lookup(loc.fuelbeds[i].fuelLoadings, r.error.key).None?
    ensures r.Success? && r.value.Scaled? ==>
      var keys := KeysWhere(loc.fuelbeds[0].fuelLoadings, IsSummedKey);
      var f := r.value.loc.fuelloadScaleFactor;
      && loc.area != 0.0
      && ModeledFuelload(loc.fuelbeds, keys) / loc.area != 0.0
      && ModeledFuelload(r.value.loc.fuelbeds, keys) / loc.area == loc.estFuelloadTpa
      && f == Some(loc.estFuelloadTpa / (ModeledFuelload(loc.fuelbeds, keys) / loc.area))
      && r.value.loc == loc.(fuelbeds := ScaleFuelload(loc.fuelbeds, f.value, KeysWhere(loc.fuelbeds[0].fuelLoadings, IsLoadingKey)),
                             fuelloadScaleFactor := f)
  {
    if !enabled || loc.estFuelloadTpa == 0.0 || AnyWithoutLoadings(loc.fuelbeds) then Success(NotScaled)
    else if |loc.fuelbeds| == 0 then Failure(NoFuelbedsToScale)
    else
      var first := loc.fuelbeds[0].fuelLoadings;
      FuelloadScaling(loc, KeysWhere(first, IsSummedKey), KeysWhere(first, IsLoadingKey))
  }

  /** Fuel load scaling multiplies, in every fuelbed, exactly the `*_loading`
      keys the first fuelbed has: a key only another fuelbed has keeps its value. */
  lemma FuelloadScalesFirstFuelbedKeys(enabled: bool, loc: ConsLocation, i: nat, k: string)
    requires ScaleWithEstimatedFuelload(enabled, loc).Success? && ScaleWithEstimatedFuelload(enabled, loc).value.Scaled?
    requires i < |loc.fuelbeds|
    ensures var r := ScaleWithEstimatedFuelload(enabled, loc).value.loc;
      ValueAt(r.fuelbeds[i].fuelLoadings, k) ==
      if IsLoadingKey(k) && exists j :: 0 <= j < |loc.fuelbeds[0].fuelLoadings| && loc.fuelbeds[0].fuelLoadings[j].0 == k
      then ValueAt(loc.fuelbeds[i].fuelLoadings, k) * r.fuelloadScaleFactor.value
      else ValueAt(loc.fuelbeds[i].fuelLoadings, k)
  {
    var r := ScaleWithEstimatedFuelload(enabled, loc).value.loc;
    var keys := KeysWhere(loc.fuelbeds[0].fuelLoadings, IsLoadingKey);
    ValueAtScaleWhere(loc.fuelbeds[i].fuelLoadings, InKeys(keys), r.fuelloadScaleFactor.value, k);
  }

  /** Which scalings are switched on. */
  datatype ScaleSettings = ScaleSettings(withConsumption: bool, withFuelload: bool)

  /** The scaling at the end of each location in `_run_fire`: by the
      consumption estimate if that applies, otherwise by the fuel load
      estimate. */
  function ScaleLocation(settings: ScaleSettings, loc: ConsLocation): (r: Result<ConsLocation, ConsumptionError>)
    ensures r.Success? ==> |r.value.fuelbeds| == |loc.fuelbeds| && r.value.area == loc.area && r.value.ecoregion == loc.ecoregion
    ensures ScaleWithEstimatedConsumption(settings.withConsumption, loc).Failure? ==> r.Failure?
    ensures ScaleWithEstimatedConsumption(settings.withConsumption, loc) == Success(NotScaled) ==>
      r == match ScaleWithEstimatedFuelload(settings.withFuelload, loc)
           case Success(NotScaled) => Success(loc)
           case Success(Scaled(l)) => Success(l)
           case Failure(e) => Failure(e)
  {
    match ScaleWithEstimatedConsumption(settings.withConsumption, loc)
    case Failure(e) => Failure(e)
    case Success(Scaled(l)) => Success(l)
    case Success(NotScaled) =>
      match ScaleWithEstimatedFuelload(settings.withFuelload, loc)
      case Failure(e) => Failure(e)
      case Success(Scaled(l)) => Success(l)
      case Success(NotScaled) => Success(loc)
  }

  /** Scaling by the consumption estimate takes precedence: when it applies,
      fuel loads and heat are left as they are. */
  lemma ConsumptionScalingFirst(settings: ScaleSettings, loc: ConsLocation)
    requires settings.withConsumption && loc.estConsumptionTpa != 0.0
    requires HasTotals(loc.fuelbeds) && loc.area != 0.0 && ModeledConsumption(loc.fuelbeds) / loc.area != 0.0
    ensures ScaleLocation(settings, loc).Success?
    ensures ScaleLocation(settings, loc).value.fuelloadScaleFactor == loc.fuelloadScaleFactor
    ensures ModeledConsumption(ScaleLocation(settings, loc).value.fuelbeds) / loc.area == loc.estConsumptionTpa
    ensures forall i :: 0 <= i < |loc.fuelbeds| ==>
      ScaleLocation(settings, loc).value.fuelbeds[i].fuelLoadings == loc.fuelbeds[i].fuelLoadings &&
      ScaleLocation(settings, loc).value.fuelbeds[i].heat == loc.fuelbeds[i].heat
  {
  }
}

=== FILE: emmodels.dfy ===
/** Choosing the emissions model class from the configured model name
    (`run` in bluesky/modules/emissions.py): the name is split on '-', each
    part capitalised, the parts joined, and the result looked up among the
    module's attributes. Characters are ASCII; Python's Unicode case mapping
    is not modelled. */
module EmissionModels {
  import opened Common

  predicate IsUpperChar(c: char)
  {
    'A' <= c <= 'Z'
  }

  predicate IsLowerChar(c: char)
  {
    'a' <= c <= 'z'
  }

  function UpperChar(c: char): (u: char)
    ensures IsLowerChar(c) ==> IsUpperChar(u)
    ensures !IsLowerChar(c) ==> u == c
  {
    if IsLowerChar(c) then (c as int - 32) as char else c
  }

  function LowerChar(c: char): (l: char)
    ensures IsUpperChar(c) ==> IsLowerChar(l)
    ensures !IsUpperChar(c) ==> l == c
    ensures !IsUpperChar(l)
  {
    if IsUpperChar(c) then (c as int + 32) as char else c
  }

  /** Case conversion of a letter is undone by the opposite conversion. */
  lemma CaseInverse(c: char)
    ensures IsLowerChar(c) ==> LowerChar(UpperChar(c)) == c
    ensures IsUpperChar(c) ==> UpperChar(LowerChar(c)) == c
    ensures UpperChar(LowerChar(c)) == UpperChar(c)
    ensures LowerChar(LowerChar(c)) == LowerChar(c)
  {
  }

  function Lower(s: string): (r: string)
    ensures |r| == |s| && forall i :: 0 <= i < |s| ==> r[i] == LowerChar(s[i])
  {
    seq(|s|, i requires 0 <= i < |s| => LowerChar(s[i]))
  }

  /** `str.capitalize`: first character upper case, the rest lower case. */
  function Capitalize(s: string): (r: string)
    ensures |r| == |s|
    ensures |s| > 0 ==> r[0] == UpperChar(s[0]) && r[1..] == Lower(s[1..])
  {
    if |s| == 0 then "" else [UpperChar(s[0])] + Lower(s[1..])
  }

  /** `str.split('-')`: the parts between dashes, empty parts included. */
  function Split(s: string): (parts: seq<string>)
    ensures |parts| >= 1
    ensures forall i :: 0 <= i < |parts| ==> '-' !in parts[i]
  {
    if |s| == 0 then [""]
    else
      var t := Split(s[1..]);
      if s[0] == '-' then [""] + t
      else [[s[0]] + t[0]] + t[1..]
  }

  /** `'-'.join(parts)`. */
  function Join(parts: seq<string>): string
    requires |parts| >= 1
  {
    if |parts| == 1 then parts[0] else parts[0] + "-" + Join(parts[1..])
  }

  /** Joining the parts of a split gives back the original name. */
  lemma {:induction false} SplitJoin(s: string)
    ensures Join(Split(s)) == s
  {
    if |s| > 0 {
      SplitJoin(s[1..]);
      var t := Split(s[1..]);
      if s[0] == '-' {
        assert s == "-" + s[1..];
      } else {
        JoinHead([s[0]], t);
        assert s == [s[0]] + s[1..];
      }
    }
  }

  /** Joining a list of two or more parts puts a dash after the first. */
  lemma JoinCons(parts: seq<string>)
    requires |parts| >= 2
    ensures Join(parts) == parts[0] + ("-" + Join(parts[1..]))
  {
  }

  /** A prefix of the first part is a prefix of the join. */
  lemma JoinHead(a: string, t: seq<string>)
    requires |t| >= 1
    ensures Join([a + t[0]] + t[1..]) == a + Join(t)
  {
    if |t| == 1 {
      assert [a + t[0]] + t[1..] == [a + t[0]];
    } else {
      var u := [a + t[0]] + t[1..];
      assert u[1..] == t[1..];
      JoinHeadMore(a, t, u);
    }
  }

  lemma JoinHeadMore(a: string, t: seq<string>, u: seq<string>)
    requires |t| >= 2 && |u| == |t| && u[0] == a + t[0] && u[1..] == t[1..]
    ensures Join(u) == a + Join(t)
  {
    JoinCons(u);
    JoinCons(t);
    var tail := "-" + Join(t[1..]);
    assert (a + t[0]) + tail == a + (t[0] + tail);
  }

  function ConcatCapitalized(parts: seq<string>): string
  {
    if |parts| == 0 then "" else Capitalize(parts[0]) + ConcatCapitalized(parts[1..])
  }

  /** The class name derived from a model name. */
  function ClassName(model: string): string
  {
    ConcatCapitalized(Split(model))
  }

  /** Reference definition, one character at a time: dashes are dropped, the
      first character after a dash (or at the start) is upper-cased and every
      other character lower-cased. */
  function Scan(s: string, atStart: bool): string
  {
    if |s| == 0 then ""
    else if s[0] == '-' then Scan(s[1..], true)
    else [if atStart then UpperChar(s[0]) else LowerChar(s[0])] + Scan(s[1..], false)
  }

  /** The split/capitalise/join derivation agrees with the character scan. */
  lemma {:induction false} ClassNameIsScan(s: string)
    ensures ConcatCapitalized(Split(s)) == Scan(s, true)
    ensures Lower(Split(s)[0]) + ConcatCapitalized(Split(s)[1..]) == Scan(s, false)
  {
    if |s| > 0 {
      ClassNameIsScan(s[1..]);
      if s[0] == '-' {
        assert Split(s) == [""] + Split(s[1..]);
        assert Split(s)[1..] == Split(s[1..]);
      } else {
        var t := Split(s[1..]);
        var p := [s[0]] + t[0];
        assert Split(s) == [p] + t[1..];
        assert Split(s)[1..] == t[1..];
        CapitalizedStep(s[0], t[0], t[1..]);
        LoweredStep(s[0], t[0], ConcatCapitalized(t[1..]));
      }
    }
  }

  /** The capitalised first part of a name that starts with a letter. */
  lemma CapitalizedStep(c: char, w: string, rest: seq<string>)
    ensures ConcatCapitalized([[c] + w] + rest)
         == [UpperChar(c)] + (Lower(w) + ConcatCapitalized(rest))
  {
    var p := [c] + w;
    assert ([p] + rest)[1..] == rest;
    assert p[1..] == w;
  }

  /** The lower-cased first part of a name that starts with a letter. */
  lemma LoweredStep(c: char, w: string, rest: string)
    ensures Lower([c] + w) + rest == [LowerChar(c)] + (Lower(w) + rest)
  {
    assert Lower([c] + w) == [LowerChar(c)] + Lower(w);
  }

  /** The class name does not depend on the case of the model name. */
  lemma {:induction false} ScanIgnoresCase(s: string, atStart: bool)
    ensures Scan(Lower(s), atStart) == Scan(s, atStart)
  {
    if |s| > 0 {
      ScanIgnoresCase(s[1..], s[0] == '-' || (atStart && s[0] == '-'));
      ScanIgnoresCase(s[1..], true);
      ScanIgnoresCase(s[1..], false);
      assert Lower(s)[1..] == Lower(s[1..]);
      CaseInverse(s[0]);
    }
  }

  lemma ClassNameIgnoresCase(model: string)
    ensures ClassName(Lower(model)) == ClassName(model)
  {
    ClassNameIsScan(model);
    ClassNameIsScan(Lower(model));
    ScanIgnoresCase(model, true);
  }

  /** Inverse direction: a dash before each interior capital, all lower case. */
  function Hyphenate(s: string, atStart: bool): string
  {
    if |s| == 0 then ""
    else (if IsUpperChar(s[0]) && !atStart then "-" else "") + [LowerChar(s[0])] + Hyphenate(s[1..], false)
  }

  /** The rest of a model name in canonical form: no capitals, and every dash
      followed by a lower-case letter. */
  predicate CanonicalTail(s: string)
  {
    (forall i :: 0 <= i < |s| ==> !IsUpperChar(s[i])) &&
    (forall i :: 0 <= i < |s| && s[i] == '-' ==> i + 1 < |s| && IsLowerChar(s[i + 1]))
  }

  /** A model name in canonical form: dash-separated lower-case words, such as
      `prichard-oneill`. */
  predicate Canonical(model: string)
  {
    |model| > 0 && IsLowerChar(model[0]) && CanonicalTail(model)
  }

  lemma {:induction false} HyphenateTail(s: string)
    requires CanonicalTail(s)
    ensures Hyphenate(Scan(s, false), false) == s
  {
    if |s| > 0 {
      if s[0] == '-' {
        var x := s[1];
        assert CanonicalTail(s[2..]) by {
          assert forall i :: 0 <= i < |s| - 2 ==> s[2..][i] == s[i + 2];
        }
        HyphenateTail(s[2..]);
        CaseInverse(x);
        assert Scan(s, false) == [UpperChar(x)] + Scan(s[2..], false);
        assert s == "-" + [x] + s[2..];
      } else {
        assert CanonicalTail(s[1..]) by {
          assert forall i :: 0 <= i < |s| - 1 ==> s[1..][i] == s[i + 1];
        }
        HyphenateTail(s[1..]);
        assert Scan(s, false) == [LowerChar(s[0])] + Scan(s[1..], false);
        assert s == [s[0]] + s[1..];
      }
    }
  }

  /** A canonical model name is recovered from its class name. */
  lemma ModelNameRoundTrip(model: string)
    requires Canonical(model)
    ensures Hyphenate(ClassName(model), true) == model
  {
    ClassNameIsScan(model);
    assert CanonicalTail(model[1..]) by {
      assert forall i :: 0 <= i < |model| - 1 ==> model[1..][i] == model[i + 1];
    }
    HyphenateTail(model[1..]);
    CaseInverse(model[0]);
    assert Scan(model, true) == [UpperChar(model[0])] + Scan(model[1..], false);
    assert model == [model[0]] + model[1..];
  }

  /** The emissions model classes defined in the module. */
  datatype Model = Crops | UbcBsfFeps | Feps | PrichardOneill | Urbanski | Consume

  function ClassOf(m: Model): string
  {
    match m
    case Crops => "Crops"
    case UbcBsfFeps => "UbcBsfFeps"
    case Feps => "Feps"
    case PrichardOneill => "PrichardOneill"
    case Urbanski => "Urbanski"
    case Consume => "Consume"
  }

  /** The configuration error for an unknown model; `urbanskiHint` marks the
      extra sentence naming its replacement. */
  datatype DispatchError = InvalidModel(model: string, urbanskiHint: bool)

  /** Module attributes a derived class name can reach whose call with the
      failure handler raises a `TypeError`, which the lookup's
      `except AttributeError` does not catch: the abstract base class, the
      helper `_calculate` (it takes more arguments), and the imported
      constants `CONSUME_FIELDS` (iterated at line 471) and
      `CONSUME_VERSION_STR` (recorded as a version at line 60). */
  const UncallableValues: seq<string> :=
    ["EmissionsBase", "_calculate", "CONSUME_FIELDS", "CONSUME_VERSION_STR"]

  /** The module's own dunder values, none of them callable. */
  const ModuleDunders: seq<string> := [
    "__author__", "__all__", "__version__", "__name__", "__doc__", "__file__",
    "__package__", "__loader__", "__spec__", "__builtins__", "__cached__"]

  /** The attributes every module object has (Python 3.11 or later) that do
      not accept the handler as their one argument: the instance dictionary,
      the annotations, the type, and methods that take no argument or one of
      another kind. */
  const ModuleObjectDunders: seq<string> := [
    "__dict__", "__annotations__", "__class__", "__delattr__", "__dir__",
    "__format__", "__getattribute__", "__getstate__", "__hash__", "__init__",
    "__init_subclass__", "__new__", "__reduce__", "__reduce_ex__", "__repr__",
    "__setattr__", "__sizeof__", "__str__"]

  /** Dunder attributes whose call with the handler raises a `TypeError`. */
  const UncallableDunders: seq<string> := ModuleDunders + ModuleObjectDunders

  const UncallableAttributes: seq<string> := UncallableValues + UncallableDunders

  /** Methods of the module object that accept the handler and return
      `NotImplemented`: the comparisons and `__subclasshook__`. The lookup then
      succeeds, and `e.run` at line 72, outside the `try`, raises an
      `AttributeError` that nothing catches. */
  const NotImplementedAttributes: seq<string> :=
    ["__eq__", "__ne__", "__lt__", "__le__", "__gt__", "__ge__", "__subclasshook__"]

  /** `_fix_keys` asks the handler for `keys`; the `AttributeError` it raises
      is inside the `try` and becomes the configuration error. */
  const CaughtAttributes: seq<string> := ["_fix_keys"]

  /** Imported classes whose names are capitalised words, so a derived class
      name can reach them; what calling one with the failure handler does is
      decided by code outside this module. */
  const ImportedAttributes: seq<string> := [
    "Config", "EmissionsCalculator", "Fccs2Ef", "Fccs2SeraEf", "FepsEFLookup",
    "Crops2Ef", "FuelLoadingsManager", "FuelConsumptionForEmissions",
    "BlueSkyConfigurationError", "UbcBsfFEPSEmissions"]

  const ModelClasses: seq<string> :=
    ["Crops", "UbcBsfFeps", "Feps", "PrichardOneill", "Urbanski", "Consume"]

  /** The module's remaining attributes: the function `run` and the imported
      modules and values bound to lower-case names. A derived class name never
      starts with a lower-case letter (`ClassNameInitial`), so none of these is
      reachable. */
  const LowerCaseAttributes: seq<string> := [
    "run", "abc", "copy", "itertools", "logging", "sys", "os", "pd", "consume",
    "emitcalc_version", "eflookup_version", "osutils", "datautils",
    "datetimeutils", "capture_stdout"]

  /** Every attribute of the module a derived class name can reach. */
  const ReachableAttributes: seq<string> :=
    ModelClasses + UncallableAttributes + NotImplementedAttributes
    + CaughtAttributes + ImportedAttributes

  predicate IsDunder(name: string)
  {
    |name| >= 2 && name[0] == '_' && name[1] == '_'
  }

  predicate AllDunders(names: seq<string>)
  {
    forall i :: 0 <= i < |names| ==> IsDunder(names[i])
  }

  predicate NoDunders(names: seq<string>)
  {
    forall i :: 0 <= i < |names| ==> !IsDunder(names[i])
  }

  lemma UncallableDundersAreDunders()
    ensures AllDunders(UncallableDunders)
  {
    assert AllDunders(ModuleDunders);
    assert AllDunders(ModuleObjectDunders);
  }

  lemma NotImplementedAreDunders()
    ensures AllDunders(NotImplementedAttributes)
  {
  }

  lemma PlainListsAreNotDunders()
    ensures NoDunders(ModelClasses + UncallableValues + CaughtAttributes + ImportedAttributes)
  {
    assert NoDunders(ModelClasses);
    assert NoDunders(UncallableValues);
    assert NoDunders(ImportedAttributes);
  }

  /** The dunder lists hold dunder names only, the other lists none. */
  lemma DunderLists(name: string)
    ensures name in UncallableDunders ==> IsDunder(name)
    ensures name in NotImplementedAttributes ==> IsDunder(name)
    ensures name in ModelClasses + UncallableValues + CaughtAttributes + ImportedAttributes
      ==> !IsDunder(name)
  {
    UncallableDundersAreDunders();
    NotImplementedAreDunders();
    PlainListsAreNotDunders();
  }

  lemma PlainListsApart(name: string)
    ensures name in ModelClasses ==>
      name !in UncallableValues && name !in CaughtAttributes && name !in ImportedAttributes
    ensures name in UncallableValues ==> name !in CaughtAttributes && name !in ImportedAttributes
    ensures name in CaughtAttributes ==> name !in ImportedAttributes
  {
    ModelsNotImported(name);
  }

  lemma ModelsNotImported(name: string)
    ensures name in ModelClasses ==> name !in ImportedAttributes
  {
  }

  /** The comparison methods have six-character names; no other dunder does. */
  predicate ComparisonShaped(name: string)
  {
    |name| == 6 || name == "__subclasshook__"
  }

  lemma NotImplementedShape()
    ensures forall i :: 0 <= i < |NotImplementedAttributes| ==>
      ComparisonShaped(NotImplementedAttributes[i])
  {
  }

  lemma UncallableDundersShape()
    ensures forall i :: 0 <= i < |UncallableDunders| ==> !ComparisonShaped(UncallableDunders[i])
  {
    assert forall i :: 0 <= i < |ModuleDunders| ==> !ComparisonShaped(ModuleDunders[i]);
    assert forall i :: 0 <= i < |ModuleObjectDunders| ==> !ComparisonShaped(ModuleObjectDunders[i]);
  }

  lemma DunderListsApart(name: string)
    ensures name in UncallableDunders ==> name !in NotImplementedAttributes
  {
    NotImplementedShape();
    UncallableDundersShape();
  }

  /** No name is in two of the attribute lists. */
  lemma AttributeListsDisjoint(name: string)
    ensures name in ModelClasses ==>
      name !in UncallableAttributes && name !in NotImplementedAttributes
      && name !in CaughtAttributes && name !in ImportedAttributes
    ensures name in UncallableAttributes ==>
      name !in NotImplementedAttributes && name !in CaughtAttributes
      && name !in ImportedAttributes
    ensures name in NotImplementedAttributes ==>
      name !in CaughtAttributes && name !in ImportedAttributes
    ensures name in CaughtAttributes ==> name !in ImportedAttributes
  {
    DunderLists(name);
    PlainListsApart(name);
    DunderListsApart(name);
  }

  /** How the lookup as written ends: a model instance, an uncaught
      `TypeError` from the call, an uncaught `AttributeError` from `e.run`, a
      call into an imported class, or the configuration error. */
  datatype AsWrittenOutcome =
    | Instantiated(className: string)
    | UncaughtTypeError(className: string)
    | UncaughtAttributeError(className: string)
    | ImportedCall(className: string)
    | ConfigurationError(error: DispatchError)

  /** The lookup as written: the module attribute with the derived name is
      fetched and called with the failure handler, only an `AttributeError`
      inside the `try` becomes the configuration error, and the call's result
      is then asked for `run`. */
  function ResolveAsWritten(model: string): (r: AsWrittenOutcome)
    ensures r.Instantiated? <==> ClassName(model) in ModelClasses
    ensures r.UncaughtTypeError? <==> ClassName(model) in UncallableAttributes
    ensures r.UncaughtAttributeError? <==> ClassName(model) in NotImplementedAttributes
    ensures r.ImportedCall? <==> ClassName(model) in ImportedAttributes
    ensures r.ConfigurationError? <==>
      ClassName(model) in CaughtAttributes || ClassName(model) !in ReachableAttributes
    ensures !r.ConfigurationError? ==> r.className == ClassName(model)
    ensures r.ConfigurationError? ==> r.error == InvalidModel(model, model == "urbanski")
  {
    var name := ClassName(model);
    AttributeListsDisjoint(name);
    if name in ModelClasses then Instantiated(name)
    else if name in UncallableAttributes then UncaughtTypeError(name)
    else if name in NotImplementedAttributes then UncaughtAttributeError(name)
    else if name in ImportedAttributes then ImportedCall(name)
    else ConfigurationError(InvalidModel(model, model == "urbanski"))
  }

  /** The model class with the given class name, if any. */
  function ModelNamed(name: string): Option<Model>
  {
    if name == "Crops" then Some(Crops)
    else if name == "UbcBsfFeps" then Some(UbcBsfFeps)
    else if name == "Feps" then Some(Feps)
    else if name == "PrichardOneill" then Some(PrichardOneill)
    else if name == "Urbanski" then Some(Urbanski)
    else if name == "Consume" then Some(Consume)
    else None
  }

  /** The lookup restricted to the model classes. */
  function Resolve(model: string): (r: Result<Model, DispatchError>)
  {
    match ModelNamed(ClassName(model))
    case Some(m) => Success(m)
    case None => Failure(InvalidModel(model, model == "urbanski"))
  }

  /** A class name names a model exactly when it is that model's class. */
  lemma ModelNamedSpec(name: string, m: Model)
    ensures ModelNamed(name) == Some(m) <==> name == ClassOf(m)
    ensures ModelNamed(name).None? <==> name !in ModelClasses
  {
    match m
    case Crops =>
    case UbcBsfFeps =>
    case Feps =>
    case PrichardOneill =>
    case Urbanski =>
    case Consume =>
  }

  /** A model name selects a model exactly when its derived class name is that
      model's class, and it then selects that one. */
  lemma ResolveSpec(model: string, m: Model)
    ensures Resolve(model) == Success(m) <==> ClassName(model) == ClassOf(m)
    ensures Resolve(model).Failure? <==> ClassName(model) !in ModelClasses
  {
    ModelNamedSpec(ClassName(model), m);
  }

  /** Within a word without dashes or capitals only the first character can change. */
  lemma {:induction false} ScanWord(s: string, atStart: bool)
    requires forall i :: 0 <= i < |s| ==> !IsUpperChar(s[i]) && s[i] != '-'
    ensures |s| > 0 ==> Scan(s, atStart) == [if atStart then UpperChar(s[0]) else s[0]] + s[1..]
  {
    if |s| > 1 {
      ScanWord(s[1..], false);
      assert s[1..] == [s[1]] + s[2..];
    }
  }

  /** A dash after a word starts a new capitalised word. */
  lemma {:induction false} ScanDash(a: string, b: string, atStart: bool)
    requires '-' !in a && |a| > 0
    ensures Scan(a + "-" + b, atStart) == Scan(a, atStart) + Scan(b, true)
  {
    var s := a + "-" + b;
    assert s[0] == a[0];
    if |a| == 1 {
      assert s[1..] == "-" + b;
      assert ("-" + b)[1..] == b;
    } else {
      assert s[1..] == a[1..] + "-" + b;
      ScanDash(a[1..], b, false);
    }
  }

  lemma ScanUrbanski(s: string)
    requires s == "urbanski"
    ensures Scan(s, true) == "Urbanski"
  {
    ScanWord(s, true);
  }

  /** The hint about the urbanski model can never be given: `urbanski` still
      names a class (derived from the Prichard/O'Neill one). */
  lemma UrbanskiHintUnreachable(model: string)
    ensures Resolve(model).Failure? ==> !Resolve(model).error.urbanskiHint
    ensures ResolveAsWritten(model).ConfigurationError? ==> !ResolveAsWritten(model).error.urbanskiHint
  {
    if model == "urbanski" {
      ClassNameIsScan(model);
      ScanUrbanski(model);
    }
  }

  lemma ScanWords(s: string, a: string, b: string, x: string, y: string)
    requires s == a + "-" + b && |a| > 0
    requires forall i :: 0 <= i < |a| ==> IsLowerChar(a[i])
    requires forall i :: 0 <= i < |b| ==> IsLowerChar(b[i])
    requires Scan(a, true) == x && Scan(b, true) == y
    ensures Scan(s, true) == x + y
  {
    ScanDash(a, b, true);
  }

  lemma ScanPrichard(a: string)
    requires a == "prichard"
    ensures Scan(a, true) == "Prichard"
  {
    ScanWord(a, true);
  }

  lemma ScanOneill(b: string)
    requires b == "oneill"
    ensures Scan(b, true) == "Oneill"
  {
    ScanWord(b, true);
  }

  lemma ScanPrichardOneill(s: string)
    requires s == "prichard-oneill"
    ensures Scan(s, true) == "PrichardOneill"
  {
    var a, b := s[..8], s[9..];
    assert a == "prichard" && b == "oneill" && s == a + "-" + b;
    ScanPrichard(a);
    ScanOneill(b);
    ScanWords(s, a, b, "Prichard", "Oneill");
  }

  /** `prichard-oneill` selects the Prichard/O'Neill model. */
  lemma PrichardOneillSelected(model: string)
    requires model == "prichard-oneill"
    ensures Resolve(model) == Success(PrichardOneill)
  {
    ClassNameIsScan(model);
    ScanPrichardOneill(model);
  }

  lemma ScanEmissions(a: string)
    requires a == "emissions"
    ensures Scan(a, true) == "Emissions"
  {
    ScanWord(a, true);
  }

  lemma ScanBase(b: string)
    requires b == "base"
    ensures Scan(b, true) == "Base"
  {
    ScanWord(b, true);
  }

  lemma ScanEmissionsBase(s: string)
    requires s == "emissions-base"
    ensures Scan(s, true) == "EmissionsBase"
  {
    var a, b := s[..9], s[10..];
    assert a == "emissions" && b == "base" && s == a + "-" + b;
    ScanEmissions(a);
    ScanBase(b);
    ScanWords(s, a, b, "Emissions", "Base");
  }

  /** As written, `emissions-base` finds the abstract base class, whose
      instantiation raises a `TypeError` the lookup does not catch, where the
      corrected lookup reports an invalid model. */
  lemma AsWrittenBaseClassTypeError(model: string)
    requires model == "emissions-base"
    ensures ResolveAsWritten(model) == UncaughtTypeError("EmissionsBase")
    ensures Resolve(model) == Failure(InvalidModel(model, false))
  {
    ClassNameIsScan(model);
    ScanEmissionsBase(model);
  }

  /** As written, `__version__` finds the module's version string, and calling
      it raises an uncaught `TypeError`. */
  lemma AsWrittenDunderTypeError(model: string)
    requires model == "__version__"
    ensures ResolveAsWritten(model) == UncaughtTypeError("__version__")
    ensures Resolve(model) == Failure(InvalidModel(model, false))
  {
    ScanVersion(model);
    var name := ClassName(model);
    AttributeListsDisjoint(name);
    assert name in UncallableAttributes;
  }

  lemma ScanVersion(s: string)
    requires s == "__version__"
    ensures ClassName(s) == "__version__"
  {
    ClassNameIsScan(s);
    ScanWord(s, true);
  }

  /** As written, `__eq__` finds the module object's equality method, which
      returns `NotImplemented` for the handler; asking that for `run` raises
      an uncaught `AttributeError`. */
  lemma AsWrittenNotImplemented(model: string)
    requires model == "__eq__"
    ensures ResolveAsWritten(model) == UncaughtAttributeError("__eq__")
    ensures Resolve(model) == Failure(InvalidModel(model, false))
  {
    ScanEq(model);
    AttributeListsDisjoint(ClassName(model));
  }

  lemma ScanEq(s: string)
    requires s == "__eq__"
    ensures ClassName(s) == "__eq__"
  {
    ClassNameIsScan(s);
    ScanWord(s, true);
  }

  /** A model name spelled one character per dash-separated part. */
  predicate SpelledOut(s: string)
  {
    |s| % 2 == 1 && forall i :: 0 <= i < |s| ==> (s[i] == '-' <==> i % 2 == 1)
  }

  /** A spelled-out model name derives the class name made of its characters
      upper-cased, so every module attribute whose name has no lower-case
      letter or dash is reachable. */
  lemma {:induction false} SpelledOutClassName(s: string)
    requires SpelledOut(s)
    ensures |ClassName(s)| == |s| / 2 + 1
    ensures forall k :: 0 <= k < |s| / 2 + 1 ==> ClassName(s)[k] == UpperChar(s[2 * k])
  {
    ClassNameIsScan(s);
    ScanSpelledOut(s);
  }

  lemma {:induction false} ScanSpelledOut(s: string)
    requires SpelledOut(s)
    ensures Scan(s, true) == seq(|s| / 2 + 1, k requires 0 <= k < |s| / 2 + 1 => UpperChar(s[2 * k]))
  {
    var r := seq(|s| / 2 + 1, k requires 0 <= k < |s| / 2 + 1 => UpperChar(s[2 * k]));
    assert Scan(s, true) == [UpperChar(s[0])] + Scan(s[1..], false);
    if |s| > 1 {
      var t := s[2..];
      assert SpelledOut(t) by {
        forall i | 0 <= i < |t|
          ensures t[i] == '-' <==> i % 2 == 1
        {
          assert t[i] == s[i + 2];
        }
      }
      ScanSpelledOut(t);
      assert s[1] == '-' && s[1..][1..] == t;
      assert Scan(s[1..], false) == Scan(t, true);
      assert r == [UpperChar(s[0])] + Scan(t, true);
    }
  }

  /** As written, `c-o-n-s-u-m-e-_-f-i-e-l-d-s` reaches the imported field
      list, and calling it raises an uncaught `TypeError`. */
  lemma AsWrittenConsumeFields(model: string)
    requires model == "c-o-n-s-u-m-e-_-f-i-e-l-d-s"
    ensures ResolveAsWritten(model) == UncaughtTypeError("CONSUME_FIELDS")
    ensures Resolve(model) == Failure(InvalidModel(model, false))
  {
    ClassNameConsumeFields(model);
    AttributeListsDisjoint(ClassName(model));
  }

  lemma ClassNameConsumeFields(model: string)
    requires model == "c-o-n-s-u-m-e-_-f-i-e-l-d-s"
    ensures ClassName(model) == "CONSUME_FIELDS"
  {
    ConsumeFieldsHead(model);
    ConsumeFieldsTail(model);
    ConsumeFieldsChunks(ClassName(model));
  }

  lemma ConsumeFieldsHead(model: string)
    requires model == "c-o-n-s-u-m-e-_-f-i-e-l-d-s"
    ensures |ClassName(model)| == 14
    ensures ClassName(model)[0..4] == "CONS" && ClassName(model)[4..7] == "UME"
  {
    ConsumeFieldsChunk(model, 0, 4, "CONS");
    ConsumeFieldsUme(model);
  }

  lemma ConsumeFieldsUme(model: string)
    requires model == "c-o-n-s-u-m-e-_-f-i-e-l-d-s"
    ensures |ClassName(model)| == 14 && ClassName(model)[4..7] == "UME"
  {
    ConsumeFieldsChunk(model, 4, 7, "UME");
  }

  lemma ConsumeFieldsTail(model: string)
    requires model == "c-o-n-s-u-m-e-_-f-i-e-l-d-s"
    ensures |ClassName(model)| == 14
    ensures ClassName(model)[7..11] == "_FIE" && ClassName(model)[11..14] == "LDS"
  {
    ConsumeFieldsChunk(model, 7, 11, "_FIE");
    ConsumeFieldsLds(model);
  }

  lemma ConsumeFieldsLds(model: string)
    requires model == "c-o-n-s-u-m-e-_-f-i-e-l-d-s"
    ensures |ClassName(model)| == 14 && ClassName(model)[11..14] == "LDS"
  {
    ConsumeFieldsChunk(model, 11, 14, "LDS");
  }

  /** Four characters or fewer of the class name spelled by the model name. */
  lemma ConsumeFieldsChunk(model: string, lo: nat, hi: nat, w: string)
    requires model == "c-o-n-s-u-m-e-_-f-i-e-l-d-s"
    requires lo <= hi <= 14 && hi - lo == |w|
    requires forall k :: 0 <= k < |w| ==> UpperChar(model[2 * (lo + k)]) == w[k]
    ensures |ClassName(model)| == 14
    ensures ClassName(model)[lo..hi] == w
  {
    ConsumeFieldsSpelledOut(model);
    SpelledOutClassName(model);
  }

  lemma ConsumeFieldsChunks(c: string)
    requires |c| == 14
    requires c[0..4] == "CONS" && c[4..7] == "UME" && c[7..11] == "_FIE" && c[11..14] == "LDS"
    ensures c == "CONSUME_FIELDS"
  {
    assert c == c[0..4] + c[4..7] + c[7..11] + c[11..14];
  }

  lemma ConsumeFieldsSpelledOut(model: string)
    requires model == "c-o-n-s-u-m-e-_-f-i-e-l-d-s"
    ensures SpelledOut(model)
  {
  }

  /** A derived class name never starts with a lower-case letter. */
  lemma ClassNameInitial(model: string)
    ensures |ClassName(model)| > 0 ==> !IsLowerChar(ClassName(model)[0])
  {
    ClassNameIsScan(model);
    ScanInitial(model);
  }

  lemma {:induction false} ScanInitial(s: string)
    ensures |Scan(s, true)| > 0 ==> !IsLowerChar(Scan(s, true)[0])
  {
    if |s| > 0 && s[0] == '-' {
      ScanInitial(s[1..]);
    }
  }

  /** The module attributes with lower-case names, `run` and the imported
      modules among them, are never reached by a derived class name. */
  lemma LowerCaseUnreachable(model: string)
    ensures ClassName(model) !in LowerCaseAttributes
  {
    ClassNameInitial(model);
    LowerCaseInitials();
  }

  lemma LowerCaseInitials()
    ensures forall i :: 0 <= i < |LowerCaseAttributes| ==>
      |LowerCaseAttributes[i]| > 0 && IsLowerChar(LowerCaseAttributes[i][0])
  {
  }

  /** The lookup as written and the corrected one agree on the model classes
      and on names that reach no attribute; they part only on the other
      attributes a derived name reaches. */
  lemma AsWrittenVersusResolve(model: string)
    ensures ResolveAsWritten(model).Instantiated? <==> Resolve(model).Success?
    ensures Resolve(model).Success? ==> ClassOf(Resolve(model).value) == ResolveAsWritten(model).className
    ensures ResolveAsWritten(model).ConfigurationError? ==> Resolve(model) == Failure(ResolveAsWritten(model).error)
    ensures Resolve(model).Failure? && !ResolveAsWritten(model).ConfigurationError? ==>
      ClassName(model) in UncallableAttributes + NotImplementedAttributes + ImportedAttributes
  {
    var name := ClassName(model);
    ModelNamedSpec(name, Crops);
    if ModelNamed(name).Some? {
      ModelNamedSpec(name, ModelNamed(name).value);
    }
  }
}

=== FILE: emrun.dfy ===
/** The emissions models' per-fire and per-fuelbed work in
    bluesky/modules/emissions.py: input validation, the call to the emissions
    calculator (a parameter here), unit conversion, and the Prichard/O'Neill
    handling of pile consumption. */
module Emissions {
  import opened Common
  import opened EmissionTrees
  import opened EmissionModels
  import opened KeyFixing

  datatype EmFuelbed = EmFuelbed(
    consumption: Option<Tree>,
    heat: Option<Tree>,
    pct: Option<real>,
    fccsId: Option<string>,
    emissions: Option<Tree>,
    details: Option<Tree>)

  datatype EmLocation = EmLocation(
    fuelbeds: Option<seq<EmFuelbed>>,
    ecoregion: Option<string>,
    hasConsumption: bool,
    area: real)

  /** A fire: whether it has activity, its `fuel_type`, and the locations of
      each active area. */
  datatype EmFire = EmFire(hasActivity: bool, fuelType: Option<string>, activeAreas: seq<seq<EmLocation>>)

  datatype EmissionsError =
    | MissingActivity
    | MissingFuelbeds
    | MissingConsumption
    | MissingFccsId
    | MissingHeat
    | MissingPct
    | MissingEcoregion
    | PilesNotSupported
    | MissingLocationConsumption
    | NotOneFuelbed
    | KeyError(path: seq<string>)
    | EmitterFailed

  /** Tons per pound (1 ton / 2000 lbs), applied to crop emissions. */
  const CropsConversion: real := 0.0005

  /** 2 lbs/ton per g/kg times 1 ton / 2000 lbs, applied to Prichard/O'Neill emissions. */
  const PrichardOneillConversion: real := 0.001

  /** `fire.get("fuel_type") or 'natural'`: a missing or empty fuel type counts as natural. */
  function BurnType(fire: EmFire): (b: string)
    ensures b != ""
    ensures fire.fuelType.Some? && fire.fuelType.value != "" ==> b == fire.fuelType.value
  {
    match fire.fuelType
    case None => "natural"
    case Some(t) => if t == "" then "natural" else t
  }

  /** Fuelbed-level checks, in the order each model makes them. */
  function FuelbedCheck(m: Model, loc: EmLocation, fb: EmFuelbed): (r: Option<EmissionsError>)
  {
    match m
    case UbcBsfFeps => None
    case Feps =>
      if fb.consumption.None? then Some(MissingConsumption) else None
    case Consume =>
      if fb.consumption.None? then Some(MissingConsumption)
      else if fb.heat.None? then Some(MissingHeat)
      else if fb.pct.None? then Some(MissingPct)
      else if loc.ecoregion.None? then Some(MissingEcoregion)
      else None
    case _ =>
      if fb.consumption.None? then Some(MissingConsumption)
      else if fb.fccsId.None? then Some(MissingFccsId)
      else None
  }

  /** Location-level checks, made before any of the location's fuelbeds. */
  function LocationCheck(m: Model, loc: EmLocation): (r: Option<EmissionsError>)
  {
    if m == UbcBsfFeps then
      if !loc.hasConsumption then Some(MissingLocationConsumption)
      else if loc.fuelbeds.None? then Some(MissingFuelbeds)
      else if |loc.fuelbeds.value| != 1 then Some(NotOneFuelbed)
      else None
    else if loc.fuelbeds.None? then Some(MissingFuelbeds)
    else None
  }

  /** What a model requires of one fuelbed. */
  predicate FuelbedReady(m: Model, loc: EmLocation, fb: EmFuelbed)
  {
    (m != UbcBsfFeps ==> fb.consumption.Some?) &&
    (m in {Crops, PrichardOneill, Urbanski} ==> fb.fccsId.Some?) &&
    (m == Consume ==> fb.heat.Some? && fb.pct.Some? && loc.ecoregion.Some?)
  }

  /** What a model requires of one location and its fuelbeds. */
  predicate LocationReady(m: Model, loc: EmLocation)
  {
    loc.fuelbeds.Some? &&
    (m == UbcBsfFeps ==> loc.hasConsumption && |loc.fuelbeds.value| == 1) &&
    forall j :: 0 <= j < |loc.fuelbeds.value| ==> FuelbedReady(m, loc, loc.fuelbeds.value[j])
  }

  lemma FuelbedCheckIff(m: Model, loc: EmLocation, fb: EmFuelbed)
    ensures FuelbedCheck(m, loc, fb).None? <==> FuelbedReady(m, loc, fb)
  {
  }

  /** First failing check over a location's fuelbeds. */
  function FuelbedsCheck(m: Model, loc: EmLocation, fbs: seq<EmFuelbed>): (r: Option<EmissionsError>)
    ensures r.None? <==> forall j :: 0 <= j < |fbs| ==> FuelbedReady(m, loc, fbs[j])
  {
    if |fbs| == 0 then None
    else
      FuelbedCheckIff(m, loc, fbs[0]);
      match FuelbedCheck(m, loc, fbs[0])
      case Some(e) => Some(e)
      case None =>
        var rest := FuelbedsCheck(m, loc, fbs[1..]);
        assert forall j :: 1 <= j < |fbs| ==> fbs[1..][j - 1] == fbs[j];
        rest
  }

  function LocationsCheck(m: Model, locs: seq<EmLocation>): (r: Option<EmissionsError>)
    ensures r.None? <==> forall j :: 0 <= j < |locs| ==> LocationReady(m, locs[j])
  {
    if |locs| == 0 then None
    else
      var here := match LocationCheck(m, locs[0])
        case Some(e) => Some(e)
        case None => FuelbedsCheck(m, locs[0], locs[0].fuelbeds.value);
      if here.Some? then here
      else
        var rest := LocationsCheck(m, locs[1..]);
        assert forall j :: 1 <= j < |locs| ==> locs[1..][j - 1] == locs[j];
        rest
  }

  function AreasCheck(m: Model, aas: seq<seq<EmLocation>>): (r: Option<EmissionsError>)
    ensures r.None? <==> forall i, j :: 0 <= i < |aas| && 0 <= j < |aas[i]| ==> LocationReady(m, aas[i][j])
  {
    if |aas| == 0 then None
    else
      match LocationsCheck(m, aas[0])
      case Some(e) => Some(e)
      case None =>
        var rest := AreasCheck(m, aas[1..]);
        assert forall i :: 1 <= i < |aas| ==> aas[1..][i - 1] == aas[i];
        rest
  }

  /** Every check a model makes of a fire, with the first failure reported:
      activity first, for Consume the `piles` fuel type next, then each active
      area's locations and their fuelbeds in order. */
  function FireCheck(m: Model, fire: EmFire): (r: Option<EmissionsError>)
    ensures !fire.hasActivity ==> r == Some(MissingActivity)
    ensures fire.hasActivity && m == Consume && BurnType(fire) == "piles" ==> r == Some(PilesNotSupported)
    ensures r.None? <==>
      fire.hasActivity && (m == Consume ==> BurnType(fire) != "piles") &&
      forall i, j :: 0 <= i < |fire.activeAreas| && 0 <= j < |fire.activeAreas[i]| ==>
        LocationReady(m, fire.activeAreas[i][j])
  {
    if !fire.hasActivity then Some(MissingActivity)
    else if m == Consume && BurnType(fire) == "piles" then Some(PilesNotSupported)
    else AreasCheck(m, fire.activeAreas)
  }

  /** `_calculate`: runs the calculator on the consumption and takes the
      emissions from its `summary > total` part, keeping the rest as details
      when asked to. */
  function Calculate(calculator: Tree -> Tree, consumption: Tree, includeDetails: bool): (r: Result<(Tree, Option<Tree>), EmissionsError>)
    ensures r.Success? <==> Get(calculator(consumption), ["summary", "total"]).Some?
    ensures r.Success? ==> r.value.0 == Get(calculator(consumption), ["summary", "total"]).value
    ensures r.Success? ==> (r.value.1.Some? <==> includeDetails)
    ensures r.Success? && includeDetails ==> r.value.1 == Some(calculator(consumption))
    ensures r.Failure? ==> r.error == KeyError(["summary", "total"])
  {
    var details := calculator(consumption);
    match Get(details, ["summary", "total"])
    case None => Failure(KeyError(["summary", "total"]))
    case Some(e) => Success((e, if includeDetails then Some(details) else None))
  }

  /** The details a run leaves on a fuelbed: the new ones when details are
      kept, otherwise whatever the fuelbed already held. */
  function KeptDetails(fb: EmFuelbed, includeDetails: bool, computed: Option<Tree>): Option<Tree>
  {
    if includeDetails then computed else fb.details
  }

  function ScaleDetails(details: Option<Tree>, f: real): Option<Tree>
  {
    match details
    case None => None
    case Some(d) => Some(ScaleTree(d, f))
  }

  /** A fuelbed of the Crops model: emissions from the calculator, converted
      from pounds to tons. */
  function CropsFuelbed(loc: EmLocation, fb: EmFuelbed, calculator: Tree -> Tree, includeDetails: bool): (r: Result<EmFuelbed, EmissionsError>)
    ensures FuelbedCheck(Crops, loc, fb).Some? ==> r == Failure(FuelbedCheck(Crops, loc, fb).value)
    ensures r.Success? ==> FuelbedReady(Crops, loc, fb)
    ensures r.Success? ==> r.value.consumption == fb.consumption
  {
    match FuelbedCheck(Crops, loc, fb)
    case Some(e) => Failure(e)
    case None =>
      match Calculate(calculator, fb.consumption.value, includeDetails)
      case Failure(e) => Failure(e)
      case Success(ed) =>
        Success(fb.(emissions := Some(ScaleTree(ed.0, CropsConversion)), details := KeptDetails(fb, includeDetails, ScaleDetails(ed.1, CropsConversion))))
  }

  /** Every crop emission is the calculator's figure in tons: the number at each
      path is 0.0005 of the calculator's. */
  lemma CropsConverted(loc: EmLocation, fb: EmFuelbed, calculator: Tree -> Tree, includeDetails: bool, path: seq<string>)
    requires CropsFuelbed(loc, fb, calculator, includeDetails).Success?
    ensures var e := CropsFuelbed(loc, fb, calculator, includeDetails).value.emissions.value;
      var raw := Get(calculator(fb.consumption.value), ["summary", "total"]).value;
      (Amount(e, path).Some? <==> Amount(raw, path).Some?) &&
      (Amount(raw, path).Some? ==> Amount(e, path).value == Amount(raw, path).value * 0.0005)
  {
    AmountScaled(Get(calculator(fb.consumption.value), ["summary", "total"]).value, CropsConversion, path);
  }

  /** A fuelbed of the FEPS model: the calculator's emissions unconverted. */
  function FepsFuelbed(loc: EmLocation, fb: EmFuelbed, calculator: Tree -> Tree, includeDetails: bool): (r: Result<EmFuelbed, EmissionsError>)
    ensures FuelbedCheck(Feps, loc, fb).Some? ==> r == Failure(FuelbedCheck(Feps, loc, fb).value)
    ensures r.Success? ==>
      fb.consumption.Some? && Get(calculator(fb.consumption.value), ["summary", "total"]) == r.value.emissions
  {
    match FuelbedCheck(Feps, loc, fb)
    case Some(e) => Failure(e)
    case None =>
      match Calculate(calculator, fb.consumption.value, includeDetails)
      case Failure(e) => Failure(e)
      case Success(ed) => Success(fb.(emissions := Some(ed.0), details := KeptDetails(fb, includeDetails, ed.1)))
  }

  /** Pile consumption by combustion phase. */
  datatype PilePhases = PilePhases(flaming: real, smoldering: real, residual: real)

  function PilePath(phase: string): seq<string>
  {
    ["woody fuels", "piles", phase]
  }

  /** `'woody fuels' in consumption and 'piles' in consumption['woody fuels']`. */
  predicate HasPiles(consumption: Tree)
  {
    Get(consumption, ["woody fuels", "piles"]).Some?
  }

  lemma PilePathsDistinct()
    ensures PilePath("flaming") != PilePath("smoldering")
    ensures PilePath("flaming") != PilePath("residual")
    ensures PilePath("smoldering") != PilePath("residual")
  {
    assert PilePath("flaming")[2] != PilePath("smoldering")[2];
    assert PilePath("flaming")[2] != PilePath("residual")[2];
    assert PilePath("smoldering")[2] != PilePath("residual")[2];
  }

  /** Reads the three pile phases; the first missing one is a KeyError. */
  function ReadPiles(consumption: Tree): (r: Result<PilePhases, EmissionsError>)
    ensures r.Success? <==>
      Amount(consumption, PilePath("flaming")).Some? &&
      Amount(consumption, PilePath("smoldering")).Some? &&
      Amount(consumption, PilePath("residual")).Some?
    ensures r.Success? ==>
      Amount(consumption, PilePath("flaming")) == Some(r.value.flaming) &&
      Amount(consumption, PilePath("smoldering")) == Some(r.value.smoldering) &&
      Amount(consumption, PilePath("residual")) == Some(r.value.residual)
  {
    match Amount(consumption, PilePath("flaming"))
    case None => Failure(KeyError(PilePath("flaming")))
    case Some(f) =>
      match Amount(consumption, PilePath("smoldering"))
      case None => Failure(KeyError(PilePath("smoldering")))
      case Some(s) =>
        match Amount(consumption, PilePath("residual"))
        case None => Failure(KeyError(PilePath("residual")))
        case Some(res) => Success(PilePhases(f, s, res))
  }

  /** Three different paths that all end at leaves. */
  predicate ThreeLeaves(t: Tree, f: seq<string>, s: seq<string>, r: seq<string>)
  {
    Amount(t, f).Some? && Amount(t, s).Some? && Amount(t, r).Some? && f != s && f != r && s != r
  }

  /** Assigning a leaf keeps every leaf a leaf. */
  lemma SetKeepsLeaves(t: Tree, f: seq<string>, s: seq<string>, r: seq<string>, p: seq<string>, a: real)
    requires ThreeLeaves(t, f, s, r) && p in {f, s, r}
    ensures ThreeLeaves(SetAmount(t, p, a).value, f, s, r)
    ensures Amount(SetAmount(t, p, a).value, p) == Some(a)
  {
    SetThenAmount(t, p, a);
    if p != f { SetElsewhere(t, p, f, a); }
    if p != s { SetElsewhere(t, p, s, a); }
    if p != r { SetElsewhere(t, p, r, a); }
  }

  /** Assigns the three paths in turn. */
  function SetThree(t: Tree, f: seq<string>, s: seq<string>, r: seq<string>, a: real, b: real, c: real): (u: Tree)
    requires ThreeLeaves(t, f, s, r)
    ensures ThreeLeaves(u, f, s, r)
  {
    SetKeepsLeaves(t, f, s, r, f, a);
    var t1 := SetAmount(t, f, a).value;
    SetKeepsLeaves(t1, f, s, r, s, b);
    var t2 := SetAmount(t1, s, b).value;
    SetKeepsLeaves(t2, f, s, r, r, c);
    SetAmount(t2, r, c).value
  }

  lemma SetThreeSpec(t: Tree, f: seq<string>, s: seq<string>, r: seq<string>, a: real, b: real, c: real, q: seq<string>)
    requires ThreeLeaves(t, f, s, r)
    ensures var u := SetThree(t, f, s, r, a, b, c);
      Amount(u, f) == Some(a) && Amount(u, s) == Some(b) && Amount(u, r) == Some(c)
    ensures q != f && q != s && q != r ==> Amount(SetThree(t, f, s, r, a, b, c), q) == Amount(t, q)
  {
    SetKeepsLeaves(t, f, s, r, f, a);
    var t1 := SetAmount(t, f, a).value;
    SetKeepsLeaves(t1, f, s, r, s, b);
    var t2 := SetAmount(t1, s, b).value;
    SetThenAmount(t, f, a);
    SetThenAmount(t1, s, b);
    SetThenAmount(t2, r, c);
    SetElsewhere(t1, s, f, b);
    SetElsewhere(t2, r, f, c);
    SetElsewhere(t2, r, s, c);
    if q != f && q != s && q != r {
      SetElsewhere(t, f, q, a);
      SetElsewhere(t1, s, q, b);
      SetElsewhere(t2, r, q, c);
    }
  }

  /** Writing each path its current number changes nothing. */
  lemma SetThreeSame(t: Tree, f: seq<string>, s: seq<string>, r: seq<string>)
    requires ThreeLeaves(t, f, s, r)
    ensures SetThree(t, f, s, r, Amount(t, f).value, Amount(t, s).value, Amount(t, r).value) == t
  {
    SetSame(t, f);
    SetSame(t, s);
    SetSame(t, r);
  }

  /** Assigning the first path after the three assignments overrides the first. */
  lemma SetFirstAfter(t: Tree, f: seq<string>, s: seq<string>, r: seq<string>, a0: real, a: real, b: real, c: real)
    requires ThreeLeaves(t, f, s, r)
    ensures SetAmount(SetThree(t, f, s, r, a0, b, c), f, a) == Some(SetThree(t, f, s, r, a, b, c))
  {
    SetKeepsLeaves(t, f, s, r, f, a0);
    var t1 := SetAmount(t, f, a0).value;
    SetKeepsLeaves(t1, f, s, r, s, b);
    var t2 := SetAmount(t1, s, b).value;
    SetCommute(t2, r, c, f, a);
    SetCommute(t1, s, b, f, a);
    SetTwice(t, f, a0, a);
  }

  /** Assigning the second path after the three assignments overrides the second. */
  lemma SetSecondAfter(t: Tree, f: seq<string>, s: seq<string>, r: seq<string>, a: real, b0: real, b: real, c: real)
    requires ThreeLeaves(t, f, s, r)
    ensures SetAmount(SetThree(t, f, s, r, a, b0, c), s, b) == Some(SetThree(t, f, s, r, a, b, c))
  {
    SetKeepsLeaves(t, f, s, r, f, a);
    var t1 := SetAmount(t, f, a).value;
    SetKeepsLeaves(t1, f, s, r, s, b0);
    var t2 := SetAmount(t1, s, b0).value;
    SetCommute(t2, r, c, s, b);
    SetTwice(t1, s, b0, b);
  }

  /** Assigning the third path after the three assignments overrides the third. */
  lemma SetThirdAfter(t: Tree, f: seq<string>, s: seq<string>, r: seq<string>, a: real, b: real, c0: real, c: real)
    requires ThreeLeaves(t, f, s, r)
    ensures SetAmount(SetThree(t, f, s, r, a, b, c0), r, c) == Some(SetThree(t, f, s, r, a, b, c))
  {
    SetKeepsLeaves(t, f, s, r, f, a);
    var t1 := SetAmount(t, f, a).value;
    SetKeepsLeaves(t1, f, s, r, s, b);
    var t2 := SetAmount(t1, s, b).value;
    SetTwice(t2, r, c0, c);
  }

  /** Of two runs of the three assignments only the second survives. */
  lemma SetThreeTwice(t: Tree, f: seq<string>, s: seq<string>, r: seq<string>, a: real, b: real, c: real, a': real, b': real, c': real)
    requires ThreeLeaves(t, f, s, r)
    ensures SetThree(SetThree(t, f, s, r, a, b, c), f, s, r, a', b', c') == SetThree(t, f, s, r, a', b', c')
  {
    SetFirstAfter(t, f, s, r, a, a', b, c);
    SetSecondAfter(t, f, s, r, a', b, b', c);
    SetThirdAfter(t, f, s, r, a', b', c, c');
  }

  /** Writes the three pile phases, which must already be present. */
  function WritePiles(consumption: Tree, p: PilePhases): (r: Tree)
    requires ReadPiles(consumption).Success?
  {
    PilePathsDistinct();
    SetThree(consumption, PilePath("flaming"), PilePath("smoldering"), PilePath("residual"), p.flaming, p.smoldering, p.residual)
  }

  /** Writing the pile phases sets exactly those three numbers and changes no
      other path. */
  lemma WritePilesSpec(consumption: Tree, p: PilePhases, q: seq<string>)
    requires ReadPiles(consumption).Success?
    ensures ReadPiles(WritePiles(consumption, p)) == Success(p)
    ensures q !in {PilePath("flaming"), PilePath("smoldering"), PilePath("residual")} ==>
      Amount(WritePiles(consumption, p), q) == Amount(consumption, q)
  {
    PilePathsDistinct();
    SetThreeSpec(consumption, PilePath("flaming"), PilePath("smoldering"), PilePath("residual"), p.flaming, p.smoldering, p.residual, q);
  }

  /** Zeroing the piles and writing the saved phases back restores the
      consumption exactly. */
  lemma PilesRestoreExactly(consumption: Tree)
    requires ReadPiles(consumption).Success?
    ensures ReadPiles(WritePiles(consumption, PilePhases(0.0, 0.0, 0.0))).Success?
    ensures WritePiles(WritePiles(consumption, PilePhases(0.0, 0.0, 0.0)), ReadPiles(consumption).value) == consumption
  {
    PilePathsDistinct();
    var p := ReadPiles(consumption).value;
    WritePilesSpec(consumption, PilePhases(0.0, 0.0, 0.0), []);
    var f, s, r := PilePath("flaming"), PilePath("smoldering"), PilePath("residual");
    SetThreeTwice(consumption, f, s, r, 0.0, 0.0, 0.0, p.flaming, p.smoldering, p.residual);
    SetThreeSame(consumption, f, s, r);
  }

  /** The pollutants whose pile emissions are added, in the order they are added. */
  const PilePollutants: seq<string> := ["PM2.5", "PM10", "CO", "CO2", "CH4", "NH3", "NOx", "SO2"]

  /** Pile emissions of one pollutant per phase, plus their total. */
  datatype PileComponents = PileComponents(flaming: real, smoldering: real, residual: real, total: real)

  /** `(x / 2000.0) * area` for each component: pounds per acre to tons. */
  function InTons(c: PileComponents, area: real): (t: PileComponents)
    ensures c.flaming >= 0.0 && area >= 0.0 ==> t.flaming >= 0.0
  {
    PileComponents(c.flaming / 2000.0 * area, c.smoldering / 2000.0 * area, c.residual / 2000.0 * area, c.total / 2000.0 * area)
  }

  /** The component for one phase key; `total` counts only where it is targeted. */
  function PhaseShare(c: PileComponents, phase: string, withTotal: bool): real
  {
    if phase == "flaming" then c.flaming
    else if phase == "smoldering" then c.smoldering
    else if phase == "residual" then c.residual
    else if withTotal && phase == "total" then c.total
    else 0.0
  }

  /** The increments `x[prefix][phase][pollutant][0] += component` for the
      three phases and, when asked, the total. */
  function PhaseAdds(prefix: seq<string>, pollutant: string, c: PileComponents, withTotal: bool): seq<(seq<string>, real)>
  {
    [(prefix + ["flaming", pollutant], c.flaming),
     (prefix + ["smoldering", pollutant], c.smoldering),
     (prefix + ["residual", pollutant], c.residual)] +
    (if withTotal then [(prefix + ["total", pollutant], c.total)] else [])
  }

  /** What the increments add at `q`: the matching component when `q` is
      `prefix + [phase, pollutant]`, nothing otherwise. */
  function PhaseAdded(prefix: seq<string>, pollutant: string, c: PileComponents, withTotal: bool, q: seq<string>): real
  {
    if |q| == |prefix| + 2 && q[..|prefix|] == prefix && q[|prefix| + 1] == pollutant
    then PhaseShare(c, q[|prefix|], withTotal)
    else 0.0
  }

  lemma {:induction false} AddedAtAppend(a: seq<(seq<string>, real)>, b: seq<(seq<string>, real)>, q: seq<string>)
    ensures AddedAt(a + b, q) == AddedAt(a, q) + AddedAt(b, q)
  {
    if |a| > 0 {
      assert (a + b)[1..] == a[1..] + b;
      AddedAtAppend(a[1..], b, q);
    } else {
      assert a + b == b;
    }
  }

  lemma AddedAtThree(x: (seq<string>, real), y: (seq<string>, real), z: (seq<string>, real), q: seq<string>)
    ensures AddedAt([x, y, z], q) ==
      (if q == x.0 then x.1 else 0.0) + (if q == y.0 then y.1 else 0.0) + (if q == z.0 then z.1 else 0.0)
  {
    assert [x, y, z][1..] == [y, z];
    assert [y, z][1..] == [z];
    assert [z][1..] == [];
    assert AddedAt([z], q) == (if q == z.0 then z.1 else 0.0);
    assert AddedAt([y, z], q) == (if q == y.0 then y.1 else 0.0) + AddedAt([z], q);
  }

  lemma PathSplit(prefix: seq<string>, x: string, y: string, q: seq<string>)
    ensures q == prefix + [x, y] <==>
      |q| == |prefix| + 2 && q[..|prefix|] == prefix && q[|prefix|] == x && q[|prefix| + 1] == y
  {
    if |q| == |prefix| + 2 && q[..|prefix|] == prefix && q[|prefix|] == x && q[|prefix| + 1] == y {
      assert q == q[..|prefix|] + [q[|prefix|], q[|prefix| + 1]];
    }
  }

  /** The increments add at each path exactly its phase's component. */
  lemma AddedAtPhases(prefix: seq<string>, pollutant: string, c: PileComponents, withTotal: bool, q: seq<string>)
    ensures AddedAt(PhaseAdds(prefix, pollutant, c, withTotal), q) == PhaseAdded(prefix, pollutant, c, withTotal, q)
  {
    var three := [(prefix + ["flaming", pollutant], c.flaming),
     (prefix + ["smoldering", pollutant], c.smoldering),
     (prefix + ["residual", pollutant], c.residual)];
    var more: seq<(seq<string>, real)> := if withTotal then [(prefix + ["total", pollutant], c.total)] else [];
    AddedAtAppend(three, more, q);
    PathSplit(prefix, "flaming", pollutant, q);
    PathSplit(prefix, "smoldering", pollutant, q);
    PathSplit(prefix, "residual", pollutant, q);
    PathSplit(prefix, "total", pollutant, q);
    AddedAtThree(three[0], three[1], three[2], q);
    if withTotal {
      assert more[1..] == [];
    }
  }

  /** Targets of the emissions increments. */
  function EmissionAdds(pollutant: string, c: PileComponents): seq<(seq<string>, real)>
  {
    PhaseAdds([], pollutant, c, true)
  }

  /** Targets of the details increments: the pile category, the summary total
      and the woody-fuels summary. */
  function DetailAdds(pollutant: string, c: PileComponents): seq<(seq<string>, real)>
  {
    PhaseAdds(["woody fuels", "piles"], pollutant, c, false) +
    PhaseAdds(["summary", "total"], pollutant, c, true) +
    PhaseAdds(["summary", "woody fuels"], pollutant, c, false)
  }

  /** What one pollutant's pile emissions add to a details path. */
  function DetailAdded(pollutant: string, c: PileComponents, q: seq<string>): real
  {
    PhaseAdded(["woody fuels", "piles"], pollutant, c, false, q) +
    PhaseAdded(["summary", "total"], pollutant, c, true, q) +
    PhaseAdded(["summary", "woody fuels"], pollutant, c, false, q)
  }

  lemma AddedAtDetails(pollutant: string, c: PileComponents, q: seq<string>)
    ensures AddedAt(DetailAdds(pollutant, c), q) == DetailAdded(pollutant, c, q)
  {
    var a := PhaseAdds(["woody fuels", "piles"], pollutant, c, false);
    var b := PhaseAdds(["summary", "total"], pollutant, c, true);
    var d := PhaseAdds(["summary", "woody fuels"], pollutant, c, false);
    AddedAtAppend(a + b, d, q);
    AddedAtAppend(a, b, q);
    AddedAtPhases(["woody fuels", "piles"], pollutant, c, false, q);
    AddedAtPhases(["summary", "total"], pollutant, c, true, q);
    AddedAtPhases(["summary", "woody fuels"], pollutant, c, false, q);
  }

  /** `add_pile_emissions`: increments the four emissions paths and, when
      details are kept, the ten details paths; a missing path is a KeyError. */
  function AddPileEmissions(e: Tree, details: Option<Tree>, pollutant: string, c: PileComponents): (r: Result<(Tree, Option<Tree>), EmissionsError>)
    ensures r.Success? ==> (r.value.1.Some? <==> details.Some?)
  {
    match AddAll(e, EmissionAdds(pollutant, c))
    case None => Failure(KeyError([pollutant]))
    case Some(e') =>
      match details
      case None => Success((e', None))
      case Some(d) =>
        match AddAll(d, DetailAdds(pollutant, c))
        case None => Failure(KeyError([pollutant]))
        case Some(d') => Success((e', Some(d')))
  }

  /** Adds each pollutant's pile emissions in turn. */
  function AddPiles(e: Tree, details: Option<Tree>, pollutants: seq<string>, rates: string -> PileComponents, area: real): (r: Result<(Tree, Option<Tree>), EmissionsError>)
    ensures r.Success? ==> (r.value.1.Some? <==> details.Some?)
    decreases |pollutants|
  {
    if |pollutants| == 0 then Success((e, details))
    else
      match AddPileEmissions(e, details, pollutants[0], InTons(rates(pollutants[0]), area))
      case Failure(err) => Failure(err)
      case Success(ed) => AddPiles(ed.0, ed.1, pollutants[1..], rates, area)
  }

  /** One pollutant's increments add its components at its own paths, leave
      every other path as it was, and create no path. */
  lemma AddPileEmissionsAmounts(e: Tree, details: Option<Tree>, pollutant: string, c: PileComponents, q: seq<string>)
    requires AddPileEmissions(e, details, pollutant, c).Success?
    ensures var r := AddPileEmissions(e, details, pollutant, c).value;
      (Amount(r.0, q).Some? <==> Amount(e, q).Some?) &&
      (Amount(e, q).Some? ==> Amount(r.0, q).value == Amount(e, q).value + PhaseAdded([], pollutant, c, true, q))
    ensures details.Some? ==> var r := AddPileEmissions(e, details, pollutant, c).value;
      (Amount(r.1.value, q).Some? <==> Amount(details.value, q).Some?) &&
      (Amount(details.value, q).Some? ==> Amount(r.1.value, q).value == Amount(details.value, q).value + DetailAdded(pollutant, c, q))
  {
    AddAllAmounts(e, EmissionAdds(pollutant, c), q);
    AddedAtPhases([], pollutant, c, true, q);
    if details.Some? {
      AddAllAmounts(details.value, DetailAdds(pollutant, c), q);
      AddedAtDetails(pollutant, c, q);
    }
  }

  /** What the pile emissions of a list of pollutants add at an emissions path. */
  function PilesAdded(pollutants: seq<string>, rates: string -> PileComponents, area: real, q: seq<string>): real
  {
    if |q| == 2 && q[1] in pollutants then PhaseShare(InTons(rates(q[1]), area), q[0], true) else 0.0
  }

  /** What the pile emissions of a list of pollutants add at a details path. */
  function PilesDetailAdded(pollutants: seq<string>, rates: string -> PileComponents, area: real, q: seq<string>): real
  {
    if |q| == 4 && q[3] in pollutants then DetailAdded(q[3], InTons(rates(q[3]), area), q) else 0.0
  }

  lemma PhaseAddedOther(prefix: seq<string>, pollutant: string, c: PileComponents, withTotal: bool, q: seq<string>)
    requires |q| == |prefix| + 2 && q[|prefix| + 1] != pollutant
    ensures PhaseAdded(prefix, pollutant, c, withTotal, q) == 0.0
  {
  }

  /** Adding the pile emissions of distinct pollutants adds each pollutant's
      share at its own paths, changes nothing else, and creates no path. */
  lemma {:induction false} AddPilesAmounts(e: Tree, details: Option<Tree>, pollutants: seq<string>, rates: string -> PileComponents, area: real, q: seq<string>)
    requires Distinct(pollutants)
    requires AddPiles(e, details, pollutants, rates, area).Success?
    ensures var r := AddPiles(e, details, pollutants, rates, area).value;
      (Amount(r.0, q).Some? <==> Amount(e, q).Some?) &&
      (Amount(e, q).Some? ==> Amount(r.0, q).value == Amount(e, q).value + PilesAdded(pollutants, rates, area, q))
    ensures details.Some? ==> var r := AddPiles(e, details, pollutants, rates, area).value;
      (Amount(r.1.value, q).Some? <==> Amount(details.value, q).Some?) &&
      (Amount(details.value, q).Some? ==>
        Amount(r.1.value, q).value == Amount(details.value, q).value + PilesDetailAdded(pollutants, rates, area, q))
    decreases |pollutants|
  {
    if |pollutants| > 0 {
      var p := pollutants[0];
      var c := InTons(rates(p), area);
      var ed := AddPileEmissions(e, details, p, c).value;
      AddPileEmissionsAmounts(e, details, p, c, q);
      assert Distinct(pollutants[1..]);
      AddPilesAmounts(ed.0, ed.1, pollutants[1..], rates, area, q);
      assert forall x :: x in pollutants <==> x == p || x in pollutants[1..] by {
        assert pollutants == [p] + pollutants[1..];
      }
      assert p !in pollutants[1..];
      if |q| == 2 && q[1] != p {
        PhaseAddedOther([], p, c, true, q);
      }
      if |q| == 4 && q[3] != p {
        PhaseAddedOther(["woody fuels", "piles"], p, c, false, q);
        PhaseAddedOther(["summary", "total"], p, c, true, q);
        PhaseAddedOther(["summary", "woody fuels"], p, c, false, q);
      }
    }
  }

  /** Any pile phase burns: the condition for adding pile emissions. */
  predicate AnyPiles(p: PilePhases)
  {
    p.flaming > 0.0 || p.smoldering > 0.0 || p.residual > 0.0
  }

  /** The consumption handed to the calculator: pile phases zeroed when present. */
  function CalculatorInput(consumption: Tree): Tree
  {
    if HasPiles(consumption) && ReadPiles(consumption).Success?
    then WritePiles(consumption, PilePhases(0.0, 0.0, 0.0))
    else consumption
  }

  /** Whether pile emissions are added for this consumption. */
  predicate PilesBurn(consumption: Tree)
  {
    HasPiles(consumption) && ReadPiles(consumption).Success? && AnyPiles(ReadPiles(consumption).value)
  }

  /** `(fb['pct'] / 100.0) * loc['area']`. */
  function PileArea(loc: EmLocation, fb: EmFuelbed): real
  {
    match fb.pct
    case None => 0.0
    case Some(pct) => pct / 100.0 * loc.area
  }

  /** The calculator sees no pile consumption and every other number unchanged. */
  lemma CalculatorInputSpec(consumption: Tree, q: seq<string>)
    ensures HasPiles(consumption) && ReadPiles(consumption).Success? ==>
      ReadPiles(CalculatorInput(consumption)) == Success(PilePhases(0.0, 0.0, 0.0))
    ensures q !in {PilePath("flaming"), PilePath("smoldering"), PilePath("residual")} ==>
      Amount(CalculatorInput(consumption), q) == Amount(consumption, q)
  {
    if HasPiles(consumption) && ReadPiles(consumption).Success? {
      WritePilesSpec(consumption, PilePhases(0.0, 0.0, 0.0), q);
    }
  }

  /** A fuelbed of the Prichard/O'Neill model (and of Urbanski, which differs
      only in its emission-factor lookup, here part of the calculator): pile
      consumption is hidden from the calculator, the result is converted, the
      consumption restored, and the piles' own emissions are added when any
      pile phase burns. */
  function PrichardOneillFuelbed(loc: EmLocation, fb: EmFuelbed, calculator: Tree -> Tree, includeDetails: bool, rates: string -> PileComponents): (r: Result<EmFuelbed, EmissionsError>)
    ensures FuelbedCheck(PrichardOneill, loc, fb).Some? ==> r == Failure(FuelbedCheck(PrichardOneill, loc, fb).value)
    ensures r.Success? ==> FuelbedReady(PrichardOneill, loc, fb)
    ensures r.Success? ==> r.value.consumption == fb.consumption && r.value.emissions.Some?
    ensures r.Success? && includeDetails ==> r.value.details.Some?
    ensures r.Success? && !includeDetails ==> r.value.details == fb.details
    ensures r.Success? && PilesBurn(fb.consumption.value) ==> fb.pct.Some? && fb.heat.Some?
  {
    match FuelbedCheck(PrichardOneill, loc, fb)
    case Some(err) => Failure(err)
    case None =>
      var consumption := fb.consumption.value;
      if !HasPiles(consumption) then
        match Calculate(calculator, consumption, includeDetails)
        case Failure(err) => Failure(err)
        case Success(ed) =>
          Success(fb.(emissions := Some(ScaleTree(ed.0, PrichardOneillConversion)), details := KeptDetails(fb, includeDetails, ScaleDetails(ed.1, PrichardOneillConversion))))
      else
        match ReadPiles(consumption)
        case Failure(err) => Failure(err)
        case Success(saved) =>
          PilesRestoreExactly(consumption);
          var zeroed := WritePiles(consumption, PilePhases(0.0, 0.0, 0.0));
          match Calculate(calculator, zeroed, includeDetails)
          case Failure(err) => Failure(err)
          case Success(ed) =>
            var e := ScaleTree(ed.0, PrichardOneillConversion);
            var details := ScaleDetails(ed.1, PrichardOneillConversion);
            var restored := WritePiles(zeroed, saved);
            if !AnyPiles(saved) then
              Success(fb.(consumption := Some(restored), emissions := Some(e), details := KeptDetails(fb, includeDetails, details)))
            else if fb.pct.None? then Failure(KeyError(["pct"]))
            else if fb.heat.None? then Failure(KeyError(["heat"]))
            else
              match AddPiles(e, details, PilePollutants, rates, PileArea(loc, fb))
              case Failure(err) => Failure(err)
              case Success(ed2) =>
                Success(fb.(consumption := Some(restored), emissions := Some(ed2.0), details := KeptDetails(fb, includeDetails, ed2.1)))
  }

  lemma PilePollutantsDistinct()
    ensures Distinct(PilePollutants)
  {
  }

  /** The emissions of a Prichard/O'Neill fuelbed: at every path, 0.001 times
      what the calculator gives for the pile-free consumption, plus the pile
      emissions of the eight pollutants when any pile phase burns. */
  lemma PrichardOneillEmissions(loc: EmLocation, fb: EmFuelbed, calculator: Tree -> Tree, includeDetails: bool, rates: string -> PileComponents, q: seq<string>)
    requires PrichardOneillFuelbed(loc, fb, calculator, includeDetails, rates).Success?
    ensures var consumption := fb.consumption.value;
      var raw := Get(calculator(CalculatorInput(consumption)), ["summary", "total"]);
      var e := PrichardOneillFuelbed(loc, fb, calculator, includeDetails, rates).value.emissions.value;
      raw.Some? &&
      (Amount(e, q).Some? <==> Amount(raw.value, q).Some?) &&
      (Amount(raw.value, q).Some? ==>
        Amount(e, q).value == Amount(raw.value, q).value * 0.001 +
          (if PilesBurn(consumption) then PilesAdded(PilePollutants, rates, PileArea(loc, fb), q) else 0.0))
  {
    var consumption := fb.consumption.value;
    var raw := Get(calculator(CalculatorInput(consumption)), ["summary", "total"]).value;
    AmountScaled(raw, PrichardOneillConversion, q);
    if PilesBurn(consumption) {
      var details := ScaleDetails(if includeDetails then Some(calculator(CalculatorInput(consumption))) else None, PrichardOneillConversion);
      PilePollutantsDistinct();
      AddPilesAmounts(ScaleTree(raw, PrichardOneillConversion), details, PilePollutants, rates, PileArea(loc, fb), q);
    }
  }

  /** A fuelbed of the UBC/BSF FEPS model: the emitter's result, computed for
      the whole location, becomes the fuelbed's emissions. The emitter is the
      external FEPS run; `None` stands for any exception it raises, which
      fails the fire. */
  function UbcBsfFepsFuelbed(loc: EmLocation, fb: EmFuelbed, emitter: EmLocation -> Option<Tree>): (r: Result<EmFuelbed, EmissionsError>)
    ensures r.Success? <==> emitter(loc).Some?
    ensures r.Failure? ==> r.error == EmitterFailed
    ensures r.Success? ==> r.value.emissions == emitter(loc) && r.value.(emissions := fb.emissions) == fb
  {
    match emitter(loc)
    case None => Failure(EmitterFailed)
    case Some(t) => Success(fb.(emissions := Some(t)))
  }

  /** Runs a fuelbed step over a location's fuelbeds; the first failure stops the run. */
  function RunFuelbeds(loc: EmLocation, fbs: seq<EmFuelbed>, step: (EmLocation, EmFuelbed) -> Result<EmFuelbed, EmissionsError>): Result<seq<EmFuelbed>, EmissionsError>
  {
    if |fbs| == 0 then Success([])
    else
      match step(loc, fbs[0])
      case Failure(err) => Failure(err)
      case Success(fb) =>
        match RunFuelbeds(loc, fbs[1..], step)
        case Failure(err) => Failure(err)
        case Success(rest) => Success([fb] + rest)
  }

  function RunLocations(m: Model, locs: seq<EmLocation>, step: (EmLocation, EmFuelbed) -> Result<EmFuelbed, EmissionsError>): Result<seq<EmLocation>, EmissionsError>
  {
    if |locs| == 0 then Success([])
    else
      match LocationCheck(m, locs[0])
      case Some(err) => Failure(err)
      case None =>
        match RunFuelbeds(locs[0], locs[0].fuelbeds.value, step)
        case Failure(err) => Failure(err)
        case Success(fbs) =>
          match RunLocations(m, locs[1..], step)
          case Failure(err) => Failure(err)
          case Success(rest) => Success([locs[0].(fuelbeds := Some(fbs))] + rest)
  }

  function RunAreas(m: Model, aas: seq<seq<EmLocation>>, step: (EmLocation, EmFuelbed) -> Result<EmFuelbed, EmissionsError>): Result<seq<seq<EmLocation>>, EmissionsError>
  {
    if |aas| == 0 then Success([])
    else
      match RunLocations(m, aas[0], step)
      case Failure(err) => Failure(err)
      case Success(locs) =>
        match RunAreas(m, aas[1..], step)
        case Failure(err) => Failure(err)
        case Success(rest) => Success([locs] + rest)
  }

  /** `_run_on_fire`: the fire-level checks, then every location of every
      active area with the model's fuelbed step; the first error fails the
      fire. */
  function RunFire(m: Model, fire: EmFire, step: (EmLocation, EmFuelbed) -> Result<EmFuelbed, EmissionsError>): Result<EmFire, EmissionsError>
  {
    if !fire.hasActivity then Failure(MissingActivity)
    else if m == Consume && BurnType(fire) == "piles" then Failure(PilesNotSupported)
    else
      match RunAreas(m, fire.activeAreas, step)
      case Failure(err) => Failure(err)
      case Success(aas) => Success(fire.(activeAreas := aas))
  }

  /** A fuelbed step that reports the model's own fuelbed checks first. */
  ghost predicate ChecksFirst(m: Model, step: (EmLocation, EmFuelbed) -> Result<EmFuelbed, EmissionsError>)
  {
    forall loc, fb :: FuelbedCheck(m, loc, fb).Some? ==> step(loc, fb) == Failure(FuelbedCheck(m, loc, fb).value)
  }

  /** A fuelbed step that cannot fail once the checks pass. */
  ghost predicate NeverFailsWhenReady(m: Model, step: (EmLocation, EmFuelbed) -> Result<EmFuelbed, EmissionsError>)
  {
    forall loc, fb :: FuelbedCheck(m, loc, fb).None? ==> step(loc, fb).Success?
  }

  lemma {:induction false} RunFuelbedsChecked(m: Model, loc: EmLocation, fbs: seq<EmFuelbed>, step: (EmLocation, EmFuelbed) -> Result<EmFuelbed, EmissionsError>)
    requires ChecksFirst(m, step)
    ensures var r := RunFuelbeds(loc, fbs, step);
      (r.Success? ==>
        FuelbedsCheck(m, loc, fbs).None? && |r.value| == |fbs| &&
        forall k :: 0 <= k < |fbs| ==> step(loc, fbs[k]) == Success(r.value[k])) &&
      (NeverFailsWhenReady(m, step) ==>
        (r.Failure? <==> FuelbedsCheck(m, loc, fbs).Some?) &&
        (r.Failure? ==> r.error == FuelbedsCheck(m, loc, fbs).value))
  {
    if |fbs| > 0 {
      RunFuelbedsChecked(m, loc, fbs[1..], step);
      var r := RunFuelbeds(loc, fbs, step);
      if r.Success? {
        var rest := RunFuelbeds(loc, fbs[1..], step).value;
        assert r.value == [step(loc, fbs[0]).value] + rest;
        assert forall k :: 1 <= k < |fbs| ==> fbs[1..][k - 1] == fbs[k];
      }
    }
  }

  lemma {:induction false} RunLocationsChecked(m: Model, locs: seq<EmLocation>, step: (EmLocation, EmFuelbed) -> Result<EmFuelbed, EmissionsError>)
    requires ChecksFirst(m, step)
    ensures var r := RunLocations(m, locs, step);
      (r.Success? ==>
        LocationsCheck(m, locs).None? && |r.value| == |locs| &&
        forall j :: 0 <= j < |locs| ==>
          RunFuelbeds(locs[j], locs[j].fuelbeds.value, step).Success? &&
          r.value[j] == locs[j].(fuelbeds := Some(RunFuelbeds(locs[j], locs[j].fuelbeds.value, step).value))) &&
      (NeverFailsWhenReady(m, step) ==>
        (r.Failure? <==> LocationsCheck(m, locs).Some?) &&
        (r.Failure? ==> r.error == LocationsCheck(m, locs).value))
  {
    if |locs| > 0 {
      RunLocationsChecked(m, locs[1..], step);
      if LocationCheck(m, locs[0]).None? {
        RunFuelbedsChecked(m, locs[0], locs[0].fuelbeds.value, step);
      }
      var r := RunLocations(m, locs, step);
      if r.Success? {
        assert forall j :: 1 <= j < |locs| ==> locs[1..][j - 1] == locs[j];
      }
    }
  }

  lemma {:induction false} RunAreasChecked(m: Model, aas: seq<seq<EmLocation>>, step: (EmLocation, EmFuelbed) -> Result<EmFuelbed, EmissionsError>)
    requires ChecksFirst(m, step)
    ensures var r := RunAreas(m, aas, step);
      (r.Success? ==>
        AreasCheck(m, aas).None? && |r.value| == |aas| &&
        forall i :: 0 <= i < |aas| ==> RunLocations(m, aas[i], step) == Success(r.value[i])) &&
      (NeverFailsWhenReady(m, step) ==>
        (r.Failure? <==> AreasCheck(m, aas).Some?) &&
        (r.Failure? ==> r.error == AreasCheck(m, aas).value))
  {
    if |aas| > 0 {
      RunAreasChecked(m, aas[1..], step);
      RunLocationsChecked(m, aas[0], step);
      var r := RunAreas(m, aas, step);
      if r.Success? {
        assert forall i :: 1 <= i < |aas| ==> aas[1..][i - 1] == aas[i];
      }
    }
  }

  /** A fire run succeeds only when every check passes, and then holds each
      location's fuelbeds as the step computed them; when the step itself
      cannot fail on checked input, the run fails exactly when a check does,
      with that check's error. */
  lemma RunFireChecked(m: Model, fire: EmFire, step: (EmLocation, EmFuelbed) -> Result<EmFuelbed, EmissionsError>)
    requires ChecksFirst(m, step)
    ensures var r := RunFire(m, fire, step);
      (r.Success? ==>
        FireCheck(m, fire).None? && |r.value.activeAreas| == |fire.activeAreas| &&
        forall i :: 0 <= i < |fire.activeAreas| ==> RunLocations(m, fire.activeAreas[i], step) == Success(r.value.activeAreas[i])) &&
      (NeverFailsWhenReady(m, step) ==>
        (r.Failure? <==> FireCheck(m, fire).Some?) &&
        (r.Failure? ==> r.error == FireCheck(m, fire).value))
  {
    RunAreasChecked(m, fire.activeAreas, step);
  }

  /** The Prichard/O'Neill fuelbed step reports the fuelbed checks first. */
  lemma PrichardOneillChecksFirst(calculator: EmFuelbed -> Tree -> Tree, includeDetails: bool, rates: EmFuelbed -> string -> PileComponents)
    ensures ChecksFirst(PrichardOneill, (loc, fb) => PrichardOneillFuelbed(loc, fb, calculator(fb), includeDetails, rates(fb)))
  {
    forall loc, fb | FuelbedCheck(PrichardOneill, loc, fb).Some?
      ensures PrichardOneillFuelbed(loc, fb, calculator(fb), includeDetails, rates(fb)) == Failure(FuelbedCheck(PrichardOneill, loc, fb).value)
    {
    }
  }

  /** The Crops fuelbed step reports the fuelbed checks first. */
  lemma CropsChecksFirst(calculator: EmFuelbed -> Tree -> Tree, includeDetails: bool)
    ensures ChecksFirst(Crops, (loc, fb) => CropsFuelbed(loc, fb, calculator(fb), includeDetails))
  {
    forall loc, fb | FuelbedCheck(Crops, loc, fb).Some?
      ensures CropsFuelbed(loc, fb, calculator(fb), includeDetails) == Failure(FuelbedCheck(Crops, loc, fb).value)
    {
    }
  }

  /** The FEPS fuelbed step reports the fuelbed checks first. */
  lemma FepsChecksFirst(calculator: Tree -> Tree, includeDetails: bool)
    ensures ChecksFirst(Feps, (loc, fb) => FepsFuelbed(loc, fb, calculator, includeDetails))
  {
  }

  /** The UBC/BSF FEPS step makes no fuelbed checks of its own (they are all
      per location), and fails only when the emitter does: a fire fails either
      with the first failing check or with the emitter's error, and cannot
      fail otherwise when the emitter succeeds everywhere. */
  lemma UbcBsfFepsFailsOnlyInEmitter(emitter: EmLocation -> Option<Tree>, fire: EmFire)
    ensures ChecksFirst(UbcBsfFeps, (loc, fb) => UbcBsfFepsFuelbed(loc, fb, emitter))
    ensures NeverFailsWhenReady(UbcBsfFeps, (loc, fb) => UbcBsfFepsFuelbed(loc, fb, emitter)) <==>
      forall loc :: emitter(loc).Some?
    ensures var r := RunFire(UbcBsfFeps, fire, (loc, fb) => UbcBsfFepsFuelbed(loc, fb, emitter));
      && (FireCheck(UbcBsfFeps, fire).Some? ==> r.Failure?)
      && (r.Failure? ==> r.error == EmitterFailed || (FireCheck(UbcBsfFeps, fire).Some? && r.error == FireCheck(UbcBsfFeps, fire).value))
  {
    var step := (loc, fb) => UbcBsfFepsFuelbed(loc, fb, emitter);
    if !forall loc :: emitter(loc).Some? {
      var loc :| emitter(loc).None?;
      var fb := EmFuelbed(None, None, None, None, None, None);
      assert step(loc, fb).Failure?;
    }
    assert FailsOnlyWith(UbcBsfFeps, step, EmitterFailed);
    RunFireChecked(UbcBsfFeps, fire, step);
    RunAreasFailsWith(UbcBsfFeps, fire.activeAreas, step, EmitterFailed);
  }

  /** A fuelbed step whose only failure, once the checks pass, is `e`. */
  ghost predicate FailsOnlyWith(m: Model, step: (EmLocation, EmFuelbed) -> Result<EmFuelbed, EmissionsError>, e: EmissionsError)
  {
    forall loc, fb :: FuelbedCheck(m, loc, fb).None? && step(loc, fb).Failure? ==> step(loc, fb).error == e
  }

  lemma {:induction false} RunFuelbedsFailsWith(m: Model, loc: EmLocation, fbs: seq<EmFuelbed>, step: (EmLocation, EmFuelbed) -> Result<EmFuelbed, EmissionsError>, e: EmissionsError)
    requires ChecksFirst(m, step) && FailsOnlyWith(m, step, e)
    ensures var r := RunFuelbeds(loc, fbs, step);
      r.Failure? ==> r.error == e || (FuelbedsCheck(m, loc, fbs).Some? && r.error == FuelbedsCheck(m, loc, fbs).value)
  {
    if |fbs| > 0 {
      RunFuelbedsFailsWith(m, loc, fbs[1..], step, e);
    }
  }

  lemma {:induction false} RunLocationsFailsWith(m: Model, locs: seq<EmLocation>, step: (EmLocation, EmFuelbed) -> Result<EmFuelbed, EmissionsError>, e: EmissionsError)
    requires ChecksFirst(m, step) && FailsOnlyWith(m, step, e)
    ensures var r := RunLocations(m, locs, step);
      r.Failure? ==> r.error == e || (LocationsCheck(m, locs).Some? && r.error == LocationsCheck(m, locs).value)
  {
    if |locs| > 0 {
      RunLocationsFailsWith(m, locs[1..], step, e);
      if LocationCheck(m, locs[0]).None? {
        RunFuelbedsFailsWith(m, locs[0], locs[0].fuelbeds.value, step, e);
        RunFuelbedsChecked(m, locs[0], locs[0].fuelbeds.value, step);
      }
    }
  }

  lemma {:induction false} RunAreasFailsWith(m: Model, aas: seq<seq<EmLocation>>, step: (EmLocation, EmFuelbed) -> Result<EmFuelbed, EmissionsError>, e: EmissionsError)
    requires ChecksFirst(m, step) && FailsOnlyWith(m, step, e)
    ensures var r := RunAreas(m, aas, step);
      r.Failure? ==> r.error == e || (AreasCheck(m, aas).Some? && r.error == AreasCheck(m, aas).value)
  {
    if |aas| > 0 {
      RunAreasFailsWith(m, aas[1..], step, e);
      RunLocationsFailsWith(m, aas[0], step, e);
      RunLocationsChecked(m, aas[0], step);
    }
  }

  /** The key fixing applied to one fuelbed after the model has run:
      `_fix_keys` on its emissions and, when details are kept, on those;
      either being absent is a KeyError. */
  function FixFuelbedKeys(fb: EmFuelbed, includeDetails: bool): (r: Result<EmFuelbed, EmissionsError>)
    ensures r.Success? <==> fb.emissions.Some? && (includeDetails ==> fb.details.Some?)
    ensures r.Success? ==> r.value.consumption == fb.consumption
  {
    match fb.emissions
    case None => Failure(KeyError(["emissions"]))
    case Some(e) =>
      if !includeDetails then Success(fb.(emissions := Some(FixKeys(e))))
      else
        match fb.details
        case None => Failure(KeyError(["emissions_details"]))
        case Some(d) => Success(fb.(emissions := Some(FixKeys(e)), details := Some(FixKeys(d))))
  }

  /** After fixing, no emissions dictionary holds a legacy key at its top level. */
  lemma FixFuelbedKeysRenames(fb: EmFuelbed, includeDetails: bool, e: (string, Tree))
    requires FixFuelbedKeys(fb, includeDetails).Success?
    requires fb.emissions.value.Node? && DistinctKeys(fb.emissions.value.children)
    ensures e in FixFuelbedKeys(fb, includeDetails).value.emissions.value.children ==> !IsLegacy(e.0)
  {
    if e in FixFuelbedKeys(fb, includeDetails).value.emissions.value.children {
      FixKeysRemovesLegacy(fb.emissions.value.children, e);
    }
  }

  /** The UBC/BSF FEPS model writes no details, so with details kept the key
      fixing fails on every fuelbed it produced from one without details. */
  lemma UbcBsfFepsDetailsFail(loc: EmLocation, fb: EmFuelbed, emitter: EmLocation -> Option<Tree>)
    requires fb.details.None? && emitter(loc).Some?
    ensures FixFuelbedKeys(UbcBsfFepsFuelbed(loc, fb, emitter).value, true) == Failure(KeyError(["emissions_details"]))
  {
  }
}

=== FILE: emtrees.dfy ===
/** Nested emissions, consumption and heat records: dictionaries whose values
    are dictionaries again or single-valued leaves. In the source a leaf is a
    one-element list and every update goes through index 0, so a leaf here
    holds that one number. */
module EmissionTrees {
  import opened Common

  datatype Tree = Leaf(amount: real) | Node(children: Dict<string, Tree>)

  /** Largest element of a sequence of naturals, 0 when empty. */
  function MaxOf(s: seq<nat>): (m: nat)
    ensures forall i :: 0 <= i < |s| ==> s[i] <= m
    ensures |s| > 0 ==> exists i :: 0 <= i < |s| && s[i] == m
    ensures |s| == 0 ==> m == 0
  {
    if |s| == 0 then 0
    else
      var m := MaxOf(s[..|s| - 1]);
      if s[|s| - 1] > m then s[|s| - 1] else m
  }

  /** Every element below a bound bounds the maximum. */
  lemma {:induction false} MaxOfBelow(s: seq<nat>, b: nat)
    requires forall i :: 0 <= i < |s| ==> s[i] <= b
    ensures MaxOf(s) <= b
  {
    if |s| > 0 {
      MaxOfBelow(s[..|s| - 1], b);
    }
  }

  /** Nesting depth: a leaf is 0, a dictionary is one more than its deepest value. */
  function Depth(t: Tree): nat
  {
    match t
    case Leaf(_) => 0
    case Node(d) => 1 + MaxOf(seq(|d|, i requires 0 <= i < |d| => Depth(d[i].1)))
  }

  /** Every value of a dictionary is shallower than the dictionary itself. */
  lemma ChildDepth(d: Dict<string, Tree>, e: (string, Tree))
    requires e in d
    ensures Depth(e.1) < Depth(Node(d))
  {
    var i :| 0 <= i < |d| && d[i] == e;
    var s := seq(|d|, i requires 0 <= i < |d| => Depth(d[i].1));
    assert s[i] == Depth(e.1);
  }

  /** A dictionary whose values are all shallower than `b` is at most `b` deep. */
  lemma NodeDepthBelow(d: Dict<string, Tree>, b: nat)
    requires b > 0 && forall e :: e in d ==> Depth(e.1) < b
    ensures Depth(Node(d)) <= b
  {
    var s := seq(|d|, i requires 0 <= i < |d| => Depth(d[i].1));
    forall i | 0 <= i < |s|
      ensures s[i] <= b - 1
    {
      assert d[i] in d;
    }
    MaxOfBelow(s, b - 1);
  }

  /** The subtree reached by following `path` key by key, as `x[k1][k2]...`;
      None where a key is missing or the path runs into a leaf. */
  function Get(t: Tree, path: seq<string>): Option<Tree>
    decreases |path|
  {
    if |path| == 0 then Some(t)
    else
      match t
      case Leaf(_) => None
      case Node(d) =>
        match Lookup(d, path[0])
        case None => None
        case Some(c) => Get(c, path[1..])
  }

  /** The number at `path`, as `x[k1]...[kn][0]`; None unless the path ends at a leaf. */
  function Amount(t: Tree, path: seq<string>): Option<real>
  {
    match Get(t, path)
    case Some(Leaf(a)) => Some(a)
    case _ => None
  }

  /** Assignment `x[k1]...[kn][0] = a`: fails (KeyError) unless the path already
      ends at a leaf; every dictionary on the way keeps its key order. */
  function SetAmount(t: Tree, path: seq<string>, a: real): (r: Option<Tree>)
    ensures r.Some? <==> Amount(t, path).Some?
    decreases |path|
  {
    if |path| == 0 then
      if t.Leaf? then Some(Leaf(a)) else None
    else
      match t
      case Leaf(_) => None
      case Node(d) =>
        match Lookup(d, path[0])
        case None => None
        case Some(c) =>
          match SetAmount(c, path[1..], a)
          case None => None
          case Some(c') => Some(Node(Store(d, path[0], c')))
  }

  /** In-place increment `x[k1]...[kn][0] += a`. */
  function AddAmount(t: Tree, path: seq<string>, a: real): (r: Option<Tree>)
    ensures r.Some? <==> Amount(t, path).Some?
  {
    match Amount(t, path)
    case None => None
    case Some(v) => SetAmount(t, path, v + a)
  }

  /** After an assignment the path holds the new number. */
  lemma {:induction false} SetThenAmount(t: Tree, path: seq<string>, a: real)
    requires Amount(t, path).Some?
    ensures Amount(SetAmount(t, path, a).value, path) == Some(a)
    decreases |path|
  {
    if |path| > 0 {
      var d := t.children;
      var c := Lookup(d, path[0]).value;
      SetThenAmount(c, path[1..], a);
      LookupStore(d, path[0], SetAmount(c, path[1..], a).value, path[0]);
    }
  }

  /** An assignment changes no other path: every other path holds the same
      number, or none, as before. */
  lemma {:induction false} SetElsewhere(t: Tree, p: seq<string>, q: seq<string>, a: real)
    requires Amount(t, p).Some? && p != q
    ensures Amount(SetAmount(t, p, a).value, q) == Amount(t, q)
    decreases |p|
  {
    if |p| > 0 && |q| > 0 {
      var d := t.children;
      var c := Lookup(d, p[0]).value;
      var c' := SetAmount(c, p[1..], a).value;
      LookupStore(d, p[0], c', q[0]);
      if p[0] == q[0] {
        assert p[1..] != q[1..] by {
          assert p == [p[0]] + p[1..] && q == [q[0]] + q[1..];
        }
        SetElsewhere(c, p[1..], q[1..], a);
      }
    }
  }

  /** Assigning the number a path already holds changes nothing. */
  lemma {:induction false} SetSame(t: Tree, path: seq<string>)
    requires Amount(t, path).Some?
    ensures SetAmount(t, path, Amount(t, path).value) == Some(t)
    decreases |path|
  {
    if |path| > 0 {
      var d := t.children;
      var c := Lookup(d, path[0]).value;
      SetSame(c, path[1..]);
      StoreSame(d, path[0]);
    }
  }

  /** Of two assignments to one path only the second survives. */
  lemma {:induction false} SetTwice(t: Tree, path: seq<string>, a: real, b: real)
    requires Amount(t, path).Some?
    ensures SetAmount(SetAmount(t, path, a).value, path, b) == SetAmount(t, path, b)
    decreases |path|
  {
    SetThenAmount(t, path, a);
    if |path| > 0 {
      var d := t.children;
      var c := Lookup(d, path[0]).value;
      var c1 := SetAmount(c, path[1..], a).value;
      LookupStore(d, path[0], c1, path[0]);
      SetTwice(c, path[1..], a, b);
      StoreTwice(d, path[0], c1, SetAmount(c, path[1..], b).value);
    }
  }

  /** Saving a number, overwriting it and writing the saved number back
      restores the tree exactly. */
  lemma SetRestore(t: Tree, path: seq<string>, a: real)
    requires Amount(t, path).Some?
    ensures SetAmount(SetAmount(t, path, a).value, path, Amount(t, path).value) == Some(t)
  {
    SetThenAmount(t, path, a);
    SetTwice(t, path, a, Amount(t, path).value);
    SetSame(t, path);
  }

  /** Assignments to two different leaves commute. */
  lemma {:induction false} SetCommute(t: Tree, p: seq<string>, a: real, q: seq<string>, b: real)
    requires Amount(t, p).Some? && Amount(t, q).Some? && p != q
    ensures SetAmount(SetAmount(t, p, a).value, q, b) == SetAmount(SetAmount(t, q, b).value, p, a)
    decreases |p|
  {
    SetElsewhere(t, p, q, a);
    SetElsewhere(t, q, p, b);
    if |p| > 0 && |q| > 0 {
      var d := t.children;
      var cp := Lookup(d, p[0]).value;
      var cq := Lookup(d, q[0]).value;
      var cp' := SetAmount(cp, p[1..], a).value;
      var cq' := SetAmount(cq, q[1..], b).value;
      LookupStore(d, p[0], cp', q[0]);
      LookupStore(d, q[0], cq', p[0]);
      if p[0] == q[0] {
        assert p[1..] != q[1..] by {
          assert p == [p[0]] + p[1..] && q == [q[0]] + q[1..];
        }
        SetElsewhere(cp, p[1..], q[1..], a);
        SetElsewhere(cp, q[1..], p[1..], b);
        SetCommute(cp, p[1..], a, q[1..], b);
        StoreTwice(d, p[0], cp', SetAmount(cp', q[1..], b).value);
        StoreTwice(d, q[0], cq', SetAmount(cq', p[1..], a).value);
      } else {
        StoreCommute(d, p[0], cp', q[0], cq');
      }
    }
  }

  /** Multiplies every leaf by `f`, keeping every dictionary's keys and order. */
  function ScaleTree(t: Tree, f: real): Tree
  {
    match t
    case Leaf(a) => Leaf(a * f)
    case Node(d) => Node(seq(|d|, i requires 0 <= i < |d| => (d[i].0, ScaleTree(d[i].1, f))))
  }

  /** Scaling keeps the keys of a dictionary and scales what each key holds. */
  lemma {:induction false} LookupScaled(d: Dict<string, Tree>, f: real, k: string)
    ensures Lookup(ScaleTree(Node(d), f).children, k) ==
      match Lookup(d, k) case None => None case Some(c) => Some(ScaleTree(c, f))
  {
    var s := ScaleTree(Node(d), f).children;
    if |d| > 0 {
      var s' := ScaleTree(Node(d[1..]), f).children;
      assert s[1..] == s';
      if d[0].0 != k {
        LookupScaled(d[1..], f, k);
      }
    }
  }

  /** Scaling multiplies the number at every path by `f` and adds or removes none. */
  lemma {:induction false} AmountScaled(t: Tree, f: real, path: seq<string>)
    ensures Amount(ScaleTree(t, f), path).Some? <==> Amount(t, path).Some?
    ensures Amount(t, path).Some? ==> Amount(ScaleTree(t, f), path).value == Amount(t, path).value * f
    decreases |path|
  {
    if |path| == 0 {
      match t
      case Leaf(a) =>
        assert ScaleTree(t, f) == Leaf(a * f);
      case Node(d) =>
        assert Get(ScaleTree(t, f), path) == Some(ScaleTree(t, f));
    } else if t.Node? {
      LookupScaled(t.children, f, path[0]);
      match Lookup(t.children, path[0])
      case None =>
      case Some(c) =>
        AmountScaled(c, f, path[1..]);
        assert Get(t, path) == Get(c, path[1..]);
        assert Get(ScaleTree(t, f), path) == Get(ScaleTree(c, f), path[1..]);
        assert Amount(t, path) == Amount(c, path[1..]);
        assert Amount(ScaleTree(t, f), path) == Amount(ScaleTree(c, f), path[1..]);
    }
  }

  /** Increments the number at each path in turn, as a run of `+=` statements;
      fails at the first path that does not end at a leaf. */
  function AddAll(t: Tree, adds: seq<(seq<string>, real)>): Option<Tree>
    decreases |adds|
  {
    if |adds| == 0 then Some(t)
    else
      match AddAmount(t, adds[0].0, adds[0].1)
      case None => None
      case Some(t') => AddAll(t', adds[1..])
  }

  /** Total added at path `q` by a run of increments. */
  function AddedAt(adds: seq<(seq<string>, real)>, q: seq<string>): real
  {
    if |adds| == 0 then 0.0
    else (if adds[0].0 == q then adds[0].1 else 0.0) + AddedAt(adds[1..], q)
  }

  /** One increment adds to its own path and leaves every other path alone. */
  lemma AddThenAmount(t: Tree, p: seq<string>, a: real, q: seq<string>)
    requires Amount(t, p).Some?
    ensures Amount(AddAmount(t, p, a).value, q).Some? <==> Amount(t, q).Some?
    ensures Amount(t, q).Some? ==>
      Amount(AddAmount(t, p, a).value, q).value == Amount(t, q).value + (if q == p then a else 0.0)
  {
    if q == p {
      SetThenAmount(t, p, Amount(t, p).value + a);
    } else {
      SetElsewhere(t, p, q, Amount(t, p).value + a);
    }
  }

  /** A run of increments succeeds exactly when every path ends at a leaf; it
      then adds to each path the total meant for it and creates no path. */
  lemma {:induction false} AddAllAmounts(t: Tree, adds: seq<(seq<string>, real)>, q: seq<string>)
    ensures AddAll(t, adds).Some? <==> forall i :: 0 <= i < |adds| ==> Amount(t, adds[i].0).Some?
    ensures AddAll(t, adds).Some? ==> (Amount(AddAll(t, adds).value, q).Some? <==> Amount(t, q).Some?)
    ensures AddAll(t, adds).Some? && Amount(t, q).Some? ==>
      Amount(AddAll(t, adds).value, q).value == Amount(t, q).value + AddedAt(adds, q)
    decreases |adds|
  {
    if |adds| > 0 {
      var p := adds[0].0;
      if Amount(t, p).Some? {
        var t' := AddAmount(t, p, adds[0].1).value;
        AddThenAmount(t, p, adds[0].1, q);
        AddAllAmounts(t', adds[1..], q);
        forall i | 0 <= i < |adds|
          ensures Amount(t', adds[i].0).Some? <==> Amount(t, adds[i].0).Some?
        {
          AddThenAmount(t, p, adds[0].1, adds[i].0);
        }
        assert forall i :: 1 <= i < |adds| ==> adds[1..][i - 1] == adds[i];
      }
    }
  }
}

=== FILE: firemerge.dfy ===
/** FireMerger: folds fire records that share a location, whose time windows do not
    overlap and whose meta does not conflict. Each fire, in input order, is folded
    into the earliest compatible record produced so far, otherwise appended. The
    fresh id of the k-th merge is `newId(k)` (the original draws a random uuid). */
module FireMerge {
  import opened Common
  import opened Fires

  /** Two records may be folded together: same location, windows that at most
      touch, and no meta key with two different values. */
  predicate Mergeable(a: Fire, b: Fire)
  {
    && a.latitude == b.latitude
    && a.longitude == b.longitude
    && (a.end <= b.start || b.end <= a.start)
    && MetaAgree(a.meta, b.meta)
  }

  lemma MergeableSymmetric(a: Fire, b: Fire)
    ensures Mergeable(a, b) <==> Mergeable(b, a)
  {
  }

  /** The record that replaces `a` once `b` is folded into it. */
  function MergeTwo(a: Fire, b: Fire, id: string): (m: Fire)
    ensures m.id == id
    ensures m.originalFireIds == a.originalFireIds + b.originalFireIds
    ensures m.start <= a.start && m.start <= b.start && (m.start == a.start || m.start == b.start)
    ensures m.end >= a.end && m.end >= b.end && (m.end == a.end || m.end == b.end)
    ensures m.area == a.area + b.area && m.heat == a.heat + b.heat
    ensures (m.latitude, m.longitude, m.utcOffset) == (a.latitude, a.longitude, a.utcOffset)
  {
    Fire(
      id,
      a.originalFireIds + b.originalFireIds,
      a.meta + b.meta,
      if a.start <= b.start then a.start else b.start,
      if a.end >= b.end then a.end else b.end,
      a.area + b.area,
      a.latitude,
      a.longitude,
      a.utcOffset,
      a.plumerise + b.plumerise,
      a.timeprofiledArea + b.timeprofiledArea,
      a.timeprofiledEmissions + b.timeprofiledEmissions,
      AddByKey(a.consumption, b.consumption),
      a.heat + b.heat)
  }

  /** The folded record's maps: meta, hourly data and consumption cover the keys
      of both records, and consumption is added key by key. */
  lemma MergeTwoMaps(a: Fire, b: Fire, id: string)
    ensures MergeTwo(a, b, id).meta.Keys == a.meta.Keys + b.meta.Keys
    ensures MetaAgree(a.meta, b.meta) ==> MetaAgree(MergeTwo(a, b, id).meta, a.meta) && MetaAgree(MergeTwo(a, b, id).meta, b.meta)
    ensures MergeTwo(a, b, id).plumerise.Keys == a.plumerise.Keys + b.plumerise.Keys
    ensures MergeTwo(a, b, id).timeprofiledArea.Keys == a.timeprofiledArea.Keys + b.timeprofiledArea.Keys
    ensures MergeTwo(a, b, id).timeprofiledEmissions.Keys == a.timeprofiledEmissions.Keys + b.timeprofiledEmissions.Keys
    ensures MergeTwo(a, b, id).consumption.Keys == a.consumption.Keys + b.consumption.Keys
    ensures forall k :: k in MergeTwo(a, b, id).consumption ==>
      MergeTwo(a, b, id).consumption[k] == ValueOr0(a.consumption, k) + ValueOr0(b.consumption, k)
  {
  }

  /** When both records keep their hourly data inside their own windows and the
      windows do not overlap, no hour is claimed twice: the union keeps every
      hourly value of both records unchanged. */
  lemma MergeTwoKeepsHours(a: Fire, b: Fire, id: string)
    requires Mergeable(a, b) && HoursWithinWindow(a) && HoursWithinWindow(b)
    ensures a.plumerise.Keys !! b.plumerise.Keys
    ensures a.timeprofiledArea.Keys !! b.timeprofiledArea.Keys
    ensures a.timeprofiledEmissions.Keys !! b.timeprofiledEmissions.Keys
    ensures forall h :: h in a.plumerise ==> MergeTwo(a, b, id).plumerise[h] == a.plumerise[h]
    ensures forall h :: h in b.plumerise ==> MergeTwo(a, b, id).plumerise[h] == b.plumerise[h]
    ensures forall h :: h in a.timeprofiledArea ==> MergeTwo(a, b, id).timeprofiledArea[h] == a.timeprofiledArea[h]
    ensures forall h :: h in b.timeprofiledArea ==> MergeTwo(a, b, id).timeprofiledArea[h] == b.timeprofiledArea[h]
    ensures forall h :: h in a.timeprofiledEmissions ==> MergeTwo(a, b, id).timeprofiledEmissions[h] == a.timeprofiledEmissions[h]
    ensures forall h :: h in b.timeprofiledEmissions ==> MergeTwo(a, b, id).timeprofiledEmissions[h] == b.timeprofiledEmissions[h]
  {
    KeepsPlumerise(a, b, id);
    KeepsArea(a, b, id);
    KeepsEmissions(a, b, id);
  }

  lemma KeepsPlumerise(a: Fire, b: Fire, id: string)
    requires Mergeable(a, b) && HoursWithinWindow(a) && HoursWithinWindow(b)
    ensures a.plumerise.Keys !! b.plumerise.Keys
    ensures forall h :: h in a.plumerise ==> MergeTwo(a, b, id).plumerise[h] == a.plumerise[h]
    ensures forall h :: h in b.plumerise ==> MergeTwo(a, b, id).plumerise[h] == b.plumerise[h]
  {
    assert MergeTwo(a, b, id).plumerise == a.plumerise + b.plumerise;
    DisjointHours(a.plumerise, b.plumerise, a.start, a.end, b.start, b.end);
  }

  lemma KeepsArea(a: Fire, b: Fire, id: string)
    requires Mergeable(a, b) && HoursWithinWindow(a) && HoursWithinWindow(b)
    ensures a.timeprofiledArea.Keys !! b.timeprofiledArea.Keys
    ensures forall h :: h in a.timeprofiledArea ==> MergeTwo(a, b, id).timeprofiledArea[h] == a.timeprofiledArea[h]
    ensures forall h :: h in b.timeprofiledArea ==> MergeTwo(a, b, id).timeprofiledArea[h] == b.timeprofiledArea[h]
  {
    assert MergeTwo(a, b, id).timeprofiledArea == a.timeprofiledArea + b.timeprofiledArea;
    DisjointHours(a.timeprofiledArea, b.timeprofiledArea, a.start, a.end, b.start, b.end);
  }

  lemma KeepsEmissions(a: Fire, b: Fire, id: string)
    requires Mergeable(a, b) && HoursWithinWindow(a) && HoursWithinWindow(b)
    ensures a.timeprofiledEmissions.Keys !! b.timeprofiledEmissions.Keys
    ensures forall h :: h in a.timeprofiledEmissions ==> MergeTwo(a, b, id).timeprofiledEmissions[h] == a.timeprofiledEmissions[h]
    ensures forall h :: h in b.timeprofiledEmissions ==> MergeTwo(a, b, id).timeprofiledEmissions[h] == b.timeprofiledEmissions[h]
  {
    assert MergeTwo(a, b, id).timeprofiledEmissions == a.timeprofiledEmissions + b.timeprofiledEmissions;
    DisjointHours(a.timeprofiledEmissions, b.timeprofiledEmissions, a.start, a.end, b.start, b.end);
  }

  /** The merged record keeps its hourly data inside its (wider) window. */
  lemma MergeTwoWithinWindow(a: Fire, b: Fire, id: string)
    requires HoursWithinWindow(a) && HoursWithinWindow(b)
    ensures HoursWithinWindow(MergeTwo(a, b, id))
  {
    var m := MergeTwo(a, b, id);
    assert m.plumerise == a.plumerise + b.plumerise;
    assert m.timeprofiledArea == a.timeprofiledArea + b.timeprofiledArea;
    assert m.timeprofiledEmissions == a.timeprofiledEmissions + b.timeprofiledEmissions;
  }

  /** Hour-keyed maps whose keys lie in disjoint windows share no key, so their
      union keeps both maps' values. */
  lemma DisjointHours<V>(x: map<Hour, V>, y: map<Hour, V>, s1: Hour, e1: Hour, s2: Hour, e2: Hour)
    requires forall h :: h in x ==> s1 <= h < e1
    requires forall h :: h in y ==> s2 <= h < e2
    requires e1 <= s2 || e2 <= s1
    ensures x.Keys !! y.Keys
    ensures forall h :: h in x ==> (x + y)[h] == x[h]
    ensures forall h :: h in y ==> (x + y)[h] == y[h]
  {
    forall h | h in x
      ensures h !in y
    {
    }
  }

  /** Folding is order-blind for compatible records with the same UTC offset whose
      hourly data stay inside their windows. */
  lemma MergeTwoCommutes(a: Fire, b: Fire, id: string)
    requires Mergeable(a, b) && HoursWithinWindow(a) && HoursWithinWindow(b)
    requires a.utcOffset == b.utcOffset
    ensures MergeTwo(a, b, id) == MergeTwo(b, a, id)
  {
    MergeTwoKeepsHours(a, b, id);
    var m1 := MergeTwo(a, b, id);
    var m2 := MergeTwo(b, a, id);
    UnionCommutes(a.meta, b.meta);
    UnionCommutes(a.plumerise, b.plumerise);
    UnionCommutes(a.timeprofiledArea, b.timeprofiledArea);
    UnionCommutes(a.timeprofiledEmissions, b.timeprofiledEmissions);
    assert AddByKey(a.consumption, b.consumption) == AddByKey(b.consumption, a.consumption);
    assert m1.meta == m2.meta && m1.plumerise == m2.plumerise;
    assert m1.timeprofiledArea == m2.timeprofiledArea && m1.timeprofiledEmissions == m2.timeprofiledEmissions;
    assert m1.consumption == m2.consumption && m1.originalFireIds == m2.originalFireIds;
  }

  /** A union of maps that agree on their shared keys does not depend on the order. */
  lemma UnionCommutes<K, V>(x: map<K, V>, y: map<K, V>)
    requires forall k :: k in x && k in y ==> x[k] == y[k]
    ensures x + y == y + x
  {
    SameMaps(x + y, y + x);
  }

  /** Index of the earliest record `f` can be folded into, scanning from `from`. */
  function FirstMergeableFrom(records: seq<Fire>, f: Fire, from: nat): (r: Option<nat>)
    requires from <= |records|
    ensures r.Some? ==>
      && from <= r.value < |records|
      && Mergeable(records[r.value], f)
      && forall j :: from <= j < r.value ==> !Mergeable(records[j], f)
    ensures r.None? ==> forall j :: from <= j < |records| ==> !Mergeable(records[j], f)
    decreases |records| - from
  {
    if from == |records| then None
    else if Mergeable(records[from], f) then Some(from)
    else FirstMergeableFrom(records, f, from + 1)
  }

  function FirstMergeable(records: seq<Fire>, f: Fire): (r: Option<nat>)
    ensures r.Some? ==>
      && r.value < |records|
      && Mergeable(records[r.value], f)
      && forall j :: 0 <= j < r.value ==> !Mergeable(records[j], f)
    ensures r.None? ==> forall j :: 0 <= j < |records| ==> !Mergeable(records[j], f)
  {
    FirstMergeableFrom(records, f, 0)
  }

  /** Output records so far, and how many merges (fresh ids) have happened. */
  datatype MergeState = MergeState(records: seq<Fire>, merges: nat)

  function Step(st: MergeState, f: Fire, newId: nat -> string): MergeState
  {
    match FirstMergeable(st.records, f)
    case None => MergeState(st.records + [f], st.merges)
    case Some(i) => MergeState(st.records[i := MergeTwo(st.records[i], f, newId(st.merges))], st.merges + 1)
  }

  lemma StepCounts(st: MergeState, f: Fire, newId: nat -> string)
    ensures |Step(st, f, newId).records| + Step(st, f, newId).merges == |st.records| + st.merges + 1
    ensures |Step(st, f, newId).records| > 0
  {
  }

  lemma StepConservesAppend(st: MergeState, f: Fire, newId: nat -> string)
    requires FirstMergeable(st.records, f).None?
    ensures Sum(Areas(Step(st, f, newId).records)) == Sum(Areas(st.records)) + f.area
    ensures Sum(Heats(Step(st, f, newId).records)) == Sum(Heats(st.records)) + f.heat
    ensures AllOriginalIds(Step(st, f, newId).records) == AllOriginalIds(st.records) + f.originalFireIds
  {
    var rs := st.records + [f];
    assert Step(st, f, newId).records == rs;
    assert Areas(rs) == Areas(st.records) + [f.area];
    assert Heats(rs) == Heats(st.records) + [f.heat];
    SumAppend(Areas(st.records), [f.area]);
    SumAppend(Heats(st.records), [f.heat]);
    SumSingle(f.area);
    SumSingle(f.heat);
    AllOriginalIdsAppend(st.records, f);
  }

  lemma StepConservesMerge(st: MergeState, f: Fire, newId: nat -> string)
    requires FirstMergeable(st.records, f).Some?
    ensures Sum(Areas(Step(st, f, newId).records)) == Sum(Areas(st.records)) + f.area
    ensures Sum(Heats(Step(st, f, newId).records)) == Sum(Heats(st.records)) + f.heat
    ensures AllOriginalIds(Step(st, f, newId).records) == AllOriginalIds(st.records) + f.originalFireIds
  {
    var i := FirstMergeable(st.records, f).value;
    var m := MergeTwo(st.records[i], f, newId(st.merges));
    var rs := st.records[i := m];
    assert Step(st, f, newId).records == rs;
    assert Areas(rs) == Areas(st.records)[i := m.area];
    assert Heats(rs) == Heats(st.records)[i := m.heat];
    SumUpdate(Areas(st.records), i, m.area);
    SumUpdate(Heats(st.records), i, m.heat);
    AllOriginalIdsUpdate(st.records, i, m, f.originalFireIds);
  }

  lemma InputsAppend(pre: seq<Fire>, f: Fire)
    ensures Sum(Areas(pre + [f])) == Sum(Areas(pre)) + f.area
    ensures Sum(Heats(pre + [f])) == Sum(Heats(pre)) + f.heat
    ensures AllOriginalIds(pre + [f]) == AllOriginalIds(pre) + f.originalFireIds
  {
    assert Areas(pre + [f]) == Areas(pre) + [f.area];
    assert Heats(pre + [f]) == Heats(pre) + [f.heat];
    SumAppend(Areas(pre), [f.area]);
    SumAppend(Heats(pre), [f.heat]);
    SumSingle(f.area);
    SumSingle(f.heat);
    AllOriginalIdsAppend(pre, f);
  }

  /** The state after folding every fire of `fires`, in order: every merge removes
      one record. */
  function MergeAll(fires: seq<Fire>, newId: nat -> string): (st: MergeState)
    ensures |st.records| + st.merges == |fires|
    ensures |fires| > 0 ==> |st.records| > 0
    decreases |fires|
  {
    if |fires| == 0 then MergeState([], 0)
    else
      var st := MergeAll(fires[..|fires| - 1], newId);
      StepCounts(st, fires[|fires| - 1], newId);
      Step(st, fires[|fires| - 1], newId)
  }

  lemma MergeAllSnoc(pre: seq<Fire>, f: Fire, newId: nat -> string)
    ensures MergeAll(pre + [f], newId) == Step(MergeAll(pre, newId), f, newId)
  {
    assert (pre + [f])[..|pre|] == pre;
  }

  /** Folding conserves area, heat and original ids. */
  lemma {:induction false} MergeAllConserves(fires: seq<Fire>, newId: nat -> string)
    ensures Sum(Areas(MergeAll(fires, newId).records)) == Sum(Areas(fires))
    ensures Sum(Heats(MergeAll(fires, newId).records)) == Sum(Heats(fires))
    ensures AllOriginalIds(MergeAll(fires, newId).records) == AllOriginalIds(fires)
  {
    if |fires| > 0 {
      var pre := fires[..|fires| - 1];
      var f := fires[|fires| - 1];
      MergeAllConserves(pre, newId);
      assert pre + [f] == fires;
      MergeAllSnoc(pre, f, newId);
      InputsAppend(pre, f);
      var st := MergeAll(pre, newId);
      if FirstMergeable(st.records, f).None? {
        StepConservesAppend(st, f, newId);
      } else {
        StepConservesMerge(st, f, newId);
      }
    }
  }

  /** FireMerger.merge. */
  function Merge(fires: seq<Fire>, newId: nat -> string): (r: seq<Fire>)
    ensures |r| <= |fires|
    ensures |fires| > 0 ==> |r| > 0
    ensures Sum(Areas(r)) == Sum(Areas(fires))
    ensures Sum(Heats(r)) == Sum(Heats(fires))
    ensures AllOriginalIds(r) == AllOriginalIds(fires)
  {
    MergeAllConserves(fires, newId);
    MergeAll(fires, newId).records
  }

  /** No two fires of the list can be folded together. */
  predicate PairwiseUnmergeable(fires: seq<Fire>)
  {
    forall i, j :: 0 <= i < j < |fires| ==> !Mergeable(fires[i], fires[j])
  }

  /** Inputs none of which can be folded into an earlier one come back as they
      were, in the same order, and no fresh id is drawn. */
  lemma {:induction false} MergeAllPassThrough(fires: seq<Fire>, newId: nat -> string)
    requires PairwiseUnmergeable(fires)
    ensures MergeAll(fires, newId) == MergeState(fires, 0)
  {
    if |fires| > 0 {
      var pre := fires[..|fires| - 1];
      var f := fires[|fires| - 1];
      assert PairwiseUnmergeable(pre) by {
        forall i, j | 0 <= i < j < |pre|
          ensures !Mergeable(pre[i], pre[j])
        {
          assert pre[i] == fires[i] && pre[j] == fires[j];
        }
      }
      MergeAllPassThrough(pre, newId);
      assert pre + [f] == fires;
      MergeAllSnoc(pre, f, newId);
      assert forall j :: 0 <= j < |pre| ==> !Mergeable(pre[j], f) by {
        forall j | 0 <= j < |pre|
          ensures !Mergeable(pre[j], f)
        {
          assert pre[j] == fires[j];
        }
      }
      assert FirstMergeable(pre, f).None?;
    }
  }

  lemma MergePassThrough(fires: seq<Fire>, newId: nat -> string)
    requires PairwiseUnmergeable(fires)
    ensures Merge(fires, newId) == fires
  {
    MergeAllPassThrough(fires, newId);
  }

  lemma MergeSingle(f: Fire, newId: nat -> string)
    ensures Merge([f], newId) == [f]
  {
    MergePassThrough([f], newId);
  }

  /** A step keeps or creates records: each record after it is the folded fire,
      a record from before, or the record just merged under the next fresh id. */
  lemma StepRecordOrigin(st: MergeState, f: Fire, newId: nat -> string, r: Fire)
    requires r in Step(st, f, newId).records
    ensures r == f || r in st.records || r.id == newId(st.merges)
  {
    match FirstMergeable(st.records, f)
    case None =>
    case Some(i) =>
      var rs := st.records[i := MergeTwo(st.records[i], f, newId(st.merges))];
      var j :| 0 <= j < |rs| && rs[j] == r;
      if j != i {
        assert r == st.records[j];
      }
  }

  /** Every output record is either an input record untouched or carries a fresh
      id drawn for one of the merges. */
  lemma {:induction false} MergeAllRecordOrigin(fires: seq<Fire>, newId: nat -> string, r: Fire)
    requires r in MergeAll(fires, newId).records
    ensures r in fires || exists k :: 0 <= k < MergeAll(fires, newId).merges && r.id == newId(k)
  {
    var pre := fires[..|fires| - 1];
    var f := fires[|fires| - 1];
    var st := MergeAll(pre, newId);
    assert pre + [f] == fires;
    MergeAllSnoc(pre, f, newId);
    var st' := Step(st, f, newId);
    assert st' == MergeAll(fires, newId);
    StepRecordOrigin(st, f, newId, r);
    assert st'.merges >= st.merges by {
      StepCounts(st, f, newId);
    }
    if r == f {
    } else if r in st.records {
      MergeAllRecordOrigin(pre, newId, r);
      if r in pre {
        assert r in fires;
      } else {
        var k :| 0 <= k < st.merges && r.id == newId(k);
        assert 0 <= k < st'.merges;
      }
    } else {
      assert st'.merges == st.merges + 1;
    }
  }

  /** If every input keeps its hourly data inside its own window, so does every
      output record: hourly maps are only ever joined across disjoint hours. */
  lemma {:induction false} MergeAllKeepsHoursWithinWindow(fires: seq<Fire>, newId: nat -> string)
    requires forall i :: 0 <= i < |fires| ==> HoursWithinWindow(fires[i])
    ensures forall i :: 0 <= i < |MergeAll(fires, newId).records| ==> HoursWithinWindow(MergeAll(fires, newId).records[i])
  {
    if |fires| > 0 {
      var pre := fires[..|fires| - 1];
      var f := fires[|fires| - 1];
      MergeAllKeepsHoursWithinWindow(pre, newId);
      var st := MergeAll(pre, newId);
      match FirstMergeable(st.records, f)
      case None =>
      case Some(i) =>
        MergeTwoWithinWindow(st.records[i], f, newId(st.merges));
    }
  }

  /** `y` is `x` possibly widened: same place, a window containing x's, and every
      meta entry of x kept. Widening can only destroy compatibility. */
  predicate Widens(y: Fire, x: Fire)
  {
    && y.latitude == x.latitude
    && y.longitude == x.longitude
    && y.start <= x.start
    && x.end <= y.end
    && forall k :: k in x.meta ==> k in y.meta && y.meta[k] == x.meta[k]
  }

  lemma WidenedStaysUnmergeable(x: Fire, y: Fire, z: Fire)
    requires Widens(y, x)
    ensures !Mergeable(x, z) ==> !Mergeable(y, z)
    ensures !Mergeable(z, x) ==> !Mergeable(z, y)
  {
  }

  lemma MergeTwoWidens(a: Fire, b: Fire, id: string)
    requires Mergeable(a, b)
    ensures Widens(MergeTwo(a, b, id), a)
  {
  }

  lemma StepKeepsUnmergeable(st: MergeState, f: Fire, newId: nat -> string)
    requires PairwiseUnmergeable(st.records)
    ensures PairwiseUnmergeable(Step(st, f, newId).records)
  {
    match FirstMergeable(st.records, f)
    case None =>
      var rs := st.records + [f];
      forall i, j | 0 <= i < j < |rs|
        ensures !Mergeable(rs[i], rs[j])
      {
        if j < |st.records| {
          assert rs[i] == st.records[i] && rs[j] == st.records[j];
        }
      }
    case Some(n) =>
      var m := MergeTwo(st.records[n], f, newId(st.merges));
      var rs := st.records[n := m];
      MergeTwoWidens(st.records[n], f, newId(st.merges));
      forall i, j | 0 <= i < j < |rs|
        ensures !Mergeable(rs[i], rs[j])
      {
        if i == n {
          WidenedStaysUnmergeable(st.records[n], m, rs[j]);
        } else if j == n {
          WidenedStaysUnmergeable(st.records[n], m, rs[i]);
        }
      }
  }

  /** The result is fully merged: no output record can be folded into another.
      Since records only ever widen, one pass suffices. */
  lemma {:induction false} MergeAllFullyMerged(fires: seq<Fire>, newId: nat -> string)
    ensures PairwiseUnmergeable(MergeAll(fires, newId).records)
  {
    if |fires| > 0 {
      var pre := fires[..|fires| - 1];
      MergeAllFullyMerged(pre, newId);
      StepKeepsUnmergeable(MergeAll(pre, newId), fires[|fires| - 1], newId);
    }
  }

  lemma MergeFullyMerged(fires: seq<Fire>, newId: nat -> string)
    ensures PairwiseUnmergeable(Merge(fires, newId))
  {
    MergeAllFullyMerged(fires, newId);
  }
}

=== FILE: firemerge_fixture.dfy ===
/** The six-fire scenario of the FireMerger tests, hours counted from midnight of
    the fixture's day: each fire in turn lands in the earliest compatible record. */
module FireMergeFixture {
  import opened Common
  import opened Fires
  import opened FireMerge

  const PlumeHour := PlumeProfile(
    [0.01, 0.05, 0.05, 0.05, 0.05, 0.05, 0.09, 0.09, 0.09, 0.05,
     0.05, 0.05, 0.05, 0.05, 0.05, 0.05, 0.05, 0.05, 0.01, 0.01],
    [141.438826, 200.84066925000002, 260.2425125, 319.64435575, 379.046199, 438.44804225,
     497.84988549999997, 557.25172875, 616.6535719999999, 676.0554152499999, 735.4572585000001,
     794.85910175, 854.260945, 913.66278825, 973.0646314999999, 1032.46647475, 1091.868318,
     1151.27016125, 1210.6720045, 1270.0738477500001, 1329.475691],
    0.05)

  const EmptyPlumeHour := PlumeProfile(
    [0.05, 0.05, 0.05, 0.05, 0.05, 0.05, 0.05, 0.05, 0.05, 0.05,
     0.05, 0.05, 0.05, 0.05, 0.05, 0.05, 0.05, 0.05, 0.05, 0.05],
    [0.0, 0.0, 0.0, 0.0, 0.0, 0.0, 0.0, 0.0, 0.0, 0.0, 0.0,
     0.0, 0.0, 0.0, 0.0, 0.0, 0.0, 0.0, 0.0, 0.0, 0.0],
    0.0)

  const Consumption: map<string, real> := map[
    "flaming" := 1311.2071801109494, "residual" := 1449.3962581338644,
    "smoldering" := 1267.0712004277434, "total" := 4027.6746386725567]

  const FireId := "SF11C14225236095807750-0"
  const OriginalId := "SF11C14225236095807750"

  /** A fire burning hours [s, s+2) with plume rise in its first hour only. */
  function TwoHourFire(meta: map<string, string>, s: int, area: real, hourArea: real, pm: real,
                       lat: real, lng: real, heat: real): Fire
  {
    Fire(FireId, {OriginalId}, meta, s, s + 2, area, lat, lng, -7.0,
      map[s := PlumeHour, s + 1 := EmptyPlumeHour],
      map[s := hourArea, s + 1 := 0.0],
      map[s := map["CO" := 0.0, "PM2.5" := pm], s + 1 := map["CO" := 0.0, "PM2.5" := 0.0]],
      Consumption, heat)
  }

  const Fire1 := TwoHourFire(map["foo" := "bar"], 17, 120.0, 12.0, 4.0, 47.41, -121.41, 1000000.0)
  const Overlapping := TwoHourFire(map["foo" := "bar"], 18, 120.0, 12.0, 4.0, 47.41, -121.41, 2000000.0)
  const Contiguous := TwoHourFire(map["foo" := "bar", "bar" := "asdasd"], 19, 100.0, 10.0, 5.0, 47.41, -121.41, 3000000.0)
  const NonContiguous := TwoHourFire(map["foo" := "bar", "bar" := "sdf"], 20, 120.0, 12.0, 4.0, 47.41, -121.41, 4000000.0)
  const ConflictingMeta := TwoHourFire(map["foo" := "baz"], 20, 120.0, 12.0, 4.0, 47.41, -121.41, 5000000.0)
  const DifferentLatLng := TwoHourFire(map[], 20, 120.0, 12.0, 4.0, 47.0, -121.0, 6000000.0)

  const DoubledConsumption: map<string, real> := map k | k in Consumption :: 2.0 * Consumption[k]

  /** The record expected from folding a fire starting at `s2` into one starting at `s1`. */
  function Joined(meta: map<string, string>, s1: int, s2: int, area: real, area1: real, area2: real,
                  pm1: real, pm2: real, heat: real): Fire
  {
    Fire("1234abcd", {OriginalId}, meta, s1, s2 + 2, area, 47.41, -121.41, -7.0,
      map[s1 := PlumeHour, s1 + 1 := EmptyPlumeHour, s2 := PlumeHour, s2 + 1 := EmptyPlumeHour],
      map[s1 := area1, s1 + 1 := 0.0, s2 := area2, s2 + 1 := 0.0],
      map[s1 := map["CO" := 0.0, "PM2.5" := pm1], s1 + 1 := map["CO" := 0.0, "PM2.5" := 0.0],
          s2 := map["CO" := 0.0, "PM2.5" := pm2], s2 + 1 := map["CO" := 0.0, "PM2.5" := 0.0]],
      DoubledConsumption, heat)
  }

  const Uuid := (k: nat) => "1234abcd"

  lemma ConsumptionDoubles()
    ensures AddByKey(Consumption, Consumption) == DoubledConsumption
  {
  }

  lemma JoinHours<V>(s1: int, s2: int, p: V, e: V, q: V, f: V)
    requires s1 + 2 <= s2
    ensures map[s1 := p, s1 + 1 := e] + map[s2 := q, s2 + 1 := f] == map[s1 := p, s1 + 1 := e, s2 := q, s2 + 1 := f]
  {
  }

  lemma TwoHourFiresJoin(meta: map<string, string>, s1: int, s2: int, area1: real, area2: real,
                         a1: real, a2: real, pm1: real, pm2: real, h1: real, h2: real,
                         m1: map<string, string>, m2: map<string, string>)
    requires s1 + 2 <= s2 && meta == m1 + m2
    ensures MergeTwo(TwoHourFire(m1, s1, area1, a1, pm1, 47.41, -121.41, h1),
                     TwoHourFire(m2, s2, area2, a2, pm2, 47.41, -121.41, h2), "1234abcd")
         == Joined(meta, s1, s2, area1 + area2, a1, a2, pm1, pm2, h1 + h2)
  {
    ConsumptionDoubles();
    JoinHours(s1, s2, PlumeHour, EmptyPlumeHour, PlumeHour, EmptyPlumeHour);
    JoinHours(s1, s2, a1, 0.0, a2, 0.0);
    JoinHours(s1, s2, map["CO" := 0.0, "PM2.5" := pm1], map["CO" := 0.0, "PM2.5" := 0.0],
                      map["CO" := 0.0, "PM2.5" := pm2], map["CO" := 0.0, "PM2.5" := 0.0]);
  }

  const Joined1 := Joined(map["foo" := "bar", "bar" := "asdasd"], 17, 19, 220.0, 12.0, 10.0, 4.0, 5.0, 4000000.0)
  const Joined2 := Joined(map["foo" := "bar", "bar" := "sdf"], 18, 20, 240.0, 12.0, 12.0, 4.0, 4.0, 6000000.0)

  lemma FirstJoin()
    ensures MergeTwo(Fire1, Contiguous, "1234abcd") == Joined1
  {
    TwoHourFiresJoin(Joined1.meta, 17, 19, 120.0, 100.0, 12.0, 10.0, 4.0, 5.0, 1000000.0, 3000000.0,
      map["foo" := "bar"], map["foo" := "bar", "bar" := "asdasd"]);
  }

  lemma SecondJoin()
    ensures MergeTwo(Overlapping, NonContiguous, "1234abcd") == Joined2
  {
    TwoHourFiresJoin(Joined2.meta, 18, 20, 120.0, 120.0, 12.0, 12.0, 4.0, 4.0, 2000000.0, 4000000.0,
      map["foo" := "bar"], map["foo" := "bar", "bar" := "sdf"]);
  }

  lemma OverlappingStaysApart()
    ensures FirstMergeable([Fire1], Overlapping) == None
  {
    assert !Mergeable(Fire1, Overlapping);
  }

  lemma ContiguousJoinsFire1()
    ensures FirstMergeable([Fire1, Overlapping], Contiguous) == Some(0)
  {
    assert Mergeable(Fire1, Contiguous);
  }

  lemma NonContiguousJoinsOverlapping()
    ensures FirstMergeable([Joined1, Overlapping], NonContiguous) == Some(1)
  {
    assert FirstMergeableFrom([Joined1, Overlapping], NonContiguous, 1) == Some(1);
    assert Joined1.meta["bar"] != NonContiguous.meta["bar"];
    assert !Mergeable(Joined1, NonContiguous);
    assert Mergeable(Overlapping, NonContiguous);
  }

  lemma ConflictingMetaStaysApart()
    ensures FirstMergeable([Joined1, Joined2], ConflictingMeta) == None
  {
    assert Joined1.meta["foo"] != ConflictingMeta.meta["foo"];
    assert Joined2.meta["foo"] != ConflictingMeta.meta["foo"];
    assert !Mergeable(Joined1, ConflictingMeta) && !Mergeable(Joined2, ConflictingMeta);
  }

  lemma DifferentLatLngStaysApart()
    ensures FirstMergeable([Joined1, Joined2, ConflictingMeta], DifferentLatLng) == None
  {
    assert !Mergeable(Joined1, DifferentLatLng) && !Mergeable(Joined2, DifferentLatLng);
    assert !Mergeable(ConflictingMeta, DifferentLatLng);
  }

  lemma Snoc<T>(s: seq<T>, x: T, t: seq<T>)
    requires |t| == |s| + 1 && t[..|s|] == s && t[|s|] == x
    ensures s + [x] == t
  {
    assert t == t[..|s|] + [t[|s|]];
  }

  /** Folding a single fire keeps it. */
  lemma MergeOne(f: Fire, newId: nat -> string)
    ensures MergeAll([f], newId) == MergeState([f], 0)
  {
    MergeAllSnoc([], f, newId);
    assert [] + [f] == [f];
  }

  /** A fire that fits no record so far is appended. */
  lemma AppendStep(pre: seq<Fire>, f: Fire, fires: seq<Fire>, newId: nat -> string, st: MergeState)
    requires MergeAll(pre, newId) == st && FirstMergeable(st.records, f) == None && fires == pre + [f]
    ensures MergeAll(fires, newId) == MergeState(st.records + [f], st.merges)
  {
    MergeAllSnoc(pre, f, newId);
  }

  /** A fire that fits record `i` is folded into it under the next fresh id. */
  lemma FoldStep(pre: seq<Fire>, f: Fire, fires: seq<Fire>, newId: nat -> string, st: MergeState, i: nat, m: Fire)
    requires MergeAll(pre, newId) == st && FirstMergeable(st.records, f) == Some(i) && fires == pre + [f]
    requires MergeTwo(st.records[i], f, newId(st.merges)) == m
    ensures MergeAll(fires, newId) == MergeState(st.records[i := m], st.merges + 1)
  {
    MergeAllSnoc(pre, f, newId);
  }

  lemma Step2()
    ensures MergeAll([Fire1, Overlapping], Uuid) == MergeState([Fire1, Overlapping], 0)
  {
    MergeOne(Fire1, Uuid);
    OverlappingStaysApart();
    Snoc([Fire1], Overlapping, [Fire1, Overlapping]);
    AppendStep([Fire1], Overlapping, [Fire1, Overlapping], Uuid, MergeState([Fire1], 0));
  }

  lemma Step3()
    ensures MergeAll([Fire1, Overlapping, Contiguous], Uuid) == MergeState([Joined1, Overlapping], 1)
  {
    Step2();
    ContiguousJoinsFire1();
    FirstJoin();
    Snoc([Fire1, Overlapping], Contiguous, [Fire1, Overlapping, Contiguous]);
    FoldStep([Fire1, Overlapping], Contiguous, [Fire1, Overlapping, Contiguous], Uuid,
      MergeState([Fire1, Overlapping], 0), 0, Joined1);
    assert [Fire1, Overlapping][0 := Joined1] == [Joined1, Overlapping];
  }

  lemma Step4()
    ensures MergeAll([Fire1, Overlapping, Contiguous, NonContiguous], Uuid) == MergeState([Joined1, Joined2], 2)
  {
    Step3();
    NonContiguousJoinsOverlapping();
    SecondJoin();
    Snoc([Fire1, Overlapping, Contiguous], NonContiguous, [Fire1, Overlapping, Contiguous, NonContiguous]);
    FoldStep([Fire1, Overlapping, Contiguous], NonContiguous, [Fire1, Overlapping, Contiguous, NonContiguous], Uuid,
      MergeState([Joined1, Overlapping], 1), 1, Joined2);
    assert [Joined1, Overlapping][1 := Joined2] == [Joined1, Joined2];
  }

  lemma Step5()
    ensures MergeAll([Fire1, Overlapping, Contiguous, NonContiguous, ConflictingMeta], Uuid)
         == MergeState([Joined1, Joined2, ConflictingMeta], 2)
  {
    Step4();
    ConflictingMetaStaysApart();
    AppendFifth(Fire1, Overlapping, Contiguous, NonContiguous, ConflictingMeta, Joined1, Joined2);
  }

  lemma AppendFifth(f1: Fire, f2: Fire, f3: Fire, f4: Fire, f5: Fire, j1: Fire, j2: Fire)
    requires MergeAll([f1, f2, f3, f4], Uuid) == MergeState([j1, j2], 2)
    requires FirstMergeable([j1, j2], f5) == None
    ensures MergeAll([f1, f2, f3, f4, f5], Uuid) == MergeState([j1, j2, f5], 2)
  {
    Snoc([f1, f2, f3, f4], f5, [f1, f2, f3, f4, f5]);
    AppendStep([f1, f2, f3, f4], f5, [f1, f2, f3, f4, f5], Uuid, MergeState([j1, j2], 2));
    assert [j1, j2] + [f5] == [j1, j2, f5];
  }

  lemma AppendSixth(f1: Fire, f2: Fire, f3: Fire, f4: Fire, f5: Fire, f6: Fire, j1: Fire, j2: Fire)
    requires MergeAll([f1, f2, f3, f4, f5], Uuid) == MergeState([j1, j2, f5], 2)
    requires FirstMergeable([j1, j2, f5], f6) == None
    ensures MergeAll([f1, f2, f3, f4, f5, f6], Uuid) == MergeState([j1, j2, f5, f6], 2)
  {
    Snoc([f1, f2, f3, f4, f5], f6, [f1, f2, f3, f4, f5, f6]);
    AppendStep([f1, f2, f3, f4, f5], f6, [f1, f2, f3, f4, f5, f6], Uuid, MergeState([j1, j2, f5], 2));
    assert [j1, j2, f5] + [f6] == [j1, j2, f5, f6];
  }

  /** Six fires come back as four records: Fire1 with Contiguous, Overlapping with
      NonContiguous, then the conflicting-meta and displaced fires untouched. */
  lemma SixFires()
    ensures Merge([Fire1, Overlapping, Contiguous, NonContiguous, ConflictingMeta, DifferentLatLng], Uuid)
         == [Joined1, Joined2, ConflictingMeta, DifferentLatLng]
  {
    Step5();
    DifferentLatLngStaysApart();
    AppendSixth(Fire1, Overlapping, Contiguous, NonContiguous, ConflictingMeta, DifferentLatLng, Joined1, Joined2);
  }

  /** Pairs that must stay apart come back unchanged and in order. */
  lemma PairsThatStayApart()
    ensures Merge([Fire1, DifferentLatLng], Uuid) == [Fire1, DifferentLatLng]
    ensures Merge([Fire1, Overlapping], Uuid) == [Fire1, Overlapping]
    ensures Merge([Fire1, ConflictingMeta], Uuid) == [Fire1, ConflictingMeta]
  {
    Fire1Apart();
    StaysApart(Fire1, DifferentLatLng);
    StaysApart(Fire1, Overlapping);
    StaysApart(Fire1, ConflictingMeta);
  }

  /** Two records that cannot be folded come back as they are. */
  lemma StaysApart(a: Fire, b: Fire)
    requires !Mergeable(a, b) && !Mergeable(b, a)
    ensures Merge([a, b], Uuid) == [a, b]
  {
    MergePassThrough([a, b], Uuid);
  }

  lemma Fire1Apart()
    ensures !Mergeable(Fire1, DifferentLatLng) && !Mergeable(DifferentLatLng, Fire1)
    ensures !Mergeable(Fire1, Overlapping) && !Mergeable(Overlapping, Fire1)
    ensures !Mergeable(Fire1, ConflictingMeta) && !Mergeable(ConflictingMeta, Fire1)
  {
    assert Fire1.meta["foo"] != ConflictingMeta.meta["foo"];
  }

  /** Two records that can be folded come back as one. */
  lemma Joins(a: Fire, b: Fire, m: Fire)
    requires Mergeable(a, b) && MergeTwo(a, b, Uuid(0)) == m
    ensures Merge([a, b], Uuid) == [m]
  {
    MergeOne(a, Uuid);
    assert FirstMergeable([a], b) == Some(0);
    FoldStep([a], b, [a, b], Uuid, MergeState([a], 0), 0, m);
  }

  /** Windows that touch (ending and starting at 19:00) merge. */
  lemma ContiguousPairMerges()
    ensures Merge([Fire1, Contiguous], Uuid) == [Joined1]
  {
    assert Mergeable(Fire1, Contiguous);
    FirstJoin();
    Joins(Fire1, Contiguous, Joined1);
  }

  const JoinedApart := Joined(map["foo" := "bar", "bar" := "sdf"], 17, 20, 240.0, 12.0, 12.0, 4.0, 4.0, 5000000.0)

  /** Windows with a gap (ending 19:00, starting 20:00) merge. */
  lemma NonContiguousPairMerges()
    ensures Merge([Fire1, NonContiguous], Uuid) == [JoinedApart]
  {
    assert Mergeable(Fire1, NonContiguous);
    TwoHourFiresJoin(JoinedApart.meta, 17, 20, 120.0, 120.0, 12.0, 12.0, 4.0, 4.0,
      1000000.0, 4000000.0, map["foo" := "bar"], map["foo" := "bar", "bar" := "sdf"]);
    Joins(Fire1, NonContiguous, JoinedApart);
  }
}

=== FILE: fires.dfy ===
/** The fire record the merge engines read and build, and the key-wise map
    arithmetic they share. Timestamps are whole hours; quantities are reals. */
module Fires {
  import opened Common

  type Hour = int

  /** One hour of plume rise: fractions per height bin, the bin boundaries, and the
      share of mass emitted while smoldering. */
  datatype PlumeProfile = PlumeProfile(emissionFractions: seq<real>, heights: seq<real>, smolderFraction: real)

  datatype Fire = Fire(
    id: string,
    originalFireIds: set<string>,
    meta: map<string, string>,
    start: Hour,
    end: Hour,
    area: real,
    latitude: real,
    longitude: real,
    utcOffset: real,
    plumerise: map<Hour, PlumeProfile>,
    timeprofiledArea: map<Hour, real>,
    timeprofiledEmissions: map<Hour, map<string, real>>,
    consumption: map<string, real>,
    heat: real)

  /** The value under `k`, counting a missing key as zero. */
  function ValueOr0<K>(m: map<K, real>, k: K): real
  {
    if k in m then m[k] else 0.0
  }

  /** Key-wise sum of two maps over the union of their keys. */
  function AddByKey<K>(a: map<K, real>, b: map<K, real>): (r: map<K, real>)
    ensures r.Keys == a.Keys + b.Keys
    ensures forall k :: k in r ==> r[k] == ValueOr0(a, k) + ValueOr0(b, k)
  {
    map k | k in a.Keys + b.Keys :: ValueOr0(a, k) + ValueOr0(b, k)
  }

  /** Species-wise sum of two hour-keyed emission maps. */
  function AddEmissionsByKey<K>(a: map<K, map<string, real>>, b: map<K, map<string, real>>): (r: map<K, map<string, real>>)
    ensures r.Keys == a.Keys + b.Keys
    ensures forall k :: k in a && k !in b ==> r[k] == a[k]
    ensures forall k :: k in b && k !in a ==> r[k] == b[k]
    ensures forall k :: k in a && k in b ==> r[k] == AddByKey(a[k], b[k])
  {
    map k | k in a.Keys + b.Keys ::
      if k in a && k in b then AddByKey(a[k], b[k]) else if k in a then a[k] else b[k]
  }

  /** No key is present in both metas with different values. */
  predicate MetaAgree(a: map<string, string>, b: map<string, string>)
  {
    forall k :: k in a && k in b ==> a[k] == b[k]
  }

  /** All hour keys of a fire fall inside its own window [start, end). */
  predicate HoursWithinWindow(f: Fire)
  {
    && (forall h :: h in f.plumerise ==> f.start <= h < f.end)
    && (forall h :: h in f.timeprofiledArea ==> f.start <= h < f.end)
    && (forall h :: h in f.timeprofiledEmissions ==> f.start <= h < f.end)
  }

  function Areas(fs: seq<Fire>): (r: seq<real>)
    ensures |r| == |fs|
    ensures forall i :: 0 <= i < |fs| ==> r[i] == fs[i].area
  {
    seq(|fs|, i requires 0 <= i < |fs| => fs[i].area)
  }

  function Heats(fs: seq<Fire>): (r: seq<real>)
    ensures |r| == |fs|
    ensures forall i :: 0 <= i < |fs| ==> r[i] == fs[i].heat
  {
    seq(|fs|, i requires 0 <= i < |fs| => fs[i].heat)
  }

  /** The union of every record's `original_fire_ids`. */
  function AllOriginalIds(fs: seq<Fire>): set<string>
  {
    if |fs| == 0 then {} else AllOriginalIds(fs[..|fs| - 1]) + fs[|fs| - 1].originalFireIds
  }

  lemma {:induction false} AllOriginalIdsAppend(fs: seq<Fire>, f: Fire)
    ensures AllOriginalIds(fs + [f]) == AllOriginalIds(fs) + f.originalFireIds
  {
    assert (fs + [f])[..|fs|] == fs;
  }

  lemma {:induction false} AllOriginalIdsMember(fs: seq<Fire>, id: string)
    ensures id in AllOriginalIds(fs) <==> exists i :: 0 <= i < |fs| && id in fs[i].originalFireIds
  {
    if |fs| > 0 {
      var pre := fs[..|fs| - 1];
      AllOriginalIdsMember(pre, id);
      if id in AllOriginalIds(pre) {
        var i :| 0 <= i < |pre| && id in pre[i].originalFireIds;
        assert fs[i] == pre[i];
      }
      if exists i :: 0 <= i < |fs| && id in fs[i].originalFireIds {
        var i :| 0 <= i < |fs| && id in fs[i].originalFireIds;
        if i < |pre| {
          assert pre[i] == fs[i];
        }
      }
    }
  }

  /** Replacing a record by one that carries at least its ids (and `extra`) adds
      exactly `extra` to the union of ids. */
  lemma AllOriginalIdsUpdate(fs: seq<Fire>, i: nat, x: Fire, extra: set<string>)
    requires i < |fs|
    requires x.originalFireIds == fs[i].originalFireIds + extra
    ensures AllOriginalIds(fs[i := x]) == AllOriginalIds(fs) + extra
  {
    forall id
      ensures id in AllOriginalIds(fs[i := x]) <==> id in AllOriginalIds(fs) + extra
    {
      AllOriginalIdsMember(fs[i := x], id);
      AllOriginalIdsMember(fs, id);
      if id in extra {
        assert id in fs[i := x][i].originalFireIds;
      }
      if id in AllOriginalIds(fs) {
        var j :| 0 <= j < |fs| && id in fs[j].originalFireIds;
        assert id in fs[i := x][j].originalFireIds;
      }
    }
  }
}

=== FILE: fixkeys.dfy ===
/** Renaming of legacy emission species keys (`_fix_keys` in
    bluesky/modules/emissions.py): `PM25` becomes `PM2.5` and `NMOC` becomes
    `VOC`, in place, walking a snapshot of the keys and recursing into
    dictionaries held under every other key. */
module KeyFixing {
  import opened Common
  import opened EmissionTrees

  predicate IsLegacy(k: string)
  {
    k == "PM25" || k == "NMOC"
  }

  predicate IsRenamed(k: string)
  {
    k == "PM2.5" || k == "VOC"
  }

  function NewName(k: string): (n: string)
    requires IsLegacy(k)
    ensures IsRenamed(n)
  {
    if k == "PM25" then "PM2.5" else "VOC"
  }

  function OldName(k: string): (o: string)
    requires IsRenamed(k)
    ensures IsLegacy(o)
  {
    if k == "PM2.5" then "PM25" else "NMOC"
  }

  /** The two renamings are inverse to each other, and no name is both old and new. */
  lemma NamesInverse(k: string)
    ensures IsLegacy(k) ==> !IsRenamed(k) && OldName(NewName(k)) == k
    ensures IsRenamed(k) ==> !IsLegacy(k) && NewName(OldName(k)) == k
  {
    assert "PM25" != "PM2.5" && "PM25" != "VOC" && "NMOC" != "PM2.5" && "NMOC" != "VOC";
  }

  /** Every value of a dictionary is shallower than the dictionary. */
  lemma ChildDepths(d: Dict<string, Tree>)
    ensures forall e :: e in d ==> Depth(e.1) < Depth(Node(d))
  {
    forall e | e in d
      ensures Depth(e.1) < Depth(Node(d))
    {
      ChildDepth(d, e);
    }
  }

  predicate Below(d: Dict<string, Tree>, bound: nat)
  {
    forall e :: e in d ==> Depth(e.1) < bound
  }

  /** `_fix_keys` applied to a tree; a leaf is left as it is. */
  function FixKeys(t: Tree): (r: Tree)
    ensures Depth(r) <= Depth(t)
    ensures t.Leaf? ==> r == t
    ensures t.Node? ==> r.Node?
    decreases Depth(t), 1, 0
  {
    match t
    case Leaf(_) => t
    case Node(d) =>
      ChildDepths(d);
      var r := FixFrom(d, DictKeys(d), Depth(t));
      NodeDepthBelow(r, Depth(t));
      Node(r)
  }

  /** The loop over the key snapshot `keys`. */
  function FixFrom(d: Dict<string, Tree>, keys: seq<string>, bound: nat): (r: Dict<string, Tree>)
    requires Below(d, bound)
    ensures Below(r, bound)
    decreases bound, 0, |keys|
  {
    if |keys| == 0 then d
    else FixFrom(FixStep(d, keys[0], bound), keys[1..], bound)
  }

  /** One iteration: a legacy key is popped and its value stored under the new
      name (overwriting in place or appending); a dictionary under any other key
      is fixed recursively. */
  function FixStep(d: Dict<string, Tree>, k: string, bound: nat): (r: Dict<string, Tree>)
    requires Below(d, bound)
    ensures Below(r, bound)
    decreases bound, 0, 0
  {
    if IsLegacy(k) then
      match Pop(d, k)
      case None => d
      case Some(p) =>
        PopParts(d, k);
        StoreParts(p.1, NewName(k), p.0);
        Store(p.1, NewName(k), p.0)
    else
      var cur: Option<Tree> := Lookup(d, k);
      match cur
      case Some(Node(c)) =>
        LookupIn(d, k);
        var v := FixKeys(Node(c));
        StoreParts(d, k, v);
        Store(d, k, v)
      case _ => d
  }

  /** What the recursion makes of a value: dictionaries are fixed, anything else is kept. */
  function FixedValue(v: Option<Tree>): Option<Tree>
  {
    match v
    case Some(Node(c)) => Some(FixKeys(Node(c)))
    case _ => v
  }

  /** The key at position below `m` of the snapshot has been visited. */
  predicate Done(d0: Dict<string, Tree>, m: nat, x: string)
  {
    Find(d0, x).Some? && Find(d0, x).value < m
  }

  /** What key `x` holds after the first `m` keys of the snapshot of `d0` have
      been visited. A new name whose old name has been visited holds the moved
      value; it is fixed only if the new name itself was visited afterwards. */
  function Partial(d0: Dict<string, Tree>, m: nat, x: string): Option<Tree>
  {
    if IsLegacy(x) then
      if Done(d0, m, x) then None else Lookup(d0, x)
    else if IsRenamed(x) && Done(d0, m, OldName(x)) then
      if Done(d0, m, x) && Find(d0, OldName(x)).value < Find(d0, x).value
      then FixedValue(Lookup(d0, OldName(x)))
      else Lookup(d0, OldName(x))
    else if Done(d0, m, x) then FixedValue(Lookup(d0, x))
    else Lookup(d0, x)
  }

  /** What key `x` holds once `_fix_keys` has run over the whole of `d`. */
  function Renamed(d: Dict<string, Tree>, x: string): Option<Tree>
  {
    if IsLegacy(x) then None
    else if IsRenamed(x) && Find(d, OldName(x)).Some? then
      if Find(d, x).Some? && Find(d, OldName(x)).value < Find(d, x).value
      then FixedValue(Lookup(d, OldName(x)))
      else Lookup(d, OldName(x))
    else FixedValue(Lookup(d, x))
  }

  ghost predicate Agrees(d: Dict<string, Tree>, d0: Dict<string, Tree>, m: nat)
  {
    DistinctKeys(d) && forall x :: Lookup(d, x) == Partial(d0, m, x)
  }

  lemma DoneStep(d0: Dict<string, Tree>, m: nat, y: string)
    requires DistinctKeys(d0) && m < |d0|
    ensures Done(d0, m + 1, y) <==> Done(d0, m, y) || y == d0[m].0
  {
    FindDistinct(d0, m);
  }

  /** Visiting a legacy key moves its value to the new name. */
  lemma LegacyStep(d0: Dict<string, Tree>, m: nat, d: Dict<string, Tree>, bound: nat)
    requires DistinctKeys(d0) && m < |d0| && IsLegacy(d0[m].0)
    requires Agrees(d, d0, m) && Below(d, bound)
    ensures Agrees(FixStep(d, d0[m].0, bound), d0, m + 1)
  {
    var k := d0[m].0;
    FindDistinct(d0, m);
    assert Lookup(d, k) == Lookup(d0, k);
    LookupFind(d0, k);
    LookupPop(d, k, k);
    var p := Pop(d, k).value;
    PopDistinct(d, k);
    StoreDistinct(p.1, NewName(k), p.0);
    var r := FixStep(d, k, bound);
    assert r == Store(p.1, NewName(k), p.0);
    NamesInverse(k);
    forall x
      ensures Lookup(r, x) == Partial(d0, m + 1, x)
    {
      LookupStore(p.1, NewName(k), p.0, x);
      DoneStep(d0, m, x);
      if x != k && x != NewName(k) {
        LookupPop(d, k, x);
        if IsRenamed(x) {
          NamesInverse(x);
          DoneStep(d0, m, OldName(x));
        }
      } else if x == NewName(k) {
        NamesInverse(x);
        DoneStep(d0, m, OldName(x));
      }
    }
  }

  /** Visiting any other key fixes the dictionary it holds, if any. */
  lemma PlainStep(d0: Dict<string, Tree>, m: nat, d: Dict<string, Tree>, bound: nat)
    requires DistinctKeys(d0) && m < |d0| && !IsLegacy(d0[m].0)
    requires Agrees(d, d0, m) && Below(d, bound)
    ensures Agrees(FixStep(d, d0[m].0, bound), d0, m + 1)
  {
    var k := d0[m].0;
    FindDistinct(d0, m);
    var r := FixStep(d, k, bound);
    var cur: Option<Tree> := Lookup(d, k);
    match cur
    case Some(Node(c)) =>
      StoreDistinct(d, k, FixKeys(Node(c)));
      forall x
        ensures Lookup(r, x) == Partial(d0, m + 1, x)
      {
        LookupStore(d, k, FixKeys(Node(c)), x);
        DoneStep(d0, m, x);
        if IsRenamed(x) {
          NamesInverse(x);
          DoneStep(d0, m, OldName(x));
        }
      }
    case _ =>
      forall x
        ensures Lookup(r, x) == Partial(d0, m + 1, x)
      {
        DoneStep(d0, m, x);
        if IsRenamed(x) {
          NamesInverse(x);
          DoneStep(d0, m, OldName(x));
        }
      }
  }

  lemma {:induction false} FixFromAgrees(d0: Dict<string, Tree>, m: nat, d: Dict<string, Tree>, bound: nat)
    requires DistinctKeys(d0) && m <= |d0|
    requires Agrees(d, d0, m) && Below(d, bound)
    ensures Agrees(FixFrom(d, DictKeys(d0)[m..], bound), d0, |d0|)
    decreases |d0| - m
  {
    if m < |d0| {
      var keys := DictKeys(d0)[m..];
      if IsLegacy(d0[m].0) {
        LegacyStep(d0, m, d, bound);
      } else {
        PlainStep(d0, m, d, bound);
      }
      assert keys[1..] == DictKeys(d0)[m + 1..];
      FixFromAgrees(d0, m + 1, FixStep(d, keys[0], bound), bound);
    }
  }

  /** What `_fix_keys` does to a dictionary with distinct keys: legacy keys are
      gone; a new name holds the value of its old name when that was present
      (fixed only when the new name came later in the dictionary and so was
      visited after the move); every other key holds its own value, with
      dictionaries fixed recursively. No key occurs twice afterwards. */
  lemma FixKeysLookup(d: Dict<string, Tree>, x: string)
    requires DistinctKeys(d)
    ensures DistinctKeys(FixKeys(Node(d)).children)
    ensures Lookup(FixKeys(Node(d)).children, x) == Renamed(d, x)
  {
    ChildDepths(d);
    assert DictKeys(d)[0..] == DictKeys(d);
    forall y
      ensures Lookup(d, y) == Partial(d, 0, y)
    {
    }
    FixFromAgrees(d, 0, d, Depth(Node(d)));
    LookupFind(d, x);
    if IsRenamed(x) {
      LookupFind(d, OldName(x));
    }
  }

  /** No legacy key survives at the top level. */
  lemma FixKeysRemovesLegacy(d: Dict<string, Tree>, e: (string, Tree))
    requires DistinctKeys(d) && e in FixKeys(Node(d)).children
    ensures !IsLegacy(e.0)
  {
    FixKeysLookup(d, e.0);
    LookupNone(FixKeys(Node(d)).children, e.0);
  }

  /** Keys distinct in every dictionary of the tree, as Python guarantees. */
  predicate WellKeyed(t: Tree)
    decreases Depth(t)
  {
    match t
    case Leaf(_) => true
    case Node(d) =>
      DistinctKeys(d) && forall i :: 0 <= i < |d| ==> (ChildDepth(d, d[i]); WellKeyed(d[i].1))
  }

  /** No legacy key anywhere in the tree. */
  predicate NoLegacy(t: Tree)
    decreases Depth(t)
  {
    match t
    case Leaf(_) => true
    case Node(d) =>
      forall i :: 0 <= i < |d| ==> !IsLegacy(d[i].0) && (ChildDepth(d, d[i]); NoLegacy(d[i].1))
  }

  /** Every legacy key anywhere in the tree holds a leaf, not a dictionary. */
  predicate RenamedLeaves(t: Tree)
    decreases Depth(t)
  {
    match t
    case Leaf(_) => true
    case Node(d) =>
      forall i :: 0 <= i < |d| ==>
        (IsLegacy(d[i].0) ==> d[i].1.Leaf?) && (ChildDepth(d, d[i]); RenamedLeaves(d[i].1))
  }

  /** A value that a further pass leaves alone. */
  predicate Stable(v: Tree)
  {
    v.Node? ==> FixKeys(v) == v
  }

  /** With no legacy key to visit and only stable values, the loop changes nothing. */
  lemma {:induction false} FixFromStable(d: Dict<string, Tree>, keys: seq<string>, bound: nat)
    requires Below(d, bound)
    requires forall i :: 0 <= i < |keys| ==> !IsLegacy(keys[i])
    requires forall e :: e in d ==> Stable(e.1)
    ensures FixFrom(d, keys, bound) == d
    decreases |keys|
  {
    if |keys| > 0 {
      var k := keys[0];
      var cur: Option<Tree> := Lookup(d, k);
      if cur.Some? && cur.value.Node? {
        LookupIn(d, k);
        StoreSame(d, k);
      }
      assert FixStep(d, k, bound) == d;
      FixFromStable(d, keys[1..], bound);
    }
  }

  /** A tree without legacy keys is left exactly as it is. */
  lemma {:induction false} FixKeysIdentity(t: Tree)
    requires NoLegacy(t)
    ensures FixKeys(t) == t
    decreases Depth(t)
  {
    if t.Node? {
      var d := t.children;
      ChildDepths(d);
      forall e | e in d
        ensures Stable(e.1)
      {
        var i :| 0 <= i < |d| && d[i] == e;
        FixKeysIdentity(e.1);
      }
      FixFromStable(d, DictKeys(d), Depth(t));
    }
  }

  /** Fixing twice is fixing once, provided no legacy key holds a dictionary. */
  lemma {:induction false} FixKeysIdempotent(t: Tree)
    requires WellKeyed(t) && RenamedLeaves(t)
    ensures FixKeys(FixKeys(t)) == FixKeys(t)
    decreases Depth(t)
  {
    if t.Node? {
      var d := t.children;
      var r := FixKeys(t).children;
      FixKeysLookup(d, "");
      forall e | e in r
        ensures Stable(e.1)
      {
        LookupEntry(r, e);
        FixKeysLookup(d, e.0);
        StableRenamed(d, e.0);
      }
      forall i | 0 <= i < |r|
        ensures !IsLegacy(DictKeys(r)[i])
      {
        FixKeysRemovesLegacy(d, r[i]);
      }
      ChildDepths(r);
      FixFromStable(r, DictKeys(r), Depth(Node(r)));
    }
  }

  /** Whatever a key holds after one pass is stable under the next. */
  lemma {:induction false} StableRenamed(d: Dict<string, Tree>, x: string)
    requires WellKeyed(Node(d)) && RenamedLeaves(Node(d))
    requires Renamed(d, x).Some?
    ensures Stable(Renamed(d, x).value)
    decreases Depth(Node(d)), 0
  {
    if IsRenamed(x) && Lookup(d, OldName(x)).Some? {
      LookupIn(d, OldName(x));
      var i :| 0 <= i < |d| && d[i] == (OldName(x), Lookup(d, OldName(x)).value);
      assert d[i].1.Leaf?;
    } else {
      LookupIn(d, x);
      var i :| 0 <= i < |d| && d[i] == (x, Lookup(d, x).value);
      var v := d[i].1;
      if v.Node? {
        ChildDepth(d, d[i]);
        FixKeysIdempotent(v);
      }
    }
  }

  /** Without the proviso a second pass can still change the result: a legacy
      key holding a dictionary is moved without being visited, so its own
      legacy keys are renamed only by the next pass. */
  lemma SecondPassDiffers(inner: Dict<string, Tree>, t: Tree)
    requires inner == [("NMOC", Leaf(1.0))] && t == Node([("PM25", Node(inner))])
    ensures FixKeys(FixKeys(t)) != FixKeys(t)
  {
    var d := t.children;
    NamesInverse("PM25");
    FixKeysLookup(d, "PM2.5");
    FixKeysLookup(d, "PM25");
    var r := FixKeys(t).children;
    assert Lookup(r, "PM2.5") == Some(Node(inner));
    assert Lookup(r, "PM25").None?;
    LookupFind(r, "PM25");
    assert !IsLegacy("PM2.5") && OldName("PM2.5") == "PM25";
    assert Renamed(r, "PM2.5") == FixedValue(Lookup(r, "PM2.5"));
    FixKeysLookup(r, "PM2.5");
    var r2 := FixKeys(Node(r)).children;
    assert Lookup(r2, "PM2.5") == Some(FixKeys(Node(inner)));
    FixKeysLookup(inner, "NMOC");
    assert Lookup(FixKeys(Node(inner)).children, "NMOC").None?;
  }
}

=== FILE: hourkeys.dfy ===
/** Hour-keyed maps moved in time: the shift the persistence grower means to
    apply to every timeprofile, plume rise and hourly FRP map, and the in-place
    key rewriting it actually performs on an insertion-ordered dictionary. */
module HourKeys {
  import opened Common

  type Hour = int

  /** A set of hours with every hour moved by `t`. */
  function Shifted(s: set<Hour>, t: int): set<Hour>
  {
    set k | k in s :: k + t
  }

  lemma InShifted(s: set<Hour>, t: int, k: Hour)
    ensures k in Shifted(s, t) <==> k - t in s
  {
    if k in Shifted(s, t) {
      var j :| j in s && k == j + t;
    }
  }

  /** Every key of an hour-keyed map moved by `t`, each with its own value. */
  function ShiftKeys<V>(m: map<Hour, V>, t: int): (r: map<Hour, V>)
    ensures r.Keys == Shifted(m.Keys, t)
  {
    map k | k in Shifted(m.Keys, t) :: m[k - t]
  }

  /** An hour is a key of the shifted map exactly when it is `t` after a key
      of the original, and it holds that key's value. */
  lemma ShiftKeysAt<V>(m: map<Hour, V>, t: int, k: Hour)
    ensures k in ShiftKeys(m, t) <==> k - t in m
    ensures k in ShiftKeys(m, t) ==> ShiftKeys(m, t)[k] == m[k - t]
  {
    InShifted(m.Keys, t, k);
  }

  /** Shifting back undoes a shift. */
  lemma ShiftKeysRoundTrip<V>(m: map<Hour, V>, t: int)
    ensures ShiftKeys(ShiftKeys(m, t), -t) == m
  {
    var s := ShiftKeys(m, t);
    var r := ShiftKeys(s, -t);
    forall k
      ensures k in r <==> k in m
    {
      ShiftKeysAt(s, -t, k);
      ShiftKeysAt(m, t, k + t);
    }
    forall k | k in m
      ensures r[k] == m[k]
    {
      ShiftKeysAt(s, -t, k);
      ShiftKeysAt(m, t, k + t);
    }
    SameMaps(r, m);
  }

  /** `KeyError` from popping a key that is no longer there. */
  datatype KeyError = KeyError(key: Hour)

  /** The loop of `_add_time_diff_to_keys` over a snapshot of the keys: each key
      is popped and its value stored again under the key moved by `t`. */
  function AddTimeDiffFrom<V>(d: Dict<Hour, V>, keys: seq<Hour>, t: int): Result<Dict<Hour, V>, KeyError>
    decreases |keys|
  {
    if |keys| == 0 then Success(d)
    else match Pop(d, keys[0])
      case None => Failure(KeyError(keys[0]))
      case Some((v, rest)) => AddTimeDiffFrom(Store(rest, keys[0] + t, v), keys[1..], t)
  }

  function AddTimeDiffToKeys<V>(d: Dict<Hour, V>, t: int): Result<Dict<Hour, V>, KeyError>
  {
    AddTimeDiffFrom(d, DictKeys(d), t)
  }

  /** The dictionary a pair list stands for. */
  function ToMap<V>(d: Dict<Hour, V>): map<Hour, V>
  {
    if |d| == 0 then map[] else ToMap(d[..|d| - 1])[d[|d| - 1].0 := d[|d| - 1].1]
  }

  /** Two keys `t` apart, shifted by `t`: the first value overwrites the second
      before the second is moved, so one entry is lost, whereas moving every key
      keeps both. */
  lemma KeyCollisionLosesValue<V>(k: Hour, t: int, a: V, b: V)
    requires t != 0
    ensures AddTimeDiffToKeys([(k, a), (k + t, b)], t) == Success([(k + 2 * t, a)])
    ensures ShiftKeys(ToMap([(k, a), (k + t, b)]), t) == map[k + t := a, k + 2 * t := b]
  {
    var d := [(k, a), (k + t, b)];
    assert DictKeys(d) == [k, k + t];
    PopFront(d);
    assert d[1..] == [(k + t, b)];
    assert Find([(k + t, b)], k + t) == Some(0);
    assert Store([(k + t, b)], k + t, a) == [(k + t, a)];
    assert [k, k + t][1..] == [k + t];
    CollisionSecondMove(k, t, a);
    CollisionMap(k, t, a, b);
  }

  /** The second key, now holding the first value, moves on by `t`. */
  lemma CollisionSecondMove<V>(k: Hour, t: int, a: V)
    ensures AddTimeDiffFrom([(k + t, a)], [k + t], t) == Success([(k + 2 * t, a)])
  {
    PopFront([(k + t, a)]);
    assert [(k + t, a)][1..] == [];
    StoreAbsent([], k + t + t, a);
    assert Store([], k + t + t, a) == [(k + 2 * t, a)];
    assert [k + t][1..] == [];
  }

  lemma CollisionMap<V>(k: Hour, t: int, a: V, b: V)
    requires t != 0
    ensures ShiftKeys(ToMap([(k, a), (k + t, b)]), t) == map[k + t := a, k + 2 * t := b]
  {
    var d := [(k, a), (k + t, b)];
    assert ToMap([(k, a)]) == map[k := a] by {
      assert [(k, a)][..0] == [];
    }
    assert d[..1] == [(k, a)];
    assert ToMap(d) == map[k := a, k + t := b];
    var m := ShiftKeys(ToMap(d), t);
    var e := map[k + t := a, k + 2 * t := b];
    forall j
      ensures j in m <==> j in e
    {
      ShiftKeysAt(ToMap(d), t, j);
    }
    forall j | j in e
      ensures m[j] == e[j]
    {
      ShiftKeysAt(ToMap(d), t, j);
    }
    SameMaps(m, e);
  }

  /** Popping the first key takes the first entry off. */
  lemma PopFront<V>(d: Dict<Hour, V>)
    requires |d| > 0
    ensures Pop(d, d[0].0) == Some((d[0].1, d[1..]))
  {
    assert d[..0] + d[1..] == d[1..];
  }

  /** Storing an absent key appends it. */
  lemma StoreAbsent<V>(d: Dict<Hour, V>, k: Hour, v: V)
    requires forall x :: x in d ==> x.0 != k
    ensures Store(d, k, v) == d + [(k, v)]
  {
  }

  /** No key moved by `t` lands on another key of the dictionary. */
  predicate NoCollision<V>(d: Dict<Hour, V>, t: int)
  {
    forall i, j :: 0 <= i < |d| && 0 <= j < |d| ==> d[i].0 + t != d[j].0
  }

  /** Every pair with its key moved by `t`, order kept. */
  function ShiftPairs<V>(d: Dict<Hour, V>, t: int): (r: Dict<Hour, V>)
    ensures |r| == |d| && forall i :: 0 <= i < |d| ==> r[i] == (d[i].0 + t, d[i].1)
  {
    seq(|d|, i requires 0 <= i < |d| => (d[i].0 + t, d[i].1))
  }

  lemma ShiftPairsSnoc<V>(d: Dict<Hour, V>, t: int, i: nat)
    requires i < |d|
    ensures ShiftPairs(d[..i + 1], t) == ShiftPairs(d[..i], t) + [(d[i].0 + t, d[i].1)]
  {
  }

  /** After `i` steps the untouched entries come first, then the moved ones. */
  lemma {:induction false} AddTimeDiffStep<V>(d: Dict<Hour, V>, t: int, i: nat)
    requires DistinctKeys(d) && NoCollision(d, t) && i <= |d|
    ensures AddTimeDiffFrom(d[i..] + ShiftPairs(d[..i], t), DictKeys(d)[i..], t) == Success(ShiftPairs(d, t))
    decreases |d| - i
  {
    if i == |d| {
      assert d[..i] == d;
      assert d[i..] + ShiftPairs(d[..i], t) == ShiftPairs(d, t);
    } else {
      NothingAtShiftedKey(d, t, i);
      OneTurn(d, t, i);
      AddTimeDiffStep(d, t, i + 1);
    }
  }

  /** The turn for the entry at `i` moves it from the front of the loop
      state to its back. */
  lemma OneTurn<V>(d: Dict<Hour, V>, t: int, i: nat)
    requires i < |d|
    requires forall x :: x in d[i + 1..] + ShiftPairs(d[..i], t) ==> x.0 != d[i].0 + t
    ensures AddTimeDiffFrom(d[i..] + ShiftPairs(d[..i], t), DictKeys(d)[i..], t)
         == AddTimeDiffFrom(d[i + 1..] + ShiftPairs(d[..i + 1], t), DictKeys(d)[i + 1..], t)
  {
    var state := d[i..] + ShiftPairs(d[..i], t);
    var k := d[i].0;
    var keys := DictKeys(d)[i..];
    assert keys[0] == k && keys[1..] == DictKeys(d)[i + 1..];
    var rest := d[i + 1..] + ShiftPairs(d[..i], t);
    StateShape(d, t, i);
    PopFront(state);
    StoreAbsent(rest, k + t, d[i].1);
    MoveFirstKey(state, keys, t, d[i].1, rest, d[i + 1..] + ShiftPairs(d[..i + 1], t), DictKeys(d)[i + 1..]);
  }

  /** One turn of the loop: the first key's value is popped and stored under
      the moved key. */
  lemma MoveFirstKey<V>(d: Dict<Hour, V>, keys: seq<Hour>, t: int, v: V, rest: Dict<Hour, V>, next: Dict<Hour, V>, keys': seq<Hour>)
    requires |keys| > 0 && Pop(d, keys[0]) == Some((v, rest))
    requires Store(rest, keys[0] + t, v) == next && keys[1..] == keys'
    ensures AddTimeDiffFrom(d, keys, t) == AddTimeDiffFrom(next, keys', t)
  {
  }

  /** The loop state after `i` steps, with its front entry taken off and
      stored again at the back under its moved key, is the state after `i + 1`. */
  lemma StateShape<V>(d: Dict<Hour, V>, t: int, i: nat)
    requires i < |d|
    ensures (d[i..] + ShiftPairs(d[..i], t))[0] == d[i]
    ensures (d[i..] + ShiftPairs(d[..i], t))[1..] == d[i + 1..] + ShiftPairs(d[..i], t)
    ensures d[i + 1..] + ShiftPairs(d[..i], t) + [(d[i].0 + t, d[i].1)] == d[i + 1..] + ShiftPairs(d[..i + 1], t)
  {
    ShiftPairsSnoc(d, t, i);
  }

  lemma NothingAtShiftedKey<V>(d: Dict<Hour, V>, t: int, i: nat)
    requires DistinctKeys(d) && NoCollision(d, t) && i < |d|
    ensures forall x :: x in d[i + 1..] + ShiftPairs(d[..i], t) ==> x.0 != d[i].0 + t
  {
    var rest := d[i + 1..] + ShiftPairs(d[..i], t);
    forall x | x in rest
      ensures x.0 != d[i].0 + t
    {
      var j :| 0 <= j < |rest| && rest[j] == x;
      if j < |d| - i - 1 {
        assert rest[j] == d[i + 1 + j];
      } else {
        var m := j - (|d| - i - 1);
        assert rest[j] == (d[m].0 + t, d[m].1);
      }
    }
  }

  /** Without collisions the in-place loop moves every key and keeps every value. */
  lemma AddTimeDiffWithoutCollision<V>(d: Dict<Hour, V>, t: int)
    requires DistinctKeys(d) && NoCollision(d, t)
    ensures AddTimeDiffToKeys(d, t) == Success(ShiftPairs(d, t))
  {
    AddTimeDiffStep(d, t, 0);
    assert d[0..] + ShiftPairs(d[..0], t) == d;
    assert DictKeys(d)[0..] == DictKeys(d);
  }
}

=== FILE: persistence.dfy ===
/** The persistence grower: a wildfire's activity on the day to persist is
    copied forward over the following days, each copy shifted by whole days
    and scaled by that day's percentage. Times are whole local hours; the
    date of an hour is `hour / 24`. */
module Persistence {
  import opened Common
  import opened HourKeys

  type Day = int

  const HoursPerDay: int := 24

  /** The calendar day an hour falls on (floor division, as taking the date of a datetime). */
  function DayOf(h: Hour): Day
  {
    h / HoursPerDay
  }

  // ---------------------------------------------------------------------
  // Configuration
  // ---------------------------------------------------------------------

  /** The `daily_percentages` entry as written in a configuration set: a list,
      or some other value, which only matters for being truthy or not. */
  datatype Percentages = PercentList(values: seq<real>) | NotAList(truthy: bool)

  /** One configuration set, with its days already parsed to day numbers of the
      year being persisted. */
  datatype ConfigSet = ConfigSet(
    dateToPersist: Option<Day>,
    startDay: Option<Day>,
    endDay: Option<Day>,
    daysToPersist: Option<int>,
    dailyPercentages: Option<Percentages>,
    truncate: bool)

  /** The `persistence` configuration value: absent, one set, a list of sets, or anything else. */
  datatype PersistenceConfig = Unspecified | Single(entry: ConfigSet) | Many(entries: seq<ConfigSet>) | OtherValue

  datatype ConfigError =
    | NotSpecified
    | InvalidConfig
    | EmptyConfigList
    | BothDaysAndPercentages
    | InvalidDailyPercentages
    | DaysNotPositive

  /** The grower's settings; no date to persist means `grow` does nothing. */
  datatype Settings = Settings(dateToPersist: Option<Day>, daysToPersist: int, dailyPercentages: seq<real>, truncate: bool)

  const Defaults: Settings := Settings(None, 1, [100.0], false)

  /** Every setting the grower can hold gives one percentage per day persisted. */
  predicate Consistent(s: Settings)
  {
    s.daysToPersist == |s.dailyPercentages| >= 1
  }

  /** A set's own date to persist, or today's date. */
  function EffectiveDate(c: ConfigSet, today: Day): Day
  {
    if c.dateToPersist.Some? then c.dateToPersist.value else today
  }

  /** The set applies when its effective date lies within its optional start and end days. */
  predicate Matches(c: ConfigSet, today: Day)
  {
    var d := EffectiveDate(c, today);
    (c.startDay.None? || c.startDay.value <= d) && (c.endDay.None? || d <= c.endDay.value)
  }

  predicate Truthy(p: Percentages)
  {
    match p
    case PercentList(vs) => |vs| > 0
    case NotAList(t) => t
  }

  /** The settings a matching configuration set yields, or the error it raises. */
  function SettingsOf(c: ConfigSet, today: Day): (r: Result<Settings, ConfigError>)
    ensures r == Failure(BothDaysAndPercentages) <==> c.daysToPersist.Some? && c.dailyPercentages.Some?
    ensures r == Failure(InvalidDailyPercentages) <==>
      c.daysToPersist.None? && c.dailyPercentages.Some? && c.dailyPercentages.value.NotAList? && c.dailyPercentages.value.truthy
    ensures r == Failure(DaysNotPositive) <==> c.dailyPercentages.None? && c.daysToPersist.Some? && c.daysToPersist.value <= 0
    ensures r.Failure? ==> r.error.BothDaysAndPercentages? || r.error.InvalidDailyPercentages? || r.error.DaysNotPositive?
    ensures r.Success? ==> Consistent(r.value) && r.value.dateToPersist == Some(EffectiveDate(c, today))
    ensures r.Success? ==> r.value.truncate == c.truncate
    ensures r.Success? && c.dailyPercentages.Some? && c.dailyPercentages.value.PercentList? && |c.dailyPercentages.value.values| > 0 ==>
      r.value.dailyPercentages == c.dailyPercentages.value.values
    ensures r.Success? && (c.dailyPercentages.None? || !Truthy(c.dailyPercentages.value)) ==>
      r.value.daysToPersist == (if c.daysToPersist.Some? then c.daysToPersist.value else 1)
      && forall i :: 0 <= i < |r.value.dailyPercentages| ==> r.value.dailyPercentages[i] == 100.0
  {
    if c.daysToPersist.Some? && c.dailyPercentages.Some? then Failure(BothDaysAndPercentages)
    else if c.dailyPercentages.Some? && Truthy(c.dailyPercentages.value) then
      match c.dailyPercentages.value
      case NotAList(_) => Failure(InvalidDailyPercentages)
      case PercentList(vs) => Success(Settings(Some(EffectiveDate(c, today)), |vs|, vs, c.truncate))
    else
      var days := if c.daysToPersist.None? then 1 else c.daysToPersist.value;
      if days <= 0 then Failure(DaysNotPositive)
      else Success(Settings(Some(EffectiveDate(c, today)), days, seq(days, _ => 100.0), c.truncate))
  }

  /** The settings of the first matching set, or the defaults without a date when none matches. */
  function FirstMatching(configs: seq<ConfigSet>, today: Day): (r: Result<Settings, ConfigError>)
    ensures r.Failure? ==> r.error.BothDaysAndPercentages? || r.error.InvalidDailyPercentages? || r.error.DaysNotPositive?
    ensures r.Success? ==> Consistent(r.value)
    ensures r.Success? && r.value.dateToPersist.None? <==> forall i :: 0 <= i < |configs| ==> !Matches(configs[i], today)
  {
    if |configs| == 0 then Success(Defaults)
    else if Matches(configs[0], today) then SettingsOf(configs[0], today)
    else
      var r := FirstMatching(configs[1..], today);
      assert forall i :: 1 <= i < |configs| ==> configs[i] == configs[1..][i - 1];
      r
  }

  function SelectConfig(configs: seq<ConfigSet>, today: Day): (r: Result<Settings, ConfigError>)
    ensures |configs| == 0 <==> r == Failure(EmptyConfigList)
    ensures r.Success? ==> Consistent(r.value)
    ensures r.Success? && r.value.dateToPersist.None? <==>
      |configs| > 0 && forall i :: 0 <= i < |configs| ==> !Matches(configs[i], today)
  {
    if |configs| == 0 then Failure(EmptyConfigList) else FirstMatching(configs, today)
  }

  /** Selection is decided by the first matching set alone: later sets are
      neither consulted nor validated. */
  lemma {:induction false} SelectConfigFirstMatch(configs: seq<ConfigSet>, today: Day, i: nat)
    requires i < |configs| && Matches(configs[i], today)
    requires forall j :: 0 <= j < i ==> !Matches(configs[j], today)
    ensures SelectConfig(configs, today) == SettingsOf(configs[i], today)
  {
    FirstMatchingAt(configs, today, i);
  }

  lemma {:induction false} FirstMatchingAt(configs: seq<ConfigSet>, today: Day, i: nat)
    requires i < |configs| && Matches(configs[i], today)
    requires forall j :: 0 <= j < i ==> !Matches(configs[j], today)
    ensures FirstMatching(configs, today) == SettingsOf(configs[i], today)
    decreases i
  {
    if i > 0 {
      assert !Matches(configs[0], today);
      assert configs[1..][i - 1] == configs[i];
      FirstMatchingAt(configs[1..], today, i - 1);
    }
  }

  /** `_set_config`: nothing configured, a single set, a list of sets, or an invalid value. */
  function SetConfig(p: PersistenceConfig, today: Day): (r: Result<Settings, ConfigError>)
    ensures p.Unspecified? <==> r == Failure(NotSpecified)
    ensures p.OtherValue? <==> r == Failure(InvalidConfig)
    ensures r == Failure(EmptyConfigList) <==> p == Many([])
    ensures r.Success? ==> Consistent(r.value)
  {
    match p
    case Unspecified => Failure(NotSpecified)
    case Single(c) => SelectConfig([c], today)
    case Many(cs) => SelectConfig(cs, today)
    case OtherValue => Failure(InvalidConfig)
  }

  /** A single configuration set is read as a one-element list. */
  lemma SingleIsOneElementList(c: ConfigSet, today: Day)
    ensures SetConfig(Single(c), today) == SetConfig(Many([c]), today)
  {
  }

  // ---------------------------------------------------------------------
  // Activity records
  // ---------------------------------------------------------------------

  /** Nested quantities (emissions, consumption, heat) as their numeric leaves. */
  type Leaves = map<string, real>

  /** The quantities `_reduce_activity` scales at every level; absent scalars stay absent. */
  datatype Measures = Measures(area: Option<real>, frp: Option<real>, emissions: Leaves, consumption: Leaves, heat: Leaves)

  datatype Fuelbed = Fuelbed(measures: Measures)

  datatype Location = Location(
    measures: Measures,
    plumerise: map<Hour, Leaves>,
    timeprofile: map<Hour, Leaves>,
    hourlyFrp: map<Hour, real>,
    fuelbeds: seq<Fuelbed>)

  datatype ActiveArea = ActiveArea(start: Hour, end: Hour, timeprofile: map<Hour, Leaves>, measures: Measures, locations: seq<Location>)

  datatype Activity = Activity(activeAreas: seq<ActiveArea>, persisted: bool)

  datatype FireType = Wildfire | Prescribed | OtherType

  datatype GrowthFire = GrowthFire(fireType: FireType, activity: seq<Activity>)

  // ---------------------------------------------------------------------
  // Shifting by whole days
  // ---------------------------------------------------------------------

  function ShiftLocation(l: Location, t: int): Location
  {
    l.(plumerise := ShiftKeys(l.plumerise, t), timeprofile := ShiftKeys(l.timeprofile, t), hourlyFrp := ShiftKeys(l.hourlyFrp, t))
  }

  function ShiftActiveArea(aa: ActiveArea, t: int): ActiveArea
  {
    aa.(start := aa.start + t, end := aa.end + t, timeprofile := ShiftKeys(aa.timeprofile, t),
        locations := seq(|aa.locations|, i requires 0 <= i < |aa.locations| => ShiftLocation(aa.locations[i], t)))
  }

  /** A location `t` hours later: its plume rise, time profile and hourly FRP
      keys moved by `t`, everything else as it was. */
  predicate ShiftedLocation(l: Location, m: Location, t: int)
  {
    m.plumerise == ShiftKeys(l.plumerise, t) && m.timeprofile == ShiftKeys(l.timeprofile, t)
    && m.hourlyFrp == ShiftKeys(l.hourlyFrp, t) && m.measures == l.measures && m.fuelbeds == l.fuelbeds
  }

  /** An active area `t` hours later: start, end and time profile keys moved by
      `t`, each location shifted, the measures as they were. */
  predicate ShiftedActiveArea(aa: ActiveArea, bb: ActiveArea, t: int)
  {
    bb.start == aa.start + t && bb.end == aa.end + t && bb.timeprofile == ShiftKeys(aa.timeprofile, t)
    && bb.measures == aa.measures && |bb.locations| == |aa.locations|
    && forall j :: 0 <= j < |aa.locations| ==> ShiftedLocation(aa.locations[j], bb.locations[j], t)
  }

  /** One activity copied `t` hours later and marked as persisted: every time
      and every hour key moved by `t`, nothing else changed. */
  function ShiftActivity(a: Activity, t: int): (r: Activity)
    ensures r.persisted && |r.activeAreas| == |a.activeAreas|
    ensures forall i :: 0 <= i < |a.activeAreas| ==> ShiftedActiveArea(a.activeAreas[i], r.activeAreas[i], t)
  {
    Activity(seq(|a.activeAreas|, i requires 0 <= i < |a.activeAreas| => ShiftActiveArea(a.activeAreas[i], t)), true)
  }

  lemma ShiftLocationRoundTrip(l: Location, t: int)
    ensures ShiftLocation(ShiftLocation(l, t), -t) == l
  {
    ShiftKeysRoundTrip(l.plumerise, t);
    ShiftKeysRoundTrip(l.timeprofile, t);
    ShiftKeysRoundTrip(l.hourlyFrp, t);
  }

  lemma ShiftActiveAreaRoundTrip(aa: ActiveArea, t: int)
    ensures ShiftActiveArea(ShiftActiveArea(aa, t), -t) == aa
  {
    var b := ShiftActiveArea(ShiftActiveArea(aa, t), -t);
    ShiftKeysRoundTrip(aa.timeprofile, t);
    forall j | 0 <= j < |aa.locations|
      ensures b.locations[j] == aa.locations[j]
    {
      ShiftLocationRoundTrip(aa.locations[j], t);
    }
    assert b.locations == aa.locations;
  }

  /** Shifting back restores every active area, location and hour key. */
  lemma ShiftActivityRoundTrip(a: Activity, t: int)
    ensures ShiftActivity(ShiftActivity(a, t), -t) == a.(persisted := true)
  {
    var b := ShiftActivity(ShiftActivity(a, t), -t);
    forall i | 0 <= i < |a.activeAreas|
      ensures b.activeAreas[i] == a.activeAreas[i]
    {
      ShiftActiveAreaRoundTrip(a.activeAreas[i], t);
    }
    assert b.activeAreas == a.activeAreas;
  }

  // ---------------------------------------------------------------------
  // Scaling by a daily percentage
  // ---------------------------------------------------------------------

  function ScaleLeaves(m: Leaves, fraction: real): (r: Leaves)
    ensures r.Keys == m.Keys
  {
    map k | k in m :: m[k] * fraction
  }

  function ScaleOption(x: Option<real>, fraction: real): Option<real>
  {
    if x.Some? then Some(x.value * fraction) else None
  }

  function ScaleMeasures(v: Measures, fraction: real): Measures
  {
    Measures(ScaleOption(v.area, fraction), ScaleOption(v.frp, fraction),
      ScaleLeaves(v.emissions, fraction), ScaleLeaves(v.consumption, fraction), ScaleLeaves(v.heat, fraction))
  }

  function ScaleLocation(l: Location, fraction: real): Location
  {
    l.(measures := ScaleMeasures(l.measures, fraction),
       fuelbeds := seq(|l.fuelbeds|, i requires 0 <= i < |l.fuelbeds| => Fuelbed(ScaleMeasures(l.fuelbeds[i].measures, fraction))))
  }

  function ScaleActiveArea(aa: ActiveArea, fraction: real): ActiveArea
  {
    aa.(measures := ScaleMeasures(aa.measures, fraction),
        locations := seq(|aa.locations|, i requires 0 <= i < |aa.locations| => ScaleLocation(aa.locations[i], fraction)))
  }

  /** `y` is `x` multiplied by `f`; an absent value stays absent. */
  predicate OptionScaledBy(x: Option<real>, y: Option<real>, f: real)
  {
    y.Some? == x.Some? && (x.Some? ==> y.value == x.value * f)
  }

  /** `n` has the keys of `m`, each value multiplied by `f`. */
  predicate LeavesScaledBy(m: Leaves, n: Leaves, f: real)
  {
    n.Keys == m.Keys && forall k :: k in m ==> n[k] == m[k] * f
  }

  /** Area, FRP, emissions, consumption and heat all multiplied by `f`. */
  predicate MeasuresScaledBy(v: Measures, w: Measures, f: real)
  {
    OptionScaledBy(v.area, w.area, f) && OptionScaledBy(v.frp, w.frp, f)
    && LeavesScaledBy(v.emissions, w.emissions, f) && LeavesScaledBy(v.consumption, w.consumption, f)
    && LeavesScaledBy(v.heat, w.heat, f)
  }

  /** A location reduced by `f`: its own measures and each fuelbed's scaled, its
      hour-keyed data as it was. */
  predicate ReducedLocation(l: Location, m: Location, f: real)
  {
    MeasuresScaledBy(l.measures, m.measures, f)
    && m.plumerise == l.plumerise && m.timeprofile == l.timeprofile && m.hourlyFrp == l.hourlyFrp
    && |m.fuelbeds| == |l.fuelbeds|
    && forall k :: 0 <= k < |l.fuelbeds| ==> MeasuresScaledBy(l.fuelbeds[k].measures, m.fuelbeds[k].measures, f)
  }

  /** An active area reduced by `f`: its measures scaled, each location reduced,
      its times and time profile as they were. */
  predicate ReducedActiveArea(aa: ActiveArea, bb: ActiveArea, f: real)
  {
    bb.start == aa.start && bb.end == aa.end && bb.timeprofile == aa.timeprofile
    && MeasuresScaledBy(aa.measures, bb.measures, f)
    && |bb.locations| == |aa.locations|
    && forall j :: 0 <= j < |aa.locations| ==> ReducedLocation(aa.locations[j], bb.locations[j], f)
  }

  /** `_reduce_activity`: area, frp, emissions, consumption and heat of every
      active area, location and fuelbed multiplied by `percentage / 100`; times
      and hour keys untouched. */
  function ReduceActivity(a: Activity, percentage: real): (r: Activity)
    ensures r.persisted == a.persisted && |r.activeAreas| == |a.activeAreas|
    ensures forall i :: 0 <= i < |a.activeAreas| ==>
      ReducedActiveArea(a.activeAreas[i], r.activeAreas[i], percentage / 100.0)
  {
    var fraction := percentage / 100.0;
    var r := a.(activeAreas := seq(|a.activeAreas|, i requires 0 <= i < |a.activeAreas| => ScaleActiveArea(a.activeAreas[i], fraction)));
    forall i | 0 <= i < |a.activeAreas|
      ensures ReducedActiveArea(a.activeAreas[i], r.activeAreas[i], fraction)
    {
      ScaleActiveAreaReduces(a.activeAreas[i], fraction);
    }
    r
  }

  lemma ScaleMeasuresScales(v: Measures, f: real)
    ensures MeasuresScaledBy(v, ScaleMeasures(v, f), f)
  {
  }

  lemma ScaleLocationReduces(l: Location, f: real)
    ensures ReducedLocation(l, ScaleLocation(l, f), f)
  {
    ScaleMeasuresScales(l.measures, f);
    forall k | 0 <= k < |l.fuelbeds|
      ensures MeasuresScaledBy(l.fuelbeds[k].measures, ScaleLocation(l, f).fuelbeds[k].measures, f)
    {
      ScaleMeasuresScales(l.fuelbeds[k].measures, f);
    }
  }

  lemma ScaleActiveAreaReduces(aa: ActiveArea, f: real)
    ensures ReducedActiveArea(aa, ScaleActiveArea(aa, f), f)
  {
    ScaleMeasuresScales(aa.measures, f);
    forall j | 0 <= j < |aa.locations|
      ensures ReducedLocation(aa.locations[j], ScaleActiveArea(aa, f).locations[j], f)
    {
      ScaleLocationReduces(aa.locations[j], f);
    }
  }

  lemma ScaleLeavesCompose(m: Leaves, f: real, g: real)
    ensures ScaleLeaves(ScaleLeaves(m, f), g) == ScaleLeaves(m, f * g)
  {
    var l := ScaleLeaves(ScaleLeaves(m, f), g);
    var r := ScaleLeaves(m, f * g);
    var mf := ScaleLeaves(m, f);
    forall k | k in r
      ensures l[k] == r[k]
    {
      ScaleLeavesAt(m, f, k);
      ScaleLeavesAt(mf, g, k);
      ScaleLeavesAt(m, f * g, k);
      var x := m[k];
      calc {
        l[k];
        mf[k] * g;
        (x * f) * g;
        { MulAssoc(x, f, g); }
        x * (f * g);
        r[k];
      }
    }
    SameMaps(l, r);
  }

  lemma ScaleLeavesAt(m: Leaves, fraction: real, k: string)
    requires k in m
    ensures k in ScaleLeaves(m, fraction) && ScaleLeaves(m, fraction)[k] == m[k] * fraction
  {
  }

  lemma MulAssoc(x: real, f: real, g: real)
    ensures x * f * g == x * (f * g)
  {
  }

  lemma ScaleMeasuresCompose(v: Measures, f: real, g: real)
    ensures ScaleMeasures(ScaleMeasures(v, f), g) == ScaleMeasures(v, f * g)
  {
    ScaleLeavesCompose(v.emissions, f, g);
    ScaleLeavesCompose(v.consumption, f, g);
    ScaleLeavesCompose(v.heat, f, g);
    ScaleOptionCompose(v.area, f, g);
    ScaleOptionCompose(v.frp, f, g);
  }

  lemma ScaleOptionCompose(x: Option<real>, f: real, g: real)
    ensures ScaleOption(ScaleOption(x, f), g) == ScaleOption(x, f * g)
  {
    if x.Some? {
      // compare the numbers first: equal products need not be the same term
      assert ScaleOption(ScaleOption(x, f), g).value == ScaleOption(x, f * g).value;
    }
  }

  lemma ScaleLocationCompose(l: Location, f: real, g: real)
    ensures ScaleLocation(ScaleLocation(l, f), g) == ScaleLocation(l, f * g)
  {
    ScaleMeasuresCompose(l.measures, f, g);
    var b := ScaleLocation(ScaleLocation(l, f), g);
    forall i | 0 <= i < |l.fuelbeds|
      ensures b.fuelbeds[i] == Fuelbed(ScaleMeasures(l.fuelbeds[i].measures, f * g))
    {
      ScaleMeasuresCompose(l.fuelbeds[i].measures, f, g);
    }
    assert b.fuelbeds == ScaleLocation(l, f * g).fuelbeds;
  }

  lemma ScaleActiveAreaCompose(aa: ActiveArea, f: real, g: real)
    ensures ScaleActiveArea(ScaleActiveArea(aa, f), g) == ScaleActiveArea(aa, f * g)
  {
    ScaleMeasuresCompose(aa.measures, f, g);
    var b := ScaleActiveArea(ScaleActiveArea(aa, f), g);
    forall i | 0 <= i < |aa.locations|
      ensures b.locations[i] == ScaleLocation(aa.locations[i], f * g)
    {
      ScaleLocationCompose(aa.locations[i], f, g);
    }
    assert b.locations == ScaleActiveArea(aa, f * g).locations;
  }

  /** Reducing twice is reducing once by the product of the two fractions. */
  lemma ReduceActivityCompose(a: Activity, p: real, q: real)
    ensures ReduceActivity(ReduceActivity(a, p), q) == ReduceActivity(a, p * q / 100.0)
  {
    var f := p / 100.0;
    var g := q / 100.0;
    assert f * g == (p * q / 100.0) / 100.0;
    var b := ReduceActivity(ReduceActivity(a, p), q);
    forall i | 0 <= i < |a.activeAreas|
      ensures b.activeAreas[i] == ScaleActiveArea(a.activeAreas[i], f * g)
    {
      ScaleActiveAreaCompose(a.activeAreas[i], f, g);
    }
    assert b.activeAreas == ReduceActivity(a, p * q / 100.0).activeAreas;
  }

  lemma ScaleMeasuresOne(v: Measures)
    ensures ScaleMeasures(v, 1.0) == v
  {
    assert ScaleLeaves(v.emissions, 1.0) == v.emissions;
    assert ScaleLeaves(v.consumption, 1.0) == v.consumption;
    assert ScaleLeaves(v.heat, 1.0) == v.heat;
  }

  lemma ScaleLocationOne(l: Location)
    ensures ScaleLocation(l, 1.0) == l
  {
    ScaleMeasuresOne(l.measures);
    forall k | 0 <= k < |l.fuelbeds|
      ensures Fuelbed(ScaleMeasures(l.fuelbeds[k].measures, 1.0)) == l.fuelbeds[k]
    {
      ScaleMeasuresOne(l.fuelbeds[k].measures);
    }
    assert ScaleLocation(l, 1.0).fuelbeds == l.fuelbeds;
  }

  lemma ScaleActiveAreaOne(aa: ActiveArea)
    ensures ScaleActiveArea(aa, 1.0) == aa
  {
    ScaleMeasuresOne(aa.measures);
    forall j | 0 <= j < |aa.locations|
      ensures ScaleLocation(aa.locations[j], 1.0) == aa.locations[j]
    {
      ScaleLocationOne(aa.locations[j]);
    }
    assert ScaleActiveArea(aa, 1.0).locations == aa.locations;
  }

  /** Reducing to 100% changes nothing. */
  lemma ReduceActivityHundred(a: Activity)
    ensures ReduceActivity(a, 100.0) == a
  {
    forall i | 0 <= i < |a.activeAreas|
      ensures ScaleActiveArea(a.activeAreas[i], 1.0) == a.activeAreas[i]
    {
      ScaleActiveAreaOne(a.activeAreas[i]);
    }
    assert ReduceActivity(a, 100.0).activeAreas == a.activeAreas;
  }

  // ---------------------------------------------------------------------
  // Persisting
  // ---------------------------------------------------------------------

  /** Copy `i` (from 0) of one activity: `i + 1` days later, marked persisted,
      and reduced when that day's percentage is below 100. */
  function PersistCopy(a: Activity, i: nat, s: Settings): (r: Activity)
    requires i < |s.dailyPercentages|
    ensures r.persisted && |r.activeAreas| == |a.activeAreas|
    ensures forall k :: 0 <= k < |a.activeAreas| ==>
      r.activeAreas[k].start == a.activeAreas[k].start + (i + 1) * HoursPerDay
      && r.activeAreas[k].end == a.activeAreas[k].end + (i + 1) * HoursPerDay
    ensures s.dailyPercentages[i] >= 100.0 ==>
      forall k :: 0 <= k < |a.activeAreas| ==> r.activeAreas[k].measures == a.activeAreas[k].measures
    ensures s.dailyPercentages[i] >= 100.0 ==> r == ShiftActivity(a, (i + 1) * HoursPerDay)
    ensures s.dailyPercentages[i] < 100.0 ==>
      r == ReduceActivity(ShiftActivity(a, (i + 1) * HoursPerDay), s.dailyPercentages[i])
  {
    var shifted := ShiftActivity(a, (i + 1) * HoursPerDay);
    if s.dailyPercentages[i] < 100.0 then ReduceActivity(shifted, s.dailyPercentages[i]) else shifted
  }

  /** The copies for day `i` of every activity on the day to persist. */
  function DayCopies(on: seq<Activity>, i: nat, s: Settings): (r: seq<Activity>)
    requires i < |s.dailyPercentages|
    ensures |r| == |on| && forall j :: 0 <= j < |on| ==> r[j] == PersistCopy(on[j], i, s)
  {
    seq(|on|, j requires 0 <= j < |on| => PersistCopy(on[j], i, s))
  }

  function PersistDays(on: seq<Activity>, n: nat, s: Settings): (r: seq<Activity>)
    requires n <= |s.dailyPercentages|
    ensures |r| == n * |on|
    ensures forall x :: x in r ==> x.persisted
  {
    if n == 0 then [] else PersistDays(on, n - 1, s) + DayCopies(on, n - 1, s)
  }

  lemma {:induction false} PersistDaysAt(on: seq<Activity>, n: nat, s: Settings, i: nat, j: nat)
    requires n <= |s.dailyPercentages| && i < n && j < |on|
    ensures i * |on| + j < |PersistDays(on, n, s)|
    ensures PersistDays(on, n, s)[i * |on| + j] == PersistCopy(on[j], i, s)
  {
    var pre := PersistDays(on, n - 1, s);
    assert PersistDays(on, n, s) == pre + DayCopies(on, n - 1, s);
    if i < n - 1 {
      PersistDaysAt(on, n - 1, s, i, j);
    } else {
      assert i * |on| + j == |pre| + j;
    }
  }

  /** `_persist`: nothing for no activity; otherwise, day by day, a copy of
      every activity on the day to persist, each marked persisted. */
  function Persist(on: seq<Activity>, s: Settings): (r: seq<Activity>)
    requires Consistent(s)
    ensures |on| == 0 ==> r == []
    ensures |r| == s.daysToPersist * |on|
    ensures forall x :: x in r ==> x.persisted
  {
    if |on| == 0 then [] else PersistDays(on, s.daysToPersist, s)
  }

  /** Item `i * |on| + j` of the persisted activity is copy `i` of activity `j`. */
  lemma PersistAt(on: seq<Activity>, s: Settings, i: nat, j: nat)
    requires Consistent(s) && i < s.daysToPersist && j < |on|
    ensures i * |on| + j < |Persist(on, s)|
    ensures Persist(on, s)[i * |on| + j] == PersistCopy(on[j], i, s)
  {
    PersistDaysAt(on, s.daysToPersist, s, i, j);
  }

  // ---------------------------------------------------------------------
  // Filling in a wildfire
  // ---------------------------------------------------------------------

  /** Indexing an empty list of active areas fails. */
  datatype GrowError = EmptyActiveAreas

  function StartDay(a: Activity): Day
    requires |a.activeAreas| > 0
  {
    DayOf(a.activeAreas[0].start)
  }

  /** The first `n` activities were all examined and lie on or before `date`. */
  predicate ExaminedUpTo(acts: seq<Activity>, date: Day, n: nat)
  {
    n <= |acts| && forall j :: 0 <= j < n ==> |acts[j].activeAreas| > 0 && StartDay(acts[j]) <= date
  }

  /** The loop of `_fill_in_wf`: activity before the date and activity on the
      date, up to the first activity after it. */
  function Partition(acts: seq<Activity>, date: Day): (r: Result<(seq<Activity>, seq<Activity>), GrowError>)
    ensures r.Success? ==> |r.value.0| + |r.value.1| <= |acts|
  {
    if |acts| == 0 then Success(([], []))
    else if |acts[0].activeAreas| == 0 then Failure(EmptyActiveAreas)
    else if StartDay(acts[0]) > date then Success(([], []))
    else
      match Partition(acts[1..], date)
      case Failure(e) => Failure(e)
      case Success(p) =>
        if StartDay(acts[0]) < date then Success(([acts[0]] + p.0, p.1)) else Success((p.0, [acts[0]] + p.1))
  }

  lemma ExaminedTail(acts: seq<Activity>, date: Day, n: nat)
    requires |acts| > 0 && |acts[0].activeAreas| > 0 && StartDay(acts[0]) <= date
    ensures ExaminedUpTo(acts[1..], date, n) <==> ExaminedUpTo(acts, date, n + 1)
  {
    if n <= |acts[1..]| {
      assert forall j :: 0 <= j < n ==> acts[1..][j] == acts[j + 1];
    }
  }

  /** The loop examines the activities up to the first one after the date. */
  lemma {:induction false} PartitionStops(acts: seq<Activity>, date: Day, b: seq<Activity>, o: seq<Activity>)
    requires Partition(acts, date) == Success((b, o))
    ensures ExaminedUpTo(acts, date, |b| + |o|)
    ensures |b| + |o| < |acts| ==> |acts[|b| + |o|].activeAreas| > 0 && StartDay(acts[|b| + |o|]) > date
  {
    if |acts| > 0 && StartDay(acts[0]) <= date {
      var p := Partition(acts[1..], date).value;
      PartitionStops(acts[1..], date, p.0, p.1);
      var n := |p.0| + |p.1|;
      ExaminedTail(acts, date, n);
      if n < |acts| - 1 {
        assert acts[n + 1] == acts[1..][n];
      }
    }
  }

  /** What the loop keeps: exactly the examined activities, in their order,
      each put in one of the two parts. */
  lemma {:induction false} PartitionKeeps(acts: seq<Activity>, date: Day)
    requires Partition(acts, date).Success?
    ensures var (b, o) := Partition(acts, date).value;
      Interleaves(b, o, acts[..|b| + |o|])
  {
    if |acts| > 0 && StartDay(acts[0]) <= date {
      PartitionKeeps(acts[1..], date);
      var p := Partition(acts[1..], date).value;
      var n := |p.0| + |p.1|;
      var s := acts[..n + 1];
      assert s[0] == acts[0] && s[1..] == acts[1..][..n];
      if StartDay(acts[0]) < date {
        assert ([acts[0]] + p.0)[1..] == p.0;
      } else {
        assert ([acts[0]] + p.1)[1..] == p.1;
      }
    } else {
      assert acts[..0] == [];
    }
  }

  /** The kept activities are split into those before the date and those on it. */
  lemma {:induction false} PartitionSplits(acts: seq<Activity>, date: Day, b: seq<Activity>, o: seq<Activity>)
    requires Partition(acts, date) == Success((b, o))
    ensures forall x :: x in b ==> |x.activeAreas| > 0 && StartDay(x) < date
    ensures forall x :: x in o ==> |x.activeAreas| > 0 && StartDay(x) == date
  {
    if |acts| > 0 && StartDay(acts[0]) <= date {
      var p := Partition(acts[1..], date).value;
      PartitionSplits(acts[1..], date, p.0, p.1);
    }
  }

  /** The loop fails exactly when it reaches an activity without active areas
      before any activity after the date. */
  lemma {:induction false} PartitionFails(acts: seq<Activity>, date: Day)
    ensures Partition(acts, date).Failure? <==>
      exists n :: 0 <= n < |acts| && ExaminedUpTo(acts, date, n) && |acts[n].activeAreas| == 0
  {
    if |acts| > 0 {
      if |acts[0].activeAreas| == 0 {
        assert ExaminedUpTo(acts, date, 0);
      } else if StartDay(acts[0]) > date {
        assert forall n :: 0 < n <= |acts| ==> !ExaminedUpTo(acts, date, n);
      } else {
        PartitionFails(acts[1..], date);
        forall n | 0 <= n < |acts| - 1
          ensures ExaminedUpTo(acts[1..], date, n) <==> ExaminedUpTo(acts, date, n + 1)
        {
          ExaminedTail(acts, date, n);
        }
        if Partition(acts[1..], date).Failure? {
          var n :| 0 <= n < |acts| - 1 && ExaminedUpTo(acts[1..], date, n) && |acts[1..][n].activeAreas| == 0;
          assert ExaminedUpTo(acts, date, n + 1) && |acts[n + 1].activeAreas| == 0;
        } else {
          forall n | 0 <= n < |acts| && ExaminedUpTo(acts, date, n)
            ensures |acts[n].activeAreas| > 0
          {
            if n > 0 {
              assert ExaminedUpTo(acts[1..], date, n - 1);
              assert acts[1..][n - 1] == acts[n];
            }
          }
        }
      }
    }
  }

  function LastStartDay(acts: seq<Activity>): Day
    requires |acts| > 0 && |acts[|acts| - 1].activeAreas| > 0
  {
    var areas := acts[|acts| - 1].activeAreas;
    DayOf(areas[|areas| - 1].start)
  }

  /** The activity is left alone when its last start is before the date to
      persist, or after it without truncation. */
  predicate LeftAlone(acts: seq<Activity>, s: Settings)
    requires |acts| > 0 && |acts[|acts| - 1].activeAreas| > 0 && s.dateToPersist.Some?
  {
    LastStartDay(acts) < s.dateToPersist.value || (!s.truncate && LastStartDay(acts) > s.dateToPersist.value)
  }

  /** `_fill_in_wf`: the activity left alone, or rebuilt from the activity before
      the date, the activity on it and the persisted copies. */
  function FillInWf(acts: seq<Activity>, s: Settings): (r: Result<seq<Activity>, GrowError>)
    requires s.dateToPersist.Some? && Consistent(s)
    ensures (|acts| == 0 || |acts[0].activeAreas| == 0 || |acts[|acts| - 1].activeAreas| == 0) ==> r == Failure(EmptyActiveAreas)
    ensures |acts| > 0 && |acts[0].activeAreas| > 0 && |acts[|acts| - 1].activeAreas| > 0 && LeftAlone(acts, s) ==> r == Success(acts)
    ensures |acts| > 0 && |acts[0].activeAreas| > 0 && |acts[|acts| - 1].activeAreas| > 0 && !LeftAlone(acts, s) ==>
      (r.Failure? <==> Partition(acts, s.dateToPersist.value).Failure?)
  {
    if |acts| == 0 || |acts[0].activeAreas| == 0 || |acts[|acts| - 1].activeAreas| == 0 then Failure(EmptyActiveAreas)
    else if LeftAlone(acts, s) then Success(acts)
    else
      match Partition(acts, s.dateToPersist.value)
      case Failure(e) => Failure(e)
      case Success(p) => Success(p.0 + p.1 + Persist(p.1, s))
  }

  /** When the wildfire is grown, the result keeps the activity up to the first
      one after the day to persist and appends `days` copies of that day's
      activity; everything after it is dropped. */
  lemma FillInWfGrows(acts: seq<Activity>, s: Settings, b: seq<Activity>, o: seq<Activity>)
    requires s.dateToPersist.Some? && Consistent(s)
    requires |acts| > 0 && |acts[0].activeAreas| > 0 && |acts[|acts| - 1].activeAreas| > 0 && !LeftAlone(acts, s)
    requires Partition(acts, s.dateToPersist.value) == Success((b, o))
    ensures FillInWf(acts, s) == Success(b + o + Persist(o, s))
    ensures |FillInWf(acts, s).value| == |b| + |o| + s.daysToPersist * |o|
    ensures multiset(FillInWf(acts, s).value[..|b| + |o|]) == multiset(acts[..|b| + |o|])
    ensures forall x :: x in FillInWf(acts, s).value[..|b| + |o|] ==> |x.activeAreas| > 0 && StartDay(x) <= s.dateToPersist.value
    ensures |b| + |o| < |acts| ==> |acts[|b| + |o|].activeAreas| > 0 && StartDay(acts[|b| + |o|]) > s.dateToPersist.value
    ensures forall x :: x in FillInWf(acts, s).value[|b| + |o|..] ==> x.persisted
  {
    PartitionStops(acts, s.dateToPersist.value, b, o);
    PartitionKeeps(acts, s.dateToPersist.value);
    InterleavesMultiset(b, o, acts[..|b| + |o|]);
    PartitionSplits(acts, s.dateToPersist.value, b, o);
    var r := FillInWf(acts, s).value;
    assert r[..|b| + |o|] == b + o;
    assert r[|b| + |o|..] == Persist(o, s);
  }

  /** `_grow_fire`: only wildfires with some active area are filled in;
      prescribed burns and other types are left alone. */
  function GrowFire(f: GrowthFire, s: Settings): (r: Result<GrowthFire, GrowError>)
    requires s.dateToPersist.Some? && Consistent(s)
    ensures (forall i :: 0 <= i < |f.activity| ==> |f.activity[i].activeAreas| == 0) ==> r == Success(f)
    ensures !f.fireType.Wildfire? ==> r == Success(f)
    ensures r.Success? ==> r.value.fireType == f.fireType
    ensures f.fireType.Wildfire? && (exists i :: 0 <= i < |f.activity| && |f.activity[i].activeAreas| > 0) ==>
      r == match FillInWf(f.activity, s)
           case Failure(e) => Failure(e)
           case Success(acts) => Success(f.(activity := acts))
  {
    if forall i :: 0 <= i < |f.activity| ==> |f.activity[i].activeAreas| == 0 then Success(f)
    else
      match f.fireType
      case Prescribed => Success(f)
      case OtherType => Success(f)
      case Wildfire =>
        match FillInWf(f.activity, s)
        case Failure(e) => Failure(e)
        case Success(acts) => Success(f.(activity := acts))
  }

  function GrowEach(fires: seq<GrowthFire>, s: Settings): (rs: seq<Result<GrowthFire, GrowError>>)
    requires s.dateToPersist.Some? && Consistent(s)
    ensures |rs| == |fires| && forall i :: 0 <= i < |fires| ==> rs[i] == GrowFire(fires[i], s)
  {
    seq(|fires|, i requires 0 <= i < |fires| => GrowFire(fires[i], s))
  }

  /** `grow`: without a date to persist no fire is touched; otherwise every fire
      is grown, and the first failing fire's error is reported. */
  function Grow(fires: seq<GrowthFire>, s: Settings): (r: Result<seq<GrowthFire>, GrowError>)
    requires Consistent(s)
    ensures s.dateToPersist.None? ==> r == Success(fires)
    ensures s.dateToPersist.Some? && r.Success? ==>
      |r.value| == |fires| && forall i :: 0 <= i < |fires| ==> GrowFire(fires[i], s) == Success(r.value[i])
    ensures s.dateToPersist.Some? ==> (r.Failure? <==> exists i :: 0 <= i < |fires| && GrowFire(fires[i], s).Failure?)
    ensures r.Success? ==> forall i :: 0 <= i < |fires| && !fires[i].fireType.Wildfire? ==> r.value[i] == fires[i]
  {
    if s.dateToPersist.None? then Success(fires) else Collect(GrowEach(fires, s))
  }

}

=== FILE: plumegrid.dfy ===
/** The PlumeMerger's grid: validating its configuration and bucketing fires into
    grid cells inside the configured boundary. */
module PlumeGrid {
  import opened Common
  import opened Fires

  /** Configuration values as they arrive from the JSON configuration. */
  datatype Json = JNull | JBool(b: bool) | JNum(n: real) | JStr(s: string) | JList(items: seq<Json>) | JObj(fields: map<string, Json>)

  datatype LatLng = LatLng(lat: real, lng: real)

  /** A regular grid of `spacing` degrees anchored at the south-west corner. */
  datatype Grid = Grid(spacing: real, sw: LatLng, ne: LatLng)

  /** Why construction fails with a configuration error. */
  datatype ConfigError = MissingGrid | GridNotObject | GridEmpty | BadSpacing | BadBoundary

  function Field(j: Json, k: string): Option<Json>
  {
    if j.JObj? && k in j.fields then Some(j.fields[k]) else None
  }

  function FieldOf(j: Option<Json>, k: string): Option<Json>
  {
    if j.Some? then Field(j.value, k) else None
  }

  function Number(j: Option<Json>): Option<real>
  {
    if j.Some? && j.value.JNum? then Some(j.value.n) else None
  }

  function ParseLatLng(j: Option<Json>): Option<LatLng>
  {
    var lat := Number(FieldOf(j, "lat"));
    var lng := Number(FieldOf(j, "lng"));
    if lat.Some? && lng.Some? then Some(LatLng(lat.value, lng.value)) else None
  }

  /** PlumeMerger construction: the grid must be a non-empty object with a positive
      `spacing` and a `boundary` whose `sw` and `ne` corners carry numeric `lat` and
      `lng`. The corners are not checked against each other. */
  function ParseGrid(config: Json): (r: Result<Grid, ConfigError>)
    ensures r.Success? ==> r.value.spacing > 0.0
    ensures r.Success? ==> Number(FieldOf(Field(config, "grid"), "spacing")) == Some(r.value.spacing)
    ensures r.Success? ==> ParseLatLng(FieldOf(FieldOf(Field(config, "grid"), "boundary"), "sw")) == Some(r.value.sw)
    ensures r.Success? ==> ParseLatLng(FieldOf(FieldOf(Field(config, "grid"), "boundary"), "ne")) == Some(r.value.ne)
    ensures Field(config, "grid").None? ==> r == Failure(MissingGrid)
    ensures Number(FieldOf(Field(config, "grid"), "spacing")).None? ==> r.Failure?
  {
    var grid := Field(config, "grid");
    if grid.None? then Failure(MissingGrid)
    else if !grid.value.JObj? then Failure(GridNotObject)
    else if |grid.value.fields| == 0 then Failure(GridEmpty)
    else
      var spacing := Number(Field(grid.value, "spacing"));
      if spacing.None? || spacing.value <= 0.0 then Failure(BadSpacing)
      else
        var boundary := Field(grid.value, "boundary");
        var sw := ParseLatLng(FieldOf(boundary, "sw"));
        var ne := ParseLatLng(FieldOf(boundary, "ne"));
        if sw.None? || ne.None? then Failure(BadBoundary)
        else Success(Grid(spacing.value, sw.value, ne.value))
  }

  function LatLngJson(p: LatLng): Json
  {
    JObj(map["lat" := JNum(p.lat), "lng" := JNum(p.lng)])
  }

  /** The configuration that describes `g`. */
  function GridJson(g: Grid): Json
  {
    JObj(map["grid" := JObj(map[
      "spacing" := JNum(g.spacing),
      "boundary" := JObj(map["sw" := LatLngJson(g.sw), "ne" := LatLngJson(g.ne)])])])
  }

  /** Every grid with positive spacing is accepted back from its own configuration. */
  lemma ParseGridJson(g: Grid)
    requires g.spacing > 0.0
    ensures ParseGrid(GridJson(g)) == Success(g)
  {
    var boundary := JObj(map["sw" := LatLngJson(g.sw), "ne" := LatLngJson(g.ne)]);
    var grid := JObj(map["spacing" := JNum(g.spacing), "boundary" := boundary]);
    assert Field(GridJson(g), "grid") == Some(grid);
    assert "spacing" in grid.fields && |grid.fields| > 0;
    assert Field(grid, "spacing") == Some(JNum(g.spacing));
    assert Field(grid, "boundary") == Some(boundary);
    LatLngJsonParses(g.sw);
    LatLngJsonParses(g.ne);
    assert FieldOf(Some(boundary), "sw") == Some(LatLngJson(g.sw));
    assert FieldOf(Some(boundary), "ne") == Some(LatLngJson(g.ne));
  }

  lemma LatLngJsonParses(p: LatLng)
    ensures ParseLatLng(Some(LatLngJson(p))) == Some(p)
  {
    assert Field(LatLngJson(p), "lat") == Some(JNum(p.lat));
    assert Field(LatLngJson(p), "lng") == Some(JNum(p.lng));
  }

  /** The configurations the PlumeMerger tests reject. */
  lemma ParseGridRejects()
    ensures ParseGrid(JObj(map[])).Failure?
    ensures ParseGrid(JObj(map["foo" := JStr("sdf")])).Failure?
    ensures ParseGrid(JObj(map["grid" := JStr("sdf")])).Failure?
    ensures ParseGrid(JObj(map["grid" := JObj(map[])])).Failure?
  {
    var empty: map<string, Json> := map[];
    assert |empty| == 0;
  }

  /** A grid without a spacing is rejected even with a full boundary. */
  lemma ParseGridNeedsSpacing(sw: LatLng, ne: LatLng)
    ensures ParseGrid(JObj(map["grid" := JObj(map["boundary" := JObj(map[
              "sw" := LatLngJson(sw), "ne" := LatLngJson(ne)])])])).Failure?
  {
    var grid := JObj(map["boundary" := JObj(map["sw" := LatLngJson(sw), "ne" := LatLngJson(ne)])]);
    assert "spacing" !in grid.fields;
  }

  /** The configurations the PlumeMerger tests accept, corners in either order. */
  lemma ParseGridAccepts()
    ensures ParseGrid(GridJson(Grid(0.5, LatLng(30.0, -120.0), LatLng(40.0, -110.0))))
         == Success(Grid(0.5, LatLng(30.0, -120.0), LatLng(40.0, -110.0)))
    ensures ParseGrid(GridJson(Grid(0.5, LatLng(30.0, -110.0), LatLng(40.0, -120.0)))).Success?
  {
    ParseGridJson(Grid(0.5, LatLng(30.0, -120.0), LatLng(40.0, -110.0)));
    ParseGridJson(Grid(0.5, LatLng(30.0, -110.0), LatLng(40.0, -120.0)));
  }

  /** A grid cell, counted in whole spacings north and east of the south-west corner. */
  datatype Cell = Cell(latIndex: int, lngIndex: int)

  /** Inside the boundary, edges included. */
  predicate InBoundary(g: Grid, f: Fire)
  {
    g.sw.lat <= f.latitude <= g.ne.lat && g.sw.lng <= f.longitude <= g.ne.lng
  }

  /** The cell containing the fire, truncating toward the south-west corner. */
  function CellOf(g: Grid, f: Fire): (c: Cell)
    requires g.spacing > 0.0
    ensures g.sw.lat + c.latIndex as real * g.spacing <= f.latitude < g.sw.lat + (c.latIndex + 1) as real * g.spacing
    ensures g.sw.lng + c.lngIndex as real * g.spacing <= f.longitude < g.sw.lng + (c.lngIndex + 1) as real * g.spacing
  {
    var i := ((f.latitude - g.sw.lat) / g.spacing).Floor;
    var j := ((f.longitude - g.sw.lng) / g.spacing).Floor;
    FloorBounds(f.latitude - g.sw.lat, g.spacing);
    FloorBounds(f.longitude - g.sw.lng, g.spacing);
    Cell(i, j)
  }

  /** Fires inside the boundary are keyed by their cell; fires outside have no key
      and are never grouped with anything. */
  function BucketKey(g: Grid, f: Fire): Option<Cell>
    requires g.spacing > 0.0
  {
    if InBoundary(g, f) then Some(CellOf(g, f)) else None
  }

  datatype Bucket = Bucket(key: Option<Cell>, fires: seq<Fire>)

  /** Index of the bucket keyed by cell `c`, if there is one. */
  function FindBucket(bs: seq<Bucket>, c: Cell): (r: Option<nat>)
    ensures r.Some? ==> r.value < |bs| && bs[r.value].key == Some(c)
    ensures r.None? ==> forall i :: 0 <= i < |bs| ==> bs[i].key != Some(c)
  {
    if |bs| == 0 then None
    else if bs[|bs| - 1].key == Some(c) then Some(|bs| - 1)
    else FindBucket(bs[..|bs| - 1], c)
  }

  function AddToBuckets(g: Grid, bs: seq<Bucket>, f: Fire): seq<Bucket>
    requires g.spacing > 0.0
  {
    var k := BucketKey(g, f);
    if k.None? then bs + [Bucket(None, [f])]
    else match FindBucket(bs, k.value)
      case None => bs + [Bucket(k, [f])]
      case Some(i) => bs[i := Bucket(k, bs[i].fires + [f])]
  }

  /** The fires of every bucket, in bucket order. */
  function Flatten(bs: seq<Bucket>): seq<Fire>
  {
    if |bs| == 0 then [] else Flatten(bs[..|bs| - 1]) + bs[|bs| - 1].fires
  }

  /** Buckets are non-empty, every fire sits under its own key, keyless buckets
      hold one fire, and no cell has two buckets. */
  predicate WellBucketed(g: Grid, bs: seq<Bucket>)
    requires g.spacing > 0.0
  {
    && (forall i :: 0 <= i < |bs| ==> |bs[i].fires| > 0)
    && (forall i, f :: 0 <= i < |bs| && f in bs[i].fires ==> BucketKey(g, f) == bs[i].key)
    && (forall i :: 0 <= i < |bs| && bs[i].key.None? ==> |bs[i].fires| == 1)
    && (forall i, j :: 0 <= i < j < |bs| && bs[i].key.Some? ==> bs[i].key != bs[j].key)
  }

  lemma {:induction false} FlattenAppend(bs: seq<Bucket>, b: Bucket)
    ensures Flatten(bs + [b]) == Flatten(bs) + b.fires
  {
    assert (bs + [b])[..|bs|] == bs;
  }

  /** Adding a fire to bucket `i` adds it to the flattened multiset. */
  lemma {:induction false} FlattenUpdate(bs: seq<Bucket>, i: nat, f: Fire)
    requires i < |bs|
    ensures multiset(Flatten(bs[i := Bucket(bs[i].key, bs[i].fires + [f])])) == multiset(Flatten(bs)) + multiset{f}
  {
    var pre := bs[..|bs| - 1];
    var last := bs[|bs| - 1];
    var bs' := bs[i := Bucket(bs[i].key, bs[i].fires + [f])];
    assert bs == pre + [last];
    if i == |bs| - 1 {
      assert bs' == pre + [Bucket(last.key, last.fires + [f])];
      FlattenAppend(pre, Bucket(last.key, last.fires + [f]));
      FlattenAppend(pre, last);
    } else {
      FlattenUpdate(pre, i, f);
      assert bs' == pre[i := Bucket(bs[i].key, bs[i].fires + [f])] + [last];
      FlattenAppend(pre[i := Bucket(bs[i].key, bs[i].fires + [f])], last);
      FlattenAppend(pre, last);
    }
  }

  lemma AddToBucketsKeepsShape(g: Grid, bs: seq<Bucket>, f: Fire)
    requires g.spacing > 0.0 && WellBucketed(g, bs)
    ensures WellBucketed(g, AddToBuckets(g, bs, f))
    ensures multiset(Flatten(AddToBuckets(g, bs, f))) == multiset(Flatten(bs)) + multiset{f}
  {
    var k := BucketKey(g, f);
    if k.None? {
      FlattenAppend(bs, Bucket(None, [f]));
      AppendBucketShape(g, bs, Bucket(None, [f]));
    } else {
      match FindBucket(bs, k.value)
      case None =>
        FlattenAppend(bs, Bucket(k, [f]));
        AppendBucketShape(g, bs, Bucket(k, [f]));
      case Some(i) =>
        FlattenUpdate(bs, i, f);
        UpdateBucketShape(g, bs, i, f);
    }
  }

  /** A new one-fire bucket under the fire's own, unused key keeps the shape. */
  lemma AppendBucketShape(g: Grid, bs: seq<Bucket>, b: Bucket)
    requires g.spacing > 0.0 && WellBucketed(g, bs)
    requires |b.fires| == 1 && BucketKey(g, b.fires[0]) == b.key
    requires b.key.Some? ==> forall i :: 0 <= i < |bs| ==> bs[i].key != b.key
    ensures WellBucketed(g, bs + [b])
  {
    var bs' := bs + [b];
    forall i, h | 0 <= i < |bs'| && h in bs'[i].fires
      ensures BucketKey(g, h) == bs'[i].key
    {
      if i < |bs| {
        assert bs'[i] == bs[i];
      }
    }
    forall i, j | 0 <= i < j < |bs'| && bs'[i].key.Some?
      ensures bs'[i].key != bs'[j].key
    {
      assert bs'[i] == bs[i];
      if j < |bs| {
        assert bs'[j] == bs[j];
      }
    }
  }

  /** Adding a fire to the bucket under its own key keeps the shape. */
  lemma UpdateBucketShape(g: Grid, bs: seq<Bucket>, i: nat, f: Fire)
    requires g.spacing > 0.0 && WellBucketed(g, bs)
    requires i < |bs| && bs[i].key == BucketKey(g, f) && bs[i].key.Some?
    ensures WellBucketed(g, bs[i := Bucket(bs[i].key, bs[i].fires + [f])])
  {
    var bs' := bs[i := Bucket(bs[i].key, bs[i].fires + [f])];
    forall j, h | 0 <= j < |bs'| && h in bs'[j].fires
      ensures BucketKey(g, h) == bs'[j].key
    {
      if j == i && h !in bs[i].fires {
        assert h == f;
      }
    }
  }

  /** `_bucket_fires` as a keyed fold: buckets in order of first appearance. */
  function BucketAll(g: Grid, fires: seq<Fire>): (bs: seq<Bucket>)
    requires g.spacing > 0.0
    ensures WellBucketed(g, bs)
    ensures multiset(Flatten(bs)) == multiset(fires)
  {
    if |fires| == 0 then []
    else
      var bs := BucketAll(g, fires[..|fires| - 1]);
      BucketStep(g, fires, bs);
      AddToBuckets(g, bs, fires[|fires| - 1])
  }

  lemma BucketStep(g: Grid, fires: seq<Fire>, bs: seq<Bucket>)
    requires g.spacing > 0.0 && WellBucketed(g, bs) && |fires| > 0
    requires multiset(Flatten(bs)) == multiset(fires[..|fires| - 1])
    ensures WellBucketed(g, AddToBuckets(g, bs, fires[|fires| - 1]))
    ensures multiset(Flatten(AddToBuckets(g, bs, fires[|fires| - 1]))) == multiset(fires)
  {
    var pre, f := fires[..|fires| - 1], fires[|fires| - 1];
    AddToBucketsKeepsShape(g, bs, f);
    assert fires == pre + [f];
  }

  /** `_bucket_fires`: a partition of the input into non-empty buckets. */
  function BucketFires(g: Grid, fires: seq<Fire>): (r: seq<seq<Fire>>)
    requires g.spacing > 0.0
    ensures |r| == |BucketAll(g, fires)|
    ensures forall i :: 0 <= i < |r| ==> r[i] == BucketAll(g, fires)[i].fires && |r[i]| > 0
  {
    var bs := BucketAll(g, fires);
    seq(|bs|, i requires 0 <= i < |bs| => bs[i].fires)
  }

  /** Every fire lands in exactly the buckets that the input had it, counted with
      multiplicity: the buckets partition the input. */
  lemma BucketFiresPartition(g: Grid, fires: seq<Fire>)
    requires g.spacing > 0.0
    ensures multiset(Flatten(BucketAll(g, fires))) == multiset(fires)
    ensures forall i :: 0 <= i < |BucketFires(g, fires)| ==> |BucketFires(g, fires)[i]| > 0
  {
  }

  /** A fire outside the boundary is alone in its bucket. */
  lemma OutsideFireAlone(g: Grid, fires: seq<Fire>, i: nat, f: Fire)
    requires g.spacing > 0.0
    requires i < |BucketFires(g, fires)| && f in BucketFires(g, fires)[i] && !InBoundary(g, f)
    ensures BucketFires(g, fires)[i] == [f]
  {
    var b := BucketAll(g, fires)[i];
    assert BucketKey(g, f) == b.key;
  }

  /** Two fires inside the boundary share a bucket exactly when they share a cell. */
  lemma SameCellSameBucket(g: Grid, fires: seq<Fire>, i: nat, j: nat, f: Fire, h: Fire)
    requires g.spacing > 0.0
    requires i < |BucketFires(g, fires)| && j < |BucketFires(g, fires)|
    requires f in BucketFires(g, fires)[i] && h in BucketFires(g, fires)[j]
    requires InBoundary(g, f) && InBoundary(g, h)
    ensures CellOf(g, f) == CellOf(g, h) <==> i == j
  {
    var bs := BucketAll(g, fires);
    assert BucketKey(g, f) == bs[i].key && BucketKey(g, h) == bs[j].key;
    if i < j {
      assert bs[i].key != bs[j].key;
    } else if j < i {
      assert bs[j].key != bs[i].key;
    }
  }
}

=== FILE: plumegrid_fixture.dfy ===
/** The bucketing scenario of the PlumeMerger tests: seven fires on the test grid
    of half-degree cells between 30N 120W and 40N 110W. */
module PlumeGridFixture {
  import opened Common
  import opened Fires
  import opened PlumeGrid

  /** A fire that only has an id and a location. */
  function Located(id: string, lat: real, lng: real): Fire
  {
    Fire(id, {}, map[], 0, 0, 0.0, lat, lng, 0.0, map[], map[], map[], map[], 0.0)
  }

  const TestGrid := Grid(0.5, LatLng(30.0, -120.0), LatLng(40.0, -110.0))

  const F1 := Located("1", 32.1, -100.1)
  const F15 := Located("1.5", 32.2, -100.2)
  const F2 := Located("2", 36.22, -111.1)
  const F3 := Located("3", 32.2, -110.0)
  const F4 := Located("4", 32.2, -111.2)
  const F5 := Located("5", 36.1, -111.4)
  const F6 := Located("6", 36.4, -111.3)

  /** The bucket keys of the seven fires: the first two lie east of the
      boundary, the others in the cells their coordinates fall in. */
  lemma TestKeys(g: Grid)
    requires g == TestGrid
    ensures BucketKey(g, F1) == None && BucketKey(g, F15) == None
    ensures BucketKey(g, F2) == Some(Cell(12, 17))
    ensures BucketKey(g, F3) == Some(Cell(4, 20))
    ensures BucketKey(g, F4) == Some(Cell(4, 17))
    ensures BucketKey(g, F5) == Some(Cell(12, 17))
    ensures BucketKey(g, F6) == Some(Cell(12, 17))
  {
  }

  /** Bucketing a prefix one fire longer adds that fire to the buckets. */
  lemma BucketAllPrefix(g: Grid, fires: seq<Fire>, k: nat)
    requires g.spacing > 0.0 && 0 < k <= |fires|
    ensures BucketAll(g, fires[..k]) == AddToBuckets(g, BucketAll(g, fires[..k - 1]), fires[k - 1])
  {
    assert fires[..k][..k - 1] == fires[..k - 1];
  }

  /** Bucketing seven fires is adding them one at a time, in order. */
  lemma BucketAllSeven(g: Grid, fires: seq<Fire>)
    requires g.spacing > 0.0 && |fires| == 7
    ensures BucketAll(g, fires)
         == AddToBuckets(g, AddToBuckets(g, AddToBuckets(g, AddToBuckets(g, AddToBuckets(g,
              AddToBuckets(g, AddToBuckets(g, [], fires[0]), fires[1]), fires[2]), fires[3]), fires[4]), fires[5]), fires[6])
  {
    assert fires[..0] == [];
    assert fires[..7] == fires;
    BucketAllPrefix(g, fires, 1);
    BucketAllPrefix(g, fires, 2);
    BucketAllPrefix(g, fires, 3);
    BucketAllPrefix(g, fires, 4);
    BucketAllPrefix(g, fires, 5);
    BucketAllPrefix(g, fires, 6);
    BucketAllPrefix(g, fires, 7);
  }

  /** The three ways one more fire lands in the buckets, given its key. */
  lemma AddOutside(g: Grid, bs: seq<Bucket>, f: Fire)
    requires g.spacing > 0.0 && BucketKey(g, f) == None
    ensures AddToBuckets(g, bs, f) == bs + [Bucket(None, [f])]
  {
  }

  lemma AddNewCell(g: Grid, bs: seq<Bucket>, f: Fire, c: Cell)
    requires g.spacing > 0.0 && BucketKey(g, f) == Some(c)
    requires forall i :: 0 <= i < |bs| ==> bs[i].key != Some(c)
    ensures AddToBuckets(g, bs, f) == bs + [Bucket(Some(c), [f])]
  {
  }

  lemma AddKnownCell(g: Grid, bs: seq<Bucket>, f: Fire, c: Cell, i: nat)
    requires g.spacing > 0.0 && BucketKey(g, f) == Some(c)
    requires i < |bs| && bs[i].key == Some(c)
    requires forall j :: 0 <= j < |bs| && j != i ==> bs[j].key != Some(c)
    ensures AddToBuckets(g, bs, f) == bs[i := Bucket(Some(c), bs[i].fires + [f])]
  {
    assert FindBucket(bs, c) == Some(i);
  }

  /** The first five fires of `test_bucket_fires`, two outside the boundary and
      three in distinct cells, added one at a time, open five buckets. */
  lemma OpenFive(g: Grid, a: Fire, b: Fire, c: Fire, d: Fire, e: Fire, p: Cell, q: Cell, r: Cell)
    requires g.spacing > 0.0
    requires BucketKey(g, a) == None && BucketKey(g, b) == None
    requires BucketKey(g, c) == Some(p) && BucketKey(g, d) == Some(q) && BucketKey(g, e) == Some(r)
    requires p != q && p != r && q != r
    ensures AddToBuckets(g, AddToBuckets(g, AddToBuckets(g, AddToBuckets(g, AddToBuckets(g, [], a), b), c), d), e)
         == [Bucket(None, [a]), Bucket(None, [b]), Bucket(Some(p), [c]), Bucket(Some(q), [d]), Bucket(Some(r), [e])]
  {
    var b1 := [Bucket(None, [a])];
    var b2 := [Bucket(None, [a]), Bucket(None, [b])];
    var b3 := [Bucket(None, [a]), Bucket(None, [b]), Bucket(Some(p), [c])];
    var b4 := [Bucket(None, [a]), Bucket(None, [b]), Bucket(Some(p), [c]), Bucket(Some(q), [d])];
    AddOutside(g, [], a);
    assert AddToBuckets(g, [], a) == b1;
    AddOutside(g, b1, b);
    assert AddToBuckets(g, b1, b) == b2;
    AddNewCell(g, b2, c, p);
    assert AddToBuckets(g, b2, c) == b3;
    AddNewCell(g, b3, d, q);
    assert AddToBuckets(g, b3, d) == b4;
    AddNewCell(g, b4, e, r);
  }

  /** Two more fires in the cell of the third of five buckets, and of no other,
      join that bucket. */
  lemma JoinTwo(g: Grid, bs: seq<Bucket>, f: Fire, h: Fire, p: Cell)
    requires g.spacing > 0.0 && |bs| == 5 && bs[2].key == Some(p)
    requires bs[0].key != Some(p) && bs[1].key != Some(p) && bs[3].key != Some(p) && bs[4].key != Some(p)
    requires BucketKey(g, f) == Some(p) && BucketKey(g, h) == Some(p)
    ensures AddToBuckets(g, AddToBuckets(g, bs, f), h) == bs[2 := Bucket(Some(p), bs[2].fires + [f, h])]
  {
    var bs' := bs[2 := Bucket(Some(p), bs[2].fires + [f])];
    AddKnownCell(g, bs, f, p, 2);
    AddKnownCell(g, bs', h, p, 2);
    assert bs[2].fires + [f] + [h] == bs[2].fires + [f, h];
  }

  /** Seven fires keyed as in `test_bucket_fires` (two outside the boundary, then
      cells p, q, r, p, p with p, q, r distinct), added one at a time, make five
      buckets. */
  lemma AddSeven(g: Grid, a: Fire, b: Fire, c: Fire, d: Fire, e: Fire, f: Fire, h: Fire, p: Cell, q: Cell, r: Cell)
    requires g.spacing > 0.0
    requires BucketKey(g, a) == None && BucketKey(g, b) == None
    requires BucketKey(g, c) == Some(p) && BucketKey(g, d) == Some(q) && BucketKey(g, e) == Some(r)
    requires BucketKey(g, f) == Some(p) && BucketKey(g, h) == Some(p)
    requires p != q && p != r && q != r
    ensures AddToBuckets(g, AddToBuckets(g, AddToBuckets(g, AddToBuckets(g, AddToBuckets(g,
              AddToBuckets(g, AddToBuckets(g, [], a), b), c), d), e), f), h)
         == [Bucket(None, [a]), Bucket(None, [b]), Bucket(Some(p), [c, f, h]), Bucket(Some(q), [d]), Bucket(Some(r), [e])]
  {
    var b5 := [Bucket(None, [a]), Bucket(None, [b]), Bucket(Some(p), [c]), Bucket(Some(q), [d]), Bucket(Some(r), [e])];
    OpenFive(g, a, b, c, d, e, p, q, r);
    JoinTwo(g, b5, f, h, p);
    assert [c] + [f, h] == [c, f, h];
  }

  /** The fires of five buckets, bucket by bucket. */
  lemma FiresOfFive(g: Grid, fires: seq<Fire>, x0: Bucket, x1: Bucket, x2: Bucket, x3: Bucket, x4: Bucket)
    requires g.spacing > 0.0 && BucketAll(g, fires) == [x0, x1, x2, x3, x4]
    ensures BucketFires(g, fires) == [x0.fires, x1.fires, x2.fires, x3.fires, x4.fires]
  {
    var bs := BucketAll(g, fires);
    var r := BucketFires(g, fires);
    assert r[0] == bs[0].fires && r[1] == bs[1].fires && r[2] == bs[2].fires;
    assert r[3] == bs[3].fires && r[4] == bs[4].fires;
  }

  /** `test_bucket_fires`: fires 2, 5 and 6 share a cell and one bucket; fire 3
      and fire 4 have a cell each; fires 1 and 1.5, outside the boundary, are
      alone. Buckets come in order of first appearance. */
  lemma BucketFiresExample(g: Grid, fires: seq<Fire>)
    requires g == TestGrid
    requires fires == [F1, F15, F2, F3, F4, F5, F6]
    ensures BucketFires(g, fires) == [[F1], [F15], [F2, F5, F6], [F3], [F4]]
  {
    TestKeys(g);
    BucketAllSeven(g, fires);
    AddSeven(g, F1, F15, F2, F3, F4, F5, F6, Cell(12, 17), Cell(4, 20), Cell(4, 17));
    FiresOfFive(g, fires, Bucket(None, [F1]), Bucket(None, [F15]), Bucket(Some(Cell(12, 17)), [F2, F5, F6]),
      Bucket(Some(Cell(4, 20)), [F3]), Bucket(Some(Cell(4, 17)), [F4]));
  }
}

=== FILE: plumemerge.dfy ===
/** PlumeMerger: merging all fires of a grid bucket into one record, and the
    bucket-by-bucket merge of a whole fire list. */
module PlumeMerge {
  import opened Common
  import opened Fires
  import opened PlumeGrid
  import opened PlumeProfiles

  /** The hours for which some fire has plume rise. */
  function PlumeHours(fires: seq<Fire>): (r: set<Hour>)
    ensures forall h :: h in r <==> exists i :: 0 <= i < |fires| && h in fires[i].plumerise
  {
    if |fires| == 0 then {}
    else
      var pre := fires[..|fires| - 1];
      var r := PlumeHours(pre) + fires[|fires| - 1].plumerise.Keys;
      assert forall i :: 0 <= i < |pre| ==> pre[i] == fires[i];
      r
  }

  /** The fires having plume rise for hour `h`, in order. */
  function WithHour(fires: seq<Fire>, h: Hour): (r: seq<Fire>)
    ensures |r| <= |fires|
    ensures forall f :: f in r <==> f in fires && h in f.plumerise
  {
    if |fires| == 0 then []
    else
      var pre := WithHour(fires[..|fires| - 1], h);
      var f := fires[|fires| - 1];
      assert forall g :: g in fires <==> g in fires[..|fires| - 1] || g == f by {
        assert fires == fires[..|fires| - 1] + [f];
      }
      if h in f.plumerise then pre + [f] else pre
  }

  /** Why a bucket cannot be merged: the hours whose profiles cannot be combined. */
  datatype MergeError = UnmergeableHours(hours: set<Hour>)

  /** The merged profile of hour `h`: copied when one fire has the hour, otherwise
      re-binned into as many bins as the first such fire's profile has. */
  function MergeHour(fires: seq<Fire>, h: Hour): (r: Result<PlumeProfile, HourError>)
    ensures |WithHour(fires, h)| == 0 ==> r.Failure?
    ensures |WithHour(fires, h)| == 1 ==> r == Success(WithHour(fires, h)[0].plumerise[h])
    ensures |WithHour(fires, h)| > 1 && r.Success? ==>
      && |r.value.emissionFractions| == |WithHour(fires, h)[0].plumerise[h].emissionFractions|
      && |r.value.heights| == |r.value.emissionFractions| + 1
  {
    var with := WithHour(fires, h);
    if |with| == 0 then Failure(NoBins)
    else if |with| == 1 then Success(with[0].plumerise[h])
    else
      var agg := AggregateHour(fires, h);
      if agg.None? then Failure(NoHeights)
      else RebinHour(agg.value, |with[0].plumerise[h].emissionFractions|)
  }

  /** Merging normalized profiles gives fractions adding up to one, whether the
      hour is copied from its one fire or re-binned from several; with no
      negative PM2.5 the merged profile is normalized. */
  lemma MergeHourNormalized(fires: seq<Fire>, h: Hour)
    requires forall i :: 0 <= i < |fires| && h in fires[i].plumerise ==> Normalized(fires[i].plumerise[h])
    requires MergeHour(fires, h).Success?
    ensures Sum(MergeHour(fires, h).value.emissionFractions) == 1.0
    ensures NonNegativeWeights(fires, h) ==> Normalized(MergeHour(fires, h).value)
  {
    var with := WithHour(fires, h);
    if |with| == 1 {
      assert with[0] in with;
      var i :| 0 <= i < |fires| && fires[i] == with[0];
    } else {
      MergedHourNormalized(fires, h, |with[0].plumerise[h].emissionFractions|);
    }
  }

  /** The hours whose merged profile cannot be computed. */
  function FailingHours(fires: seq<Fire>): (r: set<Hour>)
    ensures forall h :: h in r <==> h in PlumeHours(fires) && MergeHour(fires, h).Failure?
  {
    set h | h in PlumeHours(fires) && MergeHour(fires, h).Failure?
  }

  /** Metadata of all fires, a later fire's value winning on a shared key. */
  function MetaUnion(fires: seq<Fire>): (r: map<string, string>)
    ensures forall k :: k in r <==> exists i :: 0 <= i < |fires| && k in fires[i].meta
    ensures forall k :: k in r ==> 0 <= LastWithKey(fires, k) && r[k] == fires[LastWithKey(fires, k)].meta[k]
  {
    if |fires| == 0 then map[]
    else
      var pre := fires[..|fires| - 1];
      var r := MetaUnion(pre) + fires[|fires| - 1].meta;
      MetaUnionKeys(fires, pre, MetaUnion(pre), r);
      MetaUnionValues(fires, pre, MetaUnion(pre), r);
      r
  }

  lemma MetaUnionKeys(fires: seq<Fire>, pre: seq<Fire>, m: map<string, string>, r: map<string, string>)
    requires |fires| > 0 && pre == fires[..|fires| - 1]
    requires forall k :: k in m <==> exists i :: 0 <= i < |pre| && k in pre[i].meta
    requires r == m + fires[|fires| - 1].meta
    ensures forall k :: k in r <==> exists i :: 0 <= i < |fires| && k in fires[i].meta
  {
    var n := |fires| - 1;
    forall k | k in r
      ensures exists i :: 0 <= i < |fires| && k in fires[i].meta
    {
      if k in fires[n].meta {
        assert 0 <= n < |fires| && k in fires[n].meta;
      } else {
        assert k in m;
        var i :| 0 <= i < |pre| && k in pre[i].meta;
        assert fires[i] == pre[i];
      }
    }
    forall k, i | 0 <= i < |fires| && k in fires[i].meta
      ensures k in r
    {
      if i < n {
        assert pre[i] == fires[i];
        assert k in m;
      }
    }
  }

  lemma MetaUnionValues(fires: seq<Fire>, pre: seq<Fire>, m: map<string, string>, r: map<string, string>)
    requires |fires| > 0 && pre == fires[..|fires| - 1]
    requires forall k :: k in m ==> 0 <= LastWithKey(pre, k) && m[k] == pre[LastWithKey(pre, k)].meta[k]
    requires r == m + fires[|fires| - 1].meta
    ensures forall k :: k in r ==> 0 <= LastWithKey(fires, k) && r[k] == fires[LastWithKey(fires, k)].meta[k]
  {
    var n := |fires| - 1;
    forall k | k in r
      ensures 0 <= LastWithKey(fires, k) && r[k] == fires[LastWithKey(fires, k)].meta[k]
    {
      if k in fires[n].meta {
        assert LastWithKey(fires, k) == n;
      } else {
        assert LastWithKey(fires, k) == LastWithKey(pre, k);
        assert k in m;
        var i := LastWithKey(pre, k);
        assert pre[i] == fires[i];
      }
    }
  }

  /** The index of the last fire whose meta has key `k` (-1 when none has). */
  function LastWithKey(fires: seq<Fire>, k: string): (i: int)
    ensures -1 <= i < |fires|
    ensures i >= 0 ==> k in fires[i].meta
    ensures forall j :: i < j < |fires| ==> k !in fires[j].meta
  {
    if |fires| == 0 then -1
    else if k in fires[|fires| - 1].meta then |fires| - 1
    else LastWithKey(fires[..|fires| - 1], k)
  }

  /** The earliest start and the latest end. */
  function MinStart(fires: seq<Fire>): (m: Hour)
    requires |fires| > 0
    ensures exists i :: 0 <= i < |fires| && fires[i].start == m
    ensures forall i :: 0 <= i < |fires| ==> m <= fires[i].start
  {
    if |fires| == 1 then fires[0].start
    else
      var m := MinStart(fires[..|fires| - 1]);
      assert forall i :: 0 <= i < |fires| - 1 ==> fires[..|fires| - 1][i] == fires[i];
      if fires[|fires| - 1].start < m then fires[|fires| - 1].start else m
  }

  function MaxEnd(fires: seq<Fire>): (m: Hour)
    requires |fires| > 0
    ensures exists i :: 0 <= i < |fires| && fires[i].end == m
    ensures forall i :: 0 <= i < |fires| ==> fires[i].end <= m
  {
    if |fires| == 1 then fires[0].end
    else
      var m := MaxEnd(fires[..|fires| - 1]);
      assert forall i :: 0 <= i < |fires| - 1 ==> fires[..|fires| - 1][i] == fires[i];
      if fires[|fires| - 1].end > m then fires[|fires| - 1].end else m
  }

  /** The value a map holds under `k`, as a function of the map. */
  function ValueAt<K>(k: K): map<K, real> -> real { m => ValueOr0(m, k) }

  /** Key-wise sum of a sequence of maps. */
  function SumMaps<K(!new)>(ms: seq<map<K, real>>): (r: map<K, real>)
    ensures forall k :: k in r <==> exists i :: 0 <= i < |ms| && k in ms[i]
    ensures forall k :: ValueOr0(r, k) == SumOf(ms, ValueAt(k))
  {
    if |ms| == 0 then map[]
    else
      var s := SumMaps(ms[..|ms| - 1]);
      var r := AddByKey(s, ms[|ms| - 1]);
      SumMapsStep(ms, s, r);
      r
  }

  /** Adding the last map to the sum of the others sums them all. */
  lemma SumMapsStep<K>(ms: seq<map<K, real>>, s: map<K, real>, r: map<K, real>)
    requires |ms| > 0 && r == AddByKey(s, ms[|ms| - 1])
    requires forall k :: k in s <==> exists i :: 0 <= i < |ms| - 1 && k in ms[i]
    requires forall k :: ValueOr0(s, k) == SumOf(ms[..|ms| - 1], ValueAt(k))
    ensures forall k :: k in r <==> exists i :: 0 <= i < |ms| && k in ms[i]
    ensures forall k :: ValueOr0(r, k) == SumOf(ms, ValueAt(k))
  {
    forall k
      ensures k in r <==> exists i :: 0 <= i < |ms| && k in ms[i]
    {
      if k in s {
        var i :| 0 <= i < |ms| - 1 && k in ms[i];
      }
    }
    forall k
      ensures ValueOr0(r, k) == SumOf(ms, ValueAt(k))
    {
      assert SumOf(ms, ValueAt(k)) == SumOf(ms[..|ms| - 1], ValueAt(k)) + ValueOr0(ms[|ms| - 1], k);
    }
  }

  /** The emission of species `s` in hour `h`, zero when either is missing. */
  function SpeciesAt(m: map<Hour, map<string, real>>, h: Hour, s: string): real
  {
    if h in m then ValueOr0(m[h], s) else 0.0
  }

  function EmissionAt(h: Hour, s: string): map<Hour, map<string, real>> -> real { m => SpeciesAt(m, h, s) }

  lemma AddEmissionsSpecies(a: map<Hour, map<string, real>>, b: map<Hour, map<string, real>>, h: Hour, s: string)
    ensures SpeciesAt(AddEmissionsByKey(a, b), h, s) == SpeciesAt(a, h, s) + SpeciesAt(b, h, s)
  {
  }

  /** Hour- and species-wise sum of a sequence of emission maps. */
  function SumEmissions(ms: seq<map<Hour, map<string, real>>>): (r: map<Hour, map<string, real>>)
    ensures forall h :: h in r <==> exists i :: 0 <= i < |ms| && h in ms[i]
    ensures forall h, s :: SpeciesAt(r, h, s) == SumOf(ms, EmissionAt(h, s))
  {
    if |ms| == 0 then map[]
    else
      var pre := ms[..|ms| - 1];
      assert forall i :: 0 <= i < |pre| ==> pre[i] == ms[i];
      var r := AddEmissionsByKey(SumEmissions(pre), ms[|ms| - 1]);
      assert forall h, s :: SpeciesAt(r, h, s) == SumOf(ms, EmissionAt(h, s)) by {
        forall h, s
          ensures SpeciesAt(r, h, s) == SumOf(ms, EmissionAt(h, s))
        {
          AddEmissionsSpecies(SumEmissions(pre), ms[|ms| - 1], h, s);
        }
      }
      r
  }

  function AreaMaps(fires: seq<Fire>): (r: seq<map<Hour, real>>)
    ensures |r| == |fires| && forall i :: 0 <= i < |fires| ==> r[i] == fires[i].timeprofiledArea
  {
    seq(|fires|, i requires 0 <= i < |fires| => fires[i].timeprofiledArea)
  }

  function EmissionMaps(fires: seq<Fire>): (r: seq<map<Hour, map<string, real>>>)
    ensures |r| == |fires| && forall i :: 0 <= i < |fires| ==> r[i] == fires[i].timeprofiledEmissions
  {
    seq(|fires|, i requires 0 <= i < |fires| => fires[i].timeprofiledEmissions)
  }

  function ConsumptionMaps(fires: seq<Fire>): (r: seq<map<string, real>>)
    ensures |r| == |fires| && forall i :: 0 <= i < |fires| ==> r[i] == fires[i].consumption
  {
    seq(|fires|, i requires 0 <= i < |fires| => fires[i].consumption)
  }

  function Latitude(f: Fire): real { f.latitude }
  function Longitude(f: Fire): real { f.longitude }

  /** The plain (unweighted) mean of a coordinate over the fires. */
  function Mean(fires: seq<Fire>, coord: Fire -> real): (r: real)
    requires |fires| > 0
    ensures r * (|fires| as real) == SumOf(fires, coord)
  {
    var r := SumOf(fires, coord) / (|fires| as real);
    DivTimes(r, SumOf(fires, coord), |fires| as real);
    r
  }

  /** A single fire's sums and unions are its own fields. */
  lemma SingleFireTotals(fires: seq<Fire>)
    requires |fires| == 1
    ensures Sum(Areas(fires)) == fires[0].area && Sum(Heats(fires)) == fires[0].heat
    ensures AllOriginalIds(fires) == fires[0].originalFireIds
  {
    assert fires[..0] == [];
    SumSingle(fires[0].area);
    SumSingle(fires[0].heat);
    assert Areas(fires) == [fires[0].area] && Heats(fires) == [fires[0].heat];
  }

  /** The merged plume rise: every hour's merged profile. */
  function MergedPlumerise(fires: seq<Fire>): (r: map<Hour, PlumeProfile>)
    requires FailingHours(fires) == {}
    ensures r.Keys == PlumeHours(fires)
    ensures forall h :: h in r ==> Success(r[h]) == MergeHour(fires, h)
  {
    map h | h in PlumeHours(fires) :: MergeHour(fires, h).value
  }

  /** The record several fires merge into. */
  function Combined(fires: seq<Fire>, id: string): Fire
    requires |fires| > 1 && FailingHours(fires) == {}
  {
    Fire(
      id,
      AllOriginalIds(fires),
      MetaUnion(fires),
      MinStart(fires),
      MaxEnd(fires),
      Sum(Areas(fires)),
      Mean(fires, Latitude),
      Mean(fires, Longitude),
      fires[0].utcOffset,
      MergedPlumerise(fires),
      SumMaps(AreaMaps(fires)),
      SumEmissions(EmissionMaps(fires)),
      SumMaps(ConsumptionMaps(fires)),
      Sum(Heats(fires)))
  }

  function FireArea(f: Fire): real { f.area }
  function FireHeat(f: Fire): real { f.heat }

  /** A merged record carries exactly the area, heat and original ids of its fires. */
  predicate Conserves(fires: seq<Fire>, m: Fire)
  {
    && m.area == SumOf(fires, FireArea)
    && m.heat == SumOf(fires, FireHeat)
    && m.originalFireIds == AllOriginalIds(fires)
  }

  lemma AreasSumOf(fires: seq<Fire>)
    ensures Sum(Areas(fires)) == SumOf(fires, FireArea)
    ensures Sum(Heats(fires)) == SumOf(fires, FireHeat)
  {
    SumOfIsSum(fires, FireArea);
    SumOfIsSum(fires, FireHeat);
    assert Areas(fires) == Project(fires, FireArea);
    assert Heats(fires) == Project(fires, FireHeat);
  }

  lemma CombinedConserves(fires: seq<Fire>, id: string)
    requires |fires| > 1 && FailingHours(fires) == {}
    ensures Combined(fires, id).id == id
    ensures Conserves(fires, Combined(fires, id))
  {
    AreasSumOf(fires);
  }

  /** The merged window runs from the earliest start to the latest end. */
  lemma CombinedWindow(fires: seq<Fire>, id: string)
    requires |fires| > 1 && FailingHours(fires) == {}
    ensures var m := Combined(fires, id);
      && (forall i :: 0 <= i < |fires| ==> m.start <= fires[i].start && fires[i].end <= m.end)
      && (exists i :: 0 <= i < |fires| && fires[i].start == m.start)
      && (exists i :: 0 <= i < |fires| && fires[i].end == m.end)
  {
    var m := Combined(fires, id);
    assert m.start == MinStart(fires) && m.end == MaxEnd(fires);
  }

  /** The merged plume rise covers every fire's hours, each with its merged profile.
      When every input profile is normalized, every merged one has fractions
      adding up to one, and is normalized when no fire has negative PM2.5. */
  lemma CombinedPlumerise(fires: seq<Fire>, id: string)
    requires |fires| > 1 && FailingHours(fires) == {}
    ensures Combined(fires, id).plumerise.Keys == PlumeHours(fires)
    ensures forall h :: h in Combined(fires, id).plumerise ==> Success(Combined(fires, id).plumerise[h]) == MergeHour(fires, h)
    ensures (forall i, h :: 0 <= i < |fires| && h in fires[i].plumerise ==> Normalized(fires[i].plumerise[h])) ==>
      forall h :: h in Combined(fires, id).plumerise ==>
        && Sum(Combined(fires, id).plumerise[h].emissionFractions) == 1.0
        && (NonNegativeWeights(fires, h) ==> Normalized(Combined(fires, id).plumerise[h]))
  {
    var p := Combined(fires, id).plumerise;
    if forall i, h :: 0 <= i < |fires| && h in fires[i].plumerise ==> Normalized(fires[i].plumerise[h]) {
      forall h | h in p
        ensures Sum(p[h].emissionFractions) == 1.0
        ensures NonNegativeWeights(fires, h) ==> Normalized(p[h])
      {
        MergeHourNormalized(fires, h);
      }
    }
  }

  /** The merged record's hourly area and consumption are the key-wise sums
      over the fires. */
  lemma CombinedSums(fires: seq<Fire>, id: string)
    requires |fires| > 1 && FailingHours(fires) == {}
    ensures forall h :: ValueOr0(Combined(fires, id).timeprofiledArea, h) == SumOf(AreaMaps(fires), ValueAt(h))
    ensures forall k :: ValueOr0(Combined(fires, id).consumption, k) == SumOf(ConsumptionMaps(fires), ValueAt(k))
  {
  }

  /** The merged record's metadata has every fire's keys, each with the value
      of the last fire that has it; its UTC offset is the first fire's. */
  lemma CombinedMeta(fires: seq<Fire>, id: string)
    requires |fires| > 1 && FailingHours(fires) == {}
    ensures forall k :: k in Combined(fires, id).meta <==> exists i :: 0 <= i < |fires| && k in fires[i].meta
    ensures forall k :: k in Combined(fires, id).meta ==>
      Combined(fires, id).meta[k] == fires[LastWithKey(fires, k)].meta[k]
    ensures Combined(fires, id).utcOffset == fires[0].utcOffset
  {
    var m := Combined(fires, id);
    var u := MetaUnion(fires);
    assert m.meta == u;
  }

  /** The merged record's hourly emissions are the hour- and species-wise sums. */
  lemma CombinedEmissions(fires: seq<Fire>, id: string)
    requires |fires| > 1 && FailingHours(fires) == {}
    ensures forall h, s :: SpeciesAt(Combined(fires, id).timeprofiledEmissions, h, s) == SumOf(EmissionMaps(fires), EmissionAt(h, s))
  {
  }

  /** `_merge_fires`: one fire is returned as it is; several become one record with
      a fresh id, the union of ids and metadata, the widest window, summed area,
      heat, consumption and hourly quantities, the mean location and, hour by hour,
      the merged plume profile. Fails when some hour's profiles cannot be merged. */
  function MergeFires(fires: seq<Fire>, id: string): (r: Result<Fire, MergeError>)
    requires |fires| > 0
    ensures |fires| == 1 ==> r == Success(fires[0])
    ensures r.Failure? <==> |fires| > 1 && FailingHours(fires) != {}
    ensures r.Failure? ==> r.error == UnmergeableHours(FailingHours(fires))
    ensures r.Success? ==> Conserves(fires, r.value)
    ensures |fires| > 1 && r.Success? ==> r.value == Combined(fires, id)
  {
    if |fires| == 1 then
      SingleFireTotals(fires);
      AreasSumOf(fires);
      Success(fires[0])
    else if FailingHours(fires) != {} then Failure(UnmergeableHours(FailingHours(fires)))
    else
      CombinedConserves(fires, id);
      Success(Combined(fires, id))
  }


  /** Each bucket merged under the id `newId(i)`, `i` its position. */
  function MergeEach(bs: seq<seq<Fire>>, newId: nat -> string): (rs: seq<Result<Fire, MergeError>>)
    requires forall i :: 0 <= i < |bs| ==> |bs[i]| > 0
    ensures |rs| == |bs| && forall i :: 0 <= i < |bs| ==> rs[i] == MergeFires(bs[i], newId(i))
  {
    seq(|bs|, i requires 0 <= i < |bs| => MergeFires(bs[i], newId(i)))
  }

  /** The merged buckets, or the error of the first bucket that fails. */
  function MergeBuckets(bs: seq<seq<Fire>>, newId: nat -> string): (r: Result<seq<Fire>, MergeError>)
    requires forall i :: 0 <= i < |bs| ==> |bs[i]| > 0
    ensures r.Success? ==> |r.value| == |bs|
    ensures r.Success? ==> forall i :: 0 <= i < |bs| ==> MergeFires(bs[i], newId(i)) == Success(r.value[i])
    ensures r.Failure? <==> exists i :: 0 <= i < |bs| && MergeFires(bs[i], newId(i)).Failure?
  {
    Collect(MergeEach(bs, newId))
  }

  /** `PlumeMerger.merge`: bucket the fires by grid cell, then merge each bucket. */
  function Merge(g: Grid, fires: seq<Fire>, newId: nat -> string): (r: Result<seq<Fire>, MergeError>)
    requires g.spacing > 0.0
    ensures r.Success? ==> |r.value| == |BucketFires(g, fires)| <= |fires|
    ensures r.Success? ==> SumOf(r.value, FireArea) == SumOf(fires, FireArea)
    ensures r.Success? ==> SumOf(r.value, FireHeat) == SumOf(fires, FireHeat)
    ensures r.Success? ==> AllOriginalIds(r.value) == AllOriginalIds(fires)
  {
    var bs := BucketFires(g, fires);
    BucketFiresPartition(g, fires);
    var r := MergeBuckets(bs, newId);
    if r.Success? then
      forall i | 0 <= i < |bs|
        ensures Conserves(bs[i], r.value[i])
      {
        assert MergeFires(bs[i], newId(i)) == Success(r.value[i]);
      }
      MergedBucketsConserve(bs, r.value);
      assert Flatten(BucketAll(g, fires)) == Concat(bs) by {
        FlattenIsConcat(BucketAll(g, fires), bs);
      }
      SumOfPermutation(Concat(bs), fires, FireArea);
      SumOfPermutation(Concat(bs), fires, FireHeat);
      BucketCount(bs);
      assert |Concat(bs)| == |fires| by {
        assert |multiset(Concat(bs))| == |multiset(fires)|;
      }
      AllOriginalIdsPermutation(Concat(bs), fires);
      r
    else r
  }

  /** All buckets' fires, bucket after bucket. */
  function Concat(bs: seq<seq<Fire>>): seq<Fire>
  {
    if |bs| == 0 then [] else Concat(bs[..|bs| - 1]) + bs[|bs| - 1]
  }

  lemma {:induction false} FlattenIsConcat(buckets: seq<Bucket>, bs: seq<seq<Fire>>)
    requires |buckets| == |bs| && forall i :: 0 <= i < |bs| ==> bs[i] == buckets[i].fires
    ensures Flatten(buckets) == Concat(bs)
  {
    if |bs| > 0 {
      FlattenIsConcat(buckets[..|bs| - 1], bs[..|bs| - 1]);
      FlattenAppend(buckets[..|bs| - 1], buckets[|bs| - 1]);
      assert buckets == buckets[..|bs| - 1] + [buckets[|bs| - 1]];
    }
  }

  /** Non-empty buckets are at most as many as their fires. */
  lemma {:induction false} BucketCount(bs: seq<seq<Fire>>)
    requires forall i :: 0 <= i < |bs| ==> |bs[i]| > 0
    ensures |bs| <= |Concat(bs)|
  {
    if |bs| > 0 {
      BucketCount(bs[..|bs| - 1]);
    }
  }

  /** Merged buckets carry exactly the area, heat and ids of their fires. */
  lemma {:induction false} MergedBucketsConserve(bs: seq<seq<Fire>>, merged: seq<Fire>)
    requires |merged| == |bs|
    requires forall i :: 0 <= i < |bs| ==> Conserves(bs[i], merged[i])
    ensures SumOf(merged, FireArea) == SumOf(Concat(bs), FireArea)
    ensures SumOf(merged, FireHeat) == SumOf(Concat(bs), FireHeat)
    ensures AllOriginalIds(merged) == AllOriginalIds(Concat(bs))
  {
    if |bs| > 0 {
      var k := |bs| - 1;
      assert forall i :: 0 <= i < k ==> bs[..k][i] == bs[i] && merged[..k][i] == merged[i];
      MergedBucketsConserve(bs[..k], merged[..k]);
      assert Conserves(bs[k], merged[k]);
      SumOfAppend(Concat(bs[..k]), bs[k], FireArea);
      SumOfAppend(Concat(bs[..k]), bs[k], FireHeat);
      AllOriginalIdsConcat(Concat(bs[..k]), bs[k]);
    }
  }

  lemma AllOriginalIdsConcat(a: seq<Fire>, b: seq<Fire>)
    ensures AllOriginalIds(a + b) == AllOriginalIds(a) + AllOriginalIds(b)
  {
    forall id
      ensures id in AllOriginalIds(a + b) <==> id in AllOriginalIds(a) + AllOriginalIds(b)
    {
      AllOriginalIdsMember(a + b, id);
      AllOriginalIdsMember(a, id);
      AllOriginalIdsMember(b, id);
      if id in AllOriginalIds(a) {
        var i :| 0 <= i < |a| && id in a[i].originalFireIds;
        assert (a + b)[i] == a[i];
      }
      if id in AllOriginalIds(b) {
        var i :| 0 <= i < |b| && id in b[i].originalFireIds;
        assert (a + b)[|a| + i] == b[i];
      }
      if id in AllOriginalIds(a + b) {
        var i :| 0 <= i < |a + b| && id in (a + b)[i].originalFireIds;
        if i >= |a| {
          assert (a + b)[i] == b[i - |a|];
        }
      }
    }
  }

  lemma AllOriginalIdsPermutation(a: seq<Fire>, b: seq<Fire>)
    requires multiset(a) == multiset(b)
    ensures AllOriginalIds(a) == AllOriginalIds(b)
  {
    forall id
      ensures id in AllOriginalIds(a) <==> id in AllOriginalIds(b)
    {
      AllOriginalIdsMember(a, id);
      AllOriginalIdsMember(b, id);
      if id in AllOriginalIds(a) {
        var i :| 0 <= i < |a| && id in a[i].originalFireIds;
        assert a[i] in multiset(b);
      }
      if id in AllOriginalIds(b) {
        var i :| 0 <= i < |b| && id in b[i].originalFireIds;
        assert b[i] in multiset(a);
      }
    }
  }
}

=== FILE: plumemerge_fixture.dfy ===
/** The two-fire scenario of the PlumeMerger tests, hours counted from midnight of
    the fixture's day: aggregation of hours 17 and 18, re-binning of hour 17. */
module PlumeMergeFixture {
  import opened Common
  import opened Sorting
  import opened Fires
  import opened PlumeProfiles
  import opened PlumeMerge

  const Fire1Hour17 := PlumeProfile([0.4, 0.2, 0.2, 0.2], [90.0, 250.0, 300.0, 325.0, 350.0], 0.05)
  const Fire2Hour17 := PlumeProfile([0.1, 0.3, 0.4, 0.2], [100.0, 200.0, 300.0, 400.0, 500.0], 0.06)
  const Fire2Hour18 := PlumeProfile([0.5, 0.2, 0.2, 0.1], [300.0, 350.0, 400.0, 425.0, 450.0], 0.05)

  /** The plume rise and emissions of the first test fire: hour 17 only. */
  predicate Fire1Plume(f: Fire)
  {
    (f.plumerise, f.timeprofiledEmissions) == (map[17 := Fire1Hour17], map[17 := map["CO" := 22.0, "PM2.5" := 10.0]])
  }

  /** The plume rise and emissions of the second test fire: hours 17 and 18. */
  predicate Fire2Plume(f: Fire)
  {
    (f.plumerise, f.timeprofiledEmissions) ==
    (map[17 := Fire2Hour17, 18 := Fire2Hour18],
     map[17 := map["CO" := 1.0, "PM2.5" := 2.5], 18 := map["CO" := 3.0, "PM2.5" := 5.0]])
  }

  /** The first test fire. */
  predicate IsFire1(f: Fire)
  {
    && Fire1Plume(f)
    && f.id == "aaa" && f.originalFireIds == {"bbb"} && f.meta == map["foo" := "bar"]
    && f.start == 17 && f.end == 18 && f.area == 120.0
    && f.latitude == 47.4 && f.longitude == -121.5 && f.utcOffset == -7.0
    && f.timeprofiledArea == map[17 := 12.0]
    && f.consumption == map["flaming" := 1311.0, "residual" := 1449.0, "smoldering" := 1267.0, "total" := 4027.0]
    && f.heat == 1000000.0
  }

  /** The second test fire. */
  predicate IsFire2(f: Fire)
  {
    && Fire2Plume(f)
    && f.id == "ccc" && f.originalFireIds == {"ddd", "eee"} && f.meta == map["foo" := "bar", "bar" := "baz"]
    && f.start == 17 && f.end == 19 && f.area == 150.0
    && f.latitude == 47.6 && f.longitude == -121.7 && f.utcOffset == -7.0
    && f.timeprofiledArea == map[17 := 20.0, 18 := 30.0]
    && f.consumption == map["flaming" := 200.0, "residual" := 100.0, "smoldering" := 50.0, "total" := 400.0]
    && f.heat == 2000000.0
  }

  const Aggregate18 := HourAggregate(
    [WeightedHeight(325.0, 2.5), WeightedHeight(375.0, 1.0), WeightedHeight(412.5, 1.0), WeightedHeight(437.5, 0.5)],
    300.0, 450.0, 0.25, 5.0)

  const Aggregate17 := HourAggregate(
    [WeightedHeight(150.0, 0.25), WeightedHeight(170.0, 4.0), WeightedHeight(250.0, 0.75), WeightedHeight(275.0, 2.0),
     WeightedHeight(312.5, 2.0), WeightedHeight(337.5, 2.0), WeightedHeight(350.0, 1.0), WeightedHeight(450.0, 0.5)],
    90.0, 500.0, 0.65, 12.5)

  const Merged17 := PlumeProfile([0.34, 0.22, 0.4, 0.04], [90.0, 192.5, 295.0, 397.5, 500.0], 0.052)

  /** The test's profiles are normalized: their fractions alone add up to one,
      the smolder fraction apart. So is the merged hour 17. */
  lemma ProfilesNormalized()
    ensures Normalized(Fire1Hour17) && Normalized(Fire2Hour17) && Normalized(Fire2Hour18)
    ensures Normalized(Merged17)
  {
    SumFour(0.4, 0.2, 0.2, 0.2);
    SumFour(0.1, 0.3, 0.4, 0.2);
    SumFour(0.5, 0.2, 0.2, 0.1);
    SumFour(0.34, 0.22, 0.4, 0.04);
  }

  lemma SumFour(a: real, b: real, c: real, d: real)
    ensures Sum([a, b, c, d]) == a + b + c + d
  {
    assert [a, b, c, d][..3] == [a, b, c];
    assert [a, b, c][..2] == [a, b];
    assert [a, b][..1] == [a];
    assert [a][..0] == [];
    assert Sum([a]) == a;
    assert Sum([a, b]) == a + b;
    assert Sum([a, b, c]) == a + b + c;
  }

  /** Prefix-recursive functions over two fires unfold through these prefixes. */
  lemma TwoPrefixes(a: Fire, b: Fire)
    ensures [a, b][..1] == [a] && [a, b][1] == b && [a][..0] == [] && [a][0] == a
  {
  }

  lemma SumOfTwo(a: Fire, b: Fire, f: Fire -> real)
    ensures SumOf([a, b], f) == f(a) + f(b)
  {
    TwoPrefixes(a, b);
    assert SumOf([a], f) == SumOf([], f) + f(a);
  }

  lemma PairsOfTwo(a: Fire, b: Fire, h: Hour)
    ensures PairsOf([a, b], h) == FirePairs(a, h) + FirePairs(b, h)
    ensures HeightsOf([a, b], h) == FireHeights(a, h) + FireHeights(b, h)
  {
    TwoPrefixes(a, b);
    assert PairsOf([a], h) == FirePairs(a, h);
    assert HeightsOf([a], h) == FireHeights(a, h);
  }

  lemma Fire2Pairs18(f2: Fire)
    requires Fire2Plume(f2)
    ensures FirePairs(f2, 18) == Aggregate18.pairs
  {
    assert HeightMidpoints(Fire2Hour18.heights) == [325.0, 375.0, 412.5, 437.5];
    assert Weight(f2, 18) == 5.0;
  }

  /** The extremes of a sequence are any member bounding all others. */
  lemma MinMaxOf(s: seq<real>, lo: real, hi: real)
    requires lo in s && hi in s && forall i :: 0 <= i < |s| ==> lo <= s[i] <= hi
    ensures SeqMin(s) == lo && SeqMax(s) == hi
  {
  }

  /** What an hour's aggregate is made of: its pairs in some order, its extreme
      boundaries, its smoldering and total mass. */
  predicate AggregateParts(fires: seq<Fire>, h: Hour, agg: HourAggregate)
  {
    PairsPart(fires, h, agg) && HeightsPart(fires, h, agg) && MassPart(fires, h, agg)
  }

  predicate PairsPart(fires: seq<Fire>, h: Hour, agg: HourAggregate)
  {
    multiset(PairsOf(fires, h)) == multiset(agg.pairs) && StrictlySortedBy(agg.pairs, Height)
  }

  predicate HeightsPart(fires: seq<Fire>, h: Hour, agg: HourAggregate)
  {
    && agg.minHeight in HeightsOf(fires, h) && agg.maxHeight in HeightsOf(fires, h)
    && (forall i :: 0 <= i < |HeightsOf(fires, h)| ==> agg.minHeight <= HeightsOf(fires, h)[i] <= agg.maxHeight)
  }

  predicate MassPart(fires: seq<Fire>, h: Hour, agg: HourAggregate)
  {
    SumOf(fires, SmolderMassAt(h)) == agg.smolderMass && SumOf(fires, WeightAt(h)) == agg.totalMass
  }

  /** The aggregate of an hour, given its parts. */
  lemma AggregateOf(fires: seq<Fire>, h: Hour, agg: HourAggregate)
    requires AggregateParts(fires, h, agg)
    ensures AggregateHour(fires, h) == Some(agg)
  {
    SortByPermutation(PairsOf(fires, h), agg.pairs, Height);
    MinMaxOf(HeightsOf(fires, h), agg.minHeight, agg.maxHeight);
  }

  lemma Sorted18()
    ensures StrictlySortedBy(Aggregate18.pairs, Height)
  {
    var ps := Aggregate18.pairs;
    assert Height(ps[0]) < Height(ps[1]) < Height(ps[2]) < Height(ps[3]);
  }

  lemma Heights18()
    ensures 300.0 in Fire2Hour18.heights && 450.0 in Fire2Hour18.heights
    ensures forall i :: 0 <= i < |Fire2Hour18.heights| ==> 300.0 <= Fire2Hour18.heights[i] <= 450.0
  {
    var hs := Fire2Hour18.heights;
    assert hs[0] == 300.0 && hs[4] == 450.0;
  }

  lemma PairsOf18(f1: Fire, f2: Fire)
    requires Fire1Plume(f1) && Fire2Plume(f2)
    ensures multiset(PairsOf([f1, f2], 18)) == multiset(Aggregate18.pairs)
    ensures HeightsOf([f1, f2], 18) == Fire2Hour18.heights
  {
    PairsOfTwo(f1, f2, 18);
    Fire2Pairs18(f2);
  }

  lemma Masses18(f1: Fire, f2: Fire)
    requires Fire1Plume(f1) && Fire2Plume(f2)
    ensures SumOf([f1, f2], WeightAt(18)) == 5.0 && SumOf([f1, f2], SmolderMassAt(18)) == 0.25
  {
    SumOfTwo(f1, f2, WeightAt(18));
    SumOfTwo(f1, f2, SmolderMassAt(18));
  }

  /** Hour 18 is only the second fire's: its four bins at their midpoints, weighted by 5.0. */
  lemma AggregateHour18(f1: Fire, f2: Fire)
    requires Fire1Plume(f1) && Fire2Plume(f2)
    ensures AggregateHour([f1, f2], 18) == Some(Aggregate18)
  {
    PairsPart18(f1, f2);
    HeightsPart18(f1, f2);
    MassPart18(f1, f2);
    AggregateOf([f1, f2], 18, Aggregate18);
  }

  lemma PairsPart18(f1: Fire, f2: Fire)
    requires Fire1Plume(f1) && Fire2Plume(f2)
    ensures PairsPart([f1, f2], 18, Aggregate18)
  {
    PairsOf18(f1, f2);
    Sorted18();
  }

  lemma HeightsPart18(f1: Fire, f2: Fire)
    requires Fire1Plume(f1) && Fire2Plume(f2)
    ensures HeightsPart([f1, f2], 18, Aggregate18)
  {
    PairsOf18(f1, f2);
    Heights18();
  }

  lemma MassPart18(f1: Fire, f2: Fire)
    requires Fire1Plume(f1) && Fire2Plume(f2)
    ensures MassPart([f1, f2], 18, Aggregate18)
  {
    Masses18(f1, f2);
  }

  lemma Fire1Pairs17(f1: Fire)
    requires Fire1Plume(f1)
    ensures FirePairs(f1, 17) ==
      [WeightedHeight(170.0, 4.0), WeightedHeight(275.0, 2.0), WeightedHeight(312.5, 2.0), WeightedHeight(337.5, 2.0)]
  {
    assert HeightMidpoints(Fire1Hour17.heights) == [170.0, 275.0, 312.5, 337.5];
    assert Weight(f1, 17) == 10.0;
  }

  lemma Fire2Pairs17(f2: Fire)
    requires Fire2Plume(f2)
    ensures FirePairs(f2, 17) ==
      [WeightedHeight(150.0, 0.25), WeightedHeight(250.0, 0.75), WeightedHeight(350.0, 1.0), WeightedHeight(450.0, 0.5)]
  {
    assert HeightMidpoints(Fire2Hour17.heights) == [150.0, 250.0, 350.0, 450.0];
    assert Weight(f2, 17) == 2.5;
  }

  lemma Sorted17()
    ensures StrictlySortedBy(Aggregate17.pairs, Height)
  {
    var ps := Aggregate17.pairs;
    assert Height(ps[0]) < Height(ps[1]) < Height(ps[2]) < Height(ps[3]) < Height(ps[4])
      < Height(ps[5]) < Height(ps[6]) < Height(ps[7]);
  }

  /** Hour 17's pairs come as the first fire's four and the second's: the
      sorted pairs in another order. */
  lemma Pairs17(f1: Fire, f2: Fire)
    requires Fire1Plume(f1) && Fire2Plume(f2)
    ensures multiset(PairsOf([f1, f2], 17)) == multiset(Aggregate17.pairs)
  {
    var ps := Aggregate17.pairs;
    PairsOrder17(f1, f2, ps);
    Sorted17();
    StrictlySortedDistinct(ps, Height);
    assert ps == [ps[0], ps[1], ps[2], ps[3], ps[4], ps[5], ps[6], ps[7]];
    Reordered17(ps[0], ps[1], ps[2], ps[3], ps[4], ps[5], ps[6], ps[7]);
  }

  /** The order in which hour 17's pairs arrive holds the sorted ones, which
      are distinct, once each. */
  lemma Reordered17<T>(a0: T, a1: T, a2: T, a3: T, a4: T, a5: T, a6: T, a7: T)
    requires Distinct([a0, a1, a2, a3, a4, a5, a6, a7])
    ensures multiset([a1, a3, a4, a5, a0, a2, a6, a7]) == multiset([a0, a1, a2, a3, a4, a5, a6, a7])
  {
    var s := [a0, a1, a2, a3, a4, a5, a6, a7];
    var q := [a1, a3, a4, a5, a0, a2, a6, a7];
    ReorderedDistinct17(a0, a1, a2, a3, a4, a5, a6, a7);
    assert forall x :: x in q <==> x in s;
    SameMembersPermutation(q, s);
  }

  lemma ReorderedDistinct17<T>(a0: T, a1: T, a2: T, a3: T, a4: T, a5: T, a6: T, a7: T)
    requires Distinct([a0, a1, a2, a3, a4, a5, a6, a7])
    ensures Distinct([a1, a3, a4, a5, a0, a2, a6, a7])
  {
    var s := [a0, a1, a2, a3, a4, a5, a6, a7];
    var perm := [1, 3, 4, 5, 0, 2, 6, 7];
    var q := [a1, a3, a4, a5, a0, a2, a6, a7];
    forall i, j | 0 <= i < j < 8
      ensures q[i] != q[j]
    {
      assert q[i] == s[perm[i]] && q[j] == s[perm[j]];
      assert perm[i] != perm[j];
    }
  }

  lemma StrictlySortedDistinct<T>(s: seq<T>, key: T -> real)
    requires StrictlySortedBy(s, key)
    ensures Distinct(s)
  {
  }

  /** Hour 17's pairs as they come: the first fire's four, then the second's. */
  lemma PairsOrder17(f1: Fire, f2: Fire, ps: seq<WeightedHeight>)
    requires Fire1Plume(f1) && Fire2Plume(f2) && ps == Aggregate17.pairs
    ensures PairsOf([f1, f2], 17) == [ps[1], ps[3], ps[4], ps[5], ps[0], ps[2], ps[6], ps[7]]
  {
    PairsOfTwo(f1, f2, 17);
    Fire1Pairs17(f1);
    Fire2Pairs17(f2);
  }

  const Heights17 := Fire1Hour17.heights + Fire2Hour17.heights

  lemma HeightsOf17(f1: Fire, f2: Fire)
    requires Fire1Plume(f1) && Fire2Plume(f2)
    ensures HeightsOf([f1, f2], 17) == Heights17
  {
    PairsOfTwo(f1, f2, 17);
  }

  lemma Bounds17()
    ensures 90.0 in Heights17 && 500.0 in Heights17
    ensures forall i :: 0 <= i < |Heights17| ==> 90.0 <= Heights17[i] <= 500.0
  {
    assert Heights17 == [90.0, 250.0, 300.0, 325.0, 350.0, 100.0, 200.0, 300.0, 400.0, 500.0];
  }

  lemma Masses17(f1: Fire, f2: Fire)
    requires Fire1Plume(f1) && Fire2Plume(f2)
    ensures SumOf([f1, f2], WeightAt(17)) == 12.5 && SumOf([f1, f2], SmolderMassAt(17)) == 0.65
  {
    SumOfTwo(f1, f2, WeightAt(17));
    SumOfTwo(f1, f2, SmolderMassAt(17));
  }

  /** Hour 17 combines both fires: eight weighted midpoints sorted by height,
      boundaries 90 to 500, smoldering mass 0.5 + 0.15 of total mass 12.5. */
  lemma AggregateHour17(f1: Fire, f2: Fire)
    requires Fire1Plume(f1) && Fire2Plume(f2)
    ensures AggregateHour([f1, f2], 17) == Some(Aggregate17)
  {
    PairsPart17(f1, f2);
    HeightsPart17(f1, f2);
    MassPart17(f1, f2);
    AggregateOf([f1, f2], 17, Aggregate17);
  }

  lemma PairsPart17(f1: Fire, f2: Fire)
    requires Fire1Plume(f1) && Fire2Plume(f2)
    ensures PairsPart([f1, f2], 17, Aggregate17)
  {
    Pairs17(f1, f2);
    Sorted17();
  }

  lemma HeightsPart17(f1: Fire, f2: Fire)
    requires Fire1Plume(f1) && Fire2Plume(f2)
    ensures HeightsPart([f1, f2], 17, Aggregate17)
  {
    HeightsOf17(f1, f2);
    Bounds17();
  }

  lemma MassPart17(f1: Fire, f2: Fire)
    requires Fire1Plume(f1) && Fire2Plume(f2)
    ensures MassPart([f1, f2], 17, Aggregate17)
  {
    Masses17(f1, f2);
  }


  lemma BinIndexes17()
    ensures BinIndex(150.0, 90.0, 102.5, 4) == 0 && BinIndex(170.0, 90.0, 102.5, 4) == 0
    ensures BinIndex(250.0, 90.0, 102.5, 4) == 1 && BinIndex(275.0, 90.0, 102.5, 4) == 1
    ensures BinIndex(312.5, 90.0, 102.5, 4) == 2 && BinIndex(337.5, 90.0, 102.5, 4) == 2
    ensures BinIndex(350.0, 90.0, 102.5, 4) == 2 && BinIndex(450.0, 90.0, 102.5, 4) == 3
  {
  }

  /** Adding one more pair adds its mass to its bin. */
  lemma BinMassesSnoc(pairs: seq<WeightedHeight>, p: WeightedHeight, lo: real, width: real, n: nat)
    requires n > 0
    ensures var b := BinMasses(pairs, lo, width, n);
      var i := BinIndex(p.height, lo, width, n);
      BinMasses(pairs + [p], lo, width, n) == b[i := b[i] + p.mass]
  {
    assert (pairs + [p])[..|pairs|] == pairs;
  }

  /** Masses accumulate bin by bin as the pairs are added. */
  lemma BinStep(pairs: seq<WeightedHeight>, p: WeightedHeight, before: seq<real>, i: nat, after: seq<real>)
    requires BinMasses(pairs, 90.0, 102.5, 4) == before && BinIndex(p.height, 90.0, 102.5, 4) == i
    requires i < |before| && after == before[i := before[i] + p.mass]
    ensures BinMasses(pairs + [p], 90.0, 102.5, 4) == after
  {
    BinMassesSnoc(pairs, p, 90.0, 102.5, 4);
  }

  lemma BinMassesOne17(ps: seq<WeightedHeight>)
    requires ps == Aggregate17.pairs
    ensures BinMasses(ps[..1], 90.0, 102.5, 4) == [0.25, 0.0, 0.0, 0.0]
  {
    BinIndexes17();
    assert BinMasses([], 90.0, 102.5, 4) == [0.0, 0.0, 0.0, 0.0];
    BinStep([], ps[0], [0.0, 0.0, 0.0, 0.0], 0, [0.25, 0.0, 0.0, 0.0]);
    assert [] + [ps[0]] == ps[..1];
  }

  lemma BinMassesFirst17(ps: seq<WeightedHeight>)
    requires ps == Aggregate17.pairs
    ensures BinMasses(ps[..2], 90.0, 102.5, 4) == [4.25, 0.0, 0.0, 0.0]
  {
    BinIndexes17();
    BinMassesOne17(ps);
    BinStep(ps[..1], ps[1], [0.25, 0.0, 0.0, 0.0], 0, [4.25, 0.0, 0.0, 0.0]);
    assert ps[..1] + [ps[1]] == ps[..2];
  }

  lemma BinMassesLow17(ps: seq<WeightedHeight>)
    requires ps == Aggregate17.pairs
    ensures BinMasses(ps[..4], 90.0, 102.5, 4) == [4.25, 2.75, 0.0, 0.0]
  {
    BinIndexes17();
    BinMassesFirst17(ps);
    BinStep(ps[..2], ps[2], [4.25, 0.0, 0.0, 0.0], 1, [4.25, 0.75, 0.0, 0.0]);
    assert ps[..2] + [ps[2]] == ps[..3];
    BinStep(ps[..3], ps[3], [4.25, 0.75, 0.0, 0.0], 1, [4.25, 2.75, 0.0, 0.0]);
    assert ps[..3] + [ps[3]] == ps[..4];
  }

  lemma BinMasses17(ps: seq<WeightedHeight>)
    requires ps == Aggregate17.pairs
    ensures BinMasses(ps, 90.0, 102.5, 4) == [4.25, 2.75, 5.0, 0.5]
  {
    BinIndexes17();
    BinMassesLow17(ps);
    BinStep(ps[..4], ps[4], [4.25, 2.75, 0.0, 0.0], 2, [4.25, 2.75, 2.0, 0.0]);
    assert ps[..4] + [ps[4]] == ps[..5];
    BinStep(ps[..5], ps[5], [4.25, 2.75, 2.0, 0.0], 2, [4.25, 2.75, 4.0, 0.0]);
    assert ps[..5] + [ps[5]] == ps[..6];
    BinStep(ps[..6], ps[6], [4.25, 2.75, 4.0, 0.0], 2, [4.25, 2.75, 5.0, 0.0]);
    assert ps[..6] + [ps[6]] == ps[..7];
    BinStep(ps[..7], ps[7], [4.25, 2.75, 5.0, 0.0], 3, [4.25, 2.75, 5.0, 0.5]);
    assert ps[..7] + [ps[7]] == ps;
  }

  lemma Fractions17()
    ensures Fractions([4.25, 2.75, 5.0, 0.5], 12.5) == [0.34, 0.22, 0.4, 0.04]
  {
  }

  lemma EqualBins17()
    ensures EqualBins(90.0, 500.0, 4) == [90.0, 192.5, 295.0, 397.5, 500.0]
  {
  }

  /** Re-binning hour 17 into four bins of width 102.5 gives the test's expected
      fractions [0.34, 0.22, 0.4, 0.04] and smolder fraction 0.65 / 12.5. */
  lemma RebinHour17(agg: HourAggregate)
    requires agg == Aggregate17
    ensures RebinHour(agg, 4) == Success(Merged17)
  {
    BinMasses17(agg.pairs);
    Fractions17();
    EqualBins17();
  }

  // ---------------------------------------------------------------------------
  // `test_merge_two`: the whole record the two test fires merge into.

  const MergedTwo := Fire(
    "1234abcd", {"bbb", "ddd", "eee"}, map["foo" := "bar", "bar" := "baz"],
    17, 19, 270.0, 47.5, -121.6, -7.0,
    map[17 := Merged17, 18 := Fire2Hour18],
    map[17 := 32.0, 18 := 30.0],
    map[17 := map["CO" := 23.0, "PM2.5" := 12.5], 18 := map["CO" := 3.0, "PM2.5" := 5.0]],
    map["flaming" := 1511.0, "residual" := 1549.0, "smoldering" := 1317.0, "total" := 4427.0],
    3000000.0)

  /** Which of two fires carry hour `h`, in their order. */
  lemma WithHourOfTwo(a: Fire, b: Fire, h: Hour)
    ensures WithHour([a, b], h) == (if h in a.plumerise then [a] else []) + (if h in b.plumerise then [b] else [])
  {
    TwoPrefixes(a, b);
    assert WithHour([a], h) == if h in a.plumerise then [a] else [] by {
      assert [] + [a] == [a];
    }
  }

  lemma PlumeHoursOfTwo(a: Fire, b: Fire)
    ensures PlumeHours([a, b]) == a.plumerise.Keys + b.plumerise.Keys
  {
    TwoPrefixes(a, b);
    assert PlumeHours([a]) == a.plumerise.Keys;
  }

  /** Hour 17 belongs to both fires, hour 18 to the second only. */
  lemma HoursOfTwo(f1: Fire, f2: Fire)
    requires Fire1Plume(f1) && Fire2Plume(f2)
    ensures WithHour([f1, f2], 17) == [f1, f2] && WithHour([f1, f2], 18) == [f2]
    ensures PlumeHours([f1, f2]) == {17, 18}
  {
    KeysOfTwo(f1, f2);
    FiresWithHoursOfTwo(f1, f2);
    PlumeHoursOfTwo(f1, f2);
  }

  lemma FiresWithHoursOfTwo(f1: Fire, f2: Fire)
    requires f1.plumerise.Keys == {17} && f2.plumerise.Keys == {17, 18}
    ensures WithHour([f1, f2], 17) == [f1, f2] && WithHour([f1, f2], 18) == [f2]
  {
    WithHourOfTwo(f1, f2, 17);
    WithHourOfTwo(f1, f2, 18);
  }

  lemma KeysOfTwo(f1: Fire, f2: Fire)
    requires Fire1Plume(f1) && Fire2Plume(f2)
    ensures f1.plumerise.Keys == {17} && f2.plumerise.Keys == {17, 18}
  {
  }

  /** Hour 17 is re-binned into four bins; hour 18 is the second fire's profile. */
  lemma MergeHoursOfTwo(f1: Fire, f2: Fire)
    requires Fire1Plume(f1) && Fire2Plume(f2)
    ensures MergeHour([f1, f2], 17) == Success(Merged17)
    ensures MergeHour([f1, f2], 18) == Success(Fire2Hour18)
  {
    HoursOfTwo(f1, f2);
    AggregateHour17(f1, f2);
    RebinHour17(Aggregate17);
    assert |[f1, f2][0].plumerise[17].emissionFractions| == 4;
  }

  /** Fires with two plume-rise hours, both of which merge, have no failing hour. */
  lemma NoFailingHours(fires: seq<Fire>, h1: Hour, h2: Hour, p1: PlumeProfile, p2: PlumeProfile)
    requires PlumeHours(fires) == {h1, h2}
    requires MergeHour(fires, h1) == Success(p1) && MergeHour(fires, h2) == Success(p2)
    ensures FailingHours(fires) == {}
  {
    var failing := FailingHours(fires);
    assert failing <= {h1, h2};
    assert h1 !in failing && h2 !in failing;
    NoneOfTwo(failing, h1, h2);
  }

  /** A set within two elements that holds neither is empty. */
  lemma NoneOfTwo<T>(s: set<T>, a: T, b: T)
    requires s <= {a, b} && a !in s && b !in s
    ensures s == {}
  {
  }

  /** A map with exactly two keys is the display of its two entries. */
  lemma MapOfTwoKeys<K, V>(r: map<K, V>, k1: K, k2: K, v1: V, v2: V)
    requires r.Keys == {k1, k2} && r[k1] == v1 && r[k2] == v2
    ensures r == map[k1 := v1, k2 := v2]
  {
  }

  /** ... and their plume rise is the two merged profiles. */
  lemma MergedPlumeriseTwoHours(fires: seq<Fire>, h1: Hour, h2: Hour, p1: PlumeProfile, p2: PlumeProfile)
    requires PlumeHours(fires) == {h1, h2}
    requires MergeHour(fires, h1) == Success(p1) && MergeHour(fires, h2) == Success(p2)
    ensures FailingHours(fires) == {}
    ensures MergedPlumerise(fires) == map[h1 := p1, h2 := p2]
  {
    NoFailingHours(fires, h1, h2, p1, p2);
    var r := MergedPlumerise(fires);
    assert Success(r[h1]) == MergeHour(fires, h1) && Success(r[h2]) == MergeHour(fires, h2);
    MapOfTwoKeys(r, h1, h2, p1, p2);
  }

  lemma MergedPlumeriseOfTwo(f1: Fire, f2: Fire)
    requires Fire1Plume(f1) && Fire2Plume(f2)
    ensures FailingHours([f1, f2]) == {}
    ensures MergedPlumerise([f1, f2]) == map[17 := Merged17, 18 := Fire2Hour18]
  {
    HoursOfTwo(f1, f2);
    MergeHoursOfTwo(f1, f2);
    MergedPlumeriseTwoHours([f1, f2], 17, 18, Merged17, Fire2Hour18);
  }

  /** A sum with nothing before it is the map itself. */
  lemma AddByKeyEmpty<K>(a: map<K, real>)
    ensures AddByKey(map[], a) == a
  {
  }

  lemma SumMapsOfTwo<K(!new)>(a: map<K, real>, b: map<K, real>)
    ensures SumMaps([a, b]) == AddByKey(a, b)
  {
    assert [a, b][..1] == [a] && [a][..0] == [];
    AddByKeyEmpty(a);
  }

  lemma SumEmissionsOfTwo(a: map<Hour, map<string, real>>, b: map<Hour, map<string, real>>)
    ensures SumEmissions([a, b]) == AddEmissionsByKey(a, b)
  {
    assert [a, b][..1] == [a] && [a][..0] == [];
    assert AddEmissionsByKey(map[], a) == a;
  }

  /** The per-fire maps of two fires, in their order. */
  lemma MapsOfTwo(a: Fire, b: Fire)
    ensures AreaMaps([a, b]) == [a.timeprofiledArea, b.timeprofiledArea]
    ensures EmissionMaps([a, b]) == [a.timeprofiledEmissions, b.timeprofiledEmissions]
    ensures ConsumptionMaps([a, b]) == [a.consumption, b.consumption]
  {
  }

  /** Key-wise sums of maps with the same two keys. */
  lemma AddByKeyTwo<K>(k1: K, k2: K, a1: real, a2: real, b1: real, b2: real)
    requires k1 != k2
    ensures AddByKey(map[k1 := a1, k2 := a2], map[k1 := b1, k2 := b2]) == map[k1 := a1 + b1, k2 := a2 + b2]
  {
  }

  /** Key-wise sum of a one-key map and a two-key map sharing the first key. */
  lemma AddByKeyOneTwo<K>(k1: K, k2: K, a1: real, b1: real, b2: real)
    requires k1 != k2
    ensures AddByKey(map[k1 := a1], map[k1 := b1, k2 := b2]) == map[k1 := a1 + b1, k2 := b2]
  {
  }

  /** Key-wise sums of maps with the same four keys. */
  lemma AddByKeyFour<K>(k1: K, k2: K, k3: K, k4: K, a1: real, a2: real, a3: real, a4: real,
                        b1: real, b2: real, b3: real, b4: real)
    requires k1 != k2 && k1 != k3 && k1 != k4 && k2 != k3 && k2 != k4 && k3 != k4
    ensures AddByKey(map[k1 := a1, k2 := a2, k3 := a3, k4 := a4], map[k1 := b1, k2 := b2, k3 := b3, k4 := b4])
         == map[k1 := a1 + b1, k2 := a2 + b2, k3 := a3 + b3, k4 := a4 + b4]
  {
    var r := AddByKey(map[k1 := a1, k2 := a2, k3 := a3, k4 := a4], map[k1 := b1, k2 := b2, k3 := b3, k4 := b4]);
    assert r.Keys == {k1, k2, k3, k4};
  }

  /** Hour-wise sum of a one-hour and a two-hour emission map sharing the first hour. */
  lemma AddEmissionsOneTwo<K>(h1: K, h2: K, x1: map<string, real>, y1: map<string, real>, y2: map<string, real>)
    requires h1 != h2
    ensures AddEmissionsByKey(map[h1 := x1], map[h1 := y1, h2 := y2]) == map[h1 := AddByKey(x1, y1), h2 := y2]
  {
  }

  /** Hour-wise areas: 12 + 20 in hour 17, the second fire's 30 in hour 18. */
  lemma AreasOfTwo(a: map<Hour, real>, b: map<Hour, real>)
    requires a == map[17 := 12.0] && b == map[17 := 20.0, 18 := 30.0]
    ensures SumMaps([a, b]) == map[17 := 32.0, 18 := 30.0]
  {
    SumMapsOfTwo(a, b);
    AddByKeyOneTwo(17, 18, 12.0, 20.0, 30.0);
  }

  lemma ConsumptionKeysDistinct()
    ensures "flaming" != "residual" && "flaming" != "smoldering" && "flaming" != "total"
    ensures "residual" != "smoldering" && "residual" != "total" && "smoldering" != "total"
  {
    assert "flaming"[0] == 'f' && "residual"[0] == 'r' && "smoldering"[0] == 's' && "total"[0] == 't';
  }

  /** Phase-wise consumption sums. */
  lemma ConsumptionOfTwo(a: map<string, real>, b: map<string, real>)
    requires a == map["flaming" := 1311.0, "residual" := 1449.0, "smoldering" := 1267.0, "total" := 4027.0]
    requires b == map["flaming" := 200.0, "residual" := 100.0, "smoldering" := 50.0, "total" := 400.0]
    ensures SumMaps([a, b]) == map["flaming" := 1511.0, "residual" := 1549.0, "smoldering" := 1317.0, "total" := 4427.0]
  {
    SumMapsOfTwo(a, b);
    ConsumptionKeysDistinct();
    AddByKeyFour("flaming", "residual", "smoldering", "total", 1311.0, 1449.0, 1267.0, 4027.0, 200.0, 100.0, 50.0, 400.0);
  }

  /** Hour- and species-wise emissions: hour 17 summed, hour 18 the second fire's. */
  lemma EmissionsOfTwo(a: map<Hour, map<string, real>>, b: map<Hour, map<string, real>>)
    requires a == map[17 := map["CO" := 22.0, "PM2.5" := 10.0]]
    requires b == map[17 := map["CO" := 1.0, "PM2.5" := 2.5], 18 := map["CO" := 3.0, "PM2.5" := 5.0]]
    ensures SumEmissions([a, b]) == map[17 := map["CO" := 23.0, "PM2.5" := 12.5], 18 := map["CO" := 3.0, "PM2.5" := 5.0]]
  {
    SumEmissionsOfTwo(a, b);
    AddEmissionsOneTwo(17, 18, map["CO" := 22.0, "PM2.5" := 10.0], map["CO" := 1.0, "PM2.5" := 2.5], map["CO" := 3.0, "PM2.5" := 5.0]);
    assert "CO"[0] != "PM2.5"[0];
    AddByKeyTwo("CO", "PM2.5", 22.0, 10.0, 1.0, 2.5);
  }

  /** The original ids of two fires merge as their union. */
  lemma OriginalIdsOfTwo(a: Fire, b: Fire)
    ensures AllOriginalIds([a, b]) == a.originalFireIds + b.originalFireIds
  {
    TwoPrefixes(a, b);
    assert AllOriginalIds([a]) == a.originalFireIds;
  }

  /** The metadata of two fires merge as a union, the later fire's value winning. */
  lemma MetaOfTwo(a: Fire, b: Fire)
    ensures MetaUnion([a, b]) == a.meta + b.meta
  {
    TwoPrefixes(a, b);
    assert MetaUnion([a]) == a.meta by {
      assert MetaUnion([]) == map[];
      assert map[] + a.meta == a.meta;
    }
  }

  /** The window of two fires runs from the earlier start to the later end. */
  lemma WindowOfTwo(a: Fire, b: Fire)
    ensures MinStart([a, b]) == (if a.start <= b.start then a.start else b.start)
    ensures MaxEnd([a, b]) == (if a.end >= b.end then a.end else b.end)
  {
    TwoPrefixes(a, b);
  }

  /** Two fires' total area and heat, and the mean of either coordinate. */
  lemma TotalsOfTwo(a: Fire, b: Fire, coord: Fire -> real)
    ensures Sum(Areas([a, b])) == a.area + b.area && Sum(Heats([a, b])) == a.heat + b.heat
    ensures Mean([a, b], coord) == (coord(a) + coord(b)) / 2.0
  {
    assert Areas([a, b]) == [a.area, b.area] && Heats([a, b]) == [a.heat, b.heat];
    assert [a.area, b.area][..1] == [a.area] && [a.heat, b.heat][..1] == [a.heat];
    SumSingle(a.area);
    SumSingle(a.heat);
    SumOfTwo(a, b, coord);
  }

  /** Ids, metadata and window of the merged record. */
  lemma IdsOfTwo(f1: Fire, f2: Fire)
    requires IsFire1(f1) && IsFire2(f2)
    ensures AllOriginalIds([f1, f2]) == {"bbb", "ddd", "eee"}
  {
    OriginalIdsOfTwo(f1, f2);
  }

  /** A map overridden by one that has all its keys is the overriding map. */
  lemma OverrideCovered<K, V>(a: map<K, V>, b: map<K, V>)
    requires a.Keys <= b.Keys
    ensures a + b == b
  {
  }

  lemma MetaOfTwoFires(f1: Fire, f2: Fire)
    requires f1.meta == map["foo" := "bar"] && f2.meta == map["foo" := "bar", "bar" := "baz"]
    ensures MetaUnion([f1, f2]) == map["foo" := "bar", "bar" := "baz"]
  {
    MetaOfTwo(f1, f2);
    OverrideCovered(f1.meta, f2.meta);
  }

  lemma WindowOfTwoFires(f1: Fire, f2: Fire)
    requires IsFire1(f1) && IsFire2(f2)
    ensures MinStart([f1, f2]) == 17 && MaxEnd([f1, f2]) == 19
  {
    WindowOfTwo(f1, f2);
  }

  /** Area, centre and heat of the merged record. */
  lemma ScalarsOfTwo(f1: Fire, f2: Fire)
    requires IsFire1(f1) && IsFire2(f2)
    ensures Sum(Areas([f1, f2])) == 270.0 && Sum(Heats([f1, f2])) == 3000000.0
    ensures Mean([f1, f2], Latitude) == 47.5 && Mean([f1, f2], Longitude) == -121.6
  {
    TotalsOfTwo(f1, f2, Latitude);
    TotalsOfTwo(f1, f2, Longitude);
  }

  /** `test_merge_two`: the two test fires merge into the expected record, under
      the id the fixed id generator hands out. */
  lemma MergeTwoExample(f1: Fire, f2: Fire)
    requires IsFire1(f1) && IsFire2(f2)
    ensures MergeFires([f1, f2], "1234abcd") == Success(MergedTwo)
  {
    MergedPlumeriseOfTwo(f1, f2);
    MapsOfTwo(f1, f2);
    AreasOfTwo(f1.timeprofiledArea, f2.timeprofiledArea);
    ConsumptionOfTwo(f1.consumption, f2.consumption);
    EmissionsOfTwo(f1.timeprofiledEmissions, f2.timeprofiledEmissions);
    IdsOfTwo(f1, f2);
    MetaOfTwoFires(f1, f2);
    WindowOfTwoFires(f1, f2);
    ScalarsOfTwo(f1, f2);
  }
}

=== FILE: plumeprofiles.dfy ===
/** PlumeMerger's plume-rise arithmetic: bin midpoints, the weighted (height, mass)
    pairs of one hour across fires, and re-binning those pairs into equal-width
    bins. The weight of a fire for an hour is its PM2.5 emission in that hour. */
module PlumeProfiles {
  import opened Common
  import opened Sorting
  import opened Fires

  /** `_get_height_midpoints`: the centre of every bin. */
  function HeightMidpoints(hs: seq<real>): (r: seq<real>)
    ensures |r| == if |hs| == 0 then 0 else |hs| - 1
    ensures forall i :: 0 <= i < |r| ==> r[i] - hs[i] == hs[i + 1] - r[i]
  {
    if |hs| == 0 then []
    else seq(|hs| - 1, i requires 0 <= i < |hs| - 1 => (hs[i] + hs[i + 1]) / 2.0)
  }

  /** In a rising list of boundaries each midpoint lies within its bin. */
  lemma MidpointsWithinBins(hs: seq<real>, i: nat)
    requires forall a, b :: 0 <= a < b < |hs| ==> hs[a] <= hs[b]
    requires i < |HeightMidpoints(hs)|
    ensures hs[i] <= HeightMidpoints(hs)[i] <= hs[i + 1]
  {
    assert hs[i] <= hs[i + 1];
  }

  lemma HeightMidpointsCases()
    ensures HeightMidpoints([]) == []
    ensures HeightMidpoints([100.0, 400.0, 600.0, 650.0]) == [250.0, 500.0, 625.0]
  {
  }

  /** The mass one bin of one fire places at the bin's midpoint. */
  datatype WeightedHeight = WeightedHeight(height: real, mass: real)

  function Height(p: WeightedHeight): real { p.height }
  function Mass(p: WeightedHeight): real { p.mass }

  /** PM2.5 emitted in hour `h`, zero when the hour or the species is missing. */
  function Weight(f: Fire, h: Hour): real
  {
    if h in f.timeprofiledEmissions then ValueOr0(f.timeprofiledEmissions[h], "PM2.5") else 0.0
  }

  /** The number of bins whose midpoint and fraction are both known. */
  function BinCount(p: PlumeProfile): nat
  {
    var m := |HeightMidpoints(p.heights)|;
    if m <= |p.emissionFractions| then m else |p.emissionFractions|
  }

  /** One fire's bins as weighted heights: each bin's midpoint with fraction × weight. */
  function ProfilePairs(p: PlumeProfile, w: real): (r: seq<WeightedHeight>)
    ensures |r| == BinCount(p)
    ensures forall i :: 0 <= i < |r| ==> r[i].mass == p.emissionFractions[i] * w
    ensures forall i :: 0 <= i < |r| ==> r[i].height == HeightMidpoints(p.heights)[i]
  {
    var mids := HeightMidpoints(p.heights);
    var n := BinCount(p);
    seq(n, i requires 0 <= i < n => WeightedHeight(mids[i], p.emissionFractions[i] * w))
  }

  /** A profile's pairs carry its weight spread over its fractions. */
  lemma ProfilePairsMass(p: PlumeProfile, w: real)
    ensures SumOf(ProfilePairs(p, w), Mass) == Sum(p.emissionFractions[..BinCount(p)]) * w
  {
    ProjectMassIsScale(p, w);
    ScaledMass(ProfilePairs(p, w), p.emissionFractions[..BinCount(p)], w);
  }

  lemma ScaledMass(r: seq<WeightedHeight>, fr: seq<real>, w: real)
    requires Project(r, Mass) == Scale(fr, w)
    ensures SumOf(r, Mass) == Sum(fr) * w
  {
    SumOfIsSum(r, Mass);
    SumScale(fr, w);
  }

  lemma ProjectMassIsScale(p: PlumeProfile, w: real)
    ensures Project(ProfilePairs(p, w), Mass) == Scale(p.emissionFractions[..BinCount(p)], w)
  {
    var r := ProfilePairs(p, w);
    var ms := Project(r, Mass);
    var ws := Scale(p.emissionFractions[..BinCount(p)], w);
    forall k | 0 <= k < |r|
      ensures ms[k] == ws[k]
    {
      assert ms[k] == r[k].mass;
    }
  }

  /** What a fire contributes to hour `h`: nothing unless it has plume rise then. */
  function FirePairs(f: Fire, h: Hour): seq<WeightedHeight>
  {
    if h in f.plumerise then ProfilePairs(f.plumerise[h], Weight(f, h)) else []
  }

  function FireHeights(f: Fire, h: Hour): seq<real>
  {
    if h in f.plumerise then f.plumerise[h].heights else []
  }

  function FireWeight(f: Fire, h: Hour): real
  {
    if h in f.plumerise then Weight(f, h) else 0.0
  }

  function FireSmolderMass(f: Fire, h: Hour): real
  {
    if h in f.plumerise then f.plumerise[h].smolderFraction * Weight(f, h) else 0.0
  }

  /** The pairs of every fire having hour `h`, in fire order. */
  function PairsOf(fires: seq<Fire>, h: Hour): seq<WeightedHeight>
  {
    if |fires| == 0 then [] else PairsOf(fires[..|fires| - 1], h) + FirePairs(fires[|fires| - 1], h)
  }

  /** The bin boundaries of every fire having hour `h`. */
  function HeightsOf(fires: seq<Fire>, h: Hour): seq<real>
  {
    if |fires| == 0 then [] else HeightsOf(fires[..|fires| - 1], h) + FireHeights(fires[|fires| - 1], h)
  }

  /** The smallest element. */
  function SeqMin(s: seq<real>): (m: real)
    requires |s| > 0
    ensures m in s
    ensures forall i :: 0 <= i < |s| ==> m <= s[i]
  {
    if |s| == 1 then s[0]
    else
      var m := SeqMin(s[1..]);
      assert forall i :: 1 <= i < |s| ==> s[i] == s[1..][i - 1];
      if s[0] < m then s[0] else m
  }

  /** The largest element. */
  function SeqMax(s: seq<real>): (m: real)
    requires |s| > 0
    ensures m in s
    ensures forall i :: 0 <= i < |s| ==> s[i] <= m
  {
    if |s| == 1 then s[0]
    else
      var m := SeqMax(s[1..]);
      assert forall i :: 1 <= i < |s| ==> s[i] == s[1..][i - 1];
      if s[0] > m then s[0] else m
  }

  /** `_aggregate_plumerise_hour`: the weighted heights sorted by height, the lowest
      and highest boundary, the smoldering mass and the total mass. */
  datatype HourAggregate = HourAggregate(
    pairs: seq<WeightedHeight>, minHeight: real, maxHeight: real, smolderMass: real, totalMass: real)

  /** Absent when no fire with hour `h` has any boundary (the minimum is undefined). */
  function AggregateHour(fires: seq<Fire>, h: Hour): (r: Option<HourAggregate>)
    ensures r.None? <==> |HeightsOf(fires, h)| == 0
    ensures r.Some? ==> SortedBy(r.value.pairs, Height)
    ensures r.Some? ==> multiset(r.value.pairs) == multiset(PairsOf(fires, h))
    ensures r.Some? ==> r.value.minHeight in HeightsOf(fires, h) && r.value.maxHeight in HeightsOf(fires, h)
    ensures r.Some? ==> forall i :: 0 <= i < |HeightsOf(fires, h)| ==>
      r.value.minHeight <= HeightsOf(fires, h)[i] <= r.value.maxHeight
    ensures r.Some? ==> r.value.totalMass == SumOf(fires, WeightAt(h))
    ensures r.Some? ==> r.value.smolderMass == SumOf(fires, SmolderMassAt(h))
  {
    var heights := HeightsOf(fires, h);
    if |heights| == 0 then None
    else Some(HourAggregate(
      SortBy(PairsOf(fires, h), Height),
      SeqMin(heights),
      SeqMax(heights),
      SumOf(fires, SmolderMassAt(h)),
      SumOf(fires, WeightAt(h))))
  }

  /** The pairs carry exactly each fire's weight spread over its fractions. */
  lemma {:induction false} PairsOfMass(fires: seq<Fire>, h: Hour)
    ensures SumOf(PairsOf(fires, h), Mass) == SumOf(fires, FractionMassAt(h))
  {
    if |fires| > 0 {
      var pre := fires[..|fires| - 1];
      var f := fires[|fires| - 1];
      PairsOfMass(pre, h);
      assert PairsOf(fires, h) == PairsOf(pre, h) + FirePairs(f, h);
      SumOfAppend(PairsOf(pre, h), FirePairs(f, h), Mass);
      FirePairsMass(f, h);
    }
  }

  lemma FirePairsMass(f: Fire, h: Hour)
    ensures SumOf(FirePairs(f, h), Mass) == FireFractionMass(f, h)
  {
    if h in f.plumerise {
      ProfilePairsMass(f.plumerise[h], Weight(f, h));
    }
  }

  function WeightAt(h: Hour): Fire -> real { f => FireWeight(f, h) }
  function SmolderMassAt(h: Hour): Fire -> real { f => FireSmolderMass(f, h) }
  function FractionMassAt(h: Hour): Fire -> real { f => FireFractionMass(f, h) }

  /** Σ fractions × weight of one fire's profile for hour `h`. */
  function FireFractionMass(f: Fire, h: Hour): real
  {
    if h in f.plumerise then Sum(f.plumerise[h].emissionFractions[..BinCount(f.plumerise[h])]) * Weight(f, h) else 0.0
  }

  /** Sorting the pairs does not change their total mass. */
  lemma AggregateMass(fires: seq<Fire>, h: Hour)
    requires AggregateHour(fires, h).Some?
    ensures SumOf(AggregateHour(fires, h).value.pairs, Mass) == SumOf(fires, FractionMassAt(h))
  {
    SumOfPermutation(AggregateHour(fires, h).value.pairs, PairsOf(fires, h), Mass);
    PairsOfMass(fires, h);
  }

  /** The bin of height `m` among `n` bins of `width` starting at `lo`: the bin
      containing it, the last bin for the top boundary, bin 0 for zero width. */
  function BinIndex(m: real, lo: real, width: real, n: nat): (i: nat)
    requires n > 0
    ensures i < n
    ensures width > 0.0 && lo <= m < lo + n as real * width ==>
      lo + i as real * width <= m < lo + (i + 1) as real * width
  {
    if width <= 0.0 then 0
    else
      var k := ((m - lo) / width).Floor;
      FloorBounds(m - lo, width);
      if k < 0 then 0
      else if k >= n then
        n - 1
      else k
  }

  function Zeros(n: nat): (r: seq<real>)
    ensures |r| == n && Sum(r) == 0.0
    ensures forall i :: 0 <= i < n ==> r[i] == 0.0
  {
    if n == 0 then [] else
      var z := Zeros(n - 1);
      assert (z + [0.0])[..n - 1] == z;
      z + [0.0]
  }

  /** What pair `p` contributes to bin `j`: its mass when its height falls in
      that bin, nothing otherwise. */
  function MassInBin(lo: real, width: real, n: nat, j: nat): WeightedHeight -> real
    requires n > 0
  {
    (p: WeightedHeight) => if BinIndex(p.height, lo, width, n) == j then p.mass else 0.0
  }

  /** Reference definition: the mass of the pairs whose height falls in bin `j`. */
  function BinMass(pairs: seq<WeightedHeight>, lo: real, width: real, n: nat, j: nat): real
    requires n > 0
  {
    SumOf(pairs, MassInBin(lo, width, n, j))
  }

  /** The mass of the pairs summed per bin: bin `j` holds the mass of the pairs
      whose height falls in it, and the bins together hold the pairs' total mass. */
  function BinMasses(pairs: seq<WeightedHeight>, lo: real, width: real, n: nat): (r: seq<real>)
    requires n > 0
    ensures |r| == n
    ensures forall j :: 0 <= j < n ==> r[j] == BinMass(pairs, lo, width, n, j)
    ensures Sum(r) == SumOf(pairs, Mass)
    ensures (forall k :: 0 <= k < |pairs| ==> pairs[k].mass >= 0.0) ==> forall j :: 0 <= j < n ==> r[j] >= 0.0
  {
    if |pairs| == 0 then Zeros(n)
    else
      var pre := pairs[..|pairs| - 1];
      var p := pairs[|pairs| - 1];
      var b := BinMasses(pre, lo, width, n);
      var i := BinIndex(p.height, lo, width, n);
      SumUpdate(b, i, b[i] + p.mass);
      b[i := b[i] + p.mass]
  }

  /** Why a shared hour cannot be merged. */
  datatype HourError = NoBins | NoHeights | ZeroMass

  /** n + 1 equally spaced boundaries from `lo` to `hi`. */
  function EqualBins(lo: real, hi: real, n: nat): (r: seq<real>)
    requires n > 0
    ensures |r| == n + 1 && r[0] == lo && r[n] == hi
    ensures forall i :: 0 <= i < n ==> r[i + 1] - r[i] == (hi - lo) / n as real
  {
    var width := (hi - lo) / n as real;
    var r := seq(n + 1, i requires 0 <= i <= n => lo + i as real * width);
    assert r[n] == hi by {
      assert n as real * width == hi - lo;
    }
    forall i | 0 <= i < n
      ensures r[i + 1] - r[i] == width
    {
      assert (i + 1) as real * width == i as real * width + width;
    }
    r
  }

  /** Each bin's share of the total mass. */
  function Fractions(masses: seq<real>, total: real): (r: seq<real>)
    requires total != 0.0
    ensures |r| == |masses|
    ensures Sum(r) * total == Sum(masses)
    ensures forall j :: 0 <= j < |r| ==> r[j] * total == masses[j]
  {
    var r := seq(|masses|, j requires 0 <= j < |masses| => masses[j] / total);
    SumTimesEach(r, masses, total);
    r
  }

  /** `n` equal-width bins from `lo` to `hi`, one fraction per bin. */
  predicate BinnedOver(p: PlumeProfile, lo: real, hi: real, n: nat)
  {
    |p.emissionFractions| == n && |p.heights| == n + 1 && p.heights[0] == lo && p.heights[n] == hi &&
    forall i :: 0 <= i < n ==> p.heights[i + 1] - p.heights[i] == (hi - lo) / n as real
  }

  /** The fractions of `p`, times the total mass, give back the mass of the pairs,
      and its smolder fraction gives back the smoldering mass. */
  predicate AccountsFor(p: PlumeProfile, agg: HourAggregate)
  {
    Sum(p.emissionFractions) * agg.totalMass == SumOf(agg.pairs, Mass) &&
    p.smolderFraction * agg.totalMass == agg.smolderMass
  }

  /** Each fraction of `p`, times the total mass, is the mass of the pairs in its
      bin of `n` equal bins over [minHeight, maxHeight]. */
  predicate HoldsBinMasses(p: PlumeProfile, agg: HourAggregate, n: nat)
  {
    n > 0 && |p.emissionFractions| == n &&
    forall j :: 0 <= j < n ==>
      p.emissionFractions[j] * agg.totalMass
        == BinMass(agg.pairs, agg.minHeight, (agg.maxHeight - agg.minHeight) / n as real, n, j)
  }

  /** Equal-width bins over [minHeight, maxHeight]; each fraction is its bin's mass
      over the total mass, the smolder fraction is the smoldering mass over it.
      No bins and no mass are the two errors. */
  function RebinHour(agg: HourAggregate, n: nat): (r: Result<PlumeProfile, HourError>)
    ensures n == 0 ==> r == Failure(NoBins)
    ensures n > 0 && agg.totalMass == 0.0 ==> r == Failure(ZeroMass)
    ensures r.Success? <==> n > 0 && agg.totalMass != 0.0
    ensures r.Success? ==> BinnedOver(r.value, agg.minHeight, agg.maxHeight, n)
    ensures r.Success? ==> AccountsFor(r.value, agg)
    ensures r.Success? ==> HoldsBinMasses(r.value, agg, n)
  {
    if n == 0 then Failure(NoBins)
    else if agg.totalMass == 0.0 then Failure(ZeroMass)
    else
      var width := (agg.maxHeight - agg.minHeight) / n as real;
      var masses := BinMasses(agg.pairs, agg.minHeight, width, n);
      RebinnedBinMasses(agg, n, masses);
      Success(RebinMasses(agg, n, masses))
  }

  /** The profile of `n` bins holding `masses`, which add up to the pairs' mass. */
  function RebinMasses(agg: HourAggregate, n: nat, masses: seq<real>): (p: PlumeProfile)
    requires n > 0 && agg.totalMass != 0.0
    requires |masses| == n && Sum(masses) == SumOf(agg.pairs, Mass)
    ensures BinnedOver(p, agg.minHeight, agg.maxHeight, n)
    ensures AccountsFor(p, agg)
    ensures p.emissionFractions == Fractions(masses, agg.totalMass)
  {
    var fractions := Fractions(masses, agg.totalMass);
    var smolder := agg.smolderMass / agg.totalMass;
    DivTimes(smolder, agg.smolderMass, agg.totalMass);
    PlumeProfile(fractions, EqualBins(agg.minHeight, agg.maxHeight, n), smolder)
  }

  /** The bin masses, turned into fractions of the total, are each bin's share. */
  lemma RebinnedBinMasses(agg: HourAggregate, n: nat, masses: seq<real>)
    requires n > 0 && agg.totalMass != 0.0
    requires masses == BinMasses(agg.pairs, agg.minHeight, (agg.maxHeight - agg.minHeight) / n as real, n)
    ensures Sum(masses) == SumOf(agg.pairs, Mass)
    ensures HoldsBinMasses(RebinMasses(agg, n, masses), agg, n)
  {
    RebinMassesShares(agg, n, masses);
  }

  lemma RebinMassesShares(agg: HourAggregate, n: nat, masses: seq<real>)
    requires n > 0 && agg.totalMass != 0.0
    requires |masses| == n && Sum(masses) == SumOf(agg.pairs, Mass)
    ensures forall j :: 0 <= j < n ==> RebinMasses(agg, n, masses).emissionFractions[j] * agg.totalMass == masses[j]
  {
    var fractions := Fractions(masses, agg.totalMass);
    assert RebinMasses(agg, n, masses).emissionFractions == fractions;
  }

  /** A profile whose boundaries frame its bins, whose emission fractions add up
      to one, and whose smolder fraction is a share between nothing and all. */
  predicate Normalized(p: PlumeProfile)
  {
    |p.heights| == |p.emissionFractions| + 1 && Sum(p.emissionFractions) == 1.0 &&
    0.0 <= p.smolderFraction <= 1.0
  }

  /** Every fire's PM2.5 for hour `h` is non-negative. */
  predicate NonNegativeWeights(fires: seq<Fire>, h: Hour)
  {
    forall i :: 0 <= i < |fires| ==> FireWeight(fires[i], h) >= 0.0
  }

  /** A normalized profile spreads all of the fire's weight over its bins and
      smolders a part of it. */
  lemma NormalizedFireMass(f: Fire, h: Hour)
    requires h in f.plumerise ==> Normalized(f.plumerise[h])
    ensures FireFractionMass(f, h) == FireWeight(f, h)
    ensures FireWeight(f, h) >= 0.0 ==> 0.0 <= FireSmolderMass(f, h) <= FireWeight(f, h)
  {
    if h in f.plumerise {
      var p := f.plumerise[h];
      assert BinCount(p) == |p.emissionFractions|;
      assert p.emissionFractions[..BinCount(p)] == p.emissionFractions;
      var w := Weight(f, h);
      if w >= 0.0 {
        assert p.smolderFraction * w <= 1.0 * w;
      }
    }
  }

  /** Merging normalized profiles yields fractions that add up to one: no mass
      is lost or created by re-binning. With no negative PM2.5 the merged
      smolder fraction, the weighted mean of the inputs', is a share too. */
  lemma MergedHourNormalized(fires: seq<Fire>, h: Hour, n: nat)
    requires forall i :: 0 <= i < |fires| && h in fires[i].plumerise ==> Normalized(fires[i].plumerise[h])
    requires AggregateHour(fires, h).Some? && RebinHour(AggregateHour(fires, h).value, n).Success?
    ensures Sum(RebinHour(AggregateHour(fires, h).value, n).value.emissionFractions) == 1.0
    ensures NonNegativeWeights(fires, h) ==> Normalized(RebinHour(AggregateHour(fires, h).value, n).value)
  {
    var agg := AggregateHour(fires, h).value;
    NormalizedFiresMass(fires, h);
    MergedFractionsSum(fires, h, n);
    if NonNegativeWeights(fires, h) {
      RebinnedSmolder(agg, RebinHour(agg, n).value);
    }
  }

  lemma MergedFractionsSum(fires: seq<Fire>, h: Hour, n: nat)
    requires AggregateHour(fires, h).Some? && RebinHour(AggregateHour(fires, h).value, n).Success?
    requires SumOf(fires, FractionMassAt(h)) == SumOf(fires, WeightAt(h))
    ensures Sum(RebinHour(AggregateHour(fires, h).value, n).value.emissionFractions) == 1.0
  {
    var agg := AggregateHour(fires, h).value;
    var p := RebinHour(agg, n).value;
    AggregateMass(fires, h);
    RebinnedWhole(agg, p);
  }

  /** A re-binned profile whose pairs carry the whole total mass has fractions
      adding up to one. */
  lemma RebinnedWhole(agg: HourAggregate, p: PlumeProfile)
    requires agg.totalMass != 0.0 && AccountsFor(p, agg)
    requires SumOf(agg.pairs, Mass) == agg.totalMass
    ensures Sum(p.emissionFractions) == 1.0
  {
    ShareOfOne(Sum(p.emissionFractions), agg.totalMass);
  }

  /** With every profile normalized the pairs carry all the weight, and with no
      negative weight the smoldering mass is a part of it. */
  lemma NormalizedFiresMass(fires: seq<Fire>, h: Hour)
    requires forall i :: 0 <= i < |fires| && h in fires[i].plumerise ==> Normalized(fires[i].plumerise[h])
    ensures SumOf(fires, FractionMassAt(h)) == SumOf(fires, WeightAt(h))
    ensures NonNegativeWeights(fires, h) ==>
      0.0 <= SumOf(fires, SmolderMassAt(h)) <= SumOf(fires, WeightAt(h))
  {
    forall i | 0 <= i < |fires|
      ensures FractionMassAt(h)(fires[i]) == WeightAt(h)(fires[i])
    {
      NormalizedFireMass(fires[i], h);
    }
    SumOfLe(fires, FractionMassAt(h), WeightAt(h));
    SumOfLe(fires, WeightAt(h), FractionMassAt(h));
    if NonNegativeWeights(fires, h) {
      forall i | 0 <= i < |fires|
        ensures (f => 0.0)(fires[i]) <= SmolderMassAt(h)(fires[i]) <= WeightAt(h)(fires[i])
      {
        NormalizedFireMass(fires[i], h);
      }
      SumOfLe(fires, f => 0.0, SmolderMassAt(h));
      SumOfLe(fires, SmolderMassAt(h), WeightAt(h));
      SumOfZero(fires);
    }
  }

  lemma {:induction false} SumOfZero(fires: seq<Fire>)
    ensures SumOf(fires, f => 0.0) == 0.0
  {
    if |fires| > 0 {
      SumOfZero(fires[..|fires| - 1]);
    }
  }

  /** A re-binned profile whose smoldering mass is part of the positive total
      mass has a smolder fraction in [0, 1]. */
  lemma RebinnedSmolder(agg: HourAggregate, p: PlumeProfile)
    requires agg.totalMass != 0.0 && AccountsFor(p, agg)
    requires 0.0 <= agg.smolderMass <= agg.totalMass
    ensures 0.0 <= p.smolderFraction <= 1.0
  {
    SmolderShare(p.smolderFraction, agg.smolderMass, agg.totalMass);
  }

  /** A factor that times a non-zero total gives the total is one. */
  lemma ShareOfOne(a: real, t: real)
    requires t != 0.0 && a * t == t
    ensures a == 1.0
  {
    assert (a - 1.0) * t == 0.0;
  }

  /** A share of a part between nothing and the positive total lies in [0, 1]. */
  lemma SmolderShare(s: real, part: real, t: real)
    requires t != 0.0 && s * t == part && 0.0 <= part <= t
    ensures 0.0 <= s <= 1.0
  {
    assert t > 0.0;
    assert s == part / t;
  }
}

=== FILE: sorting.dfy ===
/** Stable insertion sort of a sequence by a real-valued key, used wherever the
    source calls `sorted(..., key=...)`. */
module Sorting {

  predicate SortedBy<T>(s: seq<T>, key: T -> real)
  {
    forall i, j :: 0 <= i < j < |s| ==> key(s[i]) <= key(s[j])
  }

  /** Inserts `x` in front of the first element whose key is not smaller. */
  function Insert<T>(x: T, s: seq<T>, key: T -> real): (r: seq<T>)
    requires SortedBy(s, key)
    ensures SortedBy(r, key)
    ensures multiset(r) == multiset(s) + multiset{x}
    ensures |r| == |s| + 1
  {
    if |s| == 0 then [x]
    else if key(x) <= key(s[0]) then [x] + s
    else
      var rest := Insert(x, s[1..], key);
      assert s == [s[0]] + s[1..];
      InsertBehindHead(s[0], x, s[1..], rest, key);
      [s[0]] + rest
  }

  /** An element inserted behind a smaller head keeps the head in front. */
  lemma InsertBehindHead<T>(h: T, x: T, t: seq<T>, rest: seq<T>, key: T -> real)
    requires SortedBy([h] + t, key) && key(h) < key(x)
    requires SortedBy(rest, key) && multiset(rest) == multiset(t) + multiset{x}
    ensures SortedBy([h] + rest, key)
  {
    forall i | 0 <= i < |rest|
      ensures key(h) <= key(rest[i])
    {
      assert rest[i] in multiset(rest);
      if rest[i] != x {
        assert rest[i] in multiset(t);
        var j :| 0 <= j < |t| && t[j] == rest[i];
        assert ([h] + t)[0] == h && ([h] + t)[j + 1] == t[j];
      }
    }
    forall i, j | 0 <= i < j < |[h] + rest|
      ensures key(([h] + rest)[i]) <= key(([h] + rest)[j])
    {
      if i > 0 {
        assert ([h] + rest)[i] == rest[i - 1];
      }
      assert ([h] + rest)[j] == rest[j - 1];
    }
  }

  function SortBy<T>(s: seq<T>, key: T -> real): (r: seq<T>)
    ensures SortedBy(r, key)
    ensures multiset(r) == multiset(s)
    ensures |r| == |s|
  {
    if |s| == 0 then []
    else
      assert s == [s[0]] + s[1..];
      Insert(s[0], SortBy(s[1..], key), key)
  }

  /** Sorting keeps exactly the same elements. */
  lemma SortByMembers<T>(s: seq<T>, key: T -> real, x: T)
    ensures x in SortBy(s, key) <==> x in s
  {
    var r := SortBy(s, key);
    assert x in r <==> x in multiset(r);
    assert x in s <==> x in multiset(s);
  }

  /** A sequence that is already in order comes back unchanged. */
  lemma {:induction false} SortBySorted<T>(s: seq<T>, key: T -> real)
    requires SortedBy(s, key)
    ensures SortBy(s, key) == s
  {
    if |s| > 0 {
      SortBySorted(s[1..], key);
      assert SortBy(s[1..], key) == s[1..];
      if |s| > 1 {
        assert key(s[0]) <= key(s[1]);
      }
      assert s == [s[0]] + s[1..];
    }
  }

  lemma SortedPair<T>(a: T, b: T, key: T -> real)
    requires key(a) <= key(b)
    ensures SortedBy([a, b], key)
  {
  }

  lemma SortedTriple<T>(a: T, b: T, c: T, key: T -> real)
    requires key(a) <= key(b) <= key(c)
    ensures SortedBy([a, b, c], key)
  {
  }

  lemma SortedCons<T>(x: T, s: seq<T>, key: T -> real)
    requires SortedBy(s, key) && (|s| > 0 ==> key(x) <= key(s[0]))
    ensures SortedBy([x] + s, key)
  {
    var r := [x] + s;
    forall i, j | 0 <= i < j < |r|
      ensures key(r[i]) <= key(r[j])
    {
      if i == 0 {
        assert r[j] == s[j - 1];
        assert key(s[0]) <= key(s[j - 1]) || j == 1;
      } else {
        assert r[i] == s[i - 1] && r[j] == s[j - 1];
      }
    }
  }

  /** Two elements out of order are swapped. */
  lemma SortByTwo<T>(a: T, b: T, key: T -> real)
    requires key(b) < key(a)
    ensures SortBy([a, b], key) == [b, a]
  {
    assert [a, b][1..] == [b];
    assert SortBy([b], key) == [b];
    assert [b][1..] == [];
  }

  /** Keys strictly increase: no two elements share a key. */
  predicate StrictlySortedBy<T>(s: seq<T>, key: T -> real)
  {
    forall i, j :: 0 <= i < j < |s| ==> key(s[i]) < key(s[j])
  }

  /** A sorted arrangement of elements with pairwise distinct keys is unique. */
  lemma {:induction false} SortedUnique<T>(a: seq<T>, b: seq<T>, key: T -> real)
    requires SortedBy(a, key) && StrictlySortedBy(b, key)
    requires multiset(a) == multiset(b)
    ensures a == b
    decreases |a|
  {
    assert |a| == |multiset(a)| == |multiset(b)| == |b|;
    if |a| > 0 {
      SameHead(a, b, key);
      var x := a[0];
      assert a == [x] + a[1..] && b == [x] + b[1..];
      DropSameHead(x, a[1..], b[1..]);
      SortedTail(a, key);
      StrictlySortedTail(b, key);
      SortedUnique(a[1..], b[1..], key);
    }
  }

  /** Both arrangements start with the element of least key. */
  lemma SameHead<T>(a: seq<T>, b: seq<T>, key: T -> real)
    requires SortedBy(a, key) && StrictlySortedBy(b, key)
    requires multiset(a) == multiset(b) && |a| > 0 && |b| > 0
    ensures a[0] == b[0]
  {
    assert a[0] in multiset(b) && b[0] in multiset(a);
    var k :| 0 <= k < |b| && b[k] == a[0];
    var m :| 0 <= m < |a| && a[m] == b[0];
    assert key(b[k]) == key(a[0]) <= key(a[m]) == key(b[0]);
  }

  lemma SortedTail<T>(s: seq<T>, key: T -> real)
    requires SortedBy(s, key) && |s| > 0
    ensures SortedBy(s[1..], key)
  {
    forall i, j | 0 <= i < j < |s| - 1
      ensures key(s[1..][i]) <= key(s[1..][j])
    {
      assert s[1..][i] == s[i + 1] && s[1..][j] == s[j + 1];
    }
  }

  lemma StrictlySortedTail<T>(s: seq<T>, key: T -> real)
    requires StrictlySortedBy(s, key) && |s| > 0
    ensures StrictlySortedBy(s[1..], key)
  {
    forall i, j | 0 <= i < j < |s| - 1
      ensures key(s[1..][i]) < key(s[1..][j])
    {
      assert s[1..][i] == s[i + 1] && s[1..][j] == s[j + 1];
    }
  }

  lemma DropSameHead<T>(x: T, s: seq<T>, t: seq<T>)
    requires multiset([x] + s) == multiset([x] + t)
    ensures multiset(s) == multiset(t)
  {
    assert multiset(s) == multiset([x] + s) - multiset{x};
    assert multiset(t) == multiset([x] + t) - multiset{x};
  }

  /** An element whose key is at most the first key of a sorted sequence goes first. */
  lemma InsertFirst<T>(x: T, s: seq<T>, key: T -> real)
    requires SortedBy(s, key) && |s| > 0 && key(x) <= key(s[0])
    ensures Insert(x, s, key) == [x] + s
  {
  }

  /** An element whose key exceeds every key of a sorted sequence goes last. */
  lemma {:induction false} InsertLast<T>(x: T, s: seq<T>, key: T -> real)
    requires SortedBy(s, key) && forall i :: 0 <= i < |s| ==> key(s[i]) < key(x)
    ensures Insert(x, s, key) == s + [x]
    decreases |s|
  {
    if |s| > 0 {
      SortedTail(s, key);
      InsertLast(x, s[1..], key);
      assert s == [s[0]] + s[1..];
      assert [s[0]] + (s[1..] + [x]) == s + [x];
    }
  }

  /** An element keyed above a sorted sequence sorts after it. */
  lemma SortLast<T>(c: T, rest: seq<T>, key: T -> real)
    requires SortedBy(rest, key) && forall i :: 0 <= i < |rest| ==> key(rest[i]) < key(c)
    ensures SortBy([c] + rest, key) == rest + [c]
  {
    assert ([c] + rest)[1..] == rest;
    SortBySorted(rest, key);
    InsertLast(c, rest, key);
  }

  /** Sorting a sorted sequence behind two elements, one keyed below it and one
      above, puts the first in front and the second at the end. */
  lemma SortAround<T>(d: T, c: T, rest: seq<T>, key: T -> real)
    requires SortedBy(rest, key) && |rest| > 0 && key(d) <= key(rest[0])
    requires forall i :: 0 <= i < |rest| ==> key(rest[i]) < key(c)
    ensures SortBy([d, c] + rest, key) == [d] + (rest + [c])
  {
    assert [d, c] + rest == [d] + ([c] + rest);
    SortCons(d, [c] + rest, key);
    SortLast(c, rest, key);
    InsertFirst(d, rest + [c], key);
  }

  /** Sorting inserts the first element into the sorted rest. */
  lemma SortCons<T>(x: T, s: seq<T>, key: T -> real)
    ensures SortBy([x] + s, key) == Insert(x, SortBy(s, key), key)
  {
    assert ([x] + s)[1..] == s;
  }

  /** Sorting any arrangement of strictly ordered elements gives them back in order. */
  lemma SortByPermutation<T>(s: seq<T>, sorted: seq<T>, key: T -> real)
    requires StrictlySortedBy(sorted, key) && multiset(s) == multiset(sorted)
    ensures SortBy(s, key) == sorted
  {
    SortedUnique(SortBy(s, key), sorted, key);
  }
}

=== FILE: timewindows.dfy ===
/** Met-data time windows: the union of closed hour intervals, and the windows a
    run needs (fire activity shifted to UTC plus the configured windows). Times are
    whole hours since an arbitrary epoch. */
module TimeWindows {
  import opened Common
  import opened Sorting

  datatype Window = Window(start: int, end: int)

  predicate WellFormed(w: Window) { w.start <= w.end }

  predicate AllWellFormed(ws: seq<Window>)
  {
    forall i :: 0 <= i < |ws| ==> WellFormed(ws[i])
  }

  /** Hour `t` lies in some window of `ws` (windows are closed at both ends). */
  predicate Covers(ws: seq<Window>, t: int)
  {
    exists i :: 0 <= i < |ws| && ws[i].start <= t <= ws[i].end
  }

  /** Well-formed windows in increasing order, each ending strictly before the next
      one starts: no two overlap or touch. */
  predicate Separated(ws: seq<Window>)
  {
    && AllWellFormed(ws)
    && forall i, j :: 0 <= i < j < |ws| ==> ws[i].end < ws[j].start
  }

  function StartKey(w: Window): real { w.start as real }

  predicate SortedByStart(ws: seq<Window>)
  {
    forall i, j :: 0 <= i < j < |ws| ==> ws[i].start <= ws[j].start
  }

  /** Extends the last merged window to also reach the end of `w`. */
  function ExtendLast(merged: seq<Window>, w: Window): (r: seq<Window>)
    requires |merged| > 0
    ensures |r| == |merged|
  {
    var last := merged[|merged| - 1];
    merged[..|merged| - 1] + [Window(last.start, if w.end > last.end then w.end else last.end)]
  }

  /** One pass of the scan over start-sorted windows: each window either extends
      the last merged window (when it starts no later than that window ends) or is
      appended after it. */
  function CoalesceInto(merged: seq<Window>, rest: seq<Window>): seq<Window>
    decreases |rest|
  {
    if |rest| == 0 then merged
    else
      var w := rest[0];
      var next := if |merged| > 0 && w.start <= merged[|merged| - 1].end
                  then ExtendLast(merged, w) else merged + [w];
      CoalesceInto(next, rest[1..])
  }

  /** `_merge_time_windows`: sort by start, then coalesce in a single scan. */
  function MergeTimeWindows(ws: seq<Window>): (r: seq<Window>)
    ensures AllWellFormed(ws) ==> Separated(r)
    ensures |r| <= |ws|
    ensures |ws| > 0 <==> |r| > 0
  {
    var sorted := SortBy(ws, StartKey);
    SortedWindows(ws);
    CoalesceShape([], sorted);
    CoalesceInto([], sorted)
  }

  lemma SortedWindows(ws: seq<Window>)
    ensures SortedByStart(SortBy(ws, StartKey))
    ensures AllWellFormed(ws) ==> AllWellFormed(SortBy(ws, StartKey))
  {
    var s := SortBy(ws, StartKey);
    if AllWellFormed(ws) {
      forall i | 0 <= i < |s|
        ensures WellFormed(s[i])
      {
        SortByMembers(ws, StartKey, s[i]);
      }
    }
  }

  /** The scan may only start windows no later than those still to come. */
  predicate ScanReady(merged: seq<Window>, rest: seq<Window>)
  {
    && SortedByStart(rest)
    && (|merged| > 0 && |rest| > 0 ==> merged[|merged| - 1].start <= rest[0].start)
  }

  /** The scan keeps merged windows separated and never produces more windows than
      it was given. */
  lemma {:induction false} CoalesceShape(merged: seq<Window>, rest: seq<Window>)
    requires ScanReady(merged, rest)
    ensures |CoalesceInto(merged, rest)| <= |merged| + |rest|
    ensures |merged| + |rest| > 0 ==> |CoalesceInto(merged, rest)| > 0
    ensures Separated(merged) && AllWellFormed(rest) ==> Separated(CoalesceInto(merged, rest))
    decreases |rest|
  {
    if |rest| > 0 {
      var w := rest[0];
      var next := if |merged| > 0 && w.start <= merged[|merged| - 1].end
                  then ExtendLast(merged, w) else merged + [w];
      assert |rest| > 1 ==> rest[0].start <= rest[1].start;
      assert |next| > 0 && next[|next| - 1].start <= w.start;
      CoalesceShape(next, rest[1..]);
      if Separated(merged) && AllWellFormed(rest) {
        assert WellFormed(w);
        StepSeparated(merged, w);
      }
    }
  }

  lemma StepSeparated(merged: seq<Window>, w: Window)
    requires Separated(merged) && WellFormed(w)
    requires |merged| > 0 ==> merged[|merged| - 1].start <= w.start
    ensures Separated(if |merged| > 0 && w.start <= merged[|merged| - 1].end
                      then ExtendLast(merged, w) else merged + [w])
  {
    if |merged| > 0 && w.start <= merged[|merged| - 1].end {
      var e := ExtendLast(merged, w);
      forall i, j | 0 <= i < j < |e|
        ensures e[i].end < e[j].start
      {
        assert e[i] == merged[i];
        assert e[j].start == merged[j].start;
      }
    } else {
      var e := merged + [w];
      forall i, j | 0 <= i < j < |e|
        ensures e[i].end < e[j].start
      {
        if j == |merged| {
          assert WellFormed(merged[|merged| - 1]);
          if i < |merged| - 1 {
            assert merged[i].end < merged[|merged| - 1].start;
          }
        }
      }
    }
  }

  lemma CoversMember(ws: seq<Window>, w: Window, t: int)
    requires w in ws && w.start <= t <= w.end
    ensures Covers(ws, t)
  {
    var i :| 0 <= i < |ws| && ws[i] == w;
  }

  /** Coverage depends only on which windows are present, not on their order. */
  lemma CoversSameElements(a: seq<Window>, b: seq<Window>, t: int)
    requires forall w :: w in a <==> w in b
    ensures Covers(a, t) <==> Covers(b, t)
  {
    if Covers(a, t) {
      var i :| 0 <= i < |a| && a[i].start <= t <= a[i].end;
      CoversMember(b, a[i], t);
    }
    if Covers(b, t) {
      var i :| 0 <= i < |b| && b[i].start <= t <= b[i].end;
      CoversMember(a, b[i], t);
    }
  }

  lemma CoversAppend(a: seq<Window>, w: Window, t: int)
    ensures Covers(a + [w], t) <==> Covers(a, t) || (w.start <= t <= w.end)
  {
    if Covers(a, t) {
      var i :| 0 <= i < |a| && a[i].start <= t <= a[i].end;
      assert (a + [w])[i] == a[i];
    }
    if w.start <= t <= w.end {
      assert (a + [w])[|a|] == w;
    }
    if Covers(a + [w], t) {
      var i :| 0 <= i < |a + [w]| && (a + [w])[i].start <= t <= (a + [w])[i].end;
      if i < |a| {
        assert (a + [w])[i] == a[i];
      }
    }
  }

  lemma CoversPrepend(w: Window, a: seq<Window>, t: int)
    ensures Covers([w] + a, t) <==> (w.start <= t <= w.end) || Covers(a, t)
  {
    if Covers(a, t) {
      var i :| 0 <= i < |a| && a[i].start <= t <= a[i].end;
      assert ([w] + a)[i + 1] == a[i];
    }
    if w.start <= t <= w.end {
      assert ([w] + a)[0] == w;
    }
    if Covers([w] + a, t) {
      var i :| 0 <= i < |[w] + a| && ([w] + a)[i].start <= t <= ([w] + a)[i].end;
      if i > 0 {
        assert ([w] + a)[i] == a[i - 1];
      }
    }
  }

  /** Extending the last window by an overlapping or touching `w` covers what the
      merged windows and `w` cover together. */
  lemma CoversExtendLast(merged: seq<Window>, w: Window, t: int)
    requires |merged| > 0 && merged[|merged| - 1].start <= w.start <= merged[|merged| - 1].end
    requires WellFormed(w)
    ensures Covers(ExtendLast(merged, w), t) <==> Covers(merged, t) || (w.start <= t <= w.end)
  {
    var last := merged[|merged| - 1];
    var init := merged[..|merged| - 1];
    assert merged == init + [last];
    CoversAppend(init, last, t);
    CoversAppend(init, Window(last.start, if w.end > last.end then w.end else last.end), t);
  }

  /** The scan covers exactly the hours covered by the merged windows so far and
      by the windows still to come. */
  lemma {:induction false} CoalesceCovers(merged: seq<Window>, rest: seq<Window>, t: int)
    requires ScanReady(merged, rest)
    requires AllWellFormed(rest)
    ensures Covers(CoalesceInto(merged, rest), t) <==> Covers(merged, t) || Covers(rest, t)
    decreases |rest|
  {
    if |rest| > 0 {
      var w := rest[0];
      assert rest == [w] + rest[1..];
      CoversPrepend(w, rest[1..], t);
      assert WellFormed(w);
      assert |rest| > 1 ==> rest[0].start <= rest[1].start;
      if |merged| > 0 && w.start <= merged[|merged| - 1].end {
        CoversExtendLast(merged, w, t);
        CoalesceCovers(ExtendLast(merged, w), rest[1..], t);
      } else {
        CoversAppend(merged, w, t);
        CoalesceCovers(merged + [w], rest[1..], t);
      }
    }
  }

  /** Separated windows pass through the scan unchanged. */
  lemma {:induction false} CoalesceSeparated(merged: seq<Window>, rest: seq<Window>)
    requires Separated(merged + rest)
    ensures CoalesceInto(merged, rest) == merged + rest
    decreases |rest|
  {
    if |rest| > 0 {
      var w := rest[0];
      if |merged| > 0 {
        assert (merged + rest)[|merged| - 1] == merged[|merged| - 1];
        assert (merged + rest)[|merged|] == w;
      }
      assert merged + rest == (merged + [w]) + rest[1..];
      CoalesceSeparated(merged + [w], rest[1..]);
    }
  }

  lemma SeparatedSorted(ws: seq<Window>)
    requires Separated(ws)
    ensures SortedByStart(ws)
  {
    forall i, j | 0 <= i < j < |ws|
      ensures ws[i].start <= ws[j].start
    {
      assert WellFormed(ws[i]);
    }
  }

  /** `_merge_time_windows` covers exactly the hours its input covers. */
  lemma MergeTimeWindowsCovers(ws: seq<Window>, t: int)
    requires AllWellFormed(ws)
    ensures Covers(MergeTimeWindows(ws), t) <==> Covers(ws, t)
  {
    var sorted := SortBy(ws, StartKey);
    SortedWindows(ws);
    CoalesceCovers([], sorted, t);
    forall w ensures w in sorted <==> w in ws {
      SortByMembers(ws, StartKey, w);
    }
    CoversSameElements(sorted, ws, t);
  }

  /** Separated windows are already merged: they come back unchanged. */
  lemma MergeTimeWindowsSeparated(ws: seq<Window>)
    requires Separated(ws)
    ensures MergeTimeWindows(ws) == ws
  {
    SeparatedSorted(ws);
    SortBySorted(ws, StartKey);
    assert [] + ws == ws;
    CoalesceSeparated([], ws);
  }

  /** ...and so merging twice is the same as merging once. */
  lemma MergeTimeWindowsIdempotent(ws: seq<Window>)
    requires AllWellFormed(ws)
    ensures MergeTimeWindows(MergeTimeWindows(ws)) == MergeTimeWindows(ws)
  {
    MergeTimeWindowsSeparated(MergeTimeWindows(ws));
  }

  // ---------------------------------------------------------------------------
  // `_get_time_windows`

  /** An active area's local-time window and its UTC offset in hours. */
  datatype ActiveAreaTimes = ActiveAreaTimes(localStart: int, localEnd: int, utcOffset: int)

  /** A fire, reduced to what met-data selection reads: its active areas. */
  datatype MetFire = MetFire(activeAreas: seq<ActiveAreaTimes>)

  /** `dispersion > start` (UTC) and `dispersion > num_hours`. */
  datatype DispersionWindow = DispersionWindow(start: int, numHours: int)

  /** `findmetdata > time_window > first_hour / last_hour` (UTC). */
  datatype ConfiguredWindow = ConfiguredWindow(firstHour: int, lastHour: int)

  datatype TimeWindowError = NoTimeWindows | FireWithoutActivity

  /** Local time minus the UTC offset is UTC: 17:00 at -09:00 is 02:00 UTC the next day. */
  function ToUtc(aa: ActiveAreaTimes): (w: Window)
    ensures w.end - w.start == aa.localEnd - aa.localStart
    ensures w.start + aa.utcOffset == aa.localStart
  {
    Window(aa.localStart - aa.utcOffset, aa.localEnd - aa.utcOffset)
  }

  function ConfiguredWindows(dispersion: Option<DispersionWindow>, configured: Option<ConfiguredWindow>): seq<Window>
  {
    (match dispersion
     case Some(d) => [Window(d.start, d.start + d.numHours)]
     case None => [])
    + (match configured
       case Some(c) => [Window(c.firstHour, c.lastHour)]
       case None => [])
  }

  function FireWindows(fires: seq<MetFire>): seq<Window>
  {
    if |fires| == 0 then []
    else FireWindows(fires[..|fires| - 1]) + AreaWindows(fires[|fires| - 1].activeAreas)
  }

  function AreaWindows(areas: seq<ActiveAreaTimes>): seq<Window>
  {
    if |areas| == 0 then [] else AreaWindows(areas[..|areas| - 1]) + [ToUtc(areas[|areas| - 1])]
  }

  /** Every window `_get_time_windows` collects, before merging. */
  function RawWindows(fires: seq<MetFire>, dispersion: Option<DispersionWindow>,
                      configured: Option<ConfiguredWindow>): seq<Window>
  {
    ConfiguredWindows(dispersion, configured) + FireWindows(fires)
  }

  predicate SomeFireLacksActivity(fires: seq<MetFire>)
  {
    exists i :: 0 <= i < |fires| && |fires[i].activeAreas| == 0
  }

  /** `_get_time_windows`: fails when a fire has no activity or when there is no
      window at all; otherwise the merged union of every collected window. */
  function GetTimeWindows(fires: seq<MetFire>, dispersion: Option<DispersionWindow>,
                          configured: Option<ConfiguredWindow>): (r: Result<seq<Window>, TimeWindowError>)
    ensures r == Failure(FireWithoutActivity) <==> SomeFireLacksActivity(fires)
    ensures r == Failure(NoTimeWindows) <==>
              !SomeFireLacksActivity(fires) && |fires| == 0 && dispersion.None? && configured.None?
    ensures r.Success? ==> |r.value| > 0
    ensures r.Success? && AllWellFormed(RawWindows(fires, dispersion, configured)) ==>
              Separated(r.value)
              && forall t :: Covers(r.value, t) <==> Covers(RawWindows(fires, dispersion, configured), t)
  {
    var raw := RawWindows(fires, dispersion, configured);
    if SomeFireLacksActivity(fires) then Failure(FireWithoutActivity)
    else
      NoActivityMeansNoWindows(fires);
      if |raw| == 0 then Failure(NoTimeWindows)
      else
        MergeTimeWindowsCoversAll(raw);
        Success(MergeTimeWindows(raw))
  }

  lemma MergeTimeWindowsCoversAll(ws: seq<Window>)
    ensures AllWellFormed(ws) ==> forall t :: Covers(MergeTimeWindows(ws), t) <==> Covers(ws, t)
  {
    if AllWellFormed(ws) {
      forall t ensures Covers(MergeTimeWindows(ws), t) <==> Covers(ws, t) {
        MergeTimeWindowsCovers(ws, t);
      }
    }
  }

  lemma {:induction false} NoActivityMeansNoWindows(fires: seq<MetFire>)
    requires !SomeFireLacksActivity(fires)
    ensures |FireWindows(fires)| == 0 <==> |fires| == 0
  {
    if |fires| > 0 {
      assert |fires[|fires| - 1].activeAreas| > 0;
      assert |AreaWindows(fires[|fires| - 1].activeAreas)| > 0;
    }
  }

  // ---------------------------------------------------------------------------
  // The test cases, with hours counted from 2015-01-20T00:00 for the fires and
  // from 2018-11-08T00:00 for the merge cases.

  /** With every fire active and some window collected, the result is the merge
      of the collected windows. */
  lemma GetTimeWindowsMerged(fires: seq<MetFire>, dispersion: Option<DispersionWindow>,
                             configured: Option<ConfiguredWindow>, raw: seq<Window>)
    requires raw == RawWindows(fires, dispersion, configured) && |raw| > 0
    requires forall i :: 0 <= i < |fires| ==> |fires[i].activeAreas| > 0
    ensures GetTimeWindows(fires, dispersion, configured) == Success(MergeTimeWindows(raw))
  {
  }

  /** A window nested in a later-listed one is absorbed into it. */
  lemma MergeNestedExample(ws: seq<Window>)
    requires ws == [Window(28, 29), Window(8, 32)]
    ensures MergeTimeWindows(ws) == [Window(8, 32)]
  {
    SortByTwo(Window(28, 29), Window(8, 32), StartKey);
    CoalesceTwo(Window(8, 32), Window(28, 29));
  }

  /** Of two windows with the same start, the merged window keeps the later end. */
  lemma MergeSameStartExample(ws: seq<Window>)
    requires ws == [Window(8, 9), Window(8, 32)]
    ensures MergeTimeWindows(ws) == [Window(8, 32)]
  {
    SortedPair(Window(8, 9), Window(8, 32), StartKey);
    SortBySorted(ws, StartKey);
    CoalesceTwo(Window(8, 9), Window(8, 32));
  }

  /** Two start-sorted windows that overlap or touch coalesce into one. */
  lemma CoalesceTwo(a: Window, b: Window)
    requires b.start <= a.end
    ensures CoalesceInto([], [a, b]) == [Window(a.start, if b.end > a.end then b.end else a.end)]
  {
    assert [a][..0] == [];
    var e := ExtendLast([a], b);
    assert e == [Window(a.start, if b.end > a.end then b.end else a.end)];
    assert [a, b][1..] == [b];
    assert CoalesceInto([], [a, b]) == CoalesceInto([a], [b]);
    assert CoalesceInto([a], [b]) == CoalesceInto(e, []);
  }

  /** One fire with two active areas over the same local day at -09:00: the
      UTC window runs from 02:00 on the 21st to 02:00 on the 22nd. */
  lemma OneFireExample(fires: seq<MetFire>)
    requires fires == [MetFire([ActiveAreaTimes(17, 41, -9), ActiveAreaTimes(17, 41, -9)])]
    ensures GetTimeWindows(fires, None, None) == Success([Window(26, 50)])
  {
    var raw := RawWindows(fires, None, None);
    OneFireWindows(fires);
    DuplicateMerge(raw);
    GetTimeWindowsMerged(fires, None, None, raw);
  }

  /** Duplicate windows collapse to one. */
  lemma DuplicateMerge(raw: seq<Window>)
    requires raw == [Window(26, 50), Window(26, 50)]
    ensures MergeTimeWindows(raw) == [Window(26, 50)]
  {
    SortedPair(Window(26, 50), Window(26, 50), StartKey);
    SortBySorted(raw, StartKey);
    CoalesceTwo(Window(26, 50), Window(26, 50));
  }

  /** The UTC windows of the first fire's two active areas. */
  lemma OneFireWindows(fires: seq<MetFire>)
    requires fires == [MetFire([ActiveAreaTimes(17, 41, -9), ActiveAreaTimes(17, 41, -9)])]
    ensures FireWindows(fires) == [Window(26, 50), Window(26, 50)]
  {
    var areas := fires[0].activeAreas;
    assert areas[..1][..0] == [];
    assert AreaWindows(areas[..1]) == [Window(26, 50)];
    assert AreaWindows(areas) == [Window(26, 50), Window(26, 50)];
    assert fires[..0] == [];
  }

  /** A second fire whose window starts where the first one ends: the two
      windows merge into one. */
  lemma TwoFiresExample(fires: seq<MetFire>)
    requires fires == [MetFire([ActiveAreaTimes(17, 41, -9), ActiveAreaTimes(17, 41, -9)]),
                       MetFire([ActiveAreaTimes(41, 65, -9)])]
    ensures GetTimeWindows(fires, None, None) == Success([Window(26, 74)])
  {
    var raw := RawWindows(fires, None, None);
    assert MergeTimeWindows(raw) == [Window(26, 74)] by {
      TwoFiresWindows(fires);
      TouchingMerge(raw);
    }
    assert forall i :: 0 <= i < |fires| ==> |fires[i].activeAreas| > 0;
    GetTimeWindowsMerged(fires, None, None, raw);
  }

  lemma TwoFiresWindows(fires: seq<MetFire>)
    requires fires == [MetFire([ActiveAreaTimes(17, 41, -9), ActiveAreaTimes(17, 41, -9)]),
                       MetFire([ActiveAreaTimes(41, 65, -9)])]
    ensures RawWindows(fires, None, None) == [Window(26, 50), Window(26, 50), Window(50, 74)]
  {
    OneFireWindows(fires[..1]);
    assert fires[1].activeAreas[..0] == [];
    assert AreaWindows(fires[1].activeAreas) == [Window(50, 74)];
  }

  /** Windows that touch merge into one. */
  lemma TouchingMerge(raw: seq<Window>)
    requires raw == [Window(26, 50), Window(26, 50), Window(50, 74)]
    ensures MergeTimeWindows(raw) == [Window(26, 74)]
  {
    SortedTriple(Window(26, 50), Window(26, 50), Window(50, 74), StartKey);
    SortBySorted(raw, StartKey);
    CoalesceThree(Window(26, 50), Window(26, 50), Window(50, 74));
  }

  /** Three start-sorted windows, each overlapping or touching the union of the
      ones before it, coalesce into one. */
  lemma CoalesceThree(a: Window, b: Window, c: Window)
    requires b.start <= a.end && b.end <= a.end && c.start <= a.end
    ensures CoalesceInto([], [a, b, c]) == [Window(a.start, if c.end > a.end then c.end else a.end)]
  {
    assert [a][..0] == [];
    assert ExtendLast([a], b) == [a];
    var e := ExtendLast([a], c);
    assert e == [Window(a.start, if c.end > a.end then c.end else a.end)];
    assert [a, b, c][1..] == [b, c];
    assert [b, c][1..] == [c];
    assert CoalesceInto([], [a, b, c]) == CoalesceInto([a], [b, c]);
    assert CoalesceInto([a], [b, c]) == CoalesceInto([a], [c]);
    assert CoalesceInto([a], [c]) == CoalesceInto(e, []);
  }

  /** A third fire eleven days later at -07:00: its window stays separate
      and comes after the merged window of the first two. */
  lemma ThreeFiresExample(fires: seq<MetFire>)
    requires fires == [MetFire([ActiveAreaTimes(17, 41, -9), ActiveAreaTimes(17, 41, -9)]),
                       MetFire([ActiveAreaTimes(41, 65, -9)]),
                       MetFire([ActiveAreaTimes(305, 329, -7)])]
    ensures GetTimeWindows(fires, None, None) == Success([Window(26, 74), Window(312, 336)])
  {
    var raw := RawWindows(fires, None, None);
    assert MergeTimeWindows(raw) == [Window(26, 74), Window(312, 336)] by {
      ThreeFiresWindows(fires);
      DisjointMerge(raw);
    }
    assert forall i :: 0 <= i < |fires| ==> |fires[i].activeAreas| > 0;
    GetTimeWindowsMerged(fires, None, None, raw);
  }

  lemma ThreeFiresWindows(fires: seq<MetFire>)
    requires fires == [MetFire([ActiveAreaTimes(17, 41, -9), ActiveAreaTimes(17, 41, -9)]),
                       MetFire([ActiveAreaTimes(41, 65, -9)]),
                       MetFire([ActiveAreaTimes(305, 329, -7)])]
    ensures RawWindows(fires, None, None) ==
      [Window(26, 50), Window(26, 50), Window(50, 74), Window(312, 336)]
  {
    TwoFiresWindows(fires[..2]);
    assert fires[2].activeAreas[..0] == [];
    assert AreaWindows(fires[2].activeAreas) == [Window(312, 336)];
  }

  /** A window that starts after the merged window ends stays separate. */
  lemma DisjointMerge(raw: seq<Window>)
    requires raw == [Window(26, 50), Window(26, 50), Window(50, 74), Window(312, 336)]
    ensures MergeTimeWindows(raw) == [Window(26, 74), Window(312, 336)]
  {
    assert SortBy(raw, StartKey) == raw by {
      SortedFour(Window(26, 50), Window(26, 50), Window(50, 74), Window(312, 336));
      SortBySorted(raw, StartKey);
    }
    CoalesceFour(Window(26, 50), Window(26, 50), Window(50, 74), Window(312, 336));
  }

  lemma SortedFour(a: Window, b: Window, c: Window, d: Window)
    requires a.start <= b.start <= c.start <= d.start
    ensures SortedBy([a, b, c, d], StartKey)
  {
    assert SortedBy([d], StartKey);
    SortedCons(c, [d], StartKey);
    assert [c] + [d] == [c, d];
    SortedCons(b, [c, d], StartKey);
    assert [b] + [c, d] == [b, c, d];
    SortedCons(a, [b, c, d], StartKey);
    assert [a] + [b, c, d] == [a, b, c, d];
  }

  /** The second window inside the first, the third touching them, the fourth
      after a gap. */
  lemma CoalesceFour(a: Window, b: Window, c: Window, d: Window)
    requires b.start <= a.end && b.end <= a.end && c.start <= a.end && a.end <= c.end && c.end < d.start
    ensures CoalesceInto([], [a, b, c, d]) == [Window(a.start, c.end), d]
  {
    assert [a][..0] == [];
    assert [a, b, c, d][1..] == [b, c, d];
    assert [b, c, d][1..] == [c, d];
    assert [c, d][1..] == [d];
    var e := Window(a.start, c.end);
    assert ExtendLast([a], b) == [a];
    assert ExtendLast([a], c) == [e];
    assert CoalesceInto([], [a, b, c, d]) == CoalesceInto([a], [b, c, d]);
    assert CoalesceInto([a], [b, c, d]) == CoalesceInto([a], [c, d]);
    assert CoalesceInto([a], [c, d]) == CoalesceInto([e], [d]);
    assert CoalesceInto([e], [d]) == CoalesceInto([e, d], []);
  }

  // The configured-window cases, with `dispersion > start` 2014-05-29T19:00Z for
  // 12 hours and `findmetdata > time_window` from 2016-01-04T04:00Z to
  // 2016-01-05T13:00Z, on the same hour count from 2015-01-20T00:00.

  /** No fires and nothing configured: no window at all. */
  lemma NoFiresExample(fires: seq<MetFire>)
    requires fires == []
    ensures GetTimeWindows(fires, None, None) == Failure(NoTimeWindows)
  {
  }

  /** A fire without activity is an error. */
  lemma FireWithoutActivityExample(fires: seq<MetFire>)
    requires fires == [MetFire([])]
    ensures GetTimeWindows(fires, None, None) == Failure(FireWithoutActivity)
  {
    assert |fires[0].activeAreas| == 0;
  }

  lemma SingleWindowMerge(w: Window)
    ensures MergeTimeWindows([w]) == [w]
  {
    assert SortedBy([w], StartKey);
    SortBySorted([w], StartKey);
    assert [w][1..] == [];
    assert [] + [w] == [w];
    assert CoalesceInto([], [w]) == CoalesceInto([w], []);
  }

  /** The dispersion window alone, with no fires, is the one window. */
  lemma DispersionWindowExample(fires: seq<MetFire>)
    requires fires == []
    ensures GetTimeWindows(fires, Some(DispersionWindow(-5645, 12)), None) == Success([Window(-5645, -5633)])
  {
    var raw := RawWindows(fires, Some(DispersionWindow(-5645, 12)), None);
    assert raw == [Window(-5645, -5633)];
    SingleWindowMerge(Window(-5645, -5633));
    GetTimeWindowsMerged(fires, Some(DispersionWindow(-5645, 12)), None, raw);
  }

  /** The configured window alone, with no fires, is the one window. */
  lemma ConfiguredWindowExample(fires: seq<MetFire>)
    requires fires == []
    ensures GetTimeWindows(fires, None, Some(ConfiguredWindow(8380, 8413))) == Success([Window(8380, 8413)])
  {
    var raw := RawWindows(fires, None, Some(ConfiguredWindow(8380, 8413)));
    assert raw == [Window(8380, 8413)];
    SingleWindowMerge(Window(8380, 8413));
    GetTimeWindowsMerged(fires, None, Some(ConfiguredWindow(8380, 8413)), raw);
  }

  /** Two windows with a gap between them stay apart. */
  lemma CoalesceApart(a: Window, b: Window)
    requires a.end < b.start
    ensures CoalesceInto([], [a, b]) == [a, b]
  {
    assert [a, b][1..] == [b] && [b][1..] == [];
    assert [] + [a] == [a] && [a] + [b] == [a, b];
    assert CoalesceInto([], [a, b]) == CoalesceInto([a], [b]);
    assert CoalesceInto([a], [b]) == CoalesceInto([a, b], []);
  }

  /** Both the dispersion and the configured window, with no fires: two windows. */
  lemma DispersionAndConfiguredExample(fires: seq<MetFire>)
    requires fires == []
    ensures GetTimeWindows(fires, Some(DispersionWindow(-5645, 12)), Some(ConfiguredWindow(8380, 8413)))
         == Success([Window(-5645, -5633), Window(8380, 8413)])
  {
    var raw := RawWindows(fires, Some(DispersionWindow(-5645, 12)), Some(ConfiguredWindow(8380, 8413)));
    assert raw == [Window(-5645, -5633), Window(8380, 8413)];
    SortedPair(Window(-5645, -5633), Window(8380, 8413), StartKey);
    SortBySorted(raw, StartKey);
    CoalesceApart(Window(-5645, -5633), Window(8380, 8413));
    GetTimeWindowsMerged(fires, Some(DispersionWindow(-5645, 12)), Some(ConfiguredWindow(8380, 8413)), raw);
  }

  /** The scan over the six sorted windows of the combined case. */
  lemma CoalesceSix(d: Window, a: Window, b: Window, c: Window, f: Window, e: Window)
    requires d.end < a.start
    requires b.start <= a.end && b.end <= a.end && c.start <= a.end && a.end <= c.end
    requires c.end < f.start && f.end < e.start
    ensures CoalesceInto([], [d, a, b, c, f, e]) == [d, Window(a.start, c.end), f, e]
  {
    var m := Window(a.start, c.end);
    assert [] + [d] == [d] && [d] + [a] == [d, a];
    assert [d, m] + [f] == [d, m, f] && [d, m, f] + [e] == [d, m, f, e];
    assert [d, a, b, c, f, e][1..] == [a, b, c, f, e];
    assert [a, b, c, f, e][1..] == [b, c, f, e];
    assert [b, c, f, e][1..] == [c, f, e];
    assert [c, f, e][1..] == [f, e];
    assert [f, e][1..] == [e];
    assert ExtendLast([d, a], b) == [d, a];
    assert ExtendLast([d, a], c) == [d, m];
    assert CoalesceInto([], [d, a, b, c, f, e]) == CoalesceInto([d], [a, b, c, f, e]);
    assert CoalesceInto([d], [a, b, c, f, e]) == CoalesceInto([d, a], [b, c, f, e]);
    assert CoalesceInto([d, a], [b, c, f, e]) == CoalesceInto([d, a], [c, f, e]);
    assert CoalesceInto([d, a], [c, f, e]) == CoalesceInto([d, m], [f, e]);
    assert CoalesceInto([d, m], [f, e]) == CoalesceInto([d, m, f], [e]);
    assert CoalesceInto([d, m, f], [e]) == CoalesceInto([d, m, f, e], []);
  }

  /** The three fires together with both configured windows: the dispersion
      window first, the merged fire windows, the configured window last. */
  lemma AllWindowsExample(fires: seq<MetFire>)
    requires fires == [MetFire([ActiveAreaTimes(17, 41, -9), ActiveAreaTimes(17, 41, -9)]),
                       MetFire([ActiveAreaTimes(41, 65, -9)]),
                       MetFire([ActiveAreaTimes(305, 329, -7)])]
    ensures GetTimeWindows(fires, Some(DispersionWindow(-5645, 12)), Some(ConfiguredWindow(8380, 8413)))
         == Success([Window(-5645, -5633), Window(26, 74), Window(312, 336), Window(8380, 8413)])
  {
    var raw := RawWindows(fires, Some(DispersionWindow(-5645, 12)), Some(ConfiguredWindow(8380, 8413)));
    assert forall i :: 0 <= i < |fires| ==> |fires[i].activeAreas| > 0;
    assert raw == [Window(-5645, -5633), Window(8380, 8413)]
                  + [Window(26, 50), Window(26, 50), Window(50, 74), Window(312, 336)] by {
      ThreeFiresWindows(fires);
      assert RawWindows(fires, None, None) == FireWindows(fires);
    }
    AllWindowsMerge(raw);
    GetTimeWindowsMerged(fires, Some(DispersionWindow(-5645, 12)), Some(ConfiguredWindow(8380, 8413)), raw);
  }

  /** The dispersion window, the configured window and the three fires' windows. */
  lemma AllWindowsMerge(raw: seq<Window>)
    requires raw == [Window(-5645, -5633), Window(8380, 8413)]
                    + [Window(26, 50), Window(26, 50), Window(50, 74), Window(312, 336)]
    ensures MergeTimeWindows(raw) == [Window(-5645, -5633), Window(26, 74), Window(312, 336), Window(8380, 8413)]
  {
    var d, c := Window(-5645, -5633), Window(8380, 8413);
    var rest := [Window(26, 50), Window(26, 50), Window(50, 74), Window(312, 336)];
    assert [d] + (rest + [c]) == [d, Window(26, 50), Window(26, 50), Window(50, 74), Window(312, 336), c];
    assert raw == [d, c] + rest;
    SortedFour(Window(26, 50), Window(26, 50), Window(50, 74), Window(312, 336));
    SortAround(d, c, rest, StartKey);
    CoalesceSix(d, Window(26, 50), Window(26, 50), Window(50, 74), Window(312, 336), c);
  }
}
